=== FILE: README.md ===
# Factory production dashboard — Dafny model

This project models the computational core of a factory production dashboard. The dashboard collects hourly piece counts per assembly line (F/C, F/B, R/C, R/B, 3RD, SUB). It turns them into target-relative reports and KPIs, exports production and quality workbooks, and shows them in a browser dashboard. A small Python agent answers questions about the database with SQL.

Every database read becomes an input sequence of rows together with flags that say whether a table exists or a query failed. Every operation is then a pure function over integers, exact reals, strings, sequences and maps. The modules follow the program's files:

- `Breaks` and `Targets` model the planning side of `api/data.class.php`. `Breaks` gives the break-adjusted working minutes of a clock hour. `Targets` covers the three-step target lookup with its fallback of 10 and working-hour discovery with its fallback of 08..16.
- `Reports` covers the hourly, daily and summary reports of `api/data.class.php`: zero-filled series, percentage mode, the average of per-hour ratios and `daily_target`.
- `Performance` covers `api/get_performance.php`: the multi-day line target, scaled man-hours, the KPIs with the fallback target of 49, the efficiency trend, line performance and action dispatch.
- `ExportProduct` and `SheetTitle` cover `api/export_product.php`: shift classification, man-hour sums, the per-(date, model) summary, proportional man-hour allocation, detail pairing and the deleting sheet-title cleaner.
- `ExportQuality` covers `api/export_quality.php`: process normalisation, date collection, zero-filled line/problem/part series, the summaries, Pareto shares, `AS-` key normalisation and OK = inspected − NG.
- `CrossTabs` covers `api/get_cross_tabs.php`: date validation, row filtering, cross-tab accumulation and the detail, process and model orderings.
- `ProductionData` covers `api/get_production_data.php`: report-type dispatch and the per-model, per-line `model_summary`.
- `ExportExcel` covers `api/export_excel.php`: the replacing sheet-title cleaner and the summary-sheet rows.
- `Dashboard` covers `script/script.js`: percentage bands, KPI colours, Pareto filtering and cumulative shares, and the defect badge.
- `BreakForm` covers `break_management.php`: the break duration with overnight wrap-around and the `is_active` mapping.
- `LlmAgent` covers `llm/llm_agent.py`: the read-only query guard and the keyword-based table router.
- `Calendar`, `Text`, `Sorting`, `Tally`, `Util` and `Schema` are shared helpers: proleptic Gregorian dates, ASCII case mapping and trimming, sorting and de-duplication, keyed sums, PHP-style rounding and the line/table schema.

PHP's `round` is modelled as rounding half away from zero on exact reals. PHP's falsy strings (`""` and `"0"`) are modelled explicitly where the code tests truthiness. The clock ("today") is a parameter.

## Model

| member | source | states |
|---|---|---|
| Calendar.DaysInMonth | api/get_performance.php:195 | a month has between 28 and 31 days |
| Calendar.Next | api/get_performance.php:253 | the next day is a real date exactly one day number later |
| Calendar.Weekday | api/get_performance.php:241 | the weekday is a number from 0 to 6 |
| Calendar.ParseYmd | api/export_product.php:292-293 | a parsed date is always a real calendar date with a four-digit year |
| Text.Upper | api/export_quality.php:128 | upper-casing maps each character on its own and keeps the length |
| Text.Lower | llm/llm_agent.py:350 | lower-casing maps each character on its own and keeps the length |
| Text.LowerIdempotent | llm/llm_agent.py:350 | lower-casing twice is lower-casing once |
| Text.Trim | api/get_cross_tabs.php:64-66 | trimming gives a contiguous piece of the text with only PHP whitespace cut from either end and none left at either end, so it never lengthens the text |
| Text.PyStrip | llm/llm_agent.py:340 | stripping gives a contiguous piece of the text with only Python whitespace cut from either end and none left at either end, so it never lengthens the text |
| Text.StrLessIsStrictTotalOrder | api/export_quality.php:162 | the byte-wise string comparison that sorts dates and names is a strict total order |
| Sorting.Dedupe | api/get_cross_tabs.php:86-88 | keeping first occurrences leaves each value once, the same values, and never more of them |
| Sorting.DedupeFirstSeen | api/get_cross_tabs.php:86-88 | the values come out in the order of their first occurrences in the input |
| Sorting.SortUnique | api/export_product.php:582-586 | removing duplicates and sorting gives a strictly ascending list with the same members |
| Sorting.SortUniqueOrderInsensitive | api/export_product.php:582-586 | the sorted unique list depends only on which values occur, not on their order |
| Sorting.SortDesc | api/export_quality.php:269 | sorting by a key in descending order is a permutation whose keys never rise, and it is stable: the elements sharing any one key keep their input order |
| Sorting.SortDescFilter | api/export_quality.php:836-841 | because the descending sort is stable, filtering after it gives the same sequence as sorting after filtering |
| Tally.AddGet | api/export_quality.php:189 | adding a quantity under a key raises that key's sum by it and leaves every other key alone |
| Tally.AddAllTotal | api/export_quality.php:181-197 | accumulating a list of quantities raises the grand total by their sum |
| Tally.GroupSpec | api/export_quality.php:189-196 | grouping lists each key once, exactly the keys that occur, each with its summed quantity, and keeps the grand total |
| Tally.ZeroFillGet | api/export_quality.php:174-178 | filling missing keys with zeros changes no key's sum |
| Breaks.ActiveBreaks | api/data.class.php:18-30 | the breaks used are exactly the active rows of the break table, and a failing query gives none |
| Breaks.DeductionIsOverlap | api/data.class.php:38-60 | for a break inside one day that ends after it starts, the four-case deduction equals the number of minutes of hour h that lie inside the break, so it is between 0 and 60 |
| Breaks.TotalDeductionNonNegative | api/data.class.php:36-61 | the minutes deducted by well-formed breaks never add up to a negative number |
| Breaks.WorkingMinutes | api/data.class.php:34-64 | the net minutes of an hour are never negative, are at most 60 when every break is well formed, and are 0 exactly when the deductions reach 60 |
| Breaks.UntouchedHourIsFull | api/data.class.php:45-63 | an hour that no break starts in, ends in or spans keeps all 60 minutes |
| Breaks.SpannedHourIsEmpty | api/data.class.php:57-63 | an hour strictly inside a well-formed break has no working minutes |
| Breaks.MoreBreaksFewerMinutes | api/data.class.php:38-63 | adding a well-formed break never gives an hour more working minutes |
| BreakForm.Duration | break_management.php:238-251 | a duration is filled in only when both times are given; it is end minus start when the end is not earlier, and for valid times it lies in [0, 1440) and carries the start time onto the end time modulo a day |
| BreakForm.DurationUnique | break_management.php:242-247 | for valid times the filled-in duration is the only value in [0, 1440) that carries the start onto the end |
| BreakForm.IsActiveFlag | break_management.php:30 | an update stores 1 exactly when the posted form has an `is_active` field, and 0 otherwise |
| BreakForm.SubmitCheckbox | break_management.php:264 | the form posts an `is_active` field exactly when the checkbox is ticked |
| BreakForm.EditKeepsFlag | break_management.php:30 | opening the edit form of a break with flag 0 or 1, whose checkbox is ticked for 1, and saving it stores the same flag again |
| Calendar.DateRange | api/data.class.php:265-269 | the days from start to end inclusive, one per day number in order; there are none when the end is before the start |
| Calendar.DateRangeMembers | api/data.class.php:265-269 | a date is in the range exactly when it is a real date whose day number lies between the endpoints |
| Calendar.DateRangeSplit | api/get_performance.php:46-54 | a range splits at any day inside it into the range up to that day and the range from the next day |
| Calendar.WeekdayNext | api/get_performance.php:241 | the weekday number of the following day is one more, modulo 7 |
| Calendar.WeekdayExample | api/get_performance.php:241-249 | 2024-01-01 is weekday 1 and 2024-01-07 is weekday 0, so Sunday is 0 |
| Calendar.DateLessIsDayOrder | api/export_quality.php:161-162 | on real dates, year-month-day order is the order of day numbers |
| Calendar.FirstOfMonth | api/get_performance.php:194 | `Y-m-01` is the first day of the same month, on or before the date |
| Calendar.LastOfMonth | api/get_performance.php:195 | `Y-m-t` is a day of the same month, on or after the date, and the day after it is the first of a month |
| Calendar.ParseFormat | api/get_cross_tabs.php:10-12 | reading back the `Y-m-d` rendering of a date with a four-digit year gives the date |
| Calendar.FormatParse | api/get_cross_tabs.php:10-12 | a string that reads as a date is exactly that date's `Y-m-d` rendering |
| Calendar.IsValidYmdIff | api/get_cross_tabs.php:10-12 | a string passes the date check exactly when it is the `Y-m-d` rendering of a real date with a four-digit year |
| Util.RoundHalfAway | api/data.class.php:234 | `round($x)` is within one half of x, halves going away from zero, and keeps the sign of x |
| Util.RoundHalfAwayMonotone | api/data.class.php:234 | rounding never reverses the order of two numbers |
| Util.RoundTo1 | api/data.class.php:238 | `round($x, 1)` is a whole number of tenths, the nearest one to x, with a tie going away from zero; so it lies within 0.05 of x and is not negative for non-negative x |
| Util.RoundTo1Unique | api/data.class.php:238 | a value is a nearest tenth of x, ties away from zero, exactly when it is `round($x, 1)` |
| Util.RoundTo2 | api/get_performance.php:153 | `round($x, 2)` is a whole number of hundredths, the nearest one to x, with a tie going away from zero; so it lies within 0.005 of x and is not negative for non-negative x |
| Util.RoundTo2Unique | api/get_performance.php:153 | a value is a nearest hundredth of x, ties away from zero, exactly when it is `round($x, 2)` |
| Util.RoundOverSixtyInteger | api/data.class.php:234 | for a non-negative numerator, rounding n / 60 equals the integer (n + 30) / 60 |
| Schema.RowsIn | api/data.class.php:213 | the rows kept by the date filter are exactly the rows whose day lies between the bounds |
| Schema.LineOfCode | api/export_product.php:41-54 | a line code names the line whose key it is, and any other code names no line |
| Targets.NewestIndexSpec | api/data.class.php:74-78 | the record found is the newest of the window, the first in table order among equal creation times; none is found exactly when no record lies in the window |
| Targets.NewestUnique | api/data.class.php:77-78 | at most one record is the newest of a window |
| Targets.GetTargets | api/data.class.php:67-132 | a database error gives 10 for every line, as does a table with no record on or before the date; when a record of the date exists the rates are those of the newest one |
| Targets.GetTargetsIsNewestUpTo | api/data.class.php:73-123 | the lookup returns the rates of the newest record on or before the date, or 10 for every line when there is none |
| Targets.LineHours | api/data.class.php:150-162 | the hours read from one line are exactly the hours of its rows in the range, all clock hours; a missing or failing table gives none |
| Targets.DiscoveredHours | api/data.class.php:138-166 | the hours gathered hold exactly the hours found in any of the lines |
| Targets.HoursOrDefault | api/data.class.php:169-175 | the hours come out strictly increasing and not empty; they are the found hours when there are any, else 8 to 16 |
| Targets.WorkingHours | api/data.class.php:135-178 | the working hours are strictly increasing and never empty; they are exactly the union of the lines' hours, or 8 to 16 when that union is empty |
| Targets.WorkingHoursAreClockHours | api/data.class.php:150-161 | every working hour is a clock hour from 0 to 23 |
| Reports.HourTargetInteger | api/data.class.php:234 | an hour's adjusted target is the integer (rate times minutes + 30) / 60, and a full hour's target is the rate itself |
| Reports.PercentCell | api/data.class.php:236-241 | a percentage cell is 0 when the adjusted target is not positive; otherwise it is actual over target times 100, rounded to one decimal place with halves away from zero; it is never negative for a non-negative actual |
| Reports.HourlySeries | api/data.class.php:227-246 | a line gets one entry per working hour, and all zeros when its table is missing or failing |
| Reports.HourlySeriesSum | api/data.class.php:221-246 | in pieces mode a line's hourly entries sum to the quantity of its rows whose hour is a working hour |
| Reports.RowHoursAreWorkingHours | api/data.class.php:150-175 | every hour a line recorded in the range is a working hour of the report |
| Reports.HourlyPiecesTotal | api/data.class.php:181-257 | in pieces mode a line's hourly series sums to the total quantity of its rows in the range |
| Reports.GetHourlyReport | api/data.class.php:181-257 | one label `HH:00` per working hour in order; six series of that same length; a missing or failing line is all zeros; the target rate used is that of the start date |
| Reports.HourlyReportOf | api/data.class.php:186-254 | the same shape for any given list of clock hours |
| Reports.DailySeries | api/data.class.php:301-311 | a line gets one entry per day, the quantity of its rows of that day in the range, or 0 |
| Reports.DailySeriesSum | api/data.class.php:301-311 | a line's daily entries sum to the quantity of its rows whose day is one of the listed days |
| Reports.DateRangeDistinct | api/data.class.php:265-269 | no day of a date range is listed twice |
| Reports.DailyTotal | api/data.class.php:260-322 | the daily series of a line sums to the total quantity of its rows in the range |
| Reports.GetDailyReport | api/data.class.php:260-322 | one `d/m` label per day from start to end, six series of that length, zeros for a missing or failing line |
| Reports.DailyReportOf | api/data.class.php:271-319 | the same shape for any list of real days |
| Reports.DailyReportTotal | api/data.class.php:301-313 | the daily report's series of a present line sums to that line's total quantity in the range |
| Reports.MeanBounds | api/data.class.php:436-437 | the average of a non-empty list lies between any lower and upper bound of its entries |
| Reports.HourRatios | api/data.class.php:418-438 | at most one ratio per listed hour, and for a non-negative rate each ratio is positive |
| Reports.QualifyingHours | api/data.class.php:402-414 | the hours averaged are ascending and are exactly the production hours of the rows with a positive quantity whose break-adjusted target is positive |
| Reports.HourRatiosOfQualifying | api/data.class.php:418-433 | the ratios are, in the hours' order, output over break-adjusted target times 100 for exactly the listed hours that have output and a positive target |
| Reports.HourlyAveragePercentage | api/data.class.php:399-446 | the result is the mean of the percentages (output over break-adjusted target times 100) of the qualifying hours; it is 0 when no hour qualifies, and never negative for a non-negative rate |
| Reports.DayMinutesNoBreaks | api/data.class.php:367-370 | with no breaks the hours from lo to hi have 60 minutes each |
| Reports.DayMinutesBounds | api/data.class.php:367-370 | with well-formed breaks the summed minutes of the hours lo to hi lie between 0 and 60 per hour |
| Reports.DailyTarget | api/data.class.php:367-379 | the daily target is never negative for a non-negative rate |
| Reports.DailyTargetNoBreaks | api/data.class.php:367-371 | with no breaks, the fixed hours 8 to 17 give a daily target of 10 times the rate |
| Reports.SummarizeLine | api/data.class.php:329-392 | the target is the line's rate; a missing or failing table has zero totals and percentage; only a missing table has no daily target and a failing one has 0; otherwise the totals are the sum, the count and the number of distinct items of the rows in the range, with at most as many distinct items as rows, and the percentage is the mean of the qualifying hours' percentages rounded to one place |
| Reports.GetSummaryReport | api/data.class.php:325-396 | six summaries, one per line in table order, each using the target rate of the start date |
| Reports.AverageIsNotTotalRatio | api/data.class.php:436-440 | an example where the average of the hourly percentages (110) differs from total actual over total target (140) |
| Performance.EffectiveRate | api/get_performance.php:143-144 | a summary target of 0 becomes 49, any other target is kept, so a non-negative target always gives a positive rate |
| Performance.HoursTargetNonNegative | api/get_performance.php:49-52 | a day's target over its working hours is never negative for a non-negative rate |
| Performance.HoursTargetNoBreaks | api/get_performance.php:49-52 | with no breaks every working hour earns exactly the rate |
| Performance.DayHours | api/get_performance.php:48 | each day's hours are the working hours discovered for that day alone |
| Performance.DaysTargetAppend | api/get_performance.php:46-54 | the target of two runs of days is the sum of their targets |
| Performance.ComputeLineTarget | api/get_performance.php:41-56 | the multi-day target is 0 for a non-positive rate or a reversed range, and never negative |
| Performance.ComputeLineTargetSplit | api/get_performance.php:46-54 | splitting a range at a day adds up: the target of the whole equals the target up to that day plus the target after it |
| Performance.ComputeLineTargetOneDay | api/get_performance.php:46-52 | one day's target is the sum of the break-adjusted hour targets over that day's own working hours |
| Performance.IdleDayHasDefaultHours | api/data.class.php:173-175 | a day inside a range with no production has the standard hours 8 to 16 |
| Performance.DefaultDaysTarget | api/get_performance.php:46-54 | days that all use the standard hours and have no breaks earn 9 times the rate each |
| Performance.IdleRangeTarget | api/get_performance.php:41-56 | with no production and no breaks the multi-day target is 9 times the rate per day, while the summary's daily target over 8 to 17 is 10 times the rate |
| Performance.ComputeLineTargetAsWritten | api/get_performance.php:41-50 | the function as written fails exactly when the rate is positive and the range is not empty, and otherwise returns 0 |
| Performance.AsWrittenTargetAlwaysFails | api/get_performance.php:143-147 | with the 49 fallback, the as-written target fails for every non-negative summary target on a non-empty range |
| Performance.CorrectedAgreesWhereAsWrittenSucceeds | api/get_performance.php:41-56 | wherever the as-written target does not fail, the corrected target gives the same value |
| Performance.ShiftFactor | api/get_performance.php:85-93 | morning and afternoon hours are scaled by 220/240 and every other shift is not scaled |
| Performance.RowManHours | api/get_performance.php:76-96 | a man-hour row with no staff contributes nothing, and no row contributes a negative amount when its hours are not negative |
| Performance.ManRowsIn | api/get_performance.php:67-71 | the man-hour rows read are exactly those dated inside the range |
| Performance.RowManHoursBetween | api/get_performance.php:87-95 | a row's man-hours lie between 11/12 of its raw headcount-hours and the raw value itself |
| Performance.ManHoursBetween | api/get_performance.php:76-97 | the total man-hours lie between 11/12 of the raw headcount-hours and the raw total |
| Performance.OvertimeUnscaled | api/get_performance.php:90-93 | when no row is a morning or afternoon row, the man-hours equal the raw headcount-hours |
| Performance.ActualManHours | api/get_performance.php:64-103 | a failing query gives 0 man-hours; otherwise they are the scaled man-hours of the rows in the range |
| Performance.HeadcountIsOneHourRows | api/get_performance.php:130-133 | the headcount fallback equals the raw man-hours when every row records one hour |
| Performance.DefectQualityComplement | api/get_performance.php:172-174 | before rounding the defect rate and the quality rate add up to 100 |
| Performance.KpisFrom | api/get_performance.php:151-177 | the block meets the KPI specification: efficiency is 0 without a positive target and otherwise actual over target times 100 rounded to two places; productivity is output over the man-hours when those are positive, else over the headcount fallback when that is positive, rounded to two places, else 0; a failing defect query gives quality and defect 0; no output gives quality 100 and defect 0; otherwise both are the rounded defect and quality shares, adding up to 100 within 0.01 |
| Performance.KpisSpecUnique | api/get_performance.php:151-177 | the KPI specification admits exactly one block, the computed one |
| Performance.LineTargets | api/get_performance.php:139-149 | every line's multi-day target uses its summary target, with 0 replaced by 49, and is never negative |
| Performance.PerformanceKpis | api/get_performance.php:106-186 | the KPIs meet the KPI specification for the summed quantities, the summed multi-day targets, the scaled man-hours and, for every input, the headcount man-hours as the productivity fallback |
| Performance.PerformanceKpisAsWritten | api/get_performance.php:157-163 | as written, productivity is 0 whenever the scaled man-hours are not positive, because the fallback variable is undefined |
| Performance.ProductivityFallbackExample | api/get_performance.php:158-163 | 120 pieces with no scaled man-hours give productivity 0 as written, while the intended fallback over 12 headcount-hours gives 10 |
| Performance.TrendTo | api/get_performance.php:193-201 | the trend runs to the last day of the end month in monthly mode and to the end date otherwise |
| Performance.DayPoint | api/get_performance.php:204-251 | a day appears in the trend exactly when that day's summed output or its target over its own working hours is positive; the point carries that output and target, is marked weekend exactly on a Sunday, and its efficiency is output over target times 100 rounded to two places, or 0 without a positive target |
| Performance.DayEntryPoints | api/get_performance.php:204-251 | the per-day step gives either nothing or a point for that very day with the properties above |
| Performance.EfficiencyTrendMembers | api/get_performance.php:189-261 | the trend holds exactly the points of the days from the first of the start month to its end day that produced a point |
| Performance.EfficiencyTrendPoints | api/get_performance.php:235-250 | every trend point is a real day with a positive actual or target whose weekend flag means Sunday |
| Performance.EfficiencyTrendOrdered | api/get_performance.php:204-254 | the trend points are in strictly increasing date order |
| Performance.EfficiencyTrendAsWritten | api/get_performance.php:204-214 | as written, the trend fails exactly when its window of days is not empty, and is otherwise empty |
| Performance.TrendAsWrittenFails | api/get_performance.php:199-214 | for start not after end, the as-written trend always fails |
| Performance.ProcessLabels | api/get_performance.php:278 | the line labels are FC, FB, RC, RB, 3RD and SUB |
| Performance.LinePerformance | api/get_performance.php:264-289 | one row per line in line order, with the upper-cased label, the summary quantity, the multi-day target with the 49 fallback, and efficiency 0 when that target is 0 and otherwise quantity over target times 100 rounded to two places |
| Performance.LinePerfOf | api/get_performance.php:274-282 | a line row keeps its label, output and target, and its efficiency is output over target times 100 rounded to two places, or 0 for a target that is not positive |
| Performance.LinePerformanceMatchesKpis | api/get_performance.php:139-148 | the line-performance rows add up to the same total target and total quantity that the KPI block uses |
| Performance.ParseAction | api/get_performance.php:297-337 | an action is accepted exactly when it is one of kpis, efficiency_trend, line_performance, all, methods and debug |
| Performance.Dispatch | api/get_performance.php:26-348 | success exactly when the message is the success message, with no data on failure; a start or end date that does not parse gives the invalid-date error; with readable dates the call succeeds exactly when the action is known, and an unknown action gives the invalid-action message; with no parameters it returns today's KPIs |
| SheetTitle.DeleteForbidden | api/export_product.php:29 | the deleting pass keeps exactly the characters of the title that are not one of the six forbidden ones, never lengthens it, and leaves no forbidden character |
| SheetTitle.DeleteForbiddenAppend | api/export_product.php:29 | deleting forbidden characters works piecewise over a concatenation |
| SheetTitle.DeleteForbiddenOfClean | api/export_product.php:29 | a title with no forbidden character is left as it is |
| SheetTitle.CleanDelete | api/export_product.php:28-30 | the cleaned title has at most 31 characters, holds no forbidden character, and uses only characters of the title; a title without forbidden characters is only cut to 31 |
| SheetTitle.CleanDeleteIdempotent | api/export_product.php:28-30 | cleaning a cleaned title again changes nothing |
| SheetTitle.CleanReplace | api/export_excel.php:12-15 | the replacing variant keeps the length up to 31 and puts a dash exactly where the title had a forbidden character |
| SheetTitle.CleanReplaceIdempotent | api/export_excel.php:12-15 | replacing again changes nothing |
| SheetTitle.DeleteForbiddenShortens | api/export_product.php:29 | a title with a forbidden character gets strictly shorter under deletion |
| SheetTitle.VariantsAgreeOnCleanTitles | api/export_product.php:29 | the two exports name a sheet alike exactly for titles with no forbidden character (up to 31 characters) |
| SheetTitle.LineSheetTitleDeleted | api/export_product.php:305 | the F/C sheet is named FC by the production export |
| SheetTitle.LineSheetTitleReplaced | api/export_excel.php:14 | the F/C sheet is named F-C by the excel export |
| ExportProduct.ShiftOfMinutes | api/export_product.php:150-164 | a minute of the day is in the morning shift exactly from 08:00 to before 12:30, in the afternoon shift from 12:30 to before 17:00, and otherwise overtime |
| ExportProduct.ShiftsFollowTheClock | api/export_product.php:158-164 | within the working day, the morning shift comes before the afternoon shift |
| ExportProduct.ReadFormattedClock | api/export_product.php:148-149 | reading back a formatted H:i:s time gives its hour and minute |
| ExportProduct.ShiftFromTime | api/export_product.php:143-165 | an empty time is the morning shift, and a time that is not an `HH:MM[:SS]` clock time falls into overtime |
| ExportProduct.ShiftOfRecordTime | api/export_product.php:143-165 | the shift of a formatted record time is the shift of its minute of the day |
| ExportProduct.FetchQcItems | api/export_product.php:40-82 | the sub line and unknown lines have no QC rows; otherwise the rows are exactly the rows of the line's QC table dated inside the range, and a missing table gives none |
| ExportProduct.QcTotal | api/export_product.php:345-348 | a QC row with no quantity counts as 1, so rows all without quantity count their number, and non-negative quantities give a non-negative total |
| ExportProduct.ManHours | api/export_product.php:93-137 | an unknown line or a failing query gives 0 man-hours; non-negative hours, with a missing hour read as 1, give a non-negative total |
| ExportProduct.DailyManHours | api/export_product.php:174-209 | an unknown line or a failing query gives 0; non-negative hours, with a missing hour dropped from the sum, give a non-negative total |
| ExportProduct.DailyIsOneDayRange | api/export_product.php:111-129 | when every row records its hours, the daily man-hours equal the range man-hours over that single day |
| ExportProduct.ManHoursSplit | api/export_product.php:111-116 | the range man-hours split at any day into the sum of the two sub-ranges |
| ExportProduct.NullHoursCountDifferently | api/export_product.php:128 | a row without hours counts one hour per person in the range sum but nothing in the daily sum |
| ExportProduct.ExportRange | api/export_product.php:289-297 | the end date defaults to the start date and the start date to today; an unparseable date or an end before the start fails with the invalid-range message; a success is an ordered pair of real dates that format back to the given parameters, starting today when no start is given and ending on its start when no end is given |
| ExportProduct.ExportRangeOfDates | api/export_product.php:289-297 | two formatted dates in order give that range, in reverse order they fail, and a start alone gives a one-day range |
| ExportProduct.SummaryRowOf | api/export_product.php:350-363 | a summary row's total man-hours are its morning, afternoon and overtime man-hours added |
| ExportProduct.SummarySheet | api/export_product.php:336-365 | the summary sheet has one row per line in line order, with the line name, produced quantity, model count and total man-hours as the sum of the shifts |
| ExportProduct.SummarySheetFallbacks | api/export_product.php:344-353 | the sub line always shows 0 inspected, and a failing man-hour query shows 0 total man-hours on every line |
| ExportProduct.DailyEntry | api/export_product.php:411-431 | a day and line appear on the daily man-hour sheet exactly when the three shift sums do not add to 0, with those sums and their total |
| ExportProduct.DayLinePairs | api/export_product.php:411-412 | the daily sheet visits every line for every day of the range |
| ExportProduct.DailyManSheetRows | api/export_product.php:401-432 | the daily man-hour sheet has at most one row per day and line, and holds exactly the entries that the days of the range produce |
| ExportProduct.ProdOn | api/export_product.php:561-579 | each day holds as many production entries as it has production records |
| ExportProduct.QcOn | api/export_product.php:540-558 | each day holds as many QC entries as it has QC rows |
| ExportProduct.PairDay | api/export_product.php:594-618 | a day's detail rows are as many as the longer of its production and QC lists, pairing entries index by index |
| ExportProduct.PairDayKeepsProduction | api/export_product.php:598-608 | a paired row keeps the production model, shows a non-zero production quantity, and shows a blank quantity when both sides are missing or zero |
| ExportProduct.DetailDates | api/export_product.php:582-586 | the detail days are strictly ascending and are exactly the days with a production record or a QC row |
| ExportProduct.DetailRowCount | api/export_product.php:589-619 | the detail table has at least as many rows as the larger input and at most as many as both together |
| ExportProduct.ProductionSummarySpec | api/export_product.php:621-639 | the production summary holds each day and non-empty model once, exactly those that occur, each with its summed quantity |
| ExportProduct.Share | api/export_product.php:690-691 | a model's share of the day's man-hours is 0 when the day's total quantity is 0 and otherwise proportional to its quantity |
| ExportProduct.Allocations | api/export_product.php:672-691 | each summary entry receives its share of its own day's man-hours |
| ExportProduct.ShareIsRate | api/export_product.php:690-691 | a share is the day's man-hours per piece times the entry's pieces |
| ExportProduct.AllocationsSumToDayManHours | api/export_product.php:676-691 | the shares of all entries of a day with production add up to that day's man-hours |
| ExportProduct.ModelRows | api/export_product.php:670-698 | the model summary lists the production summary entries in order with their share rounded to 2 places |
| ExportProduct.LookupItem | api/export_product.php:519-533 | an item found is a row of a working lookup with that key; nothing found means the lookup failed or no row has that key |
| ExportProduct.PartRowOf | api/export_product.php:650-662 | a part summary row names the component with the AS- prefix |
| ExportProduct.PartRows | api/export_product.php:700-709 | the part table lists the part summary entries in order |
| ExportProduct.PartSummarySpec | api/export_product.php:641-668 | the part summary holds each day and non-empty component once, exactly those that occur, each with its summed quantity |
| ExportProduct.DetailSheetOf | api/export_product.php:471-478 | a line's detail sheet is titled with the cleaned line name |
| ExportProduct.Export | api/export_product.php:273-747 | a method other than GET gives 405 and an invalid range gives 500 with the export error; otherwise the download is named after the parsed start and end dates, and its summary sheet, daily man-hour sheet and per-line detail sheets (one per line, in line order, titled by the cleaned line name) are all built over the parsed range |
| ExportProduct.ExportFilename | api/export_product.php:746-747 | the name is `production_report_`, the start date, then `_to_` and the end date only when the two differ, then `.xlsx` |
| ExportProduct.ExportRangeFormats | api/export_product.php:289-297 | the dates of a successful range render back as the given parameters, or as today and the start date where they are missing |
| ExportQuality.SafePercent | api/export_quality.php:82 | the percentage is the first value over the second times 100 when the second is positive, and 0 otherwise |
| ExportQuality.SafePercentBounds | api/export_quality.php:82 | a part of a whole is between 0 and 100 percent |
| ExportQuality.Fraction | api/export_quality.php:274 | a defect ratio is the count over the base when the base is positive, and 0 otherwise |
| ExportQuality.FractionIsRatio | api/export_quality.php:547 | for a positive base the ratio is the plain quotient |
| ExportQuality.QualityRange | api/export_quality.php:36-47 | the end defaults to the start and the start to today; the request fails with the format error exactly when either date is neither four, two and two digits nor that followed by one newline, which `$` lets through; on success the two dates are the given ones, swapped into order when the end comes first |
| ExportQuality.TrailingNewlineAccepted | api/export_quality.php:39-40 | `2024-01-01` followed by a newline passes the format check, while `2024-1-01` does not |
| ExportQuality.QualityRangeSymmetric | api/export_quality.php:45-47 | giving the two dates in either order yields the same range |
| ExportQuality.LineOfLabel | api/export_quality.php:52-59 | a label maps to the line whose display label it is, and to nothing otherwise |
| ExportQuality.ProcessKey | api/export_quality.php:127-130 | a defect's process names a line exactly when, trimmed and upper-cased, it is that line's label |
| ExportQuality.ProcessKeyOfLabel | api/export_quality.php:127-130 | every line's own label maps back to that line |
| ExportQuality.ItemMap | api/export_quality.php:106-114 | the item map has a key exactly for each item code in the item table |
| ExportQuality.ItemMapLastWins | api/export_quality.php:109-114 | when an item code repeats, the last row for it wins |
| Schema.AsKey | api/export_quality.php:341 | the lookup key starts with AS- ignoring case, keeps a part that already does, and otherwise puts AS- in front |
| Schema.AsKeyIdempotent | api/export_quality.php:341 | normalising a lookup key again changes nothing |
| ExportQuality.ModelOrFallback | api/export_quality.php:328 | a part's model is the item's model when it has one and the part itself otherwise, so a non-empty part never gets an empty model |
| ExportQuality.AttrOf | api/export_quality.php:426 | a part's nickname or model comes from the AS- key when that is in the item map, and is empty when neither key is |
| ExportQuality.DateKey | api/export_quality.php:154 | the date of a timestamp is its first ten characters, or all of it when shorter |
| ExportQuality.DateKeyOfTimestamp | api/export_quality.php:187 | a timestamp written as a date, a space and a time gives back that date |
| ExportQuality.Tag | api/export_quality.php:141-147 | each inspection row keeps its item, quantity and time and is tagged with its line |
| ExportQuality.InspectionsOn | api/export_quality.php:133-148 | the inspections read belong to the listed lines and include every row of each listed line's table |
| ExportQuality.DefectDates | api/export_quality.php:151-155 | the defect dates are exactly the dates of defects on a known line |
| ExportQuality.InspectionDates | api/export_quality.php:156-160 | the inspection dates are exactly the dates of the inspection rows |
| ExportQuality.Dates | api/export_quality.php:150-162 | the date columns are strictly ascending, without repeats, and are exactly the dates of kept defects and of inspections |
| ExportQuality.LinesOf | api/export_quality.php:195 | the part table is keyed by line first |
| ExportQuality.NgByPart | api/export_quality.php:195 | the NG-by-part table holds exactly the grouped sums of kept defects by line and part |
| ExportQuality.SkippedDefectIgnored | api/export_quality.php:181-183 | a defect on an unknown process changes none of the line, problem or part sums nor the date columns |
| ExportQuality.LineEntry | api/export_quality.php:258-268 | a line is listed exactly when it has NG or inspections, with those two sums and their ratio |
| ExportQuality.LineTable | api/export_quality.php:257-269 | the line summary is in non-increasing NG order and has at most one row per line |
| ExportQuality.LineTableOf | api/export_quality.php:257-269 | the same order and size bound, for any NG and inspection sums |
| ExportQuality.LineTableRows | api/export_quality.php:258-268 | the line summary holds exactly the entries of the lines with NG or inspections |
| ExportQuality.PositiveDesc | api/export_quality.php:292-297 | the problem rows are exactly the positive entries, as a permutation of them, in non-increasing order |
| ExportQuality.ProblemTotals | api/export_quality.php:292-297 | the problem rows are exactly the problems with a positive NG sum, largest first |
| ExportQuality.Shares | api/export_quality.php:298-300 | each problem's share is its NG over the total NG |
| ExportQuality.Cumulative | api/export_quality.php:304-308 | the cumulative column at each row is the sum of the shares up to and including that row |
| ExportQuality.CumulativeRises | api/export_quality.php:304-308 | with non-negative shares the cumulative column never falls and ends at the sum of all shares |
| ExportQuality.SharesSumToOne | api/export_quality.php:298-308 | when there is any NG the shares add up to exactly one, so the last cumulative value is 100 percent |
| ExportQuality.ProblemTable | api/export_quality.php:288-311 | each problem row gives the problem, its NG, its share and its cumulative share, in the order of the problem totals |
| ExportQuality.ModelAgg | api/export_quality.php:319-352 | the model aggregation lists each model once |
| ExportQuality.ModelAggOf | api/export_quality.php:319-352 | the models appear in first-seen order, NG models before inspection-only models, each with its summed NG, summed inspections and their ratio |
| ExportQuality.ModelTableIsSortedAgg | api/export_quality.php:352-356 | every aggregated model has NG or inspections, and the model table is the aggregation rearranged into non-increasing NG order |
| ExportQuality.Columns | api/export_quality.php:420-431 | the cross-tab columns are the nicknames, or models, of the parts with NG, once each and sorted ascending |
| ExportQuality.CrossRowOf | api/export_quality.php:439-515 | a problem gets a row exactly when one of its defects counts toward the cross-tab; the row has one cell per column, its total is the cells' sum and its share is that total over the grand NG |
| ExportQuality.CrossTabOver | api/export_quality.php:519-566 | the footer rows hold per column the NG, the inspections, OK as inspections minus NG and the defect ratio; the grand NG and inspections are the sums of the counted defects and inspections, and grand OK and grand defect follow from them |
| ExportQuality.CrossTabTotals | api/export_quality.php:472-566 | when every counted defect and inspection falls in a column, the column sums equal the grand NG, inspections and OK |
| ExportQuality.CrossTabOverTotals | api/export_quality.php:472-566 | the same equalities for any distinct column list that covers the counted rows |
| ExportQuality.LineTrendRow | api/export_quality.php:795-810 | a line's trend row holds its NG per date, their sum as total, its inspections and their ratio |
| ExportQuality.LineTrend | api/export_quality.php:794-811 | the line trend has one row per line in line order over the date columns |
| ExportQuality.LineTrendMatchesSummary | api/export_quality.php:189-190 | a line's trend total equals its NG in the line summary |
| ExportQuality.ProblemCells | api/export_quality.php:845-850 | a problem's trend cells are its NG on each date |
| ExportQuality.ProblemDateTotals | api/export_quality.php:832-835 | the problem totals cover the same problems as the problem sums, each the sum of its date cells |
| ExportQuality.ProblemTrend | api/export_quality.php:832-854 | over the dates of the data, the problem trend has exactly one row for each problem whose total is positive and no other row, largest first; each row's cells are that problem's NG per date, its total is their sum and its share is that total over the grand total |
| ExportQuality.ProblemTrendOver | api/export_quality.php:832-854 | the same over any date columns: every row is a positive problem total with that problem's cells, every positive problem total has a row, and no problem has two |
| ExportQuality.ShareBase | api/export_quality.php:852 | the share divisor is the grand total when positive and 1 otherwise, so it is never 0 |
| ExportQuality.ArsortThenSkip | api/export_quality.php:836-841 | sorting the totals in descending order and then skipping those not above 0 gives the same rows as keeping the positive totals and then sorting them |
| ExportQuality.TrendOfTotals | api/export_quality.php:832-854 | the rows built from a tally of totals are in non-increasing order; each is a positive entry of the tally with that problem's cells and share; each positive entry has a row; no problem repeats when the tally's keys do not |
| ExportQuality.ShownRowsOrdered | api/export_quality.php:836-841 | rows that follow the positive totals in descending order are largest first and each is a positive entry of the tally |
| ExportQuality.ShownRowsCover | api/export_quality.php:836-841 | every positive entry of the tally has such a row |
| ExportQuality.ShownRowsDistinct | api/export_quality.php:836-841 | when the tally's keys do not repeat, no two such rows are for the same problem |
| ExportQuality.ProblemTrendMatchesSummary | api/export_quality.php:192-193 | a problem's trend cells add up to its NG in the problem summary |
| ExportQuality.TrendModels | api/export_quality.php:889-917 | the part-trend models are listed once each, and a model is listed exactly when it is the model, or failing that the part, of a line and part entry of the NG-by-part table with NG on some date column |
| ExportQuality.PartTrendRow | api/export_quality.php:923-940 | a model's trend row carries that model's name; its cell for each date is the NG of the kept defects of parts of that model on that date; its total is their sum; its inspections are the model's inspections (0 when missing); its defect ratio is total over inspections, 0 when there are none |
| ExportQuality.PartTrend | api/export_quality.php:882-941 | the part trend is in non-increasing NG order and holds exactly one row per trend model, each row being that model's trend row |
| ExportQuality.ModelTrendRows | api/export_quality.php:917-941 | the rows before sorting are the trend rows of the models, in the models' order |
| ExportQuality.PartTrendTotal | api/export_quality.php:889-896 | a model's part-trend total is the NG of the defects whose part maps to that model |
| ExportQuality.RawSheet | api/export_quality.php:957-972 | the raw sheet has one row per defect, keeping its part, detail, lot and quantity, dating it by its timestamp, upper-casing the process, and looking up model and nickname |
| ExportQuality.QualityExport | api/export_quality.php:36-49 | a bad date format gives 400 with the format message, a failure while building gives 500 with the error text, and otherwise a download named after the ordered range |
| CrossTabs.ItemModels | api/get_cross_tabs.php:35-43 | the model map has a key exactly for each item with a non-empty model, and never maps to an empty model |
| CrossTabs.ItemModelsLastWins | api/get_cross_tabs.php:41-43 | when an item repeats, its last row with a model wins |
| CrossTabs.ModelOfFound | api/get_cross_tabs.php:75-76 | a part has no model exactly when neither its AS- key nor the bare part is in the map, and any model found is a value of the map |
| CrossTabs.ModelOfBarePart | api/get_cross_tabs.php:75 | a part without the prefix is looked up under its AS- key first |
| CrossTabs.Entries | api/get_cross_tabs.php:63-76 | each defect becomes one entry, trimmed and with its model looked up |
| CrossTabs.FirstSeen | api/get_cross_tabs.php:85-99 | the detail, process and model lists hold each value once, exactly the values of the kept entries |
| CrossTabs.RankOrder | api/get_cross_tabs.php:15-22 | the processes rank F/C, F/B, R/C, R/B, 3RD, SUB, and every other process ranks 999 |
| CrossTabs.OrderProcesses | api/get_cross_tabs.php:143-147 | the process list is rearranged, not changed, into non-decreasing rank order |
| CrossTabs.SortModels | api/get_cross_tabs.php:148 | the model list is sorted strictly ascending with the same members |
| CrossTabs.RankDetails | api/get_cross_tabs.php:123-139 | the details are rearranged into non-increasing order of their totals over the processes |
| CrossTabs.GetCrossTabs | api/get_cross_tabs.php:5-170 | the dates default to today; the call fails exactly when a date is not a real Y-m-d date or the query fails, with "Error: " and the message; on success the summary echoes the dates, counts every defect read and counts no more valid rows than that |
| CrossTabs.ProcessCellsSpec | api/get_cross_tabs.php:102-108 | the process cells hold each detail and process pair once, exactly those of kept entries, each with its summed quantity |
| CrossTabs.ModelCellsSpec | api/get_cross_tabs.php:111-119 | the model cells hold each detail and model pair once, exactly those of entries with a model, each with its summed quantity |
| CrossTabs.CellOfDetail | api/get_cross_tabs.php:102-108 | a detail and process cell is the quantity of that detail's entries on that process |
| CrossTabs.DetailTotalIsDetailQty | api/get_cross_tabs.php:126-132 | a detail's total over the listed processes is the total quantity of its kept entries |
| CrossTabs.DetailsListed | api/get_cross_tabs.php:137-139 | both tables list the same details, once each, exactly the details of kept entries |
| CrossTabs.DetailsRanked | api/get_cross_tabs.php:135-139 | the details are listed from the largest total quantity to the smallest |
| CrossTabs.ProcessesOrdered | api/get_cross_tabs.php:94-96 | the processes are listed once each, exactly those of kept entries, in rank order |
| CrossTabs.ModelsSorted | api/get_cross_tabs.php:97-98 | the models are exactly those of entries with a model, sorted strictly ascending |
| CrossTabs.SummaryCounts | api/get_cross_tabs.php:155-161 | the valid count never exceeds the defect count and equals it exactly when every defect is kept; the unmatched count is the number of distinct unmatched parts |
| CrossTabs.KeptQtySplits | api/get_cross_tabs.php:79-83 | the kept quantity splits into the matched and the unmatched quantity, and the unmatched part is 0 exactly when no kept entry is unmatched |
| CrossTabs.ModelTotalWithinProcessTotal | api/get_cross_tabs.php:108-118 | the model table never holds more quantity than the process table, and both hold the same exactly when every kept part found a model |
| ProductionData.LineGroupSpec | api/get_production_data.php:59-66 | a line's grouped query holds each item once, exactly the items produced on that line that day with status 10, each with its summed quantity |
| ProductionData.ContributionsCell | api/get_production_data.php:54-84 | over distinct lines, the collected quantity for an item and line is that line's quantity for the item, and 0 for a line not queried |
| ProductionData.ContributionsNames | api/get_production_data.php:68-79 | an item is collected exactly when some queried line produced it that day |
| ProductionData.LineColumn | api/get_production_data.php:75-81 | a line's column holds each model row's count for that line |
| ProductionData.RowsOf | api/get_production_data.php:72-82 | each model row keeps the name and total of its entry and, per line, the summed quantity of that item on that line |
| ProductionData.ByNameSpec | api/get_production_data.php:72-82 | the model totals hold each name once, exactly the collected names, each with its total quantity |
| ProductionData.SummaryNames | api/get_production_data.php:72-79 | the model rows have distinct names and a row exists for a name exactly when it was collected |
| ProductionData.SummaryRowKept | api/get_production_data.php:82 | a model row's total is the whole quantity collected for its name |
| ProductionData.SummaryRowTotal | api/get_production_data.php:81-82 | a model row's total is the sum of its six line cells |
| ProductionData.SummaryColumnSums | api/get_production_data.php:83 | each line total is the sum of that line's column over the model rows |
| ProductionData.ModelsDistinct | api/get_production_data.php:72-79 | the model summary never lists a name twice |
| ProductionData.ModelsListed | api/get_production_data.php:54-98 | a model is listed exactly when some line produced it on the date |
| ProductionData.ModelCell | api/get_production_data.php:81 | a model's cell for a line is that line's quantity of the model on the date |
| ProductionData.ModelRowTotal | api/get_production_data.php:82 | a model's total is the sum of its line cells |
| ProductionData.TotalsAreColumnSums | api/get_production_data.php:83 | each line total of the model summary is the sum of that line's column |
| ProductionData.ParseReportType | api/get_production_data.php:23-111 | a type is accepted exactly when it is hourly, daily, summary, debug or model_summary |
| ProductionData.Dispatch | api/get_production_data.php:15-131 | an unknown type, and only that, gives the invalid-type error; model_summary returns the model summary of the start date; a known type with readable dates always succeeds, and for a type other than model_summary the payload is that type's report (hourly, daily, summary or the debug marker) over the parsed dates; any report echoes its dates, type and display type with their defaults; with no parameters it returns today's hourly report in pieces |
| ExportExcel.ReadAppend | api/export_excel.php:35-82 | a cell reads as its last write: a later write to the same cell wins |
| ExportExcel.ReadRowWrites | api/export_excel.php:54-57 | writing a row of values fills the first columns of that row with those values and nothing else |
| ExportExcel.ReadRowsWrites | api/export_excel.php:52-59 | writing rows from a first row puts each row on its own line and touches no other line |
| ExportExcel.SummaryTable | api/export_excel.php:52-59 | the summary table has one four-column row per line |
| ExportExcel.SummarySheetCell | api/export_excel.php:52-59 | each summary cell holds its line's value in that column |
| ExportExcel.SummarySheetCells | api/export_excel.php:53-58 | a line's summary row shows its name, total quantity, item count and model count |
| ExportExcel.SummarySheetEnds | api/export_excel.php:52-59 | nothing is written below the last line's row |
| ExportExcel.SummarySheetHeading | api/export_excel.php:35-36 | the summary sheet starts with the report heading and the date range line |
| ExportExcel.DetailTable | api/export_excel.php:74-82 | a line sheet has one four-column row per record |
| ExportExcel.LineSheetCells | api/export_excel.php:73-82 | each record's row shows its item, quantity, date and time from row 2 on |
| ExportExcel.LineSheetTitles | api/export_excel.php:62-64 | every line's sheet title is clean, differs from the summary title, and differs from every other line's title |
| ExportExcel.LineSheets | api/export_excel.php:62-83 | there is one detail sheet per line in line order |
| ExportExcel.ExcelFilename | api/export_excel.php:86 | the file name is sewing_report_, the start, _to_, the end and .xlsx |
| ExportExcel.ExportExcel | api/export_excel.php:17-98 | a request that is not GET produces no output, and only such a request; a download has the summary sheet first and one sheet per line after it; the filename and the summary sheet use the given start and end dates, and a date that is not given defaults to today |
| Dashboard.BandsPartition | script/script.js:38-59 | every percentage falls in exactly one band: below 80, 80 to below 93, 93 to below 101, or 101 and above |
| Dashboard.ClassifiersAgree | script/script.js:38-59 | the status emoji, the colour and the CSS class of a percentage are all those of its band |
| Dashboard.MarksDistinct | script/script.js:31-59 | two different bands never share an emoji, a colour or a class |
| Dashboard.BandMonotone | script/script.js:38-59 | a larger percentage never falls in a lower band |
| Dashboard.PercentMonotone | script/script.js:450 | for a positive whole, a larger part gives a larger percentage |
| Dashboard.PercentOfWhole | script/script.js:550 | the whole is 100 percent of itself |
| Dashboard.PercentNonNegative | script/script.js:450 | a non-negative part of a positive whole is a non-negative percentage |
| Dashboard.DefectPercentage | script/script.js:449-451 | the defect percentage is 0 without production, and otherwise the defect share as a whole number of hundredths, the nearest one with ties away from zero, so within 0.005 of it |
| Dashboard.DefectPercentageSign | script/script.js:449-451 | no defects give 0 percent, and the percentage is never negative |
| Dashboard.QualityCardOf | script/script.js:443-472 | a card shows the defect count, 0 when missing; with no production it shows 0 percent with the good badge; otherwise the percentage is defects over production times 100, rounded to two decimal places; the badge is critical exactly above 5 percent and good exactly at or below 3 percent |
| Dashboard.BadgeThresholds | script/script.js:465-471 | a defect share above 5.005 percent is critical, at most 5 is never critical, and at most 3 is good, the gaps coming from rounding to two places |
| Dashboard.BadgeMonotone | script/script.js:449-471 | more defects on the same production never give a better badge |
| Dashboard.KpiColorOf | script/script.js:811-823 | a KPI value is success from 90, warning from 80 below 90 and danger below 80; reversed, success below 3, warning from 3 below 5 and danger from 5 |
| Dashboard.KpiColorUnique | script/script.js:811-823 | the three bands do not overlap, so a value's colour is the one the classifier gives and no other |
| Dashboard.KpiColorMonotone | script/script.js:811-824 | a larger KPI never gets a worse colour, and for the reversed defect colour a larger value never gets a better one |
| Dashboard.KpiCardColors | script/script.js:797-808 | the efficiency, quality and productivity cards are coloured by the normal bands of their own values and the defect card by the reversed bands of the defect rate |
| Dashboard.KpiQualityDefectConsistent | script/script.js:804-807 | when quality and defect add up to 100, a green defect card means a green quality card, and a red quality card means a red defect card |
| Dashboard.Items | script/script.js:516-518 | each value becomes an item, a missing value becoming 0 and a missing label becoming Unknown |
| Dashboard.IndividualShares | script/script.js:549-551 | each bar's percentage is its share of the total, rounded to one place |
| Dashboard.CumulativeShares | script/script.js:559-563 | each cumulative percentage is the running sum's share of the total, rounded to one place |
| Dashboard.ParetoDrawn | script/script.js:515-526 | a Pareto chart is drawn exactly when some value is positive |
| Dashboard.ParetoBars | script/script.js:515-531 | the bars are the positive items, rearranged into non-increasing order, and all positive |
| Dashboard.CumulativeSharesSpec | script/script.js:539-563 | for positive values the total is positive and the cumulative line never falls and ends at exactly 100 |
| Dashboard.IndividualSharesSpec | script/script.js:549-551 | every bar's percentage lies between 0 and 100 |
| Dashboard.ParetoCumulative | script/script.js:539-563 | a drawn chart has one cumulative point per bar, rising to exactly 100 |
| Dashboard.ParetoIndividual | script/script.js:549-551 | a drawn chart has one percentage per bar, each between 0 and 100 |
| LlmAgent.SplitLines | llm/llm_agent.py:343 | splitting gives at least one piece and no piece holds a newline |
| LlmAgent.JoinSplit | llm/llm_agent.py:343-348 | joining the split lines with newlines gives back the text |
| LlmAgent.SplitPlain | llm/llm_agent.py:343 | a text without a newline splits into itself alone |
| LlmAgent.SplitAfterLine | llm/llm_agent.py:343 | a first line without a newline splits off first |
| LlmAgent.SplitBeforeLine | llm/llm_agent.py:343 | a last line without a newline splits off last |
| LlmAgent.IsSafeQuery | llm/llm_agent.py:334-337 | a missing or empty query is never safe |
| LlmAgent.UnfencedQuery | llm/llm_agent.py:334-353 | a query not starting with a fence is safe exactly when, stripped and lower-cased, it starts with select, with or explain |
| LlmAgent.FencedQuery | llm/llm_agent.py:340-353 | a query wrapped in an opening fence line and a closing fence line is safe exactly when its body is |
| LlmAgent.UnfenceFenced | llm/llm_agent.py:340-348 | cleaning a fenced block, an opening fence line with a tag, the statement and a closing fence, leaves exactly the stripped statement |
| LlmAgent.FencedLines | llm/llm_agent.py:343 | a fenced query splits into the opening fence line, the body's lines and the closing fence |
| LlmAgent.DropOpeningFence | llm/llm_agent.py:344-345 | an opening fence line is dropped |
| LlmAgent.DropClosingFence | llm/llm_agent.py:346-347 | a last line that strips to a fence is dropped |
| LlmAgent.UnfenceSteps | llm/llm_agent.py:340-348 | a fenced query is reduced to its middle lines, joined and stripped |
| LlmAgent.PrefixPasses | llm/llm_agent.py:350-353 | the check is on a prefix only, so a word such as Selection passes |
| LlmAgent.CommentRefused | llm/llm_agent.py:350-353 | a query starting with an SQL comment is refused even when a select follows |
| LlmAgent.MatchedGroups | llm/llm_agent.py:440-452 | at least one group is always matched, production being the fallback |
| LlmAgent.GroupUnion | llm/llm_agent.py:454-457 | the candidate tables are exactly the tables of the matched groups |
| LlmAgent.NgQuestions | llm/llm_agent.py:388-403 | a question about NG selects qc_ng alone, except that without a statistics word and with a word about kinds it selects qc_issue |
| LlmAgent.IssueQuestions | llm/llm_agent.py:406-408 | a question about issues but not NG selects qc_issue exactly when that table exists |
| LlmAgent.ListedFromUsable | llm/llm_agent.py:406-418 | outside the NG case a listed answer holds at most four tables, all of them usable tables |
| LlmAgent.OkQuestions | llm/llm_agent.py:415-418 | a question about good work, when some QC table other than qc_ng and qc_issue exists, selects the first four such tables in their listed order |
| LlmAgent.KeysTellApart | llm/llm_agent.py:463 | names whose length-and-ending keys differ are distinct |
| LlmAgent.PriorityDistinct | llm/llm_agent.py:463 | the priority list names each table once, so every table has one rank |
| LlmAgent.RankedOrder | llm/llm_agent.py:459-464 | the sorted tables hold no repeats, the tables with a priority come first in strictly increasing rank, the rest all rank 999, and together they are exactly the candidate tables |
| LlmAgent.GroupedTables | llm/llm_agent.py:420-466 | when no earlier case answers, the result is the ranked union of the matched groups' tables |
| LlmAgent.NoGroupMatched | llm/llm_agent.py:451-452 | a question with no keyword of any group matches the production group alone |
| LlmAgent.ProductionUnion | llm/llm_agent.py:368 | the production group's tables are exactly the six sewing tables |
| LlmAgent.ProductionRanked | llm/llm_agent.py:462-464 | ranking the production tables gives them in priority order with nothing unranked |
| LlmAgent.FallbackToProduction | llm/llm_agent.py:355-466 | a question that matches no case and no keyword gets the six production tables in priority order |

## Left out

- SQL and PDO access (`SHOW TABLES`, SELECT, INSERT, UPDATE, DELETE) are replaced by input sequences of rows, with a per-line flag for a missing table or a failing query.
- `getDetailReport` and `debugTableData` in `api/data.class.php` do all their work in SQL, so they are not modelled.
- The `debug` report type of `api/get_production_data.php` is modelled only as a dispatch target, because its payload comes from `debugTableData`.
- The catch-all `Database error` response in `api/get_production_data.php:100-107` is not modelled. Every query error is already caught per line, so no database error reaches it.
- The `line` and `file` fields of the error response (`api/get_production_data.php:128-129`) are not modelled, because they describe the PHP source location.
- The connection checks at `api/get_performance.php:19-24` and `api/export_product.php:281-283` are not modelled, because connection setup is I/O.
- The `methods` action of `api/get_performance.php` is modelled as a fixed list of names; the reflection that builds it is not.
- PHP's loose key handling is not modelled: numeric-string array keys are not coerced to integers, and `in_array` is not loose. Keys are compared as strings.
- `strtotime` and `DateTime` parsing are modelled by a strict `YYYY-MM-DD` parser. Other formats PHP would accept are out of scope.
- ProductionData.Dispatch: the reports are modelled over calendar dates, so a start or end date that is not `YYYY-MM-DD` gives the model's own `Unreadable date` failure. The endpoint does not check dates. The hourly and summary reports bind the string into the SQL `BETWEEN` as it is, and the daily report's `new DateTime` (`api/data.class.php:266-268`) throws. That exception becomes the catch-all 500 response with DateTime's own message. Neither path is modelled.
- ExportProduct.ShiftFromTime: only `HH:MM[:SS]` clock times are read. `strtotime` also reads forms such as `8am`, and `date('H:i')` works in the server's time zone; neither is modelled. Its only caller is `calculateItemManHours` (`api/export_product.php:235`), which nothing calls.
- SheetTitle.CleanDelete: the cut keeps the first 31 characters, where `substr` keeps the first 31 bytes. The two differ only for titles with multibyte UTF-8 characters, and the export passes only the ASCII line names.
- SheetTitle.CleanReplace: the same character-for-byte reading of `substr(..., 0, 31)` as CleanDelete; the excel export also passes only ASCII line names.
- Targets.NewestIndexSpec: when two records share the newest `created_at`, the first in table order is taken. `ORDER BY created_at DESC LIMIT 1` leaves that tie to MySQL, so the tie-break is a modelling choice.
- CrossTabs.ItemModels: `model != ''` is read as a plain string comparison. Under MySQL's PAD SPACE collations a model made only of spaces also equals `''` and is dropped by the query, and the comparison ignores case; the model keeps such models.
- PHP's `sort` on strings is modelled by plain character-code order (`Text.StrLess`). PHP 8 compares numeric strings numerically, which is not modelled.
- A SQL `NULL` column is read as the empty string.
- The output order of SQL `GROUP BY` results is taken as the input order of the row sequences.
- Nested PHP arrays keyed by two strings are modelled as a tally keyed by pairs.
- Floating point is not modelled. Man-hours and percentages are exact reals, and `round(x, 1)`, `round(x, 2)` and `toFixed` are explicit rounding functions.
- PhpSpreadsheet rendering is not modelled: TOTAL rows, `=SUM(...)` formulas, borders, number formats, column sizing, HTTP headers and `php://output`.
- The exception message echoed by `api/export_excel.php:95-97` is not modelled, because it is output only.
- `calculateItemManHours` (`api/export_product.php:218-269`) is never called, so it is not modelled.
- Chart.js drawing in `script/script.js` (the Pareto chart itself, `maxDataValue`, DOM updates, polling and `console` logging) is not modelled. Only the numbers fed to the chart are.
- Whitespace trimming and case mapping cover ASCII only. Non-ASCII whitespace and multibyte case mapping are not modelled.
- Overnight breaks: `getActualWorkingMinutes` ignores `duration_minutes` and compares start and end times directly. Breaks.WorkingMinutes promises the upper bound of 60 only when every break starts before it ends (`WellFormed`). The duration helper of `break_management.php` does wrap overnight breaks, and `BreakForm` models that.
- In `llm/llm_agent.py`, the LLM calls, prompt text, `print` side effects, `signal.alarm` timeouts and `get_current_date_info` are not modelled.
- The order of the selected tables that have no priority is not modelled. The source takes it from iterating a Python set, so LlmAgent.Ranked keeps those tables as a set after the ranked list.
- The `master` keyword group of `_select_relevant_tables` is never matched, because it is missing from `keywords_map`; the model leaves it out.
- `llm/app.py`, `llm/config.py`, `llm/database.py`, `api/chat_llm.php`, `api/get_defects_data.php`, `api/get_report_data.php`, `api/get_productivity.php`, `process/*.php`, `connect.php` and `index.php` are not part of this model. They are routing, configuration, SQL-only aggregation or plain HTML.

## Findings

| source | as written | input that shows it | evidently intended | confidence | as-written member | corrected member |
|---|---|---|---|---|---|---|
| api/get_performance.php:48 | `computeLineTarget` calls the private `getWorkingHours` (and `getActualWorkingMinutes`) on a `get_db` instance from global scope. PHP raises an `Error`, which `catch (Exception)` does not catch. | any positive rate on a range whose start is not after its end, for example rate 49 for one day | the multi-day, break-adjusted line target | not executed | Performance.ComputeLineTargetAsWritten, Performance.AsWrittenTargetAlwaysFails | Performance.ComputeLineTarget |
| api/get_performance.php:214 | the efficiency trend calls the same private methods for every day in its window, so it fails as soon as the window is non-empty | any start date not after the end date | one trend point per day that has output or a target | not executed | Performance.EfficiencyTrendAsWritten, Performance.TrendAsWrittenFails | Performance.EfficiencyTrendMembers |
| api/get_performance.php:160 | the productivity fallback reads the undefined `$total_employees_man_hours`, which is null, so productivity is 0 whenever the scaled man-hours are 0. With `display_errors` on (`api/get_performance.php:2`) the undefined-variable warning is also printed into the JSON body. As written, the `Error` of the first row already ends the request whenever the rate is positive and the range is not empty, so this path shows only when that error is out of the way | 120 pieces, 0 scaled man-hours and 12 headcount hours | productivity 120 / 12 = 10 from the headcount hours | not executed | Performance.PerformanceKpisAsWritten, Performance.ProductivityFallbackExample | Performance.PerformanceKpis |

=== FILE: break_form.dfy ===
/**
 The break-management page: the duration its form fills in from the start
 and end time fields (both the add form and the edit modal use one rule),
 and the `is_active` flag an update stores from the checkbox.
 */
module BreakForm {
  import opened Util
  import opened Breaks

  /**
   The auto-computed duration: end minus start in minutes, plus a day when
   the end is earlier (an overnight break). An empty field leaves the
   duration untouched, which is None here.
   */
  function Duration(start: Option<ClockTime>, end: Option<ClockTime>): (r: Option<int>)
    ensures r.Some? <==> start.Some? && end.Some?
    ensures r.Some? && ValidTime(start.value) && ValidTime(end.value) ==>
      0 <= r.value < 1440 && (MinuteOfDay(start.value) + r.value) % 1440 == MinuteOfDay(end.value)
    ensures r.Some? && MinuteOfDay(start.value) <= MinuteOfDay(end.value) ==>
      r.value == MinuteOfDay(end.value) - MinuteOfDay(start.value)
  {
    if start.None? || end.None? then None
    else
      var diff := MinuteOfDay(end.value) - MinuteOfDay(start.value);
      Some(if diff < 0 then diff + 1440 else diff)
  }

  /** The duration is the only value in [0, 1440) that carries the start onto the end. */
  lemma DurationUnique(s: ClockTime, e: ClockTime, d: int)
    requires ValidTime(s) && ValidTime(e)
    requires 0 <= d < 1440 && (MinuteOfDay(s) + d) % 1440 == MinuteOfDay(e)
    ensures Duration(Some(s), Some(e)) == Some(d)
  {
    var x := MinuteOfDay(s) + d;
    assert 0 <= x < 2880;
    if x < 1440 {
      assert x % 1440 == x;
    } else {
      assert x % 1440 == x - 1440;
    }
  }

  /** The posted form fields of an update. */
  type Post = map<string, string>

  /** `isset($_POST['is_active']) ? 1 : 0`. */
  function IsActiveFlag(post: Post): (r: int)
    ensures r == 0 || r == 1
    ensures r == 1 <==> "is_active" in post
  {
    if "is_active" in post then 1 else 0
  }

  /** The edit modal ticks the checkbox when the stored flag is 1. */
  predicate CheckboxTicked(stored: int)
  {
    stored == 1
  }

  /** A browser posts a checkbox only when it is ticked. */
  function SubmitCheckbox(others: Post, ticked: bool): (r: Post)
    ensures ticked <==> "is_active" in r
  {
    if ticked then others["is_active" := "1"] else others - {"is_active"}
  }

  /** Opening the edit modal and saving it unchanged keeps a 0/1 flag as it was. */
  lemma EditKeepsFlag(others: Post, stored: int)
    requires stored == 0 || stored == 1
    ensures IsActiveFlag(SubmitCheckbox(others, CheckboxTicked(stored))) == stored
  {
  }
}

=== FILE: breaks.dfy ===
/**
 Break-adjusted working minutes of the production data class: every active
 break is classified against a clock hour (starts and ends in it, starts in
 it, ends in it, spans it) and the minutes it takes away are subtracted from
 60, the result clamped at 0. A break's stored `duration_minutes` plays no
 part in this.
 */
module Breaks {
  import opened Util

  /** A wall-clock time of day, as `date('H')` and `date('i')` read it. */
  datatype ClockTime = ClockTime(hour: int, minute: int)

  predicate ValidTime(t: ClockTime)
  {
    0 <= t.hour < 24 && 0 <= t.minute < 60
  }

  /** Minutes since midnight. */
  function MinuteOfDay(t: ClockTime): int
  {
    60 * t.hour + t.minute
  }

  /** A row of the break_times table. */
  datatype BreakTime = BreakTime(name: string, start: ClockTime, end: ClockTime, durationMinutes: int, active: bool)

  /** A break inside one day, ending after it starts: the shape the classification assumes. */
  predicate WellFormed(b: BreakTime)
  {
    ValidTime(b.start) && ValidTime(b.end) &&
    (b.start.hour < b.end.hour || (b.start.hour == b.end.hour && b.start.minute < b.end.minute))
  }

  /** The result of reading the break table: rows, or a database error. */
  datatype BreakSource = BreakSource(ok: bool, rows: seq<BreakTime>)

  /** The active breaks; a failing query yields none. */
  function ActiveBreaks(src: BreakSource): (r: seq<BreakTime>)
    ensures !src.ok ==> r == []
    ensures forall b :: b in r <==> src.ok && b in src.rows && b.active
    decreases |src.rows|
  {
    if !src.ok || |src.rows| == 0 then []
    else
      var init := ActiveBreaks(BreakSource(true, src.rows[..|src.rows| - 1]));
      var last := src.rows[|src.rows| - 1];
      if last.active then init + [last] else init
  }

  /** Minutes the break takes out of clock hour h, following the four cases of the source. */
  function Deduction(b: BreakTime, h: int): int
  {
    var sh := b.start.hour;
    var eh := b.end.hour;
    if sh == h then
      (if eh == h then b.end.minute - b.start.minute else 60 - b.start.minute)
    else if eh == h && sh < h then b.end.minute
    else if sh < h && eh > h then 60
    else 0
  }

  /** The minutes of hour h that lie inside the break's interval. */
  function Overlap(b: BreakTime, h: int): int
  {
    Max(0, Min(MinuteOfDay(b.end), 60 * h + 60) - Max(MinuteOfDay(b.start), 60 * h))
  }

  /** For a well-formed break the case analysis computes the overlap of two intervals. */
  lemma DeductionIsOverlap(b: BreakTime, h: int)
    requires WellFormed(b)
    ensures Deduction(b, h) == Overlap(b, h)
    ensures 0 <= Deduction(b, h) <= 60
  {
  }

  /** The break lies wholly after hour h, or started and ended before it. */
  predicate Untouched(b: BreakTime, h: int)
  {
    h < b.start.hour || (b.start.hour < h && b.end.hour < h)
  }

  function TotalDeduction(breaks: seq<BreakTime>, h: int): int
    decreases |breaks|
  {
    if |breaks| == 0 then 0
    else TotalDeduction(breaks[..|breaks| - 1], h) + Deduction(breaks[|breaks| - 1], h)
  }

  lemma {:induction false} TotalDeductionNonNegative(breaks: seq<BreakTime>, h: int)
    requires forall b :: b in breaks ==> WellFormed(b)
    ensures TotalDeduction(breaks, h) >= 0
    decreases |breaks|
  {
    if |breaks| > 0 {
      TotalDeductionNonNegative(breaks[..|breaks| - 1], h);
      DeductionIsOverlap(breaks[|breaks| - 1], h);
    }
  }

  lemma DeductionBoundWhenWellFormed(breaks: seq<BreakTime>, h: int)
    ensures (forall b :: b in breaks ==> WellFormed(b)) ==> TotalDeduction(breaks, h) >= 0
  {
    if forall b :: b in breaks ==> WellFormed(b) {
      TotalDeductionNonNegative(breaks, h);
    }
  }

  /** `getActualWorkingMinutes($hour)` over the given active breaks. */
  function WorkingMinutes(breaks: seq<BreakTime>, h: int): (r: int)
    ensures r >= 0
    ensures (forall b :: b in breaks ==> WellFormed(b)) ==> r <= 60
    ensures r == 0 <==> TotalDeduction(breaks, h) >= 60
  {
    DeductionBoundWhenWellFormed(breaks, h);
    Max(0, 60 - TotalDeduction(breaks, h))
  }

  /** An hour no break reaches keeps all its 60 minutes. */
  lemma {:induction false} UntouchedHourIsFull(breaks: seq<BreakTime>, h: int)
    requires forall b :: b in breaks ==> Untouched(b, h)
    ensures TotalDeduction(breaks, h) == 0
    ensures WorkingMinutes(breaks, h) == 60
    decreases |breaks|
  {
    if |breaks| > 0 {
      UntouchedHourIsFull(breaks[..|breaks| - 1], h);
      assert Untouched(breaks[|breaks| - 1], h);
    }
  }

  /** An hour lying strictly inside some well-formed break has no working minutes. */
  lemma {:induction false} SpannedHourIsEmpty(breaks: seq<BreakTime>, h: int, b: BreakTime)
    requires forall x :: x in breaks ==> WellFormed(x)
    requires b in breaks && b.start.hour < h < b.end.hour
    ensures WorkingMinutes(breaks, h) == 0
    decreases |breaks|
  {
    var init := breaks[..|breaks| - 1];
    var last := breaks[|breaks| - 1];
    DeductionIsOverlap(last, h);
    if last == b {
      TotalDeductionNonNegative(init, h);
    } else {
      assert b in init;
      SpannedHourIsEmpty(init, h, b);
    }
  }

  /** One more well-formed break never adds working minutes to an hour. */
  lemma MoreBreaksFewerMinutes(breaks: seq<BreakTime>, b: BreakTime, h: int)
    requires WellFormed(b)
    ensures WorkingMinutes(breaks + [b], h) <= WorkingMinutes(breaks, h)
  {
    assert (breaks + [b])[..|breaks + [b]| - 1] == breaks;
    DeductionIsOverlap(b, h);
  }
}

=== FILE: calendar.dfy ===
/**
 Proleptic Gregorian calendar dates as PHP's DateTime handles them: day
 numbers, the next day, inclusive day ranges (`DatePeriod` with a one-day
 interval), weekdays (`date('w')`, 0 = Sunday), the first and last day of a
 month (`Y-m-01`, `Y-m-t`), and the `Y-m-d` and `d/m` renderings together
 with the strict `Y-m-d` reading the endpoints validate against.
 */
module Calendar {
  import opened Util
  import opened Text
  import opened Sorting

  datatype Date = Date(year: int, month: int, day: int)

  predicate IsLeap(y: int)
  {
    (y % 4 == 0 && y % 100 != 0) || y % 400 == 0
  }

  function DaysInMonth(y: int, m: int): (r: int)
    requires 1 <= m <= 12
    ensures 28 <= r <= 31
  {
    if m == 2 then (if IsLeap(y) then 29 else 28)
    else if m == 4 || m == 6 || m == 9 || m == 11 then 30
    else 31
  }

  function DaysInYear(y: int): int
  {
    if IsLeap(y) then 366 else 365
  }

  /** A real calendar day; year 0 is the proleptic year before year 1, as in PHP. */
  predicate Valid(d: Date)
  {
    d.year >= 0 && 1 <= d.month <= 12 && 1 <= d.day <= DaysInMonth(d.year, d.month)
  }

  /** Days of year y before the first of month m. */
  function DaysBeforeMonth(y: int, m: int): (r: int)
    requires 1 <= m <= 13
    ensures 0 <= r
  {
    var leap := if IsLeap(y) then 1 else 0;
    if m == 1 then 0
    else if m == 2 then 31
    else if m == 3 then 59 + leap
    else if m == 4 then 90 + leap
    else if m == 5 then 120 + leap
    else if m == 6 then 151 + leap
    else if m == 7 then 181 + leap
    else if m == 8 then 212 + leap
    else if m == 9 then 243 + leap
    else if m == 10 then 273 + leap
    else if m == 11 then 304 + leap
    else if m == 12 then 334 + leap
    else 365 + leap
  }

  lemma DaysBeforeMonthStep(y: int, m: int)
    requires 1 <= m <= 12
    ensures DaysBeforeMonth(y, m + 1) == DaysBeforeMonth(y, m) + DaysInMonth(y, m)
    ensures DaysBeforeMonth(y, 13) == DaysInYear(y)
  {
  }

  /** Days from 0000-01-01 to the first day of year y. */
  function DaysBeforeYear(y: nat): int
  {
    365 * y + (y + 3) / 4 - (y + 99) / 100 + (y + 399) / 400
  }

  /** Stepping the numerator of (n + k - 1) / k by one crosses a multiple of k exactly when k divides n. */
  lemma CeilStep4(n: nat)
    ensures (n + 4) / 4 == (n + 3) / 4 + (if n % 4 == 0 then 1 else 0)
  {
  }

  lemma CeilStep100(n: nat)
    ensures (n + 100) / 100 == (n + 99) / 100 + (if n % 100 == 0 then 1 else 0)
  {
  }

  lemma CeilStep400(n: nat)
    ensures (n + 400) / 400 == (n + 399) / 400 + (if n % 400 == 0 then 1 else 0)
  {
  }

  lemma DaysBeforeYearStep(y: nat)
    ensures DaysBeforeYear(y + 1) == DaysBeforeYear(y) + DaysInYear(y)
  {
    CeilStep4(y);
    CeilStep100(y);
    CeilStep400(y);
    LeapDivisors(y);
  }

  /** A multiple of 400 is one of 100, and a multiple of 100 one of 4. */
  lemma LeapDivisors(y: nat)
    ensures y % 400 == 0 ==> y % 100 == 0
    ensures y % 100 == 0 ==> y % 4 == 0
  {
    if y % 400 == 0 {
      assert y == 100 * (4 * (y / 400));
    }
    if y % 100 == 0 {
      assert y == 4 * (25 * (y / 100));
    }
  }

  lemma {:induction false} DaysBeforeYearMonotone(y1: nat, y2: nat)
    requires y1 < y2
    ensures DaysBeforeYear(y1) + DaysInYear(y1) <= DaysBeforeYear(y2)
    decreases y2 - y1
  {
    DaysBeforeYearStep(y1);
    if y1 + 1 < y2 {
      DaysBeforeYearMonotone(y1 + 1, y2);
    }
  }

  /** Day number: 0000-01-01 is day 1. */
  function DayNumber(d: Date): int
    requires Valid(d)
  {
    DaysBeforeYear(d.year) + DaysBeforeMonth(d.year, d.month) + d.day
  }

  lemma DayOfYearBounds(d: Date)
    requires Valid(d)
    ensures 1 <= DaysBeforeMonth(d.year, d.month) + d.day <= DaysInYear(d.year)
  {
    DaysBeforeMonthStep(d.year, d.month);
  }

  /** Different valid dates have different day numbers. */
  lemma DayNumberInjective(a: Date, b: Date)
    requires Valid(a) && Valid(b)
    ensures DayNumber(a) == DayNumber(b) ==> a == b
  {
    if DayNumber(a) == DayNumber(b) {
      DayOfYearBounds(a);
      DayOfYearBounds(b);
      if a.year < b.year {
        DaysBeforeYearMonotone(a.year, b.year);
      } else if b.year < a.year {
        DaysBeforeYearMonotone(b.year, a.year);
      }
      assert a.year == b.year;
    }
  }

  /** The following day. */
  function Next(d: Date): (r: Date)
    requires Valid(d)
    ensures Valid(r)
    ensures DayNumber(r) == DayNumber(d) + 1
  {
    if d.day < DaysInMonth(d.year, d.month) then Date(d.year, d.month, d.day + 1)
    else if d.month < 12 then
      DaysBeforeMonthStep(d.year, d.month);
      Date(d.year, d.month + 1, 1)
    else
      DaysBeforeMonthStep(d.year, d.month);
      DaysBeforeYearStep(d.year);
      Date(d.year + 1, 1, 1)
  }

  /** Every day from s to e inclusive, in order; empty when e is before s. */
  function DateRange(s: Date, e: Date): (r: seq<Date>)
    requires Valid(s) && Valid(e)
    ensures |r| == Max(0, DayNumber(e) - DayNumber(s) + 1)
    ensures forall i :: 0 <= i < |r| ==> Valid(r[i]) && DayNumber(r[i]) == DayNumber(s) + i
    decreases DayNumber(e) - DayNumber(s)
  {
    if DayNumber(s) > DayNumber(e) then []
    else [s] + DateRange(Next(s), e)
  }

  /** The range holds exactly the valid dates between its endpoints. */
  lemma DateRangeMembers(s: Date, e: Date, d: Date)
    requires Valid(s) && Valid(e)
    ensures d in DateRange(s, e) <==> Valid(d) && DayNumber(s) <= DayNumber(d) <= DayNumber(e)
  {
    var r := DateRange(s, e);
    if Valid(d) && DayNumber(s) <= DayNumber(d) <= DayNumber(e) {
      var i := DayNumber(d) - DayNumber(s);
      DayNumberInjective(r[i], d);
    }
  }

  /** A range splits at any day inside it. */
  lemma DateRangeSplit(s: Date, m: Date, e: Date)
    requires Valid(s) && Valid(m) && Valid(e)
    requires !DateLess(m, s) && !DateLess(e, m)
    ensures DateRange(s, e) == DateRange(s, m) + DateRange(Next(m), e)
  {
    DateLessIsDayOrder(m, s);
    DateLessIsDayOrder(e, m);
    var a := DateRange(s, e);
    var left := DateRange(s, m);
    var right := DateRange(Next(m), e);
    var b := left + right;
    assert |a| == |b|;
    forall i | 0 <= i < |a|
      ensures a[i] == b[i]
    {
      if i < |left| {
        assert b[i] == left[i];
      } else {
        assert b[i] == right[i - |left|];
      }
      DayNumberInjective(a[i], b[i]);
    }
  }

  /** `date('w')`: 0 for Sunday through 6 for Saturday; 0000-01-01 was a Saturday. */
  function Weekday(d: Date): (r: int)
    requires Valid(d)
    ensures 0 <= r < 7
  {
    (DayNumber(d) + 5) % 7
  }

  lemma WeekdayNext(d: Date)
    requires Valid(d)
    ensures Weekday(Next(d)) == (Weekday(d) + 1) % 7
  {
    ModSevenStep(DayNumber(d) + 5);
  }

  lemma ModSevenStep(n: int)
    ensures (n + 1) % 7 == (n % 7 + 1) % 7
  {
  }

  /** 2024-01-01 fell on a Monday. */
  lemma WeekdayExample()
    ensures Weekday(Date(2024, 1, 1)) == 1
    ensures Weekday(Date(2024, 1, 7)) == 0
  {
  }

  /**
   Dates in year, month, day order: the order `sort()` puts their `Y-m-d`
   renderings in, and the order of day numbers for valid dates.
   */
  predicate DateLess(a: Date, b: Date)
  {
    a.year < b.year || (a.year == b.year && (a.month < b.month || (a.month == b.month && a.day < b.day)))
  }

  lemma DateLessIsStrictTotalOrder()
    ensures StrictTotalOrder(DateLess)
  {
  }

  lemma DaysBeforeMonthMonotone(y: int, m1: int, m2: int)
    requires 1 <= m1 < m2 <= 12
    ensures DaysBeforeMonth(y, m1) + DaysInMonth(y, m1) <= DaysBeforeMonth(y, m2)
  {
    DaysBeforeMonthStep(y, m1);
  }

  /** On valid dates the calendar order is the order of day numbers. */
  lemma DateLessIsDayOrder(a: Date, b: Date)
    requires Valid(a) && Valid(b)
    ensures DateLess(a, b) <==> DayNumber(a) < DayNumber(b)
  {
    DayOfYearBounds(a);
    DayOfYearBounds(b);
    if a.year < b.year {
      DaysBeforeYearMonotone(a.year, b.year);
    } else if b.year < a.year {
      DaysBeforeYearMonotone(b.year, a.year);
    } else if a.month < b.month {
      DaysBeforeMonthMonotone(a.year, a.month, b.month);
    } else if b.month < a.month {
      DaysBeforeMonthMonotone(a.year, b.month, a.month);
    }
  }

  /** `Y-m-01` of the date's month. */
  function FirstOfMonth(d: Date): (r: Date)
    requires Valid(d)
    ensures Valid(r) && r.year == d.year && r.month == d.month && r.day == 1
    ensures DayNumber(r) <= DayNumber(d)
  {
    Date(d.year, d.month, 1)
  }

  /** `Y-m-t` of the date's month. */
  function LastOfMonth(d: Date): (r: Date)
    requires Valid(d)
    ensures Valid(r) && r.year == d.year && r.month == d.month
    ensures DayNumber(d) <= DayNumber(r)
    ensures Valid(Next(r)) && Next(r).day == 1
  {
    Date(d.year, d.month, DaysInMonth(d.year, d.month))
  }

  /** `format('Y-m-d')` for four-digit years. */
  function FormatYmd(d: Date): (r: string)
    requires Valid(d) && d.year < 10000
    ensures |r| == 10
  {
    Digits(d.year, 4) + "-" + Digits(d.month, 2) + "-" + Digits(d.day, 2)
  }

  /** `format('d/m')`, the daily report's label. */
  function FormatDm(d: Date): (r: string)
    requires Valid(d)
    ensures |r| == 5 && r[2] == '/'
  {
    Digits(d.day, 2) + "/" + Digits(d.month, 2)
  }

  /** Four digits, dash, two digits, dash, two digits. */
  predicate YmdShape(s: string)
  {
    |s| == 10 && s[4] == '-' && s[7] == '-' &&
    (forall i :: 0 <= i < 4 ==> IsDigit(s[i])) &&
    IsDigit(s[5]) && IsDigit(s[6]) && IsDigit(s[8]) && IsDigit(s[9])
  }

  /**
   The strict reading of `Y-m-d`: `DateTime::createFromFormat('Y-m-d', $s)`
   whose result formats back to exactly $s. Out-of-range months and days
   (which PHP would roll over into a different date) fail.
   */
  function ParseYmd(s: string): (r: Option<Date>)
    ensures r.Some? ==> Valid(r.value) && r.value.year < 10000
  {
    if !YmdShape(s) then None
    else
      DigitsOfRead(s[..4]);
      var d := Date(ReadNum(s[..4]), ReadNum(s[5..7]), ReadNum(s[8..]));
      if Valid(d) then Some(d) else None
  }

  /** Formatting then reading gives the date back. */
  lemma ParseFormat(d: Date)
    requires Valid(d) && d.year < 10000
    ensures ParseYmd(FormatYmd(d)) == Some(d)
  {
    var s := FormatYmd(d);
    assert s[..4] == Digits(d.year, 4);
    assert s[5..7] == Digits(d.month, 2);
    assert s[8..] == Digits(d.day, 2);
    ReadDigits(d.year, 4);
    ReadDigits(d.month, 2);
    ReadDigits(d.day, 2);
  }

  /** A string that reads as a date is that date's rendering. */
  lemma FormatParse(s: string)
    requires ParseYmd(s).Some?
    ensures FormatYmd(ParseYmd(s).value) == s
  {
    DigitsOfRead(s[..4]);
    DigitsOfRead(s[5..7]);
    DigitsOfRead(s[8..]);
    assert s == s[..4] + "-" + s[5..7] + "-" + s[8..];
  }

  /** `validateDate` in the cross-tab endpoint. */
  predicate IsValidYmd(s: string)
  {
    ParseYmd(s).Some?
  }

  /** A string passes validation exactly when it is the rendering of a real four-digit-year date. */
  lemma IsValidYmdIff(s: string)
    ensures IsValidYmd(s) <==> exists d :: Valid(d) && d.year < 10000 && FormatYmd(d) == s
  {
    if IsValidYmd(s) {
      FormatParse(s);
      assert Valid(ParseYmd(s).value);
    }
    forall d | Valid(d) && d.year < 10000 && FormatYmd(d) == s
      ensures IsValidYmd(s)
    {
      ParseFormat(d);
    }
  }
}

=== FILE: cross_tabs.dfy ===
/**
 The cross-tab endpoint: defect quantities of a date range tabulated as
 problem detail against process and as problem detail against model.

 Every fetched defect row is trimmed and looked up in the item table (the
 `AS-` form of the part first, then the part as written). A row without a
 detail, without a part or with a quantity of at most 0 is skipped. The
 kept rows give the detail, process and model lists (first appearances),
 the cells (sums of quantities per pair) and the summary counts; the
 details are then ranked by their total across all processes, the
 processes put in line order and the models sorted.

 The two queries become inputs: the defect rows of the range, the item
 rows, and the message of a failing query if one fails. The nested PHP
 arrays `data[detail][process]` are tallies keyed by the pair.
 */
module CrossTabs {
  import opened Util
  import opened Text
  import opened Sorting
  import opened Tally
  import opened Calendar
  import opened Schema

  // ---------------------------------------------------------------- request

  datatype Request = Request(startDate: Option<string>, endDate: Option<string>, today: string)

  /** `$_GET[...] ?? date('Y-m-d')`: a missing parameter means today; an empty one is kept. */
  function ParamOr(p: Option<string>, today: string): string
  {
    match p
    case Some(v) => v
    case None => today
  }

  const InvalidDateMessage: string := "Invalid date format. Use YYYY-MM-DD"

  /** The query results, and the message of the query that fails if one does. */
  datatype DefectDb = DefectDb(defects: seq<DefectRow>, items: seq<ItemRow>, failure: Option<string>)

  // ------------------------------------------------------------------ items

  /** `WHERE model != ''`: NULL and empty models are not fetched. */
  predicate HasModel(it: ItemRow)
  {
    it.model.Some? && it.model.value != ""
  }

  /**
   `$itemMap[$it['item']] = $it['model']` over the fetched items (those with
   a model): item code to model, a later row of the same code overwriting
   an earlier one.
   */
  function ItemModels(items: seq<ItemRow>): (r: map<string, string>)
    ensures forall k :: k in r <==> exists i :: 0 <= i < |items| && HasModel(items[i]) && items[i].item == k
    ensures forall k :: k in r ==> r[k] != ""
    decreases |items|
  {
    if |items| == 0 then map[]
    else
      var init := items[..|items| - 1];
      var x := items[|items| - 1];
      var m := ItemModels(init);
      var r := if HasModel(x) then m[x.item := x.model.value] else m;
      assert forall k :: k in r <==> exists i :: 0 <= i < |items| && HasModel(items[i]) && items[i].item == k by {
        forall k | k in r
          ensures exists i :: 0 <= i < |items| && HasModel(items[i]) && items[i].item == k
        {
          if !(HasModel(x) && k == x.item) {
            var i :| 0 <= i < |init| && HasModel(init[i]) && init[i].item == k;
            assert items[i] == init[i];
          }
        }
        forall k | exists i :: 0 <= i < |items| && HasModel(items[i]) && items[i].item == k
          ensures k in r
        {
          var i :| 0 <= i < |items| && HasModel(items[i]) && items[i].item == k;
          if i < |init| {
            assert init[i] == items[i];
          }
        }
      }
      r
  }

  /** The model an item code maps to is the one of its last fetched row. */
  lemma {:induction false} ItemModelsLastWins(items: seq<ItemRow>, i: int)
    requires 0 <= i < |items| && HasModel(items[i])
    requires forall j :: i < j < |items| && HasModel(items[j]) ==> items[j].item != items[i].item
    ensures items[i].item in ItemModels(items)
    ensures ItemModels(items)[items[i].item] == items[i].model.value
    decreases |items|
  {
    var init := items[..|items| - 1];
    if i < |init| {
      assert init[i] == items[i];
      forall j | i < j < |init| && HasModel(init[j])
        ensures init[j].item != init[i].item
      {
        assert init[j] == items[j];
      }
      ItemModelsLastWins(init, i);
    }
  }

  /** `$itemMap[$lookupPart] ?? $itemMap[$part] ?? ''`: the `AS-` form first, then the part as written. */
  function ModelOf(models: map<string, string>, part: string): string
  {
    var key := AsKey(part);
    if key in models then models[key] else if part in models then models[part] else ""
  }

  /**
   With non-empty models in the map, the lookup comes back empty exactly
   when neither form of the part is an item code, and it is a model of the
   map otherwise.
   */
  lemma ModelOfFound(models: map<string, string>, part: string)
    requires forall k :: k in models ==> models[k] != ""
    ensures ModelOf(models, part) == "" <==> AsKey(part) !in models && part !in models
    ensures ModelOf(models, part) != "" ==> ModelOf(models, part) in models.Values
  {
  }

  /** A part written without its `AS-` prefix resolves to the model of the prefixed item code. */
  lemma ModelOfBarePart(models: map<string, string>, part: string)
    requires !StartsWithIgnoreCase(part, "AS-")
    requires "AS-" + part in models
    ensures ModelOf(models, part) == ModelOf(models, "AS-" + part) == models["AS-" + part]
  {
    AsKeyIdempotent(part);
  }

  // ---------------------------------------------------------------- entries

  /** One defect row as the loop sees it: trimmed text, the quantity and the model found for the part. */
  datatype Entry = Entry(detail: string, part: string, process: string, qty: int, model: string)

  function EntryOf(models: map<string, string>, d: DefectRow): Entry
  {
    var part := Trim(d.part);
    Entry(Trim(d.detail), part, Trim(d.process), d.qty, ModelOf(models, part))
  }

  function Entries(models: map<string, string>, rows: seq<DefectRow>): (r: seq<Entry>)
    ensures |r| == |rows|
    ensures forall i :: 0 <= i < |rows| ==> r[i] == EntryOf(models, rows[i])
  {
    seq(|rows|, i requires 0 <= i < |rows| => EntryOf(models, rows[i]))
  }

  /** `empty($detail) || empty($part) || $qty <= 0` skips the row ("0" counts as empty). */
  predicate Kept(e: Entry)
  {
    Truthy(e.detail) && Truthy(e.part) && e.qty > 0
  }

  /** A kept row whose model is not empty: the rows of the model cross-tab. */
  predicate WithModel(e: Entry)
  {
    Kept(e) && Truthy(e.model)
  }

  /** A kept row whose model is empty; its part is recorded as unmatched (a kept part is never empty). */
  predicate Unmatched(e: Entry)
  {
    Kept(e) && Empty(e.model)
  }

  /** A kept row of detail d. */
  function OfDetail(d: string): Entry -> bool
  {
    e => Kept(e) && e.detail == d
  }

  function DetailOf(e: Entry): string { e.detail }

  function ProcessOf(e: Entry): string { e.process }

  function ModelName(e: Entry): string { e.model }

  function PartOf(e: Entry): string { e.part }

  function Qty(e: Entry): int { e.qty }

  function One(e: Entry): int { 1 }

  function ProcessCell(e: Entry): (string, string) { (e.detail, e.process) }

  function ModelCell(e: Entry): (string, string) { (e.detail, e.model) }

  // ------------------------------------------------------------------ lists

  /** The `in_array`-guarded appends: the keys of the kept entries, each once, in order of first appearance. */
  function FirstSeen(es: seq<Entry>, keep: Entry -> bool, key: Entry -> string): (r: seq<string>)
    ensures Distinct(r)
    ensures forall k :: k in r <==> exists i :: 0 <= i < |es| && keep(es[i]) && key(es[i]) == k
  {
    PairsOfKeys(es, keep, key, Qty);
    Dedupe(Keys(PairsOf(es, keep, key, Qty)))
  }

  /** `$processOrder[$p] ?? 999`: the six line labels in line order, everything else after them. */
  function Rank(process: string): int
  {
    if process == "F/C" then 1
    else if process == "F/B" then 2
    else if process == "R/C" then 3
    else if process == "R/B" then 4
    else if process == "3RD" then 5
    else if process == "SUB" then 6
    else 999
  }

  /** The six labels take the ranks 1 to 6, in line order, and nothing else ranks before 999. */
  lemma RankOrder(p: string)
    ensures Rank("F/C") < Rank("F/B") < Rank("R/C") < Rank("R/B") < Rank("3RD") < Rank("SUB") < 999
    ensures Rank(p) < 999 <==> p in ["F/C", "F/B", "R/C", "R/B", "3RD", "SUB"]
  {
  }

  function RankKey(p: string): real
  {
    -(Rank(p) as real)
  }

  /** The `usort` by rank: the same processes, ranks not decreasing. */
  function OrderProcesses(ps: seq<string>): (r: seq<string>)
    ensures multiset(r) == multiset(ps)
    ensures forall i, j :: 0 <= i < j < |r| ==> Rank(r[i]) <= Rank(r[j])
  {
    var r := SortDesc(ps, RankKey);
    assert forall i, j :: 0 <= i < j < |r| ==> RankKey(r[i]) >= RankKey(r[j]);
    r
  }

  /** `sort($models)`: the models in increasing byte order. */
  function SortModels(ms: seq<string>): (r: seq<string>)
    ensures StrictlySorted(r, StrLess)
    ensures Distinct(r)
    ensures forall m :: m in r <==> m in ms
  {
    StrLessIsStrictTotalOrder();
    var r := SortUnique(ms, StrLess);
    StrictlySortedDistinct(r, StrLess);
    r
  }

  // ------------------------------------------------------------------ cells

  /** `$processData['data'][$detail][$process] += $qty` over the kept rows. */
  function ProcessCells(es: seq<Entry>): Tally<(string, string)>
  {
    Group(PairsOf(es, Kept, ProcessCell, Qty))
  }

  /** `$modelData['data'][$detail][$model] += $qty` over the kept rows with a model. */
  function ModelCells(es: seq<Entry>): Tally<(string, string)>
  {
    Group(PairsOf(es, WithModel, ModelCell, Qty))
  }

  /** The detail's total: its cells over the processes, `?? 0` for a missing one. */
  function DetailTotal(data: Tally<(string, string)>, procs: seq<string>, d: string): int
  {
    Sum(seq(|procs|, i requires 0 <= i < |procs| => Get(data, (d, procs[i]))))
  }

  /** `arsort($detailTotals)` then `array_keys`: the details, totals not increasing. */
  function RankDetails(details: seq<string>, data: Tally<(string, string)>, procs: seq<string>): (r: seq<string>)
    ensures multiset(r) == multiset(details)
    ensures forall i, j :: 0 <= i < j < |r| ==> DetailTotal(data, procs, r[i]) >= DetailTotal(data, procs, r[j])
  {
    var key := (d: string) => DetailTotal(data, procs, d) as real;
    var r := SortDesc(details, key);
    assert forall i, j :: 0 <= i < j < |r| ==> key(r[i]) >= key(r[j]);
    r
  }

  // --------------------------------------------------------------- response

  datatype ProcessTab = ProcessTab(details: seq<string>, processes: seq<string>, data: Tally<(string, string)>)

  datatype ModelTab = ModelTab(details: seq<string>, models: seq<string>, data: Tally<(string, string)>)

  datatype Summary = Summary(totalDefects: nat, validData: nat, startDate: string, endDate: string, unmatchedParts: nat)

  datatype CrossTabs = CrossTabs(processData: ProcessTab, modelData: ModelTab, summary: Summary)

  /** The loop over the entries, the ranking of the details and the two sorts. */
  function CrossTabsOf(es: seq<Entry>, total: nat, s: string, e: string): CrossTabs
  {
    var data := ProcessCells(es);
    var procs := FirstSeen(es, Kept, ProcessOf);
    var details := RankDetails(FirstSeen(es, Kept, DetailOf), data, procs);
    CrossTabs(
      ProcessTab(details, OrderProcesses(procs), data),
      ModelTab(details, SortModels(FirstSeen(es, WithModel, ModelName)), ModelCells(es)),
      Summary(total, |Filter(es, Kept)|, s, e, |Group(PairsOf(es, Unmatched, PartOf, One))|))
  }

  /** The endpoint: the date check, then the queries, then the tabulation. */
  function GetCrossTabs(req: Request, db: DefectDb): (r: Result<CrossTabs>)
    ensures var s := ParamOr(req.startDate, req.today); var e := ParamOr(req.endDate, req.today);
      r.Failure? <==> !IsValidYmd(s) || !IsValidYmd(e) || db.failure.Some?
    ensures var s := ParamOr(req.startDate, req.today); var e := ParamOr(req.endDate, req.today);
      !IsValidYmd(s) || !IsValidYmd(e) ==> r == Failure("Error: " + InvalidDateMessage)
    ensures var s := ParamOr(req.startDate, req.today); var e := ParamOr(req.endDate, req.today);
      IsValidYmd(s) && IsValidYmd(e) && db.failure.Some? ==> r == Failure("Error: " + db.failure.value)
    ensures r.Success? ==>
      r.value.summary.startDate == ParamOr(req.startDate, req.today) &&
      r.value.summary.endDate == ParamOr(req.endDate, req.today) &&
      r.value.summary.totalDefects == |db.defects| &&
      r.value.summary.validData <= r.value.summary.totalDefects
  {
    var s := ParamOr(req.startDate, req.today);
    var e := ParamOr(req.endDate, req.today);
    if !IsValidYmd(s) || !IsValidYmd(e) then Failure("Error: " + InvalidDateMessage)
    else if db.failure.Some? then Failure("Error: " + db.failure.value)
    else
      var es := Entries(ItemModels(db.items), db.defects);
      Success(CrossTabsOf(es, |db.defects|, s, e))
  }

  // ------------------------------------------------------------- properties

  /** A cell holds the quantities of the kept rows of its (detail, process) pair, and exists only for such pairs. */
  lemma ProcessCellsSpec(es: seq<Entry>)
    ensures Distinct(Keys(ProcessCells(es)))
    ensures forall k :: Has(ProcessCells(es), k) <==> exists i :: 0 <= i < |es| && Kept(es[i]) && ProcessCell(es[i]) == k
    ensures forall k :: Get(ProcessCells(es), k) == SumWhere(es, Kept, ProcessCell, Qty, k)
  {
    GroupOfPairs(es, Kept, ProcessCell, Qty);
  }

  /** The model cells likewise, over the kept rows with a model. */
  lemma ModelCellsSpec(es: seq<Entry>)
    ensures Distinct(Keys(ModelCells(es)))
    ensures forall k :: Has(ModelCells(es), k) <==> exists i :: 0 <= i < |es| && WithModel(es[i]) && ModelCell(es[i]) == k
    ensures forall k :: Get(ModelCells(es), k) == SumWhere(es, WithModel, ModelCell, Qty, k)
  {
    GroupOfPairs(es, WithModel, ModelCell, Qty);
  }

  /** The cell of (d, p) is the sum over the kept rows of detail d whose process is p. */
  lemma CellOfDetail(es: seq<Entry>, d: string, p: string)
    ensures SumWhere(es, Kept, ProcessCell, Qty, (d, p)) == SumWhere(es, OfDetail(d), ProcessOf, Qty, p)
  {
    var both := (e: Entry) => Kept(e) && ProcessCell(e) == (d, p);
    SumWhereIsSumKept(es, Kept, ProcessCell, Qty, (d, p), both);
    SumWhereIsSumKept(es, OfDetail(d), ProcessOf, Qty, p, both);
  }

  /**
   Summing a detail's cells over the process list gives the quantity of all
   its kept rows: the list holds every process of a kept row, once.
   */
  lemma DetailTotalIsDetailQty(es: seq<Entry>, d: string)
    ensures DetailTotal(ProcessCells(es), FirstSeen(es, Kept, ProcessOf), d) == SumKept(es, OfDetail(d), Qty)
  {
    var data := ProcessCells(es);
    var procs := FirstSeen(es, Kept, ProcessOf);
    var row := seq(|procs|, i requires 0 <= i < |procs| => Get(data, (d, procs[i])));
    ProcessCellsSpec(es);
    forall i | 0 <= i < |procs|
      ensures row[i] == Cells(es, OfDetail(d), ProcessOf, Qty, procs)[i]
    {
      CellOfDetail(es, d, procs[i]);
    }
    assert row == Cells(es, OfDetail(d), ProcessOf, Qty, procs);
    forall i | 0 <= i < |es| && OfDetail(d)(es[i])
      ensures ProcessOf(es[i]) in procs
    {
      assert Kept(es[i]) && ProcessOf(es[i]) == es[i].process;
    }
    CellsCover(es, OfDetail(d), ProcessOf, Qty, procs);
  }

  /** The detail lists: both tables share one list, holding every detail of a kept row once. */
  lemma DetailsListed(es: seq<Entry>, total: nat, s: string, e: string)
    ensures var t := CrossTabsOf(es, total, s, e);
      t.modelData.details == t.processData.details &&
      Distinct(t.processData.details) &&
      (forall d :: d in t.processData.details <==> exists i :: 0 <= i < |es| && Kept(es[i]) && es[i].detail == d)
  {
    var seen := FirstSeen(es, Kept, DetailOf);
    var ds := RankDetails(seen, ProcessCells(es), FirstSeen(es, Kept, ProcessOf));
    DistinctPermutation(seen, ds);
    forall d
      ensures d in ds <==> exists i :: 0 <= i < |es| && Kept(es[i]) && es[i].detail == d
    {
      assert d in ds <==> d in multiset(ds);
      assert d in seen <==> d in multiset(seen);
      if exists i :: 0 <= i < |es| && Kept(es[i]) && es[i].detail == d {
        var i :| 0 <= i < |es| && Kept(es[i]) && es[i].detail == d;
        assert DetailOf(es[i]) == d;
      }
    }
  }

  /** The details are ranked by the quantity of their kept rows, largest first. */
  lemma DetailsRanked(es: seq<Entry>, total: nat, s: string, e: string)
    ensures var ds := CrossTabsOf(es, total, s, e).processData.details;
      forall i, j :: 0 <= i < j < |ds| ==> SumKept(es, OfDetail(ds[i]), Qty) >= SumKept(es, OfDetail(ds[j]), Qty)
  {
    var ds := RankDetails(FirstSeen(es, Kept, DetailOf), ProcessCells(es), FirstSeen(es, Kept, ProcessOf));
    forall i, j | 0 <= i < j < |ds|
      ensures SumKept(es, OfDetail(ds[i]), Qty) >= SumKept(es, OfDetail(ds[j]), Qty)
    {
      DetailTotalIsDetailQty(es, ds[i]);
      DetailTotalIsDetailQty(es, ds[j]);
    }
  }

  /** The process list: every process of a kept row, once, in line order with the unknown ones last. */
  lemma ProcessesOrdered(es: seq<Entry>, total: nat, s: string, e: string)
    ensures var ps := CrossTabsOf(es, total, s, e).processData.processes;
      Distinct(ps) &&
      (forall p :: p in ps <==> exists i :: 0 <= i < |es| && Kept(es[i]) && es[i].process == p) &&
      (forall i, j :: 0 <= i < j < |ps| ==> Rank(ps[i]) <= Rank(ps[j]))
  {
    var seen := FirstSeen(es, Kept, ProcessOf);
    var ps := CrossTabsOf(es, total, s, e).processData.processes;
    assert ps == OrderProcesses(seen);
    DistinctPermutation(seen, ps);
    forall p
      ensures p in ps <==> exists i :: 0 <= i < |es| && Kept(es[i]) && es[i].process == p
    {
      assert p in ps <==> p in multiset(ps);
      assert p in seen <==> p in multiset(seen);
      if exists i :: 0 <= i < |es| && Kept(es[i]) && es[i].process == p {
        var i :| 0 <= i < |es| && Kept(es[i]) && es[i].process == p;
        assert ProcessOf(es[i]) == p;
      }
    }
  }

  /** The model list: every non-empty model of a kept row, once, in increasing order. */
  lemma ModelsSorted(es: seq<Entry>, total: nat, s: string, e: string)
    ensures var ms := CrossTabsOf(es, total, s, e).modelData.models;
      StrictlySorted(ms, StrLess) &&
      (forall m :: m in ms <==> exists i :: 0 <= i < |es| && WithModel(es[i]) && es[i].model == m)
  {
    var ms := CrossTabsOf(es, total, s, e).modelData.models;
    forall m
      ensures m in ms <==> exists i :: 0 <= i < |es| && WithModel(es[i]) && es[i].model == m
    {
      if exists i :: 0 <= i < |es| && WithModel(es[i]) && es[i].model == m {
        var i :| 0 <= i < |es| && WithModel(es[i]) && es[i].model == m;
        assert ModelName(es[i]) == m;
      }
    }
  }

  /** The parts counted as unmatched: those of the kept rows without a model. */
  function UnmatchedParts(es: seq<Entry>): set<string>
  {
    set i | 0 <= i < |es| && Unmatched(es[i]) :: es[i].part
  }

  /**
   The summary: valid rows are the kept ones, no more than the fetched
   ones, and all of them exactly when none is skipped; the unmatched count
   is the number of distinct unmatched parts.
   */
  lemma SummaryCounts(es: seq<Entry>, total: nat, s: string, e: string)
    requires total == |es|
    ensures var sm := CrossTabsOf(es, total, s, e).summary;
      sm.validData <= sm.totalDefects &&
      (sm.validData == sm.totalDefects <==> forall i :: 0 <= i < |es| ==> Kept(es[i])) &&
      sm.unmatchedParts == |UnmatchedParts(es)|
  {
    FilterKeepsAll(es, Kept);
    var pairs := PairsOf(es, Unmatched, PartOf, One);
    GroupKeysOrder(pairs);
    DedupeCountsDistinct(Keys(pairs));
    PairsOfKeys(es, Unmatched, PartOf, One);
    assert (set x | x in Keys(pairs)) == UnmatchedParts(es) by {
      forall x | x in UnmatchedParts(es)
        ensures x in Keys(pairs)
      {
        var i :| 0 <= i < |es| && Unmatched(es[i]) && es[i].part == x;
        assert PartOf(es[i]) == x;
      }
    }
    assert |Group(pairs)| == |Keys(Group(pairs))|;
  }

  /** The values of the kept rows split into those with a model and those without. */
  lemma {:induction false} KeptQtySplits(es: seq<Entry>)
    ensures SumKept(es, Kept, Qty) == SumKept(es, WithModel, Qty) + SumKept(es, Unmatched, Qty)
    ensures SumKept(es, Unmatched, Qty) >= 0
    ensures SumKept(es, Unmatched, Qty) == 0 <==> forall i :: 0 <= i < |es| ==> !Unmatched(es[i])
    decreases |es|
  {
    if |es| > 0 {
      var init := es[..|es| - 1];
      KeptQtySplits(init);
      assert forall i :: 0 <= i < |init| ==> init[i] == es[i];
    }
  }

  /**
   The model cross-tab holds no more than the process cross-tab, and the
   same total exactly when every kept row found its model.
   */
  lemma ModelTotalWithinProcessTotal(es: seq<Entry>)
    ensures Total(ProcessCells(es)) == SumKept(es, Kept, Qty)
    ensures Total(ModelCells(es)) <= Total(ProcessCells(es))
    ensures Total(ModelCells(es)) == Total(ProcessCells(es)) <==> forall i :: 0 <= i < |es| ==> !Unmatched(es[i])
  {
    GroupSpec(PairsOf(es, Kept, ProcessCell, Qty));
    GroupSpec(PairsOf(es, WithModel, ModelCell, Qty));
    PairsOfTotal(es, Kept, ProcessCell, Qty);
    PairsOfTotal(es, WithModel, ModelCell, Qty);
    KeptQtySplits(es);
  }
}

=== FILE: dashboard.dfy ===
/**
 The dashboard's client-side classifications: the four achievement bands
 of a percentage (emoji, colour and CSS class), the defect badge of a
 line's quality card, the KPI text colours, and the Pareto chart's data
 (positive values only, largest first, with individual and cumulative
 shares). Numbers are exact reals; `toFixed` read back as a number is
 rounding half away from zero, which agrees with it on non-negative values.
 */
module Dashboard {
  import opened Util
  import opened Sorting

  // ------------------------------------------------------ achievement bands

  /** The bands of an achievement percentage, lowest first. */
  datatype Band = Critical | Warning | Good | Excellent

  function Level(b: Band): nat
  {
    match b
    case Critical => 0
    case Warning => 1
    case Good => 2
    case Excellent => 3
  }

  /** The reference partition: at least 101, [93, 101), [80, 93), below 80. */
  predicate InBand(p: real, b: Band)
  {
    match b
    case Excellent => p >= 101.0
    case Good => 93.0 <= p < 101.0
    case Warning => 80.0 <= p < 93.0
    case Critical => p < 80.0
  }

  /** `getStatusEmoji`. */
  function StatusEmoji(p: real): string
  {
    if p >= 101.0 then "🔵"
    else if p >= 93.0 then "🟢"
    else if p >= 80.0 then "🟡"
    else "🔴"
  }

  /** `getColorByPercentage`, the `PERCENTAGE_COLORS` entry of the band. */
  function PercentageColor(p: real): string
  {
    if p >= 101.0 then "#007bff"
    else if p >= 93.0 then "#28a745"
    else if p >= 80.0 then "#ffc107"
    else "#dc3545"
  }

  /** `getPercentageClass`. */
  function PercentageClass(p: real): string
  {
    if p >= 101.0 then "percentage-excellent"
    else if p >= 93.0 then "percentage-good"
    else if p >= 80.0 then "percentage-warning"
    else "percentage-critical"
  }

  function EmojiOf(b: Band): string
  {
    match b
    case Excellent => "🔵"
    case Good => "🟢"
    case Warning => "🟡"
    case Critical => "🔴"
  }

  function ColorOf(b: Band): string
  {
    match b
    case Excellent => "#007bff"
    case Good => "#28a745"
    case Warning => "#ffc107"
    case Critical => "#dc3545"
  }

  function ClassOf(b: Band): string
  {
    match b
    case Excellent => "percentage-excellent"
    case Good => "percentage-good"
    case Warning => "percentage-warning"
    case Critical => "percentage-critical"
  }

  /** Every percentage lies in exactly one band. */
  lemma BandsPartition(p: real)
    ensures exists b :: InBand(p, b)
    ensures forall b, b' :: InBand(p, b) && InBand(p, b') ==> b == b'
  {
    if p >= 101.0 { assert InBand(p, Excellent); }
    else if p >= 93.0 { assert InBand(p, Good); }
    else if p >= 80.0 { assert InBand(p, Warning); }
    else { assert InBand(p, Critical); }
  }

  /** The three classifiers agree: each shows the mark of the band the percentage lies in. */
  lemma ClassifiersAgree(p: real, b: Band)
    requires InBand(p, b)
    ensures StatusEmoji(p) == EmojiOf(b)
    ensures PercentageColor(p) == ColorOf(b)
    ensures PercentageClass(p) == ClassOf(b)
  {
  }

  /** The marks of different bands differ, so each classifier tells the bands apart. */
  lemma MarksDistinct(b: Band, b': Band)
    requires b != b'
    ensures EmojiOf(b) != EmojiOf(b') && ColorOf(b) != ColorOf(b') && ClassOf(b) != ClassOf(b')
  {
  }

  /** A higher percentage never lands in a lower band. */
  lemma BandMonotone(p: real, q: real, b: Band, b': Band)
    requires p <= q && InBand(p, b) && InBand(q, b')
    ensures Level(b) <= Level(b')
  {
  }

  // ------------------------------------------------------------ quality card

  /** `processData[line] || { total_qty: 0 }`: a missing entry counts 0. */
  function QtyOr0(entry: Option<int>): int
  {
    match entry
    case None => 0
    case Some(q) => q
  }

  /** `(part / whole) * 100`. */
  function Percent(part: real, whole: real): real
    requires whole != 0.0
  {
    part / whole * 100.0
  }

  /** For a positive whole, a larger part is a larger percentage. */
  lemma PercentMonotone(a: real, b: real, whole: real)
    requires a <= b && whole > 0.0
    ensures Percent(a, whole) <= Percent(b, whole)
  {
    assert b / whole - a / whole == (b - a) / whole;
  }

  lemma PercentOfWhole(whole: real)
    requires whole != 0.0
    ensures Percent(whole, whole) == 100.0
  {
  }

  lemma PercentNonNegative(a: real, whole: real)
    requires a >= 0.0 && whole > 0.0
    ensures Percent(a, whole) >= 0.0
  {
  }

  /** The defects as a percentage of production, to two decimals; 0 when nothing was produced. */
  function DefectPercentage(defects: int, production: int): (r: real)
    ensures production <= 0 ==> r == 0.0
    ensures production > 0 ==> RoundsTo2(Percent(defects as real, production as real), r)
    ensures production > 0 ==> Percent(defects as real, production as real) - 0.005 <= r <= Percent(defects as real, production as real) + 0.005
  {
    if production > 0 then RoundTo2(Percent(defects as real, production as real)) else 0.0
  }

  /** No defects, no defect percentage; defects never give a negative one. */
  lemma DefectPercentageSign(defects: int, production: int)
    requires defects >= 0
    ensures DefectPercentage(defects, production) >= 0.0
    ensures defects == 0 ==> DefectPercentage(defects, production) == 0.0
  {
    if production > 0 {
      PercentNonNegative(defects as real, production as real);
      if defects == 0 {
        assert Percent(0.0, production as real) == 0 as real;
        RoundTo2OfInt(0);
      }
    }
  }

  datatype Badge = BadgeGood | BadgeWarning | BadgeCritical

  /** The badge of a defect percentage: critical above 5, warning above 3, good otherwise. */
  function BadgeOf(pct: real): Badge
  {
    if pct > 5.0 then BadgeCritical else if pct > 3.0 then BadgeWarning else BadgeGood
  }

  function BadgeClass(b: Badge): string
  {
    match b
    case BadgeCritical => "percentage-badge percentage-critical"
    case BadgeWarning => "percentage-badge percentage-warning"
    case BadgeGood => "percentage-badge percentage-good"
  }

  function BadgeLevel(b: Badge): nat
  {
    match b
    case BadgeGood => 0
    case BadgeWarning => 1
    case BadgeCritical => 2
  }

  /** A line's quality card: the defect count shown, its percentage and its badge. */
  datatype QualityCard = QualityCard(count: int, percentage: real, badge: Badge)

  function QualityCardOf(defectEntry: Option<int>, productionEntry: Option<int>): (r: QualityCard)
    ensures r.count == QtyOr0(defectEntry)
    ensures QtyOr0(productionEntry) <= 0 ==> r.percentage == 0.0 && r.badge == BadgeGood
    ensures QtyOr0(productionEntry) > 0 ==>
      RoundsTo2(Percent(QtyOr0(defectEntry) as real, QtyOr0(productionEntry) as real), r.percentage)
    ensures r.badge == BadgeCritical <==> r.percentage > 5.0
    ensures r.badge == BadgeGood <==> r.percentage <= 3.0
  {
    var pct := DefectPercentage(QtyOr0(defectEntry), QtyOr0(productionEntry));
    QualityCard(QtyOr0(defectEntry), pct, BadgeOf(pct))
  }

  /** The badge judges the rounded percentage: above 5.005 % is critical, at most 5 % never is, at most 3 % is good. */
  lemma BadgeThresholds(defects: int, production: int)
    requires production > 0
    ensures Percent(defects as real, production as real) > 5.005 ==> BadgeOf(DefectPercentage(defects, production)) == BadgeCritical
    ensures Percent(defects as real, production as real) <= 5.0 ==> BadgeOf(DefectPercentage(defects, production)) != BadgeCritical
    ensures Percent(defects as real, production as real) <= 3.0 ==> BadgeOf(DefectPercentage(defects, production)) == BadgeGood
  {
    var x := Percent(defects as real, production as real);
    if x <= 5.0 {
      RoundTo2Monotone(x, 5 as real);
      RoundTo2OfInt(5);
    }
    if x <= 3.0 {
      RoundTo2Monotone(x, 3 as real);
      RoundTo2OfInt(3);
    }
  }

  /** With the production fixed, more defects never give a better badge. */
  lemma BadgeMonotone(d: int, d': int, production: int)
    requires production > 0 && d <= d'
    ensures BadgeLevel(BadgeOf(DefectPercentage(d, production))) <= BadgeLevel(BadgeOf(DefectPercentage(d', production)))
  {
    PercentMonotone(d as real, d' as real, production as real);
    RoundTo2Monotone(Percent(d as real, production as real), Percent(d' as real, production as real));
  }

  // -------------------------------------------------------------- KPI cards

  datatype KpiColor = TextSuccess | TextWarning | TextDanger

  function KpiLevel(k: KpiColor): nat
  {
    match k
    case TextDanger => 0
    case TextWarning => 1
    case TextSuccess => 2
  }

  /** The three bands of `updateKPIColors`: a rate is good from 90 and fair from 80; reversed, good below 3 and fair below 5. */
  predicate ColouredAs(value: real, reverse: bool, c: KpiColor)
  {
    if reverse then
      (c == TextSuccess <==> value < 3.0) &&
      (c == TextWarning <==> 3.0 <= value < 5.0) &&
      (c == TextDanger <==> value >= 5.0)
    else
      (c == TextSuccess <==> value >= 90.0) &&
      (c == TextWarning <==> 80.0 <= value < 90.0) &&
      (c == TextDanger <==> value < 80.0)
  }

  /** `updateKPIColors`: the class a KPI value gets, by its band. */
  function KpiColorOf(value: real, reverse: bool): (r: KpiColor)
    ensures ColouredAs(value, reverse, r)
  {
    if reverse then
      if value < 3.0 then TextSuccess else if value < 5.0 then TextWarning else TextDanger
    else
      if value >= 90.0 then TextSuccess else if value >= 80.0 then TextWarning else TextDanger
  }

  /** Each value lies in exactly one band, so the colour is the one KpiColorOf gives. */
  lemma KpiColorUnique(value: real, reverse: bool, c: KpiColor)
    ensures ColouredAs(value, reverse, c) <==> c == KpiColorOf(value, reverse)
  {
  }

  /** Normally a higher value never looks worse; reversed, a higher value never looks better. */
  lemma KpiColorMonotone(v: real, w: real)
    requires v <= w
    ensures KpiLevel(KpiColorOf(v, false)) <= KpiLevel(KpiColorOf(w, false))
    ensures KpiLevel(KpiColorOf(v, true)) >= KpiLevel(KpiColorOf(w, true))
  {
  }

  /** The four KPI cards; only the defect rate is coloured in reverse. */
  datatype KpiColors = KpiColors(efficiency: KpiColor, quality: KpiColor, productivity: KpiColor, defect: KpiColor)

  function KpiCardColors(efficiency: real, quality: real, productivity: real, defect: real): (r: KpiColors)
    ensures ColouredAs(efficiency, false, r.efficiency)
    ensures ColouredAs(quality, false, r.quality)
    ensures ColouredAs(productivity, false, r.productivity)
    ensures ColouredAs(defect, true, r.defect)
  {
    KpiColors(KpiColorOf(efficiency, false), KpiColorOf(quality, false), KpiColorOf(productivity, false), KpiColorOf(defect, true))
  }

  /** When quality and defect rates add up to 100, a green defect card comes with a green quality card. */
  lemma KpiQualityDefectConsistent(quality: real, defect: real)
    requires quality + defect == 100.0
    ensures KpiColorOf(defect, true) == TextSuccess ==> KpiColorOf(quality, false) == TextSuccess
    ensures KpiColorOf(quality, false) == TextDanger ==> KpiColorOf(defect, true) == TextDanger
  {
  }

  // ------------------------------------------------------------ Pareto chart

  /** One bar: its value and label. */
  datatype Item = Item(value: real, name: string)

  function ValueOf(x: Item): real { x.value }

  function NameOf(x: Item): string { x.name }

  predicate Positive(x: Item) { x.value > 0.0 }

  /**
   `{ value: parseFloat(value) || 0, label: labels[index] || 'Unknown' }`:
   a value that is not a number counts 0, a missing or empty label is
   `Unknown`.
   */
  function ItemAt(data: seq<Option<real>>, labels: seq<string>, i: int): (r: Item)
    requires 0 <= i < |data|
  {
    Item(match data[i] case None => 0.0 case Some(v) => v,
         if i < |labels| && labels[i] != "" then labels[i] else "Unknown")
  }

  function Items(data: seq<Option<real>>, labels: seq<string>): (r: seq<Item>)
    ensures |r| == |data|
    ensures forall i :: 0 <= i < |data| ==> r[i] == ItemAt(data, labels, i)
  {
    seq(|data|, i requires 0 <= i < |data| => ItemAt(data, labels, i))
  }

  function Values(xs: seq<Item>): (r: seq<real>)
    ensures |r| == |xs|
    ensures forall i :: 0 <= i < |xs| ==> r[i] == xs[i].value
  {
    seq(|xs|, i requires 0 <= i < |xs| => xs[i].value)
  }

  /** A chart's bars, largest first, with each bar's share and the running share, in percent to one decimal. */
  datatype Pareto = NoChart | Chart(bars: seq<Item>, individual: seq<real>, cumulative: seq<real>)

  /** The share of each value in the total. */
  function IndividualShares(vals: seq<real>, total: real): (r: seq<real>)
    requires total != 0.0
    ensures |r| == |vals|
    ensures forall i :: 0 <= i < |vals| ==> r[i] == RoundTo1(Percent(vals[i], total))
  {
    seq(|vals|, i requires 0 <= i < |vals| => RoundTo1(Percent(vals[i], total)))
  }

  /** The share of each running total in the total. */
  function CumulativeShares(vals: seq<real>, total: real): (r: seq<real>)
    requires total != 0.0
    ensures |r| == |vals|
    ensures forall i :: 0 <= i < |vals| ==> r[i] == RoundTo1(Percent(SumReal(vals[..i + 1]), total))
  {
    seq(|vals|, i requires 0 <= i < |vals| => RoundTo1(Percent(SumReal(vals[..i + 1]), total)))
  }

  /** `createParetoChart`'s data: drop bars that are not positive, sort the rest descending, add the shares. */
  function ParetoOf(data: seq<Option<real>>, labels: seq<string>): Pareto
  {
    var kept := Filter(Items(data, labels), Positive);
    if |kept| == 0 then NoChart
    else
      var bars := SortDesc(kept, ValueOf);
      var total := SumReal(Values(bars));
      if total == 0.0 then NoChart
      else
        Chart(bars, IndividualShares(Values(bars), total), CumulativeShares(Values(bars), total))
  }

  /** A sum of positive values is positive. */
  lemma {:induction false} SumPositive(vals: seq<real>)
    requires |vals| > 0
    requires forall i :: 0 <= i < |vals| ==> vals[i] > 0.0
    ensures SumReal(vals) > 0.0
    decreases |vals|
  {
    if |vals| > 1 {
      SumPositive(vals[..|vals| - 1]);
    } else {
      assert vals[..0] == [];
    }
  }

  /** Running totals of non-negative values never decrease. */
  lemma {:induction false} PrefixSumMonotone(vals: seq<real>, i: int, j: int)
    requires 0 <= i <= j <= |vals|
    requires forall k :: 0 <= k < |vals| ==> vals[k] >= 0.0
    ensures SumReal(vals[..i]) <= SumReal(vals[..j])
    decreases j - i
  {
    if i < j {
      PrefixSumMonotone(vals, i, j - 1);
      assert vals[..j][..j - 1] == vals[..j - 1];
    }
  }

  /** The chart is drawn exactly when some bar has a positive value. */
  lemma ParetoDrawn(data: seq<Option<real>>, labels: seq<string>)
    ensures ParetoOf(data, labels).Chart? <==> exists i :: 0 <= i < |data| && ItemAt(data, labels, i).value > 0.0
  {
    var items := Items(data, labels);
    var kept := Filter(items, Positive);
    if exists i :: 0 <= i < |data| && ItemAt(data, labels, i).value > 0.0 {
      var i :| 0 <= i < |data| && ItemAt(data, labels, i).value > 0.0;
      assert items[i] in kept;
      var bars := SortDesc(kept, ValueOf);
      BarsPositive(kept, bars);
      SumPositive(Values(bars));
    } else {
      forall y | y in items
        ensures !Positive(y)
      {
      }
      EmptyIffNoMembers(kept);
    }
  }

  /** A reordering of positive items holds positive values only. */
  lemma BarsPositive(kept: seq<Item>, bars: seq<Item>)
    requires forall i :: 0 <= i < |kept| ==> Positive(kept[i])
    requires multiset(bars) == multiset(kept)
    ensures forall k :: 0 <= k < |bars| ==> Values(bars)[k] > 0.0
  {
    forall k | 0 <= k < |bars|
      ensures Values(bars)[k] > 0.0
    {
      assert bars[k] in multiset(kept);
    }
  }

  /** The bars are the positive items, largest first, each exactly as often as it was given. */
  lemma ParetoBars(data: seq<Option<real>>, labels: seq<string>)
    ensures ParetoOf(data, labels).Chart? ==>
      multiset(ParetoOf(data, labels).bars) == multiset(Filter(Items(data, labels), Positive)) &&
      NonIncreasing(ParetoOf(data, labels).bars, ValueOf) &&
      forall k :: 0 <= k < |ParetoOf(data, labels).bars| ==> Values(ParetoOf(data, labels).bars)[k] > 0.0
  {
    if ParetoOf(data, labels).Chart? {
      BarsPositive(Filter(Items(data, labels), Positive), ParetoOf(data, labels).bars);
    }
  }

  /** The running shares of positive values never decrease and the last one is 100 %. */
  lemma CumulativeSharesSpec(vals: seq<real>)
    requires |vals| > 0
    requires forall k :: 0 <= k < |vals| ==> vals[k] > 0.0
    ensures SumReal(vals) > 0.0
    ensures forall i, j :: 0 <= i <= j < |vals| ==>
      CumulativeShares(vals, SumReal(vals))[i] <= CumulativeShares(vals, SumReal(vals))[j]
    ensures CumulativeShares(vals, SumReal(vals))[|vals| - 1] == 100.0
  {
    var total := SumReal(vals);
    SumPositive(vals);
    var c := CumulativeShares(vals, total);
    forall i, j | 0 <= i <= j < |vals|
      ensures c[i] <= c[j]
    {
      PrefixSumMonotone(vals, i + 1, j + 1);
      PercentMonotone(SumReal(vals[..i + 1]), SumReal(vals[..j + 1]), total);
      RoundTo1Monotone(Percent(SumReal(vals[..i + 1]), total), Percent(SumReal(vals[..j + 1]), total));
    }
    assert vals[..|vals|] == vals;
    PercentOfWhole(total);
    RoundTo1OfInt(100);
  }

  /** Each positive value's share lies between 0 and 100 %. */
  lemma IndividualSharesSpec(vals: seq<real>)
    requires |vals| > 0
    requires forall k :: 0 <= k < |vals| ==> vals[k] > 0.0
    ensures SumReal(vals) > 0.0
    ensures forall i :: 0 <= i < |vals| ==> 0.0 <= IndividualShares(vals, SumReal(vals))[i] <= 100.0
  {
    var total := SumReal(vals);
    SumPositive(vals);
    forall i | 0 <= i < |vals|
      ensures 0.0 <= IndividualShares(vals, total)[i] <= 100.0
    {
      ValueWithinSum(vals, i);
      PercentNonNegative(vals[i], total);
      PercentMonotone(vals[i], total, total);
      PercentOfWhole(total);
      RoundTo1Monotone(Percent(vals[i], total), 100 as real);
      RoundTo1OfInt(100);
    }
  }

  /** One of several non-negative values is at most their sum. */
  lemma ValueWithinSum(vals: seq<real>, i: int)
    requires 0 <= i < |vals|
    requires forall k :: 0 <= k < |vals| ==> vals[k] >= 0.0
    ensures vals[i] <= SumReal(vals)
  {
    PrefixSumMonotone(vals, 0, i);
    PrefixSumMonotone(vals, i + 1, |vals|);
    assert vals[..i + 1][..i] == vals[..i];
    assert vals[..0] == [];
    assert vals[..|vals|] == vals;
  }

  /** The chart's running shares never decrease and the last one is 100 %. */
  lemma ParetoCumulative(data: seq<Option<real>>, labels: seq<string>)
    ensures ParetoOf(data, labels).Chart? ==>
      |ParetoOf(data, labels).cumulative| == |ParetoOf(data, labels).bars| > 0 &&
      (forall i, j :: 0 <= i <= j < |ParetoOf(data, labels).cumulative| ==>
        ParetoOf(data, labels).cumulative[i] <= ParetoOf(data, labels).cumulative[j]) &&
      ParetoOf(data, labels).cumulative[|ParetoOf(data, labels).cumulative| - 1] == 100.0
  {
    if ParetoOf(data, labels).Chart? {
      ParetoBars(data, labels);
      CumulativeSharesSpec(Values(ParetoOf(data, labels).bars));
    }
  }

  /** Each bar's share lies between 0 and 100 %. */
  lemma ParetoIndividual(data: seq<Option<real>>, labels: seq<string>)
    ensures ParetoOf(data, labels).Chart? ==>
      |ParetoOf(data, labels).individual| == |ParetoOf(data, labels).bars| &&
      forall i :: 0 <= i < |ParetoOf(data, labels).individual| ==>
        0.0 <= ParetoOf(data, labels).individual[i] <= 100.0
  {
    if ParetoOf(data, labels).Chart? {
      ParetoBars(data, labels);
      IndividualSharesSpec(Values(ParetoOf(data, labels).bars));
    }
  }
}

=== FILE: export_excel.dfy ===
/**
 The plain Excel export: a summary sheet listing each line's quantity,
 record count and distinct item count, then one sheet per line listing its
 production records. A sheet is modelled as the sequence of its cell
 writes; reading a cell gives the last value written to it.
 */
module ExportExcel {
  import opened Util
  import opened Calendar
  import opened Schema
  import opened SheetTitle
  import Reports
  import ExportProduct

  type LineSummary = Reports.LineSummary
  type DetailRecord = ExportProduct.DetailRecord

  // ------------------------------------------------------------------ cells

  /** A cell value; the SQL date of a record is kept as a date. */
  datatype Value = Text(text: string) | Number(n: int) | Day(day: Date) | Null

  /** One `setCellValue`: column letter, row number, value. */
  datatype Write = Write(col: char, row: int, value: Value)

  datatype Sheet = Sheet(title: string, writes: seq<Write>)

  /** The value left in a cell: the last write to it, if any. */
  function Read(ws: seq<Write>, col: char, row: int): Option<Value>
    decreases |ws|
  {
    if |ws| == 0 then None
    else
      var w := ws[|ws| - 1];
      if w.col == col && w.row == row then Some(w.value) else Read(ws[..|ws| - 1], col, row)
  }

  /** Later writes hide earlier ones. */
  lemma {:induction false} ReadAppend(a: seq<Write>, b: seq<Write>, col: char, row: int)
    ensures Read(a + b, col, row) == if Read(b, col, row).Some? then Read(b, col, row) else Read(a, col, row)
    decreases |b|
  {
    if |b| == 0 {
      assert a + b == a;
    } else {
      assert (a + b)[..|a + b| - 1] == a + b[..|b| - 1];
      ReadAppend(a, b[..|b| - 1], col, row);
    }
  }

  /** The columns a row fills, left to right. */
  const Columns: seq<char> := ['A', 'B', 'C', 'D']

  /** The writes of one sheet row: the values from column A on. */
  function RowWrites(row: int, vals: seq<Value>): (r: seq<Write>)
    requires |vals| <= |Columns|
  {
    seq(|vals|, c requires 0 <= c < |vals| => Write(Columns[c], row, vals[c]))
  }

  /** A row's writes fill exactly its own cells: the first |vals| columns of that row. */
  lemma {:induction false} ReadRowWrites(row: int, vals: seq<Value>, col: char, row': int)
    requires |vals| <= |Columns|
    ensures row' == row && col in Columns[..|vals|] ==> Read(RowWrites(row, vals), col, row') == Some(vals[IndexIn(Columns, col)])
    ensures !(row' == row && col in Columns[..|vals|]) ==> Read(RowWrites(row, vals), col, row') == None
    decreases |vals|
  {
    if |vals| > 0 {
      var n := |vals| - 1;
      assert RowWrites(row, vals)[..n] == RowWrites(row, vals[..n]);
      assert Columns[..|vals|] == Columns[..n] + [Columns[n]];
      ReadRowWrites(row, vals[..n], col, row');
      if row' == row && col == Columns[n] {
        ColumnIndex(n);
      }
    }
  }

  /** The position of a column letter. */
  function IndexIn(cs: seq<char>, c: char): nat
  {
    if c == 'A' then 0 else if c == 'B' then 1 else if c == 'C' then 2 else 3
  }

  lemma ColumnIndex(c: int)
    requires 0 <= c < |Columns|
    ensures IndexIn(Columns, Columns[c]) == c
  {
  }

  /** Consecutive rows from row `first` on. */
  function RowsWrites(first: int, rows: seq<seq<Value>>): seq<Write>
    requires forall k :: 0 <= k < |rows| ==> |rows[k]| <= |Columns|
    decreases |rows|
  {
    if |rows| == 0 then []
    else RowsWrites(first, rows[..|rows| - 1]) + RowWrites(first + |rows| - 1, rows[|rows| - 1])
  }

  /** Row first + k holds the k-th row's values; rows outside the block hold nothing. */
  lemma {:induction false} ReadRowsWrites(first: int, rows: seq<seq<Value>>, col: char, row: int)
    requires forall k :: 0 <= k < |rows| ==> |rows[k]| <= |Columns|
    ensures first <= row < first + |rows| ==> Read(RowsWrites(first, rows), col, row) == Read(RowWrites(row, rows[row - first]), col, row)
    ensures !(first <= row < first + |rows|) ==> Read(RowsWrites(first, rows), col, row) == None
    decreases |rows|
  {
    if |rows| > 0 {
      var n := |rows| - 1;
      assert forall k :: 0 <= k < n ==> rows[..n][k] == rows[k];
      ReadRowsWrites(first, rows[..n], col, row);
      ReadAppend(RowsWrites(first, rows[..n]), RowWrites(first + n, rows[n]), col, row);
      ReadRowWrites(first + n, rows[n], col, row);
      if first <= row < first + n {
        ReadRowWrites(row, rows[row - first], col, row);
      }
    }
  }

  // ---------------------------------------------------------- summary sheet

  const SummaryTitle: string := "สรุปรวม"

  const ReportHeading: string := "รายงานสรุปการเย็บ"

  /** `ช่วงวันที่: <start> ถึง <end>`. */
  function RangeText(start: string, end: string): string
  {
    "ช่วงวันที่: " + start + " ถึง " + end
  }

  const SummaryHeader: seq<Value> := [Text("ไลน์การผลิต"), Text("จำนวนชิ้น"), Text("รายการทั้งหมด"), Text("โมเดลทั้งหมด")]

  /** The data rows of the summary sheet begin on row 5. */
  const FirstSummaryRow: int := 5

  /** One line's row: its name, then total_qty, total_items and unique_items. */
  function SummaryValues(l: Line, s: LineSummary): seq<Value>
  {
    [Text(ExportProduct.LineName(l)), Number(s.totalQty), Number(s.totalItems), Number(s.uniqueItems)]
  }

  function SummaryTable(summary: seq<LineSummary>): (r: seq<seq<Value>>)
    requires |summary| == |AllLines|
    ensures |r| == |summary|
    ensures forall k :: 0 <= k < |r| ==> |r[k]| == |Columns|
  {
    seq(|summary|, k requires 0 <= k < |summary| => SummaryValues(AllLines[k], summary[k]))
  }

  /** Heading in A1, the range in A2, the column heads in row 4, then one row per line from row 5. */
  function SummarySheet(start: string, end: string, summary: seq<LineSummary>): Sheet
    requires |summary| == |AllLines|
  {
    Sheet(SummaryTitle,
          [Write('A', 1, Text(ReportHeading)), Write('A', 2, Text(RangeText(start, end)))] +
          RowWrites(4, SummaryHeader) +
          RowsWrites(FirstSummaryRow, SummaryTable(summary)))
  }

  /** Row 5 + k of the summary sheet holds, column by column, the k-th line's row. */
  lemma SummarySheetCell(start: string, end: string, summary: seq<LineSummary>, k: int, c: char)
    requires |summary| == |AllLines|
    requires 0 <= k < |summary| && c in Columns
    ensures Read(SummarySheet(start, end, summary).writes, c, FirstSummaryRow + k) ==
      Some(SummaryValues(AllLines[k], summary[k])[IndexIn(Columns, c)])
  {
    var t := SummaryTable(summary);
    var head := [Write('A', 1, Text(ReportHeading)), Write('A', 2, Text(RangeText(start, end)))] + RowWrites(4, SummaryHeader);
    var row := FirstSummaryRow + k;
    ReadAppend(head, RowsWrites(FirstSummaryRow, t), c, row);
    ReadRowsWrites(FirstSummaryRow, t, c, row);
    ReadRowWrites(row, t[k], c, row);
  }

  /** Row 5 + k of the summary sheet holds the k-th line's name, quantity, record count and item count. */
  lemma SummarySheetCells(start: string, end: string, summary: seq<LineSummary>, k: int)
    requires |summary| == |AllLines|
    requires 0 <= k < |summary|
    ensures Read(SummarySheet(start, end, summary).writes, 'A', FirstSummaryRow + k) == Some(Text(ExportProduct.LineName(AllLines[k])))
    ensures Read(SummarySheet(start, end, summary).writes, 'B', FirstSummaryRow + k) == Some(Number(summary[k].totalQty))
    ensures Read(SummarySheet(start, end, summary).writes, 'C', FirstSummaryRow + k) == Some(Number(summary[k].totalItems))
    ensures Read(SummarySheet(start, end, summary).writes, 'D', FirstSummaryRow + k) == Some(Number(summary[k].uniqueItems))
  {
    SummarySheetCell(start, end, summary, k, 'A');
    SummarySheetCell(start, end, summary, k, 'B');
    SummarySheetCell(start, end, summary, k, 'C');
    SummarySheetCell(start, end, summary, k, 'D');
  }

  /** Below the last line's row the summary sheet holds nothing. */
  lemma SummarySheetEnds(start: string, end: string, summary: seq<LineSummary>, c: char, row: int)
    requires |summary| == |AllLines|
    requires row >= FirstSummaryRow + |summary|
    ensures Read(SummarySheet(start, end, summary).writes, c, row) == None
  {
    var t := SummaryTable(summary);
    var top := [Write('A', 1, Text(ReportHeading)), Write('A', 2, Text(RangeText(start, end)))];
    ReadAppend(top + RowWrites(4, SummaryHeader), RowsWrites(FirstSummaryRow, t), c, row);
    ReadRowsWrites(FirstSummaryRow, t, c, row);
    ReadAppend(top, RowWrites(4, SummaryHeader), c, row);
    ReadRowWrites(4, SummaryHeader, c, row);
    assert top[..1] == [Write('A', 1, Text(ReportHeading))];
    assert top[..1][..0] == [];
    assert Read(top[..1], c, row) == None;
    assert Read(top, c, row) == None;
  }

  /** A1 holds the heading and A2 the requested range. */
  lemma SummarySheetHeading(start: string, end: string, summary: seq<LineSummary>)
    requires |summary| == |AllLines|
    ensures Read(SummarySheet(start, end, summary).writes, 'A', 1) == Some(Text(ReportHeading))
    ensures Read(SummarySheet(start, end, summary).writes, 'A', 2) == Some(Text(RangeText(start, end)))
  {
    var t := SummaryTable(summary);
    var top := [Write('A', 1, Text(ReportHeading)), Write('A', 2, Text(RangeText(start, end)))];
    var head := top + RowWrites(4, SummaryHeader);
    for r := 1 to 3
      invariant forall r' :: 1 <= r' < r ==> Read(SummarySheet(start, end, summary).writes, 'A', r') == Read(top, 'A', r')
    {
      ReadAppend(head, RowsWrites(FirstSummaryRow, t), 'A', r);
      ReadRowsWrites(FirstSummaryRow, t, 'A', r);
      ReadAppend(top, RowWrites(4, SummaryHeader), 'A', r);
      ReadRowWrites(4, SummaryHeader, 'A', r);
    }
  }

  // ----------------------------------------------------------- line sheets

  const DetailHeader: seq<Value> := [Text("รายการ"), Text("จำนวน"), Text("วันที่"), Text("เวลา")]

  /** The records of a line sheet begin on row 2. */
  const FirstDetailRow: int := 2

  /** A record's row: item, qty, date and time; a NULL item or qty leaves an empty cell. */
  function RecordValues(r: DetailRecord): seq<Value>
  {
    [match r.item case None => Null case Some(i) => Text(i),
     match r.qty case None => Null case Some(q) => Number(q),
     Day(r.day),
     Text(r.time)]
  }

  function DetailTable(recs: seq<DetailRecord>): (r: seq<seq<Value>>)
    ensures |r| == |recs|
    ensures forall k :: 0 <= k < |r| ==> |r[k]| == |Columns|
  {
    seq(|recs|, k requires 0 <= k < |recs| => RecordValues(recs[k]))
  }

  /** `cleanSheetTitle($line_names[$line])`, the column heads in row 1, then one row per record from row 2. */
  function LineSheet(l: Line, recs: seq<DetailRecord>): Sheet
  {
    Sheet(CleanReplace(ExportProduct.LineName(l)), RowWrites(1, DetailHeader) + RowsWrites(FirstDetailRow, DetailTable(recs)))
  }

  /** Row 2 + j of a line sheet holds the j-th record, in the record order of the query. */
  lemma LineSheetCells(l: Line, recs: seq<DetailRecord>, j: int, c: char)
    requires 0 <= j < |recs| && c in Columns
    ensures Read(LineSheet(l, recs).writes, c, FirstDetailRow + j) == Some(RecordValues(recs[j])[IndexIn(Columns, c)])
  {
    var t := DetailTable(recs);
    ReadAppend(RowWrites(1, DetailHeader), RowsWrites(FirstDetailRow, t), c, FirstDetailRow + j);
    ReadRowsWrites(FirstDetailRow, t, c, FirstDetailRow + j);
    ReadRowWrites(FirstDetailRow + j, t[j], c, FirstDetailRow + j);
  }

  /** The line sheets get six distinct, clean titles, none of them the summary sheet's. */
  lemma LineSheetTitles()
    ensures forall l :: Clean(CleanReplace(ExportProduct.LineName(l))) && CleanReplace(ExportProduct.LineName(l)) != SummaryTitle
    ensures forall l, l' :: l != l' ==> CleanReplace(ExportProduct.LineName(l)) != CleanReplace(ExportProduct.LineName(l'))
  {
    LineSheetTitleReplaced();
    assert CleanReplace("F/B") == "F-B";
    assert CleanReplace("R/C") == "R-C";
    assert CleanReplace("R/B") == "R-B";
    assert CleanReplace("3RD") == "3RD";
    assert CleanReplace("Sub") == "Sub";
  }

  // -------------------------------------------------------------- workbook

  /** `foreach ($data as $line => $records)`: one sheet per line, in line order. */
  function LineSheets(detail: seq<seq<DetailRecord>>): (r: seq<Sheet>)
    requires |detail| == |AllLines|
    ensures |r| == |AllLines|
    ensures forall k :: 0 <= k < |r| ==> r[k] == LineSheet(AllLines[k], detail[k])
  {
    seq(|AllLines|, k requires 0 <= k < |AllLines| => LineSheet(AllLines[k], detail[k]))
  }

  datatype Response = Download(filename: string, sheets: seq<Sheet>) | NoOutput

  /** `sewing_report_<start>_to_<end>.xlsx`. */
  function ExcelFilename(start: string, end: string): (r: string)
    ensures |r| == 23 + |start| + |end|
    ensures "sewing_report_" <= r
    ensures r[14 + |start| + 4 + |end|..] == ".xlsx"
    ensures r[14..|r| - 5] == start + "_to_" + end
  {
    var name := "sewing_report_" + start + "_to_" + end + ".xlsx";
    assert "sewing_report_" <= name;
    assert name[14..|name| - 5] == start + "_to_" + end;
    assert name[14 + |start| + 4 + |end|..] == ".xlsx";
    name
  }

  /**
   The request: only GET produces anything. The dates default to today and
   are passed on unchecked; summary and detail are the data class's summary
   and detail reports of that range, one entry per line.
   */
  function ExportExcel(httpMethod: string, startParam: Option<string>, endParam: Option<string>, today: Date,
                       summary: seq<LineSummary>, detail: seq<seq<DetailRecord>>): (r: Response)
    requires Valid(today) && today.year < 10000
    requires |summary| == |AllLines| && |detail| == |AllLines|
    ensures httpMethod != "GET" <==> r == NoOutput
    ensures r.Download? ==> |r.sheets| == 1 + |AllLines| && r.sheets[0].title == SummaryTitle
    ensures r.Download? ==> forall k :: 0 <= k < |AllLines| ==> r.sheets[k + 1] == LineSheet(AllLines[k], detail[k])
    ensures r.Download? && startParam.Some? && endParam.Some? ==>
      r.filename == ExcelFilename(startParam.value, endParam.value) &&
      r.sheets[0] == SummarySheet(startParam.value, endParam.value, summary)
    ensures r.Download? && startParam.Some? && endParam.None? ==>
      r.filename == ExcelFilename(startParam.value, FormatYmd(today)) &&
      r.sheets[0] == SummarySheet(startParam.value, FormatYmd(today), summary)
    ensures r.Download? && startParam.None? && endParam.Some? ==>
      r.filename == ExcelFilename(FormatYmd(today), endParam.value) &&
      r.sheets[0] == SummarySheet(FormatYmd(today), endParam.value, summary)
    ensures r.Download? && startParam.None? && endParam.None? ==>
      r.filename == ExcelFilename(FormatYmd(today), FormatYmd(today)) && r.sheets[0] == SummarySheet(FormatYmd(today), FormatYmd(today), summary)
  {
    if httpMethod != "GET" then NoOutput
    else
      var start := match startParam case None => FormatYmd(today) case Some(x) => x;
      var end := match endParam case None => FormatYmd(today) case Some(y) => y;
      Download(ExcelFilename(start, end), [SummarySheet(start, end, summary)] + LineSheets(detail))
  }
}

=== FILE: export_product.dfy ===
/**
 The production workbook export. It validates the requested range, then
 builds a summary sheet (per line: produced and inspected pieces, models,
 man-hours per shift), a sheet of daily man-hours, and one detail sheet
 per line. A detail sheet pairs production and QC records date by date,
 sums production per (date, model) with the day's man-hours shared out in
 proportion to quantity, and sums QC per (date, part).

 The database reads become inputs: the QC tables, the man-hour table, the
 item table, and what the data class's detail and summary reports return
 for the range.
 */
module ExportProduct {
  import opened Util
  import opened Text
  import opened Sorting
  import opened Tally
  import opened Calendar
  import opened Breaks
  import opened Schema
  import opened Reports
  import opened SheetTitle

  // ---------------------------------------------------------------- shifts

  datatype Shift = Morning | Afternoon | Overtime

  /** The shift column's value for each shift. */
  function ShiftName(s: Shift): string
  {
    match s
    case Morning => MorningShift
    case Afternoon => AfternoonShift
    case Overtime => OvertimeShift
  }

  /** 08:00 up to 12:30 is the morning, 12:30 up to 17:00 the afternoon, everything else overtime. */
  function ShiftOfMinutes(m: int): (r: Shift)
    ensures r == Morning <==> 480 <= m < 750
    ensures r == Afternoon <==> 750 <= m < 1020
    ensures r == Overtime <==> m < 480 || 1020 <= m
  {
    if 480 <= m < 750 then Morning
    else if 750 <= m < 1020 then Afternoon
    else Overtime
  }

  /** Within the working day a later time never falls in an earlier shift. */
  lemma ShiftsFollowTheClock(a: int, b: int)
    requires 480 <= a <= b < 1020
    ensures ShiftOfMinutes(a) == Afternoon ==> ShiftOfMinutes(b) == Afternoon
    ensures ShiftOfMinutes(b) == Morning ==> ShiftOfMinutes(a) == Morning
  {
  }

  predicate TwoDigitsAt(s: string, i: nat)
    requires i + 2 <= |s|
  {
    IsDigit(s[i]) && IsDigit(s[i + 1])
  }

  /** The hour and minute of an `H:i:s` or `H:i` time, when it is one. */
  function ReadClock(s: string): (r: Option<ClockTime>)
    ensures r.Some? ==> ValidTime(r.value)
  {
    if (|s| == 5 || |s| == 8) && TwoDigitsAt(s, 0) && s[2] == ':' && TwoDigitsAt(s, 3) &&
       (|s| == 8 ==> s[5] == ':' && TwoDigitsAt(s, 6))
    then
      var t := ClockTime(ReadNum(s[..2]), ReadNum(s[3..5]));
      var sec := if |s| == 8 then ReadNum(s[6..8]) else 0;
      if ValidTime(t) && sec < 60 then Some(t) else None
    else None
  }

  /** `format('H:i:s')`. */
  function FormatClock(t: ClockTime, sec: nat): (r: string)
    requires ValidTime(t) && sec < 60
    ensures |r| == 8
  {
    Pad2(t.hour) + ":" + Pad2(t.minute) + ":" + Pad2(sec)
  }

  /** Reading a rendered time gives its hour and minute back. */
  lemma ReadFormattedClock(t: ClockTime, sec: nat)
    requires ValidTime(t) && sec < 60
    ensures ReadClock(FormatClock(t, sec)) == Some(t)
  {
    var s := FormatClock(t, sec);
    assert s[..2] == Pad2(t.hour);
    assert s[3..5] == Pad2(t.minute);
    assert s[6..8] == Pad2(sec);
  }

  /**
   `getShiftFromTime`. An empty time is the morning. Only `HH:MM[:SS]`
   clock times are read here; any other text is taken as minute 0, which
   is overtime. `strtotime` reads more forms than this and `date` formats
   in the server's zone; both are set aside in the README.
   */
  function ShiftFromTime(time: string): (r: Shift)
    ensures Empty(time) ==> r == Morning
    ensures !Empty(time) && ReadClock(time).None? ==> r == Overtime
  {
    if Empty(time) then Morning
    else
      match ReadClock(time)
      case Some(t) => ShiftOfMinutes(MinuteOfDay(t))
      case None => ShiftOfMinutes(0)
  }

  /** A record's `H:i:s` time falls in the shift its minute of day belongs to. */
  lemma ShiftOfRecordTime(t: ClockTime, sec: nat)
    requires ValidTime(t) && sec < 60
    ensures ShiftFromTime(FormatClock(t, sec)) == ShiftOfMinutes(MinuteOfDay(t))
  {
    ReadFormattedClock(t, sec);
  }

  // ------------------------------------------------------------- QC source

  /** A QC row of the range query: item and qty may be NULL; created_at is its date and `H:i:s` time. */
  datatype QcRow = QcRow(item: Option<string>, qty: Option<int>, day: Date, time: string)

  /** One QC table: absent, failing, or its rows in created_at order. */
  datatype QcTable = NoQcTable | QcFails | QcRows(rows: seq<QcRow>)

  /** `DATE(created_at) BETWEEN :start_date AND :end_date`, for any three dates. */
  predicate Within(d: Date, s: Date, e: Date)
  {
    Valid(d) && Valid(s) && Valid(e) && DayNumber(s) <= DayNumber(d) <= DayNumber(e)
  }

  function QcTableOf(qc: map<Line, QcTable>, l: Line): QcTable
  {
    if l in qc then qc[l] else NoQcTable
  }

  /**
   `fetchQualityControlItems`. The sub line has no QC table, and neither
   has an unknown line code; a missing table or a failing query gives
   nothing as well.
   */
  function FetchQcItems(qc: map<Line, QcTable>, code: string, s: Date, e: Date): (r: seq<QcRow>)
    ensures LineOfCode(code).None? || LineOfCode(code) == Some(Sub) ==> r == []
    ensures forall x :: x in r <==>
      exists l :: LineOfCode(code) == Some(l) && l != Sub && QcTableOf(qc, l).QcRows? &&
                  x in QcTableOf(qc, l).rows && Within(x.day, s, e)
  {
    match LineOfCode(code)
    case None => []
    case Some(l) =>
      if l == Sub then []
      else
        match QcTableOf(qc, l)
        case QcRows(rows) => Filter(rows, (x: QcRow) => Within(x.day, s, e))
        case _ => []
  }

  /** `(int)($qcRecord['qty'] ?? 1)`: a row without a quantity counts as one piece. */
  function QcQty(x: QcRow): int
  {
    match x.qty
    case None => 1
    case Some(q) => q
  }

  /** The inspected pieces of the summary sheet. */
  function QcTotal(rows: seq<QcRow>): (r: int)
    ensures (forall i :: 0 <= i < |rows| ==> rows[i].qty.None?) ==> r == |rows|
    ensures (forall i :: 0 <= i < |rows| ==> QcQty(rows[i]) >= 0) ==> r >= 0
    decreases |rows|
  {
    if |rows| == 0 then 0 else QcTotal(rows[..|rows| - 1]) + QcQty(rows[|rows| - 1])
  }

  // ------------------------------------------------------------- man-hours

  /** The weights of the kept rows, added up. */
  function ManSum(rows: seq<ManActRow>, keep: ManActRow -> bool, weight: ManActRow -> real): real
    decreases |rows|
  {
    if |rows| == 0 then 0.0
    else
      var x := rows[|rows| - 1];
      ManSum(rows[..|rows| - 1], keep, weight) + (if keep(x) then weight(x) else 0.0)
  }

  /** Keeping the rows of either of two disjoint filters sums to the two sums added. */
  lemma {:induction false} ManSumSplit(rows: seq<ManActRow>, keep: ManActRow -> bool, k1: ManActRow -> bool, k2: ManActRow -> bool, weight: ManActRow -> real)
    requires forall i :: 0 <= i < |rows| ==> (keep(rows[i]) <==> k1(rows[i]) || k2(rows[i])) && !(k1(rows[i]) && k2(rows[i]))
    ensures ManSum(rows, keep, weight) == ManSum(rows, k1, weight) + ManSum(rows, k2, weight)
    decreases |rows|
  {
    if |rows| > 0 {
      var init := rows[..|rows| - 1];
      assert forall i :: 0 <= i < |init| ==> init[i] == rows[i];
      ManSumSplit(init, keep, k1, k2, weight);
    }
  }

  /** Sums agree when the weights agree on every kept row. */
  lemma {:induction false} ManSumAgree(rows: seq<ManActRow>, keep: ManActRow -> bool, w1: ManActRow -> real, w2: ManActRow -> real)
    requires forall i :: 0 <= i < |rows| && keep(rows[i]) ==> w1(rows[i]) == w2(rows[i])
    ensures ManSum(rows, keep, w1) == ManSum(rows, keep, w2)
    decreases |rows|
  {
    if |rows| > 0 {
      var init := rows[..|rows| - 1];
      assert forall i :: 0 <= i < |init| ==> init[i] == rows[i];
      ManSumAgree(init, keep, w1, w2);
    }
  }

  lemma {:induction false} ManSumNonNegative(rows: seq<ManActRow>, keep: ManActRow -> bool, weight: ManActRow -> real)
    requires forall i :: 0 <= i < |rows| && keep(rows[i]) ==> weight(rows[i]) >= 0.0
    ensures ManSum(rows, keep, weight) >= 0.0
    decreases |rows|
  {
    if |rows| > 0 {
      var init := rows[..|rows| - 1];
      assert forall i :: 0 <= i < |init| ==> init[i] == rows[i];
      ManSumNonNegative(init, keep, weight);
    }
  }

  /** `shift = :work_shift AND DATE(created_at) BETWEEN … AND {line}_act > 0`. */
  predicate Matches(r: ManActRow, l: Line, shift: string, s: Date, e: Date)
  {
    r.shift == Some(shift) && Within(r.day, s, e) && Crew(r, l) > 0
  }

  /** man_count × (thour ?? 1.0). */
  function RangeWeight(l: Line): ManActRow -> real
  {
    r => (Crew(r, l) as real) * HoursOr(r, 1.0)
  }

  /** thour × man_count, which `SUM` skips when thour is NULL. */
  function DayWeight(l: Line): ManActRow -> real
  {
    r => (Crew(r, l) as real) * HoursOr(r, 0.0)
  }

  /** `calculateManHours`: an unknown line or a failing query gives 0. */
  function ManHours(src: ManSource, code: string, s: Date, e: Date, shift: string): (r: real)
    ensures LineOfCode(code).None? || !src.ok ==> r == 0.0
    ensures (forall i :: 0 <= i < |src.rows| ==> HoursOr(src.rows[i], 1.0) >= 0.0) ==> r >= 0.0
  {
    match LineOfCode(code)
    case None => 0.0
    case Some(l) =>
      if !src.ok then 0.0
      else
        ManSumNonNegativeIf(src.rows, r => Matches(r, l, shift, s, e), RangeWeight(l), 1.0, l);
        ManSum(src.rows, r => Matches(r, l, shift, s, e), RangeWeight(l))
  }

  /** `calculateDailyManHours`: rows with a NULL thour add nothing; no rows gives 0. */
  function DailyManHours(src: ManSource, code: string, d: Date, shift: string): (r: real)
    ensures LineOfCode(code).None? || !src.ok ==> r == 0.0
    ensures (forall i :: 0 <= i < |src.rows| ==> HoursOr(src.rows[i], 0.0) >= 0.0) ==> r >= 0.0
  {
    match LineOfCode(code)
    case None => 0.0
    case Some(l) =>
      if !src.ok then 0.0
      else
        ManSumNonNegativeIf(src.rows, r => Matches(r, l, shift, d, d), DayWeight(l), 0.0, l);
        ManSum(src.rows, r => Matches(r, l, shift, d, d), DayWeight(l))
  }

  /** The non-negativity of the man-hour sums, stated as an implication so that functions can use it. */
  lemma ManSumNonNegativeIf(rows: seq<ManActRow>, keep: ManActRow -> bool, weight: ManActRow -> real, fallback: real, l: Line)
    requires forall r :: keep(r) ==> Crew(r, l) > 0
    requires forall r :: weight(r) == (Crew(r, l) as real) * HoursOr(r, fallback)
    ensures (forall i :: 0 <= i < |rows| ==> HoursOr(rows[i], fallback) >= 0.0) ==> ManSum(rows, keep, weight) >= 0.0
  {
    if forall i :: 0 <= i < |rows| ==> HoursOr(rows[i], fallback) >= 0.0 {
      ManSumNonNegative(rows, keep, weight);
    }
  }

  /** The range man-hours of one day are its daily man-hours, as long as no matching row lacks its hours. */
  lemma DailyIsOneDayRange(src: ManSource, code: string, d: Date, shift: string)
    requires forall i :: 0 <= i < |src.rows| ==> src.rows[i].thour.Some?
    ensures DailyManHours(src, code, d, shift) == ManHours(src, code, d, d, shift)
  {
    match LineOfCode(code)
    case None =>
    case Some(l) =>
      ManSumAgree(src.rows, r => Matches(r, l, shift, d, d), DayWeight(l), RangeWeight(l));
  }

  /** A range of man-hours splits at any day inside it. */
  lemma ManHoursSplit(src: ManSource, code: string, s: Date, m: Date, e: Date, shift: string)
    requires Valid(s) && Valid(m) && Valid(e)
    requires DayNumber(s) <= DayNumber(m) < DayNumber(e)
    ensures ManHours(src, code, s, e, shift) == ManHours(src, code, s, m, shift) + ManHours(src, code, Next(m), e, shift)
  {
    match LineOfCode(code)
    case None =>
    case Some(l) =>
      if src.ok {
        ManSumSplit(src.rows, r => Matches(r, l, shift, s, e), r => Matches(r, l, shift, s, m),
                    r => Matches(r, l, shift, Next(m), e), RangeWeight(l));
      }
  }

  /**
   The summary sheet and the daily sheet disagree on a row without its
   hours: the range sum counts it as one hour, the day's `SUM` as none.
   */
  lemma NullHoursCountDifferently()
    ensures var d := Date(2024, 1, 8);
            var src := ManSource(true, [ManActRow(d, None, Some(MorningShift), 5, 0, 0, 0, 0, 0)]);
            ManHours(src, "fc", d, d, MorningShift) == 5.0 && DailyManHours(src, "fc", d, MorningShift) == 0.0
  {
    var d := Date(2024, 1, 8);
    var row := ManActRow(d, None, Some(MorningShift), 5, 0, 0, 0, 0, 0);
    var rows := [row];
    assert rows[..0] == [];
    assert Matches(row, FC, MorningShift, d, d);
    assert ManSum(rows, r => Matches(r, FC, MorningShift, d, d), RangeWeight(FC)) == 5.0;
    assert ManSum(rows, r => Matches(r, FC, MorningShift, d, d), DayWeight(FC)) == 0.0;
  }

  // ------------------------------------------------------------ date range

  const InvalidRangeMessage: string := "Invalid date range provided"

  /**
   The range parameters: start defaults to today and end to start; both
   must read as `Y-m-d` dates and end must not precede start.
   */
  function ExportRange(startParam: Option<string>, endParam: Option<string>, today: Date): (r: Result<(Date, Date)>)
    requires Valid(today) && today.year < 10000
    ensures r.Failure? ==> r.message == InvalidRangeMessage
    ensures r.Success? ==> Valid(r.value.0) && Valid(r.value.1) && r.value.0.year < 10000 && r.value.1.year < 10000
    ensures r.Success? ==> DayNumber(r.value.0) <= DayNumber(r.value.1)
    ensures r.Success? && startParam.Some? ==> FormatYmd(r.value.0) == startParam.value
    ensures r.Success? && endParam.Some? ==> FormatYmd(r.value.1) == endParam.value
    ensures startParam.None? && endParam.None? ==> r == Success((today, today))
    ensures r.Success? && startParam.None? ==> r.value.0 == today
    ensures r.Success? && endParam.None? ==> r.value.1 == r.value.0
  {
    ParseFormat(today);
    var start := match startParam case None => FormatYmd(today) case Some(x) => x;
    var end := match endParam case None => start case Some(y) => y;
    match ParseYmd(start)
    case None => Failure(InvalidRangeMessage)
    case Some(a) =>
      match ParseYmd(end)
      case None => Failure(InvalidRangeMessage)
      case Some(b) =>
        FormatParse(start);
        FormatParse(end);
        if DayNumber(b) < DayNumber(a) then Failure(InvalidRangeMessage) else Success((a, b))
  }

  /** Rendered dates are accepted exactly when they are in order. */
  lemma ExportRangeOfDates(a: Date, b: Date, today: Date)
    requires Valid(a) && a.year < 10000 && Valid(b) && b.year < 10000
    requires Valid(today) && today.year < 10000
    ensures DayNumber(a) <= DayNumber(b) ==> ExportRange(Some(FormatYmd(a)), Some(FormatYmd(b)), today) == Success((a, b))
    ensures DayNumber(b) < DayNumber(a) ==> ExportRange(Some(FormatYmd(a)), Some(FormatYmd(b)), today) == Failure(InvalidRangeMessage)
    ensures ExportRange(Some(FormatYmd(a)), None, today) == Success((a, a))
  {
    ParseFormat(a);
    ParseFormat(b);
  }

  // --------------------------------------------------------- summary sheet

  /** The names the workbook shows for the lines. */
  function LineName(l: Line): string
  {
    match l
    case FC => "F/C"
    case FB => "F/B"
    case RC => "R/C"
    case RB => "R/B"
    case Third => "3RD"
    case Sub => "Sub"
  }

  /** The data rows of the summary sheet begin on sheet row 5. */
  const FirstSummaryRow: nat := 5

  /** One summary row; total is the row's `SUM` of the three shifts. */
  datatype SummaryRow = SummaryRow(name: string, produced: int, inspected: int, models: int,
                                   morning: real, afternoon: real, overtime: real, total: real)

  function SummaryRowOf(l: Line, ls: LineSummary, qc: map<Line, QcTable>, man: ManSource, s: Date, e: Date): (r: SummaryRow)
    ensures r.total == r.morning + r.afternoon + r.overtime
  {
    var code := LineKey(l);
    var m := ManHours(man, code, s, e, MorningShift);
    var a := ManHours(man, code, s, e, AfternoonShift);
    var o := ManHours(man, code, s, e, OvertimeShift);
    SummaryRow(LineName(l), ls.totalQty, QcTotal(FetchQcItems(qc, code, s, e)), ls.uniqueItems, m, a, o, m + a + o)
  }

  /** The summary sheet: one row per line of the data class's summary, in its order, row k on sheet row 5 + k. */
  function SummarySheet(summary: seq<LineSummary>, qc: map<Line, QcTable>, man: ManSource, s: Date, e: Date): (r: seq<SummaryRow>)
    requires |summary| == |AllLines|
    ensures |r| == |AllLines|
    ensures forall k :: 0 <= k < |r| ==>
      r[k].name == LineName(AllLines[k]) &&
      r[k].produced == summary[k].totalQty && r[k].models == summary[k].uniqueItems &&
      r[k].total == r[k].morning + r[k].afternoon + r[k].overtime
  {
    seq(|AllLines|, k requires 0 <= k < |AllLines| => SummaryRowOf(AllLines[k], summary[k], qc, man, s, e))
  }

  /** The sub line inspects nothing, and a failing man-hour table zeroes every man-hour cell. */
  lemma SummarySheetFallbacks(summary: seq<LineSummary>, qc: map<Line, QcTable>, man: ManSource, s: Date, e: Date)
    requires |summary| == |AllLines|
    ensures SummarySheet(summary, qc, man, s, e)[5].inspected == 0
    ensures !man.ok ==> forall k :: 0 <= k < |AllLines| ==> SummarySheet(summary, qc, man, s, e)[k].total == 0.0
  {
    assert LineKey(AllLines[5]) == "sub";
    assert FetchQcItems(qc, "sub", s, e) == [];
    if !man.ok {
      forall k | 0 <= k < |AllLines|
        ensures SummarySheet(summary, qc, man, s, e)[k].total == 0.0
      {
        var l := AllLines[k];
        assert LineOfCode(LineKey(l)) == Some(l);
      }
    }
  }

  // ------------------------------------------------------ daily man-hours

  /** One row of the daily sheet. */
  datatype DailyManRow = DailyManRow(day: Date, name: string, morning: real, afternoon: real, overtime: real, total: real)

  /** The row of one day and line, skipped when the three shifts add up to 0. */
  function DailyEntry(man: ManSource, d: Date, l: Line): (r: Option<DailyManRow>)
    ensures r.Some? <==>
      DailyManHours(man, LineKey(l), d, MorningShift) + DailyManHours(man, LineKey(l), d, AfternoonShift) +
      DailyManHours(man, LineKey(l), d, OvertimeShift) != 0.0
    ensures r.Some? ==>
      r.value.day == d && r.value.name == LineName(l) &&
      r.value.morning == DailyManHours(man, LineKey(l), d, MorningShift) &&
      r.value.afternoon == DailyManHours(man, LineKey(l), d, AfternoonShift) &&
      r.value.overtime == DailyManHours(man, LineKey(l), d, OvertimeShift) &&
      r.value.total == r.value.morning + r.value.afternoon + r.value.overtime
  {
    var code := LineKey(l);
    var m := DailyManHours(man, code, d, MorningShift);
    var a := DailyManHours(man, code, d, AfternoonShift);
    var o := DailyManHours(man, code, d, OvertimeShift);
    if m + a + o == 0.0 then None else Some(DailyManRow(d, LineName(l), m, a, o, m + a + o))
  }

  /** Every day paired with every line, day by day in line order. */
  function DayLinePairs(days: seq<Date>): (r: seq<(Date, Line)>)
    ensures |r| == |AllLines| * |days|
    ensures forall p :: p in r <==> p.0 in days
    decreases |days|
  {
    if |days| == 0 then []
    else
      var d := days[|days| - 1];
      var init := days[..|days| - 1];
      assert forall x :: x in days <==> x in init || x == d;
      var block := [(d, FC), (d, FB), (d, RC), (d, RB), (d, Third), (d, Sub)];
      assert forall p: (Date, Line) :: p in block <==> p.0 == d by {
        forall p: (Date, Line) | p.0 == d
          ensures p in block
        {
          AllLinesComplete(p.1);
        }
      }
      DayLinePairs(init) + block
  }

  function DailyEntryOf(man: ManSource): ((Date, Line)) -> Option<DailyManRow>
  {
    (p: (Date, Line)) => DailyEntry(man, p.0, p.1)
  }

  /** The daily man-hour sheet of the range. */
  function DailyManSheet(man: ManSource, s: Date, e: Date): seq<DailyManRow>
    requires Valid(s) && Valid(e)
  {
    Collect(DayLinePairs(DateRange(s, e)), DailyEntryOf(man))
  }

  /** The sheet has a row for a day and line exactly when the day is in the range and its man-hours are not 0. */
  lemma DailyManSheetRows(man: ManSource, s: Date, e: Date)
    requires Valid(s) && Valid(e)
    ensures |DailyManSheet(man, s, e)| <= |AllLines| * |DateRange(s, e)|
    ensures forall row :: row in DailyManSheet(man, s, e) <==>
      exists d, l :: d in DateRange(s, e) && DailyEntry(man, d, l) == Some(row)
  {
    var days, f := DateRange(s, e), DailyEntryOf(man);
    CollectOverPairs(days, f);
    forall row | row in DailyManSheet(man, s, e)
      ensures exists d, l :: d in days && DailyEntry(man, d, l) == Some(row)
    {
      var d, l :| d in days && f((d, l)) == Some(row);
      assert DailyEntry(man, d, l) == Some(row);
    }
    forall row, d, l | d in days && DailyEntry(man, d, l) == Some(row)
      ensures row in DailyManSheet(man, s, e)
    {
      assert f((d, l)) == Some(row);
    }
  }

  /** Collecting over the day-line pairs keeps the present results of the pairs of the given days. */
  lemma CollectOverPairs<B>(days: seq<Date>, f: ((Date, Line)) -> Option<B>)
    ensures |Collect(DayLinePairs(days), f)| <= |AllLines| * |days|
    ensures forall y :: y in Collect(DayLinePairs(days), f) <==> exists d, l :: d in days && f((d, l)) == Some(y)
  {
    forall y | y in Collect(DayLinePairs(days), f)
      ensures exists d, l :: d in days && f((d, l)) == Some(y)
    {
      CollectedPairIsOfDays(days, f, y);
    }
    forall y, d, l | d in days && f((d, l)) == Some(y)
      ensures y in Collect(DayLinePairs(days), f)
    {
      PairOfDaysIsCollected(days, f, y, d, l);
    }
  }

  lemma CollectedPairIsOfDays<B>(days: seq<Date>, f: ((Date, Line)) -> Option<B>, y: B)
    ensures y in Collect(DayLinePairs(days), f) ==> exists d, l :: d in days && f((d, l)) == Some(y)
  {
    var pairs := DayLinePairs(days);
    CollectMembers(pairs, f);
    if y in Collect(pairs, f) {
      var i :| 0 <= i < |pairs| && f(pairs[i]) == Some(y);
      var d, l := pairs[i].0, pairs[i].1;
      assert pairs[i] in pairs;
      assert pairs[i] == (d, l);
      assert d in days && f((d, l)) == Some(y);
    }
  }

  lemma PairOfDaysIsCollected<B>(days: seq<Date>, f: ((Date, Line)) -> Option<B>, y: B, d: Date, l: Line)
    requires d in days && f((d, l)) == Some(y)
    ensures y in Collect(DayLinePairs(days), f)
  {
    var pairs := DayLinePairs(days);
    CollectMembers(pairs, f);
    assert (d, l) in pairs;
    var i :| 0 <= i < |pairs| && pairs[i] == (d, l);
    assert f(pairs[i]) == Some(y);
  }

  // --------------------------------------------------------- detail pairing

  /**
   A row of the data class's detail report: item and qty may be NULL, and
   created_at is given as its date and `H:i:s` time. The report has no
   model column, so the model of a record is its item.
   */
  datatype DetailRecord = DetailRecord(item: Option<string>, qty: Option<int>, day: Date, time: string)

  /** `$prodRecord['model'] ?? $prodRecord['item'] ?? ''`. */
  function ModelName(r: DetailRecord): string
  {
    match r.item
    case None => ""
    case Some(i) => i
  }

  /** `$prodRecord['qty'] ?? 0`. */
  function ProdQty(r: DetailRecord): int
  {
    match r.qty
    case None => 0
    case Some(q) => q
  }

  /** `$qcRecord['item'] ?? ''`. */
  function ComponentName(x: QcRow): string
  {
    match x.item
    case None => ""
    case Some(i) => i
  }

  function RecordDay(r: DetailRecord): Date { r.day }

  function QcDay(x: QcRow): Date { x.day }

  datatype ProdEntry = ProdEntry(model: string, qty: int, time: string)

  datatype QcEntry = QcEntry(component: string, qty: int, time: string)

  /** The production records of one date, in order. */
  function ProdOn(recs: seq<DetailRecord>, d: Date): (r: seq<ProdEntry>)
    ensures |r| == CountWith(recs, RecordDay, d)
    decreases |recs|
  {
    if |recs| == 0 then []
    else
      var x := recs[|recs| - 1];
      ProdOn(recs[..|recs| - 1], d) + (if x.day == d then [ProdEntry(ModelName(x), ProdQty(x), x.time)] else [])
  }

  /** The QC records of one date, in order. */
  function QcOn(rows: seq<QcRow>, d: Date): (r: seq<QcEntry>)
    ensures |r| == CountWith(rows, QcDay, d)
    decreases |rows|
  {
    if |rows| == 0 then []
    else
      var x := rows[|rows| - 1];
      QcOn(rows[..|rows| - 1], d) + (if x.day == d then [QcEntry(ComponentName(x), QcQty(x), x.time)] else [])
  }

  /** A quantity cell: a number, or the empty string. */
  datatype Cell = Blank | Num(n: int)

  datatype DetailRow = DetailRow(model: string, component: string, qty: Cell, day: Date, time: string)

  /**
   The i-th row of a date: production's model, QC's part, production's
   quantity unless it is 0 or absent (then QC's), production's time unless
   it is empty (then QC's).
   */
  function PairRow(p: seq<ProdEntry>, q: seq<QcEntry>, d: Date, i: nat): DetailRow
  {
    var model := if i < |p| then p[i].model else "";
    var component := if i < |q| then q[i].component else "";
    var qty := if i < |p| && p[i].qty != 0 then Num(p[i].qty) else if i < |q| then Num(q[i].qty) else Blank;
    var ptime := if i < |p| then p[i].time else "";
    var qtime := if i < |q| then q[i].time else "";
    DetailRow(model, component, qty, d, if Truthy(ptime) then ptime else qtime)
  }

  /** The rows of one date: as many as the longer of its two record lists. */
  function PairDay(p: seq<ProdEntry>, q: seq<QcEntry>, d: Date): (r: seq<DetailRow>)
    ensures |r| == Max(|p|, |q|)
    ensures forall i :: 0 <= i < |r| ==> r[i] == PairRow(p, q, d, i)
  {
    seq(Max(|p|, |q|), i requires 0 <= i < Max(|p|, |q|) => PairRow(p, q, d, i))
  }

  /** Every production record of the date shows its model, and its quantity when that is not 0. */
  lemma PairDayKeepsProduction(p: seq<ProdEntry>, q: seq<QcEntry>, d: Date, i: nat)
    requires i < |p|
    ensures i < |PairDay(p, q, d)|
    ensures PairDay(p, q, d)[i].model == p[i].model
    ensures p[i].qty != 0 ==> PairDay(p, q, d)[i].qty == Num(p[i].qty)
    ensures p[i].qty == 0 && i >= |q| ==> PairDay(p, q, d)[i].qty == Blank
  {
  }

  /** The dates with production or QC records, in ascending order. */
  function DetailDates(recs: seq<DetailRecord>, qc: seq<QcRow>): (r: seq<Date>)
    ensures StrictlySorted(r, DateLess)
    ensures Distinct(r)
    ensures forall d :: d in r <==> (exists i :: 0 <= i < |recs| && recs[i].day == d) || (exists j :: 0 <= j < |qc| && qc[j].day == d)
  {
    DateLessIsStrictTotalOrder();
    var r := SortUnique(RecordDays(recs) + QcDays(qc), DateLess);
    StrictlySortedDistinct(r, DateLess);
    r
  }

  function RecordDays(recs: seq<DetailRecord>): (r: seq<Date>)
    ensures forall d :: d in r <==> exists i :: 0 <= i < |recs| && recs[i].day == d
  {
    var r := seq(|recs|, i requires 0 <= i < |recs| => recs[i].day);
    assert forall d :: d in r <==> exists i :: 0 <= i < |recs| && recs[i].day == d by {
      forall d | d in r
        ensures exists i :: 0 <= i < |recs| && recs[i].day == d
      {
        var i :| 0 <= i < |r| && r[i] == d;
      }
      forall d | exists i :: 0 <= i < |recs| && recs[i].day == d
        ensures d in r
      {
        var i :| 0 <= i < |recs| && recs[i].day == d;
        assert r[i] == d;
      }
    }
    r
  }

  function QcDays(qc: seq<QcRow>): (r: seq<Date>)
    ensures forall d :: d in r <==> exists j :: 0 <= j < |qc| && qc[j].day == d
  {
    var r := seq(|qc|, j requires 0 <= j < |qc| => qc[j].day);
    assert forall d :: d in r <==> exists j :: 0 <= j < |qc| && qc[j].day == d by {
      forall d | d in r
        ensures exists j :: 0 <= j < |qc| && qc[j].day == d
      {
        var j :| 0 <= j < |r| && r[j] == d;
      }
      forall d | exists j :: 0 <= j < |qc| && qc[j].day == d
        ensures d in r
      {
        var j :| 0 <= j < |qc| && qc[j].day == d;
        assert r[j] == d;
      }
    }
    r
  }

  /** The rows of the given dates, date after date. */
  function RowsOverDays(recs: seq<DetailRecord>, qc: seq<QcRow>, ds: seq<Date>): seq<DetailRow>
    decreases |ds|
  {
    if |ds| == 0 then []
    else
      var d := ds[|ds| - 1];
      RowsOverDays(recs, qc, ds[..|ds| - 1]) + PairDay(ProdOn(recs, d), QcOn(qc, d), d)
  }

  lemma {:induction false} RowsOverDaysLength(recs: seq<DetailRecord>, qc: seq<QcRow>, ds: seq<Date>)
    ensures CountOverKeys(recs, RecordDay, ds) <= |RowsOverDays(recs, qc, ds)|
    ensures CountOverKeys(qc, QcDay, ds) <= |RowsOverDays(recs, qc, ds)|
    ensures |RowsOverDays(recs, qc, ds)| <= CountOverKeys(recs, RecordDay, ds) + CountOverKeys(qc, QcDay, ds)
    decreases |ds|
  {
    if |ds| > 0 {
      RowsOverDaysLength(recs, qc, ds[..|ds| - 1]);
    }
  }

  /** The rows of a detail sheet, left-hand columns. */
  function DetailRows(recs: seq<DetailRecord>, qc: seq<QcRow>): seq<DetailRow>
  {
    RowsOverDays(recs, qc, DetailDates(recs, qc))
  }

  /**
   No record is lost and none is shown twice over: the sheet has at least
   as many rows as either list has records, and at most both together.
   */
  lemma DetailRowCount(recs: seq<DetailRecord>, qc: seq<QcRow>)
    ensures Max(|recs|, |qc|) <= |DetailRows(recs, qc)| <= |recs| + |qc|
  {
    var ds := DetailDates(recs, qc);
    forall i | 0 <= i < |recs|
      ensures RecordDay(recs[i]) in ds
    {
    }
    forall j | 0 <= j < |qc|
      ensures QcDay(qc[j]) in ds
    {
    }
    CountOverKeysCovers(recs, RecordDay, ds);
    CountOverKeysCovers(qc, QcDay, ds);
    RowsOverDaysLength(recs, qc, ds);
  }

  // ------------------------------------------------ per (date, model) summary

  type ModelKey = (Date, string)

  predicate HasModel(r: DetailRecord) { Truthy(ModelName(r)) }

  function ModelKeyOf(r: DetailRecord): ModelKey { (r.day, ModelName(r)) }

  /**
   The production summary of a detail sheet: quantities per (date, model),
   in order of first appearance, over the records whose model is not
   empty. The source keys by `date|model`; a `Y-m-d` date has a fixed
   width, so that key and the pair determine each other.
   */
  function ProductionSummary(recs: seq<DetailRecord>): Tally<ModelKey>
  {
    Group(PairsOf(recs, HasModel, ModelKeyOf, ProdQty))
  }

  /** The total production of (d, m): the quantities of the records of date d with model m. */
  function ModelQty(recs: seq<DetailRecord>, d: Date, m: string): int
    decreases |recs|
  {
    if |recs| == 0 then 0
    else
      var x := recs[|recs| - 1];
      ModelQty(recs[..|recs| - 1], d, m) + (if x.day == d && ModelName(x) == m then ProdQty(x) else 0)
  }

  lemma {:induction false} ModelQtyIsSumWhere(recs: seq<DetailRecord>, d: Date, m: string)
    requires Truthy(m)
    ensures SumWhere(recs, HasModel, ModelKeyOf, ProdQty, (d, m)) == ModelQty(recs, d, m)
    decreases |recs|
  {
    if |recs| > 0 {
      ModelQtyIsSumWhere(recs[..|recs| - 1], d, m);
    }
  }

  /**
   The production summary has one entry per (date, model) some record with
   a non-empty model carries, and that entry's total is the pair's
   production.
   */
  lemma ProductionSummarySpec(recs: seq<DetailRecord>)
    ensures Distinct(Keys(ProductionSummary(recs)))
    ensures forall d, m :: Has(ProductionSummary(recs), (d, m)) <==>
      Truthy(m) && exists i :: 0 <= i < |recs| && recs[i].day == d && ModelName(recs[i]) == m
    ensures forall d, m :: Truthy(m) ==> Get(ProductionSummary(recs), (d, m)) == ModelQty(recs, d, m)
  {
    var t := ProductionSummary(recs);
    GroupOfPairs(recs, HasModel, ModelKeyOf, ProdQty);
    forall d, m
      ensures Has(t, (d, m)) <==> Truthy(m) && exists i :: 0 <= i < |recs| && recs[i].day == d && ModelName(recs[i]) == m
    {
      var k := (d, m);
      assert Has(t, k) <==> exists i :: 0 <= i < |recs| && HasModel(recs[i]) && ModelKeyOf(recs[i]) == k;
      if Truthy(m) && exists i :: 0 <= i < |recs| && recs[i].day == d && ModelName(recs[i]) == m {
        var i :| 0 <= i < |recs| && recs[i].day == d && ModelName(recs[i]) == m;
        assert HasModel(recs[i]) && ModelKeyOf(recs[i]) == k;
      }
    }
    forall d, m | Truthy(m)
      ensures Get(ProductionSummary(recs), (d, m)) == ModelQty(recs, d, m)
    {
      ModelQtyIsSumWhere(recs, d, m);
    }
  }

  // ------------------------------------------------- man-hour allocation

  /** The production of date d over all models of the summary. */
  function DayQty(t: Tally<ModelKey>, d: Date): int
    decreases |t|
  {
    if |t| == 0 then 0
    else DayQty(t[..|t| - 1], d) + (if t[|t| - 1].0.0 == d then t[|t| - 1].1 else 0)
  }

  /** A model's share of the day's man-hours: proportional to its quantity, and 0 when the day produced nothing. */
  function Share(dayManHours: real, qty: int, dayTotal: int): (r: real)
    ensures dayTotal <= 0 ==> r == 0.0
    ensures qty == 0 ==> r == 0.0
    ensures dayTotal > 0 ==> r * (dayTotal as real) == dayManHours * (qty as real)
  {
    if dayTotal > 0 then dayManHours * (qty as real) / (dayTotal as real) else 0.0
  }

  /** The man-hours of every summary entry, before rounding to two places. */
  function Allocations(t: Tally<ModelKey>, mh: Date -> real): (r: seq<real>)
    ensures |r| == |t|
    ensures forall i :: 0 <= i < |t| ==> r[i] == Share(mh(t[i].0.0), t[i].1, DayQty(t, t[i].0.0))
  {
    seq(|t|, i requires 0 <= i < |t| => Share(mh(t[i].0.0), t[i].1, DayQty(t, t[i].0.0)))
  }

  /** The values of xs that belong to the entries of date d. */
  function SumOnDay(t: Tally<ModelKey>, xs: seq<real>, d: Date): real
    requires |xs| == |t|
    decreases |t|
  {
    if |t| == 0 then 0.0
    else SumOnDay(t[..|t| - 1], xs[..|t| - 1], d) + (if t[|t| - 1].0.0 == d then xs[|t| - 1] else 0.0)
  }

  lemma ShareIsRate(m: real, q: int, total: int)
    requires total > 0
    ensures Share(m, q, total) == (m / (total as real)) * (q as real)
  {
  }

  lemma RateTimesTotal(m: real, c: real)
    requires c > 0.0
    ensures (m / c) * c == m
  {
  }

  /** Amounts at the rate w per piece add up to w times the day's quantity. */
  lemma {:induction false} SharesSum(t: Tally<ModelKey>, xs: seq<real>, w: real, d: Date)
    requires |xs| == |t|
    requires forall i :: 0 <= i < |t| && t[i].0.0 == d ==> xs[i] == w * (t[i].1 as real)
    ensures SumOnDay(t, xs, d) == w * (DayQty(t, d) as real)
    decreases |t|
  {
    if |t| > 0 {
      var n := |t| - 1;
      SharesSum(t[..n], xs[..n], w, d);
      if t[n].0.0 == d {
        Distribute(w, DayQty(t[..n], d) as real, t[n].1 as real);
      }
    }
  }

  /** On a day that produced something, the models' shares add up to the day's man-hours. */
  lemma AllocationsSumToDayManHours(t: Tally<ModelKey>, mh: Date -> real, d: Date)
    requires DayQty(t, d) > 0
    ensures SumOnDay(t, Allocations(t, mh), d) == mh(d)
  {
    DaySharesSum(t, Allocations(t, mh), mh(d), d);
  }

  /** Shares of m in proportion to the quantities of day d add up to m. */
  lemma DaySharesSum(t: Tally<ModelKey>, xs: seq<real>, m: real, d: Date)
    requires DayQty(t, d) > 0 && |xs| == |t|
    requires forall i :: 0 <= i < |t| && t[i].0.0 == d ==> xs[i] == Share(m, t[i].1, DayQty(t, d))
    ensures SumOnDay(t, xs, d) == m
  {
    var D := DayQty(t, d);
    var w := m / (D as real);
    forall i | 0 <= i < |t| && t[i].0.0 == d
      ensures xs[i] == w * (t[i].1 as real)
    {
      ShareIsRate(m, t[i].1, D);
    }
    SharesSum(t, xs, w, d);
    RateTimesTotal(m, D as real);
  }

  /** The three shifts' daily man-hours of a line. */
  function DayManHours(man: ManSource, code: string): Date -> real
  {
    d => DailyManHours(man, code, d, MorningShift) + DailyManHours(man, code, d, AfternoonShift) +
         DailyManHours(man, code, d, OvertimeShift)
  }

  /** A row of the production summary columns: date, model, total, man-hours to two places. */
  datatype ModelRow = ModelRow(day: Date, model: string, qty: int, manHours: real)

  function ModelRows(recs: seq<DetailRecord>, man: ManSource, code: string): (r: seq<ModelRow>)
    ensures |r| == |ProductionSummary(recs)|
    ensures forall i :: 0 <= i < |r| ==>
      (r[i].day, r[i].model) == ProductionSummary(recs)[i].0 && r[i].qty == ProductionSummary(recs)[i].1 &&
      r[i].manHours == RoundTo2(Allocations(ProductionSummary(recs), DayManHours(man, code))[i])
  {
    var t := ProductionSummary(recs);
    var a := Allocations(t, DayManHours(man, code));
    seq(|t|, i requires 0 <= i < |t| => ModelRow(t[i].0.0, t[i].0.1, t[i].1, RoundTo2(a[i])))
  }

  // ------------------------------------------------------ QC part summary

  /** The item table as the mapping query sees it: rows, or an error, which leaves the mapping empty. */
  datatype ItemSource = ItemSource(ok: bool, rows: seq<ItemRow>)

  /** `$itemMapping[$key]`: the last row of the code, since later rows overwrite earlier ones. */
  function LookupItem(src: ItemSource, key: string): (r: Option<ItemRow>)
    ensures r.Some? ==> src.ok && r.value in src.rows && r.value.item == key
    ensures r.None? ==> !src.ok || forall i :: 0 <= i < |src.rows| ==> src.rows[i].item != key
    decreases |src.rows|
  {
    if !src.ok || |src.rows| == 0 then None
    else
      var last := src.rows[|src.rows| - 1];
      if last.item == key then Some(last)
      else
        var r := LookupItem(ItemSource(true, src.rows[..|src.rows| - 1]), key);
        assert forall i :: 0 <= i < |src.rows| - 1 ==> src.rows[..|src.rows| - 1][i] == src.rows[i];
        r
  }

  predicate HasComponent(x: QcRow) { Truthy(ComponentName(x)) }

  function PartKeyOf(x: QcRow): ModelKey { (x.day, ComponentName(x)) }

  /** A row of the QC summary columns: date, model, `AS-` part, nickname, total. */
  datatype PartRow = PartRow(day: Date, model: string, component: string, nickname: string, qty: int)

  /** The QC totals per (date, part), over the rows with a part. */
  function PartSummary(rows: seq<QcRow>): Tally<ModelKey>
  {
    Group(PairsOf(rows, HasComponent, PartKeyOf, QcQty))
  }

  function PartRowOf(k: ModelKey, qty: int, items: ItemSource): (r: PartRow)
    ensures r.component == "AS-" + k.1
  {
    var item := LookupItem(items, "AS-" + k.1);
    var model := match item case None => "" case Some(it) => OrEmpty(it.model);
    var nick := match item case None => "" case Some(it) => OrEmpty(it.nickname);
    PartRow(k.0, model, "AS-" + k.1, nick, qty)
  }

  function PartRows(rows: seq<QcRow>, items: ItemSource): (r: seq<PartRow>)
    ensures |r| == |PartSummary(rows)|
    ensures forall i :: 0 <= i < |r| ==> r[i] == PartRowOf(PartSummary(rows)[i].0, PartSummary(rows)[i].1, items)
  {
    var t := PartSummary(rows);
    seq(|t|, i requires 0 <= i < |t| => PartRowOf(t[i].0, t[i].1, items))
  }

  /** The total of (d, c): the quantities of the QC rows of date d and part c, a missing quantity counting one. */
  function PartQty(rows: seq<QcRow>, d: Date, c: string): int
    decreases |rows|
  {
    if |rows| == 0 then 0
    else
      var x := rows[|rows| - 1];
      PartQty(rows[..|rows| - 1], d, c) + (if x.day == d && ComponentName(x) == c then QcQty(x) else 0)
  }

  lemma {:induction false} PartQtyIsSumWhere(rows: seq<QcRow>, d: Date, c: string)
    requires Truthy(c)
    ensures SumWhere(rows, HasComponent, PartKeyOf, QcQty, (d, c)) == PartQty(rows, d, c)
    decreases |rows|
  {
    if |rows| > 0 {
      PartQtyIsSumWhere(rows[..|rows| - 1], d, c);
    }
  }

  /** One entry per (date, part) among rows with a part, totalling that pair's quantities. */
  lemma PartSummarySpec(rows: seq<QcRow>)
    ensures Distinct(Keys(PartSummary(rows)))
    ensures forall d, c :: Has(PartSummary(rows), (d, c)) <==>
      Truthy(c) && exists i :: 0 <= i < |rows| && rows[i].day == d && ComponentName(rows[i]) == c
    ensures forall d, c :: Truthy(c) ==> Get(PartSummary(rows), (d, c)) == PartQty(rows, d, c)
  {
    var t := PartSummary(rows);
    GroupOfPairs(rows, HasComponent, PartKeyOf, QcQty);
    forall d, c
      ensures Has(t, (d, c)) <==> Truthy(c) && exists i :: 0 <= i < |rows| && rows[i].day == d && ComponentName(rows[i]) == c
    {
      var k := (d, c);
      assert Has(t, k) <==> exists i :: 0 <= i < |rows| && HasComponent(rows[i]) && PartKeyOf(rows[i]) == k;
      if Truthy(c) && exists i :: 0 <= i < |rows| && rows[i].day == d && ComponentName(rows[i]) == c {
        var i :| 0 <= i < |rows| && rows[i].day == d && ComponentName(rows[i]) == c;
        assert HasComponent(rows[i]) && PartKeyOf(rows[i]) == k;
      }
    }
    forall d, c | Truthy(c)
      ensures Get(PartSummary(rows), (d, c)) == PartQty(rows, d, c)
    {
      PartQtyIsSumWhere(rows, d, c);
    }
  }

  // --------------------------------------------------------------- workbook

  datatype DetailSheet = DetailSheet(title: string, rows: seq<DetailRow>, models: seq<ModelRow>, parts: seq<PartRow>)

  datatype Workbook = Workbook(summary: seq<SummaryRow>, daily: seq<DailyManRow>, details: seq<DetailSheet>)

  datatype ExportResponse = Download(filename: string, book: Workbook) | ErrorPage(status: int, body: string)

  /** Everything the export reads besides the request. */
  datatype ExportInputs = ExportInputs(
    summary: seq<LineSummary>,          // getSummaryReport of the range, one entry per line
    detail: map<Line, seq<DetailRecord>>, // getDetailReport of the range; a line without an entry has no rows
    qc: map<Line, QcTable>,
    man: ManSource,
    items: ItemSource)

  function DetailOf(inp: ExportInputs, l: Line): seq<DetailRecord>
  {
    if l in inp.detail then inp.detail[l] else []
  }

  function DetailSheetOf(inp: ExportInputs, l: Line, s: Date, e: Date): (r: DetailSheet)
    ensures r.title == CleanDelete(LineName(l))
  {
    var code := LineKey(l);
    var recs := DetailOf(inp, l);
    var qcRows := FetchQcItems(inp.qc, code, s, e);
    DetailSheet(CleanDelete(LineName(l)), DetailRows(recs, qcRows), ModelRows(recs, inp.man, code), PartRows(qcRows, inp.items))
  }

  /** `production_report_<start>[_to_<end>].xlsx`. */
  function ExportFilename(start: string, end: string): (r: string)
    ensures |r| == (if start == end then 23 + |start| else 27 + |start| + |end|)
    ensures "production_report_" <= r
    ensures r[18..18 + |start|] == start
    ensures r[|r| - 5..] == ".xlsx"
    ensures start != end ==> r[18 + |start|..|r| - 5] == "_to_" + end
  {
    var tail := if start == end then "" else "_to_" + end;
    var name := "production_report_" + start + tail + ".xlsx";
    assert "production_report_" <= name;
    assert name[18..18 + |start|] == start;
    assert name[18 + |start|..|name| - 5] == tail;
    assert name[|name| - 5..] == ".xlsx";
    name
  }

  /**
   The export request. Anything but GET is refused with 405; a bad range
   ends in a 500 page carrying the error message; otherwise the workbook
   has the summary sheet, the daily man-hour sheet and one detail sheet
   per line.
   */
  function Export(httpMethod: string, startParam: Option<string>, endParam: Option<string>, today: Date, inp: ExportInputs): (r: ExportResponse)
    requires Valid(today) && today.year < 10000
    requires |inp.summary| == |AllLines|
    ensures httpMethod != "GET" ==> r == ErrorPage(405, "Method not allowed")
    ensures httpMethod == "GET" && ExportRange(startParam, endParam, today).Failure? ==>
      r == ErrorPage(500, "Export error: " + InvalidRangeMessage)
    ensures httpMethod == "GET" && ExportRange(startParam, endParam, today).Success? ==>
      var rg := ExportRange(startParam, endParam, today).value;
      r.Download? &&
      r.filename == ExportFilename(FormatYmd(rg.0), FormatYmd(rg.1)) &&
      r.book.summary == SummarySheet(inp.summary, inp.qc, inp.man, rg.0, rg.1) &&
      r.book.daily == DailyManSheet(inp.man, rg.0, rg.1) &&
      |r.book.summary| == |AllLines| && |r.book.details| == |AllLines| &&
      forall k :: 0 <= k < |AllLines| ==>
        r.book.details[k] == DetailSheetOf(inp, AllLines[k], rg.0, rg.1) &&
        r.book.details[k].title == CleanDelete(LineName(AllLines[k]))
  {
    if httpMethod != "GET" then ErrorPage(405, "Method not allowed")
    else
      var range := ExportRange(startParam, endParam, today);
      if range.Failure? then ErrorPage(500, "Export error: " + range.message)
      else
        var (s, e) := range.value;
        var start := match startParam case None => FormatYmd(today) case Some(x) => x;
        var end := match endParam case None => start case Some(y) => y;
        ExportRangeFormats(startParam, endParam, today);
        Download(ExportFilename(start, end),
                 Workbook(SummarySheet(inp.summary, inp.qc, inp.man, s, e), DailyManSheet(inp.man, s, e), DetailSheets(inp, s, e)))
  }

  /** One detail sheet per line, in line order. */
  function DetailSheets(inp: ExportInputs, s: Date, e: Date): (r: seq<DetailSheet>)
    ensures |r| == |AllLines|
    ensures forall k :: 0 <= k < |AllLines| ==> r[k] == DetailSheetOf(inp, AllLines[k], s, e)
  {
    seq(|AllLines|, k requires 0 <= k < |AllLines| => DetailSheetOf(inp, AllLines[k], s, e))
  }

  /** The dates of a successful range render as the given, or defaulted, parameters. */
  lemma ExportRangeFormats(startParam: Option<string>, endParam: Option<string>, today: Date)
    requires Valid(today) && today.year < 10000
    requires ExportRange(startParam, endParam, today).Success?
    ensures var rg := ExportRange(startParam, endParam, today).value;
      var start := match startParam case None => FormatYmd(today) case Some(x) => x;
      var end := match endParam case None => start case Some(y) => y;
      FormatYmd(rg.0) == start && FormatYmd(rg.1) == end
  {
  }

}

=== FILE: export_quality.dfy ===
/**
 The quality export: a workbook of defect (NG) and inspection totals for a
 range of days. The defect rows carry the process (line label), part,
 problem detail, lot, quantity and timestamp; the inspection rows of each
 line carry the part, quantity and timestamp; the item table gives every
 part its model and nickname.

 The sheets: a summary (per line, per problem with shares, per model), two
 cross-tabs of problems against nicknames and against models, trends per
 line, per problem and per model with one column per date, and the raw
 defect rows.

 The database reads become inputs: the rows the range queries return, the
 item rows, the set of inspection tables that exist, and the message of a
 failing query if one fails. Quantities are whole numbers, so the source's
 float sums are exact and modelled as integers.
 */
module ExportQuality {
  import opened Util
  import opened Text
  import opened Sorting
  import opened Tally
  import opened Calendar
  import opened Schema

  // ----------------------------------------------------------- percentages

  /** `safePercent`: a as a percentage of b, and 0 unless b is positive. */
  function SafePercent(a: real, b: real): (r: real)
    ensures b > 0.0 ==> r * b == a * 100.0
    ensures b <= 0.0 ==> r == 0.0
  {
    if b > 0.0 then a / b * 100.0 else 0.0
  }

  /** A part never exceeds its whole: the percentage stays within 0..100. */
  lemma SafePercentBounds(a: real, b: real)
    requires 0.0 <= a <= b
    ensures 0.0 <= SafePercent(a, b) <= 100.0
  {
    if b > 0.0 {
      assert SafePercent(a, b) * b <= 100.0 * b;
    }
  }

  /** The value a percentage cell holds: `safePercent(a, b) / 100`, or `a / b` guarded by `b > 0`. */
  function Fraction(a: int, b: int): (r: real)
    ensures b > 0 ==> r * (b as real) == a as real
    ensures b <= 0 ==> r == 0.0
  {
    SafePercent(a as real, b as real) / 100.0
  }

  lemma FractionIsRatio(a: int, b: int)
    requires b > 0
    ensures Fraction(a, b) == (a as real) / (b as real)
  {
  }

  // ------------------------------------------------------------- the range

  const FormatError: string := "Invalid date format."

  /** `$_GET['start_date'] ?? date('Y-m-d')`. */
  function StartOf(startParam: Option<string>, today: Date): string
    requires Valid(today) && today.year < 10000
  {
    match startParam
    case None => FormatYmd(today)
    case Some(s) => s
  }

  /** `$_GET['end_date'] ?? $startDate`. */
  function EndOf(startParam: Option<string>, endParam: Option<string>, today: Date): string
    requires Valid(today) && today.year < 10000
  {
    match endParam
    case None => StartOf(startParam, today)
    case Some(e) => e
  }

  /**
   `preg_match('/^\d{4}-\d{2}-\d{2}$/', $s)`: the shape `dddd-dd-dd`, the
   shape only. Without the D modifier `$` also matches before a final
   newline, so the shape followed by one "\n" passes too.
   */
  predicate DateParamShape(s: string)
  {
    YmdShape(s) || (|s| == 11 && s[10] == '\n' && YmdShape(s[..10]))
  }

  /**
   Both bounds must pass the shape test (no check that they name real
   dates); bounds in the wrong order are swapped.
   */
  function QualityRange(startParam: Option<string>, endParam: Option<string>, today: Date): (r: Result<(string, string)>)
    requires Valid(today) && today.year < 10000
    ensures r.Failure? <==> !DateParamShape(StartOf(startParam, today)) || !DateParamShape(EndOf(startParam, endParam, today))
    ensures r.Failure? ==> r.message == FormatError
    ensures r.Success? ==> DateParamShape(r.value.0) && DateParamShape(r.value.1) && !StrLess(r.value.1, r.value.0)
    ensures r.Success? ==> {r.value.0, r.value.1} == {StartOf(startParam, today), EndOf(startParam, endParam, today)}
    ensures startParam.None? && endParam.None? ==> r == Success((FormatYmd(today), FormatYmd(today)))
  {
    ParseFormat(today);
    StrLessIrreflexive(FormatYmd(today));
    var s := StartOf(startParam, today);
    var e := EndOf(startParam, endParam, today);
    if !DateParamShape(s) || !DateParamShape(e) then Failure(FormatError)
    else if StrLess(e, s) then
      StrLessIsStrictTotalOrder();
      Success((e, s))
    else Success((s, e))
  }

  /** A bound with one trailing newline passes the shape test, as the regular expression lets it. */
  lemma TrailingNewlineAccepted(today: Date)
    requires Valid(today) && today.year < 10000
    ensures QualityRange(Some("2024-01-01\n"), None, today) == Success(("2024-01-01\n", "2024-01-01\n"))
    ensures QualityRange(Some("2024-1-01"), None, today).Failure?
  {
    var t := "2024-01-01\n";
    assert t[..10] == "2024-01-01";
    assert YmdShape(t[..10]);
    assert DateParamShape(t);
    StrLessIrreflexive(t);
    var u := "2024-1-01";
    assert |u| == 9;
    assert !DateParamShape(u);
  }

  /** The order of the two bounds does not matter. */
  lemma QualityRangeSymmetric(a: string, b: string, today: Date)
    requires Valid(today) && today.year < 10000
    ensures QualityRange(Some(a), Some(b), today) == QualityRange(Some(b), Some(a), today)
  {
    StrLessIsStrictTotalOrder();
    if a != b {
      StrLessTotal(a, b);
    }
  }

  // ------------------------------------------------------------- processes

  /** The process labels of the defect table. */
  function ProcessLabel(l: Line): string
  {
    match l
    case FC => "F/C"
    case FB => "F/B"
    case RC => "R/C"
    case RB => "R/B"
    case Third => "3RD"
    case Sub => "SUB"
  }

  function LineOfLabel(u: string): (r: Option<Line>)
    ensures forall l :: r == Some(l) <==> u == ProcessLabel(l)
  {
    if u == "F/C" then Some(FC)
    else if u == "F/B" then Some(FB)
    else if u == "R/C" then Some(RC)
    else if u == "R/B" then Some(RB)
    else if u == "3RD" then Some(Third)
    else if u == "SUB" then Some(Sub)
    else None
  }

  /** `$processToKey[strtoupper(trim($process))] ?? '_skip'`, with None standing for `_skip`. */
  function ProcessKey(process: string): (r: Option<Line>)
    ensures forall l :: r == Some(l) <==> Upper(Trim(process)) == ProcessLabel(l)
  {
    LineOfLabel(Upper(Trim(process)))
  }

  /** Every label maps to its own line. */
  lemma ProcessKeyOfLabel(l: Line)
    ensures ProcessKey(ProcessLabel(l)) == Some(l)
  {
    var p := ProcessLabel(l);
    assert forall k :: 0 <= k < |p| ==> !PhpSpace(p[k]) && UpperChar(p[k]) == p[k];
    assert Trim(p) == p;
    assert Upper(p) == p;
  }

  // ------------------------------------------------------------------ items

  /** What the item map keeps of a row: model and nickname, NULL read as "". */
  datatype ItemInfo = ItemInfo(model: string, nickname: string)

  function InfoOf(r: ItemRow): ItemInfo
  {
    ItemInfo(OrEmpty(r.model), OrEmpty(r.nickname))
  }

  /** No later row has the same item code. */
  predicate LastOfItem(rows: seq<ItemRow>, i: int)
    requires 0 <= i < |rows|
  {
    forall j :: i < j < |rows| ==> rows[j].item != rows[i].item
  }

  /** `$itemMap[$it['item']] = …` over all item rows: a later row of the same code overwrites an earlier one. */
  function ItemMap(rows: seq<ItemRow>): (r: map<string, ItemInfo>)
    ensures forall k :: k in r <==> exists i :: 0 <= i < |rows| && rows[i].item == k
    decreases |rows|
  {
    if |rows| == 0 then map[]
    else
      var init := rows[..|rows| - 1];
      var x := rows[|rows| - 1];
      var r := ItemMap(init)[x.item := InfoOf(x)];
      assert forall k :: k in r <==> exists i :: 0 <= i < |rows| && rows[i].item == k by {
        forall k | k in r
          ensures exists i :: 0 <= i < |rows| && rows[i].item == k
        {
          if k != x.item {
            var i :| 0 <= i < |init| && init[i].item == k;
            assert rows[i].item == k;
          }
        }
        forall k | exists i :: 0 <= i < |rows| && rows[i].item == k
          ensures k in r
        {
          var i :| 0 <= i < |rows| && rows[i].item == k;
          if i < |init| {
            assert init[i].item == k;
          }
        }
      }
      r
  }

  /** The last row of an item code is the one the map keeps. */
  lemma {:induction false} ItemMapLastWins(rows: seq<ItemRow>, i: int)
    requires 0 <= i < |rows| && LastOfItem(rows, i)
    ensures ItemMap(rows)[rows[i].item] == InfoOf(rows[i])
    decreases |rows|
  {
    var init := rows[..|rows| - 1];
    if i < |init| {
      assert rows[i].item != rows[|rows| - 1].item;
      assert LastOfItem(init, i) by {
        forall j | i < j < |init|
          ensures init[j].item != init[i].item
        {
          assert init[j] == rows[j];
        }
      }
      ItemMapLastWins(init, i);
    }
  }

  /** `($itemMap[$key]['model'] ?? '') ?: $key`: the model, or the key itself when the model is missing, "" or "0". */
  function ModelOr(items: map<string, ItemInfo>, key: string): string
  {
    if key in items && Truthy(items[key].model) then items[key].model else key
  }

  /** The model fallback of the summaries and the part trend. */
  lemma ModelOrFallback(items: map<string, ItemInfo>, key: string)
    ensures key !in items ==> ModelOr(items, key) == key
    ensures key in items && Truthy(items[key].model) ==> ModelOr(items, key) == items[key].model
    ensures key in items && !Truthy(items[key].model) ==> ModelOr(items, key) == key
    ensures Truthy(key) ==> Truthy(ModelOr(items, key))
  {
  }

  /** The two item attributes the cross-tabs use as columns. */
  datatype Attr = ByNickname | ByModel

  function AttrValue(info: ItemInfo, a: Attr): string
  {
    match a
    case ByNickname => info.nickname
    case ByModel => info.model
  }

  /** `$itemMap[$lookupPart][a] ?? ($itemMap[$part][a] ?? '')`: the `AS-` key first, then the raw part. */
  function AttrOf(items: map<string, ItemInfo>, part: string, a: Attr): (r: string)
    ensures AsKey(part) in items ==> r == AttrValue(items[AsKey(part)], a)
    ensures AsKey(part) !in items && part !in items ==> r == ""
  {
    if AsKey(part) in items then AttrValue(items[AsKey(part)], a)
    else if part in items then AttrValue(items[part], a)
    else ""
  }

  // ------------------------------------------------------------------- rows

  datatype InspectionRow = InspectionRow(item: string, qty: int, createdAt: string)

  /** An inspection row together with the line whose table it came from. */
  datatype Inspected = Inspected(line: Line, item: string, qty: int, createdAt: string)

  /** `substr($created_at, 0, 10)`: the date part of a timestamp. */
  function DateKey(createdAt: string): (r: string)
    ensures |r| <= 10 && |r| <= |createdAt| && createdAt[..|r|] == r
    ensures |createdAt| >= 10 ==> |r| == 10
  {
    createdAt[..Min(10, |createdAt|)]
  }

  /** The date part of a `Y-m-d H:i:s` timestamp is its date. */
  lemma DateKeyOfTimestamp(d: Date, time: string)
    requires Valid(d) && d.year < 10000
    ensures DateKey(FormatYmd(d) + " " + time) == FormatYmd(d)
  {
    assert (FormatYmd(d) + " " + time)[..10] == FormatYmd(d);
  }

  /** The inspection table of a line; `qc_third` stands in for `qc_3rd` when only the former exists. */
  function TableName(tables: map<string, seq<InspectionRow>>, l: Line): string
  {
    match l
    case FC => "qc_fc"
    case FB => "qc_fb"
    case RC => "qc_rc"
    case RB => "qc_rb"
    case Third => if "qc_3rd" !in tables && "qc_third" in tables then "qc_third" else "qc_3rd"
    case Sub => "qc_sub"
  }

  /** A table that does not exist gives no rows. */
  function TableRows(tables: map<string, seq<InspectionRow>>, l: Line): seq<InspectionRow>
  {
    if TableName(tables, l) in tables then tables[TableName(tables, l)] else []
  }

  function Tag(l: Line, rows: seq<InspectionRow>): (r: seq<Inspected>)
    ensures |r| == |rows|
    ensures forall i :: 0 <= i < |rows| ==> r[i] == Inspected(l, rows[i].item, rows[i].qty, rows[i].createdAt)
  {
    seq(|rows|, i requires 0 <= i < |rows| => Inspected(l, rows[i].item, rows[i].qty, rows[i].createdAt))
  }

  /** The inspection rows of the lines ls, line after line. */
  function InspectionsOn(tables: map<string, seq<InspectionRow>>, ls: seq<Line>): (r: seq<Inspected>)
    ensures forall x :: x in r ==> x.line in ls
    ensures forall l, i :: l in ls && 0 <= i < |TableRows(tables, l)| ==>
      Inspected(l, TableRows(tables, l)[i].item, TableRows(tables, l)[i].qty, TableRows(tables, l)[i].createdAt) in r
    decreases |ls|
  {
    if |ls| == 0 then []
    else
      var init := ls[..|ls| - 1];
      var l := ls[|ls| - 1];
      assert forall x :: x in ls <==> x in init || x == l;
      var rest := InspectionsOn(tables, init);
      var tagged := Tag(l, TableRows(tables, l));
      assert forall i :: 0 <= i < |TableRows(tables, l)| ==> tagged[i] in tagged;
      rest + tagged
  }

  /** `$inspectionsByLine`, flattened in line order. */
  function Inspections(tables: map<string, seq<InspectionRow>>): seq<Inspected>
  {
    InspectionsOn(tables, AllLines)
  }

  // ------------------------------------------------------------------ dates

  /** A defect whose process is one of the six labels; the others are `_skip`. */
  predicate Kept(d: DefectRow) { ProcessKey(d.process).Some? }

  function DefectLine(d: DefectRow): Option<Line> { ProcessKey(d.process) }

  function DefectDate(d: DefectRow): string { DateKey(d.createdAt) }

  function DefectQty(d: DefectRow): int { d.qty }

  function DefectDetail(d: DefectRow): string { d.detail }

  function InspectedDate(x: Inspected): string { DateKey(x.createdAt) }

  function KeptDate(d: DefectRow): Option<string>
  {
    if Kept(d) then Some(DefectDate(d)) else None
  }

  /** The dates of the kept defects, in row order. */
  function DefectDates(defects: seq<DefectRow>): (r: seq<string>)
    ensures forall s :: s in r <==> exists i :: 0 <= i < |defects| && Kept(defects[i]) && DefectDate(defects[i]) == s
  {
    CollectMembers(defects, KeptDate);
    assert forall i :: 0 <= i < |defects| ==> (KeptDate(defects[i]).Some? <==> Kept(defects[i]));
    Collect(defects, KeptDate)
  }

  /** The dates of the inspections, in row order. */
  function InspectionDates(insp: seq<Inspected>): (r: seq<string>)
    ensures forall s :: s in r <==> exists j :: 0 <= j < |insp| && InspectedDate(insp[j]) == s
  {
    var r := seq(|insp|, j requires 0 <= j < |insp| => InspectedDate(insp[j]));
    assert forall s :: s in r <==> exists j :: 0 <= j < |insp| && InspectedDate(insp[j]) == s by {
      forall s | s in r
        ensures exists j :: 0 <= j < |insp| && InspectedDate(insp[j]) == s
      {
        var j :| 0 <= j < |r| && r[j] == s;
      }
      forall s | exists j :: 0 <= j < |insp| && InspectedDate(insp[j]) == s
        ensures s in r
      {
        var j :| 0 <= j < |insp| && InspectedDate(insp[j]) == s;
        assert r[j] == s;
      }
    }
    r
  }

  /** The dates of the kept defects and of all inspections, sorted and without repeats. */
  function Dates(defects: seq<DefectRow>, insp: seq<Inspected>): (r: seq<string>)
    ensures StrictlySorted(r, StrLess)
    ensures Distinct(r)
    ensures forall s :: s in r <==>
      (exists i :: 0 <= i < |defects| && Kept(defects[i]) && DefectDate(defects[i]) == s) ||
      (exists j :: 0 <= j < |insp| && InspectedDate(insp[j]) == s)
  {
    StrLessIsStrictTotalOrder();
    var r := SortUnique(DefectDates(defects) + InspectionDates(insp), StrLess);
    StrictlySortedDistinct(r, StrLess);
    r
  }

  // ------------------------------------------------------------ aggregates

  /** `$ngByLine`, keyed by the normalised process. */
  function NgByLine(defects: seq<DefectRow>): Tally<Option<Line>>
  {
    Group(PairsOf(defects, Kept, DefectLine, DefectQty))
  }

  predicate Every(x: Inspected) { true }

  function InspectedLine(x: Inspected): Line { x.line }

  function InspectedQty(x: Inspected): int { x.qty }

  /** `$inspectByLine`. */
  function InspectByLine(insp: seq<Inspected>): Tally<Line>
  {
    Group(PairsOf(insp, Every, InspectedLine, InspectedQty))
  }

  /** `$ngByProblem`, in order of first appearance. */
  function NgByProblem(defects: seq<DefectRow>): Tally<string>
  {
    Group(PairsOf(defects, Kept, DefectDetail, DefectQty))
  }

  type PartKey = (Option<Line>, string)

  function DefectPart(d: DefectRow): PartKey { (DefectLine(d), d.part) }

  function LinesOf(t: Tally<PartKey>): (r: seq<Option<Line>>)
    ensures |r| == |t|
    ensures forall i :: 0 <= i < |t| ==> r[i] == t[i].0.0
  {
    seq(|t|, i requires 0 <= i < |t| => t[i].0.0)
  }

  /** The entries of t, the entries of line ls[0] first, then those of ls[1], and so on. */
  function Nest(t: Tally<PartKey>, ls: seq<Option<Line>>): (r: Tally<PartKey>)
    ensures forall e :: e in r <==> e in t && e.0.0 in ls
    decreases |ls|
  {
    if |ls| == 0 then []
    else
      var l := ls[|ls| - 1];
      assert forall x :: x in ls <==> x in ls[..|ls| - 1] || x == l;
      Nest(t, ls[..|ls| - 1]) + Filter(t, (e: (PartKey, int)) => e.0.0 == l)
  }

  /**
   `$ngByPart[$ln][$part]`: per line in order of the line's first defect,
   per part in order of the part's first defect on that line.
   */
  function NgByPart(defects: seq<DefectRow>): (r: Tally<PartKey>)
    ensures forall e :: e in r <==> e in Group(PairsOf(defects, Kept, DefectPart, DefectQty))
  {
    var t := Group(PairsOf(defects, Kept, DefectPart, DefectQty));
    var ls := Dedupe(LinesOf(t));
    assert forall e :: e in t ==> e.0.0 in ls by {
      forall e | e in t
        ensures e.0.0 in ls
      {
        var i :| 0 <= i < |t| && t[i] == e;
        assert LinesOf(t)[i] == e.0.0;
      }
    }
    Nest(t, ls)
  }

  type InspectionKey = (Line, string)

  function InspectedPart(x: Inspected): InspectionKey { (x.line, x.item) }

  /** `$inspectByPart[$ln][$part]`; the rows come line by line, so this is also the nested order. */
  function InspectByPart(insp: seq<Inspected>): Tally<InspectionKey>
  {
    Group(PairsOf(insp, Every, InspectedPart, InspectedQty))
  }

  /** A skipped defect changes no total and no date. */
  lemma SkippedDefectIgnored(defects: seq<DefectRow>, x: DefectRow, insp: seq<Inspected>)
    requires !Kept(x)
    ensures NgByLine(defects + [x]) == NgByLine(defects)
    ensures NgByProblem(defects + [x]) == NgByProblem(defects)
    ensures NgByPart(defects + [x]) == NgByPart(defects)
    ensures Dates(defects + [x], insp) == Dates(defects, insp)
  {
    var xs := defects + [x];
    assert xs[..|xs| - 1] == defects;
  }

  // ------------------------------------------------------------ line summary

  datatype LineRow = LineRow(line: Line, ng: int, ins: int, defect: real)

  /** The summary row of a line, left out when the line has neither NG nor inspections. */
  function LineEntry(ng: Tally<Option<Line>>, ins: Tally<Line>, l: Line): (r: Option<LineRow>)
    ensures r.None? <==> Get(ng, Some(l)) == 0 && Get(ins, l) == 0
    ensures r.Some? ==> r.value.line == l && r.value.ng == Get(ng, Some(l)) && r.value.ins == Get(ins, l)
    ensures r.Some? ==> r.value.defect == Fraction(r.value.ng, r.value.ins)
  {
    var n := Get(ng, Some(l));
    var i := Get(ins, l);
    if n == 0 && i == 0 then None else Some(LineRow(l, n, i, Fraction(n, i)))
  }

  function LineRowNg(r: LineRow): real { r.ng as real }

  function LineEntryOf(ng: Tally<Option<Line>>, ins: Tally<Line>): Line -> Option<LineRow>
  {
    (l: Line) => LineEntry(ng, ins, l)
  }

  /** The line table of the summary sheet, largest NG first. */
  function LineTable(defects: seq<DefectRow>, insp: seq<Inspected>): (r: seq<LineRow>)
    ensures NonIncreasing(r, LineRowNg)
    ensures |r| <= |AllLines|
  {
    LineTableOf(NgByLine(defects), InspectByLine(insp))
  }

  function LineTableOf(ng: Tally<Option<Line>>, ins: Tally<Line>): (r: seq<LineRow>)
    ensures NonIncreasing(r, LineRowNg)
    ensures |r| <= |AllLines|
  {
    SortDesc(Collect(AllLines, LineEntryOf(ng, ins)), LineRowNg)
  }

  /** A line has a row exactly when it has NG or inspections, and the row carries the line's totals. */
  lemma LineTableRows(ng: Tally<Option<Line>>, ins: Tally<Line>)
    ensures forall row :: row in LineTableOf(ng, ins) <==> LineEntry(ng, ins, row.line) == Some(row)
  {
    var f := LineEntryOf(ng, ins);
    var c := Collect(AllLines, f);
    CollectMembers(AllLines, f);
    var t := LineTableOf(ng, ins);
    assert multiset(t) == multiset(c);
    forall row
      ensures row in t <==> row in c
    {
      assert row in t <==> row in multiset(t);
      assert row in c <==> row in multiset(c);
    }
    forall row
      ensures row in c <==> LineEntry(ng, ins, row.line) == Some(row)
    {
      if LineEntry(ng, ins, row.line) == Some(row) {
        AllLinesComplete(row.line);
        var i :| 0 <= i < |AllLines| && AllLines[i] == row.line;
        assert f(AllLines[i]) == Some(row);
      }
      if row in c {
        var i :| 0 <= i < |AllLines| && f(AllLines[i]) == Some(row);
        assert LineEntry(ng, ins, AllLines[i]) == Some(row);
      }
    }
  }

  // --------------------------------------------------------- problem summary

  datatype ProblemRow = ProblemRow(problem: string, ng: int, share: real, cumulative: real)

  function EntryValue<K>(e: (K, int)): real { e.1 as real }

  predicate PositiveEntry<K>(e: (K, int)) { e.1 > 0 }

  /** The entries above 0, largest first (a filter, then a stable sort on the value). */
  function PositiveDesc<K(!new)>(t: Tally<K>): (r: Tally<K>)
    ensures NonIncreasing(r, EntryValue)
    ensures forall e :: e in r <==> e in t && e.1 > 0
    ensures multiset(r) == multiset(Filter(t, PositiveEntry))
  {
    var p := Filter(t, PositiveEntry);
    var r := SortDesc(p, EntryValue);
    assert forall e :: e in r <==> e in multiset(r);
    assert forall e :: e in p <==> e in multiset(p);
    r
  }

  /** The problems with NG above 0, largest first. */
  function ProblemTotals(defects: seq<DefectRow>): (r: Tally<string>)
    ensures NonIncreasing(r, EntryValue)
    ensures forall e :: e in r <==> e in NgByProblem(defects) && e.1 > 0
  {
    PositiveDesc(NgByProblem(defects))
  }

  /** Each problem's share of the listed NG. */
  function Shares(t: Tally<string>): (r: seq<real>)
    ensures |r| == |t|
    ensures forall i :: 0 <= i < |t| ==> r[i] == Fraction(t[i].1, Total(t))
  {
    seq(|t|, i requires 0 <= i < |t| => Fraction(t[i].1, Total(t)))
  }

  /**
   What the cumulative column's formulas evaluate to: the first cell is the
   first share (`=C`), every later one the cell above plus its share
   (`=D(row-1)+C`). The cells are the prefix sums of the shares.
   */
  function Cumulative(xs: seq<real>): (r: seq<real>)
    ensures |r| == |xs|
    ensures forall i :: 0 <= i < |xs| ==> r[i] == SumReal(xs[..i + 1])
    decreases |xs|
  {
    if |xs| == 0 then []
    else
      var init := xs[..|xs| - 1];
      var c := Cumulative(init);
      assert forall i :: 0 <= i < |init| ==> c[i] == SumReal(xs[..i + 1]) by {
        forall i | 0 <= i < |init|
          ensures c[i] == SumReal(xs[..i + 1])
        {
          assert init[..i + 1] == xs[..i + 1];
        }
      }
      assert xs[..|xs|] == xs;
      if |c| == 0 then [xs[0]]
      else
        assert xs[..|xs| - 1] == init[..|c|];
        c + [c[|c| - 1] + xs[|xs| - 1]]
  }

  lemma {:induction false} PrefixSumsRise(xs: seq<real>, i: nat, j: nat)
    requires i <= j < |xs|
    requires forall k :: 0 <= k < |xs| ==> xs[k] >= 0.0
    ensures SumReal(xs[..i + 1]) <= SumReal(xs[..j + 1])
    decreases j - i
  {
    if i < j {
      PrefixSumsRise(xs, i, j - 1);
      assert xs[..j + 1][..j] == xs[..j];
    }
  }

  /** The running totals of non-negative values never fall, and the last is the sum of all. */
  lemma CumulativeRises(xs: seq<real>)
    requires forall k :: 0 <= k < |xs| ==> xs[k] >= 0.0
    ensures forall i, j :: 0 <= i <= j < |xs| ==> Cumulative(xs)[i] <= Cumulative(xs)[j]
    ensures |xs| > 0 ==> Cumulative(xs)[|xs| - 1] == SumReal(xs)
  {
    forall i, j | 0 <= i <= j < |xs|
      ensures Cumulative(xs)[i] <= Cumulative(xs)[j]
    {
      PrefixSumsRise(xs, i, j);
    }
    assert xs[..|xs|] == xs;
  }

  /** The values of t, each divided by d. */
  function Ratios(t: Tally<string>, d: real): (r: seq<real>)
    requires d > 0.0
    ensures |r| == |t|
  {
    seq(|t|, i requires 0 <= i < |t| => (t[i].1 as real) / d)
  }

  lemma {:induction false} RatioSum(t: Tally<string>, d: real)
    requires d > 0.0
    ensures SumReal(Ratios(t, d)) * d == Total(t) as real
    decreases |t|
  {
    if |t| > 0 {
      var n := |t| - 1;
      var init := t[..n];
      RatioSum(init, d);
      assert Ratios(t, d)[..n] == Ratios(init, d);
      TotalAppend(init, [t[n]]);
      assert init + [t[n]] == t;
      assert Total([t[n]]) == t[n].1;
      Distribute(d, SumReal(Ratios(init, d)), Ratios(t, d)[n]);
    }
  }

  /** With a positive total, the shares are the ratios of the values to it. */
  lemma SharesAreRatios(t: Tally<string>)
    requires Total(t) > 0
    ensures Shares(t) == Ratios(t, Total(t) as real)
  {
    var d := Total(t) as real;
    forall i | 0 <= i < |t|
      ensures Shares(t)[i] == Ratios(t, d)[i]
    {
      FractionIsRatio(t[i].1, Total(t));
    }
  }

  /** When some problem has NG, the shares add up to one. */
  lemma SharesSumToOne(t: Tally<string>)
    requires Total(t) > 0
    ensures SumReal(Shares(t)) == 1.0
  {
    SharesAreRatios(t);
    RatiosSumToOne(t, Total(t) as real);
  }

  lemma RatiosSumToOne(t: Tally<string>, d: real)
    requires d > 0.0 && d == Total(t) as real
    ensures SumReal(Ratios(t, d)) == 1.0
  {
    RatioSum(t, d);
    UnitFactor(SumReal(Ratios(t, d)), d);
  }

  lemma UnitFactor(x: real, d: real)
    requires d > 0.0 && x * d == d
    ensures x == 1.0
  {
    assert (x - 1.0) * d == 0.0;
  }

  /** The problem table of the summary sheet. */
  function ProblemTable(defects: seq<DefectRow>): (r: seq<ProblemRow>)
    ensures |r| == |ProblemTotals(defects)|
    ensures forall i :: 0 <= i < |r| ==>
      r[i].problem == ProblemTotals(defects)[i].0 && r[i].ng == ProblemTotals(defects)[i].1 &&
      r[i].share == Shares(ProblemTotals(defects))[i] && r[i].cumulative == Cumulative(Shares(ProblemTotals(defects)))[i]
  {
    var t := ProblemTotals(defects);
    var sh := Shares(t);
    var cu := Cumulative(sh);
    seq(|t|, i requires 0 <= i < |t| => ProblemRow(t[i].0, t[i].1, sh[i], cu[i]))
  }

  // ----------------------------------------------------------- model summary

  datatype ModelRow = ModelRow(model: string, ng: int, ins: int, defect: real)

  function NgPartModel(items: map<string, ItemInfo>): ((PartKey, int)) -> string
  {
    (e: (PartKey, int)) => ModelOr(items, e.0.1)
  }

  function InsPartModel(items: map<string, ItemInfo>): ((InspectionKey, int)) -> string
  {
    (e: (InspectionKey, int)) => ModelOr(items, AsKey(e.0.1))
  }

  function EntryQty<K>(e: (K, int)): int { e.1 }

  /** The NG of the parts with NG above 0, keyed by the part's model. */
  function NgContrib(items: map<string, ItemInfo>, defects: seq<DefectRow>): seq<(string, int)>
  {
    PairsOf(NgByPart(defects), PositiveEntry, NgPartModel(items), EntryQty)
  }

  /** The inspections of the parts inspected above 0, keyed by the model of the part's `AS-` key. */
  function InsContrib(items: map<string, ItemInfo>, insp: seq<Inspected>): seq<(string, int)>
  {
    PairsOf(InspectByPart(insp), PositiveEntry, InsPartModel(items), EntryQty)
  }

  /** `$modelAgg`: models in order of first sight, NG contributions before inspection ones. */
  function ModelAgg(items: map<string, ItemInfo>, defects: seq<DefectRow>, insp: seq<Inspected>): (r: seq<ModelRow>)
    ensures Distinct(ModelsOf(r))
  {
    ModelAggOf(NgContrib(items, defects), InsContrib(items, insp))
  }

  function ModelsOf(rows: seq<ModelRow>): (r: seq<string>)
    ensures |r| == |rows|
    ensures forall i :: 0 <= i < |rows| ==> r[i] == rows[i].model
  {
    seq(|rows|, i requires 0 <= i < |rows| => rows[i].model)
  }

  function ModelAggOf(ng: seq<(string, int)>, ins: seq<(string, int)>): (r: seq<ModelRow>)
    ensures ModelsOf(r) == Dedupe(Keys(ng) + Keys(ins))
    ensures forall i :: 0 <= i < |r| ==>
      r[i].ng == SumFor(ng, r[i].model) && r[i].ins == SumFor(ins, r[i].model) && r[i].defect == Fraction(r[i].ng, r[i].ins)
  {
    var ms := Dedupe(Keys(ng) + Keys(ins));
    var r := seq(|ms|, i requires 0 <= i < |ms| =>
      ModelRow(ms[i], SumFor(ng, ms[i]), SumFor(ins, ms[i]), Fraction(SumFor(ng, ms[i]), SumFor(ins, ms[i]))));
    assert ModelsOf(r) == ms;
    r
  }

  function ModelRowNg(m: ModelRow): real { m.ng as real }

  predicate Listed(m: ModelRow) { !(m.ng == 0 && m.ins == 0) }

  /** The model table of the summary sheet, largest NG first. */
  function ModelTable(items: map<string, ItemInfo>, defects: seq<DefectRow>, insp: seq<Inspected>): seq<ModelRow>
  {
    Filter(SortDesc(ModelAgg(items, defects, insp), ModelRowNg), Listed)
  }

  /** Sums over pairs whose values are all positive are positive for every key present. */
  lemma {:induction false} SumForPositive(pairs: seq<(string, int)>, k: string)
    requires forall i :: 0 <= i < |pairs| ==> pairs[i].1 > 0
    ensures SumFor(pairs, k) >= 0
    ensures k in Keys(pairs) ==> SumFor(pairs, k) > 0
    decreases |pairs|
  {
    if |pairs| > 0 {
      var init := pairs[..|pairs| - 1];
      SumForPositive(init, k);
      assert Keys(pairs) == Keys(init) + [pairs[|pairs| - 1].0];
    }
  }

  lemma {:induction false} PairsOfPositive<A>(xs: seq<A>, keep: A -> bool, key: A -> string, value: A -> int)
    requires forall i :: 0 <= i < |xs| && keep(xs[i]) ==> value(xs[i]) > 0
    ensures forall i :: 0 <= i < |PairsOf(xs, keep, key, value)| ==> PairsOf(xs, keep, key, value)[i].1 > 0
    decreases |xs|
  {
    if |xs| > 0 {
      var init := xs[..|xs| - 1];
      assert forall i :: 0 <= i < |init| ==> init[i] == xs[i];
      PairsOfPositive(init, keep, key, value);
    }
  }

  /**
   Every model of the aggregate has NG or inspections above 0, so the
   table's `ng == 0 && ins == 0` filter never removes a row: the table is
   the aggregate sorted by NG, in full.
   */
  lemma ModelTableIsSortedAgg(items: map<string, ItemInfo>, defects: seq<DefectRow>, insp: seq<Inspected>)
    ensures forall m :: m in ModelAgg(items, defects, insp) ==> m.ng > 0 || m.ins > 0
    ensures multiset(ModelTable(items, defects, insp)) == multiset(ModelAgg(items, defects, insp))
    ensures NonIncreasing(ModelTable(items, defects, insp), ModelRowNg)
  {
    var ng := NgContrib(items, defects);
    var ins := InsContrib(items, insp);
    PairsOfPositive(NgByPart(defects), PositiveEntry, NgPartModel(items), EntryQty);
    PairsOfPositive(InspectByPart(insp), PositiveEntry, InsPartModel(items), EntryQty);
    var agg := ModelAgg(items, defects, insp);
    forall m | m in agg
      ensures m.ng > 0 || m.ins > 0
    {
      var i :| 0 <= i < |agg| && agg[i] == m;
      assert ModelsOf(agg)[i] == m.model;
      assert m.model in Keys(ng) + Keys(ins);
      SumForPositive(ng, m.model);
      SumForPositive(ins, m.model);
    }
    var sorted := SortDesc(agg, ModelRowNg);
    assert forall i :: 0 <= i < |sorted| ==> Listed(sorted[i]) by {
      forall i | 0 <= i < |sorted|
        ensures Listed(sorted[i])
      {
        assert sorted[i] in multiset(sorted);
        assert sorted[i] in agg;
      }
    }
    FilterAll(sorted, Listed);
  }

  // ------------------------------------------------------------- cross-tabs

  function PartAttr(items: map<string, ItemInfo>, a: Attr): DefectRow -> string
  {
    (d: DefectRow) => AttrOf(items, d.part, a)
  }

  /** The attribute of a part with NG above 0, when it is not falsy. */
  function ColumnOf(items: map<string, ItemInfo>, a: Attr): ((PartKey, int)) -> Option<string>
  {
    (e: (PartKey, int)) => if e.1 > 0 && Truthy(AttrOf(items, e.0.1, a)) then Some(AttrOf(items, e.0.1, a)) else None
  }

  /** The columns: the non-empty attributes of the parts with NG above 0, sorted and without repeats. */
  function Columns(items: map<string, ItemInfo>, defects: seq<DefectRow>, a: Attr): (r: seq<string>)
    ensures StrictlySorted(r, StrLess)
    ensures Distinct(r)
    ensures forall c :: c in r <==> exists i :: 0 <= i < |NgByPart(defects)| && ColumnOf(items, a)(NgByPart(defects)[i]) == Some(c)
  {
    StrLessIsStrictTotalOrder();
    var c := Collect(NgByPart(defects), ColumnOf(items, a));
    CollectMembers(NgByPart(defects), ColumnOf(items, a));
    var r := SortUnique(c, StrLess);
    StrictlySortedDistinct(r, StrLess);
    r
  }

  /** A raw defect counts in a cross-tab when its quantity is above 0 and its part has the attribute. */
  function Counts(items: map<string, ItemInfo>, a: Attr): DefectRow -> bool
  {
    (d: DefectRow) => d.qty > 0 && Truthy(AttrOf(items, d.part, a))
  }

  function CountsFor(items: map<string, ItemInfo>, a: Attr, detail: string): DefectRow -> bool
  {
    (d: DefectRow) => d.qty > 0 && Truthy(AttrOf(items, d.part, a)) && d.detail == detail
  }

  function InsCounts(items: map<string, ItemInfo>, a: Attr): ((InspectionKey, int)) -> bool
  {
    (e: (InspectionKey, int)) => e.1 > 0 && Truthy(AttrOf(items, e.0.1, a))
  }

  function InsAttr(items: map<string, ItemInfo>, a: Attr): ((InspectionKey, int)) -> string
  {
    (e: (InspectionKey, int)) => AttrOf(items, e.0.1, a)
  }

  datatype CrossRow = CrossRow(detail: string, cells: seq<int>, total: int, share: real)

  datatype CrossTab = CrossTab(
    columns: seq<string>,
    rows: seq<CrossRow>,
    ngCells: seq<int>, grandNg: int,
    insCells: seq<int>, grandIns: int,
    defectCells: seq<real>, grandDefect: real,
    okCells: seq<int>, grandOk: int)

  /** The problems in order of total NG, largest first (`uasort` of `$ngByProblem`). */
  function Details(defects: seq<DefectRow>): seq<string>
  {
    Keys(SortDesc(NgByProblem(defects), EntryValue))
  }

  /** The row of one problem, present when some counted raw defect has that problem. */
  function CrossRowOf(items: map<string, ItemInfo>, raw: seq<DefectRow>, a: Attr, cols: seq<string>, grand: int, detail: string): (r: Option<CrossRow>)
    ensures r.Some? <==> exists i :: 0 <= i < |raw| && CountsFor(items, a, detail)(raw[i])
    ensures r.Some? ==>
      |r.value.cells| == |cols| && r.value.total == Sum(r.value.cells) && r.value.share == Fraction(r.value.total, grand)
  {
    if exists i :: 0 <= i < |raw| && CountsFor(items, a, detail)(raw[i]) then
      var cells := Cells(raw, CountsFor(items, a, detail), PartAttr(items, a), DefectQty, cols);
      Some(CrossRow(detail, cells, Sum(cells), Fraction(Sum(cells), grand)))
    else None
  }

  function CrossRowFor(items: map<string, ItemInfo>, raw: seq<DefectRow>, a: Attr, cols: seq<string>, grand: int): string -> Option<CrossRow>
  {
    (detail: string) => CrossRowOf(items, raw, a, cols, grand, detail)
  }

  /**
   A cross-tab sheet. The grand NG adds up every counted raw defect,
   including those of skipped processes and those whose attribute is no
   column; the grand inspection total likewise adds every counted part.
   */
  function CrossTabOf(items: map<string, ItemInfo>, raw: seq<DefectRow>, insp: seq<Inspected>, a: Attr): CrossTab
  {
    CrossTabOver(items, raw, InspectByPart(insp), Columns(items, raw, a), a)
  }

  /** The cross-tab over given per-part inspection totals and columns. */
  function CrossTabOver(items: map<string, ItemInfo>, raw: seq<DefectRow>, parts: seq<(InspectionKey, int)>, cols: seq<string>, a: Attr): (r: CrossTab)
    ensures r.columns == cols
    ensures |r.ngCells| == |r.insCells| == |r.okCells| == |r.defectCells| == |cols|
    ensures forall k :: 0 <= k < |cols| ==>
      r.okCells[k] == r.insCells[k] - r.ngCells[k] && r.defectCells[k] == Fraction(r.ngCells[k], r.insCells[k])
    ensures r.grandNg == SumKept(raw, Counts(items, a), DefectQty)
    ensures r.grandIns == SumKept(parts, InsCounts(items, a), EntryQty)
    ensures r.grandOk == r.grandIns - r.grandNg
    ensures r.grandDefect == Fraction(r.grandNg, r.grandIns)
  {
    var grandNg := SumKept(raw, Counts(items, a), DefectQty);
    var grandIns := SumKept(parts, InsCounts(items, a), EntryQty);
    var ng := Cells(raw, Counts(items, a), PartAttr(items, a), DefectQty, cols);
    var ins := Cells(parts, InsCounts(items, a), InsAttr(items, a), EntryQty, cols);
    var rows := Collect(Details(raw), CrossRowFor(items, raw, a, cols, grandNg));
    CrossTab(cols, rows,
      ng, grandNg, ins, grandIns,
      seq(|cols|, k requires 0 <= k < |cols| => Fraction(ng[k], ins[k])), Fraction(grandNg, grandIns),
      seq(|cols|, k requires 0 <= k < |cols| => ins[k] - ng[k]), grandIns - grandNg)
  }

  /**
   When every counted defect and every counted part has an attribute that
   is a column, the column totals add up to the grand totals, and so do the
   OK counts.
   */
  lemma CrossTabTotals(items: map<string, ItemInfo>, raw: seq<DefectRow>, insp: seq<Inspected>, a: Attr)
    requires forall i :: 0 <= i < |raw| && Counts(items, a)(raw[i]) ==> PartAttr(items, a)(raw[i]) in Columns(items, raw, a)
    requires forall i :: 0 <= i < |InspectByPart(insp)| && InsCounts(items, a)(InspectByPart(insp)[i]) ==>
      InsAttr(items, a)(InspectByPart(insp)[i]) in Columns(items, raw, a)
    ensures Sum(CrossTabOf(items, raw, insp, a).ngCells) == CrossTabOf(items, raw, insp, a).grandNg
    ensures Sum(CrossTabOf(items, raw, insp, a).insCells) == CrossTabOf(items, raw, insp, a).grandIns
    ensures Sum(CrossTabOf(items, raw, insp, a).okCells) == CrossTabOf(items, raw, insp, a).grandOk
  {
    CrossTabOverTotals(items, raw, InspectByPart(insp), Columns(items, raw, a), a);
  }

  lemma CrossTabOverTotals(items: map<string, ItemInfo>, raw: seq<DefectRow>, parts: seq<(InspectionKey, int)>, cols: seq<string>, a: Attr)
    requires Distinct(cols)
    requires forall i :: 0 <= i < |raw| && Counts(items, a)(raw[i]) ==> PartAttr(items, a)(raw[i]) in cols
    requires forall i :: 0 <= i < |parts| && InsCounts(items, a)(parts[i]) ==> InsAttr(items, a)(parts[i]) in cols
    ensures Sum(CrossTabOver(items, raw, parts, cols, a).ngCells) == CrossTabOver(items, raw, parts, cols, a).grandNg
    ensures Sum(CrossTabOver(items, raw, parts, cols, a).insCells) == CrossTabOver(items, raw, parts, cols, a).grandIns
    ensures Sum(CrossTabOver(items, raw, parts, cols, a).okCells) == CrossTabOver(items, raw, parts, cols, a).grandOk
  {
    var t := CrossTabOver(items, raw, parts, cols, a);
    CellsCover(raw, Counts(items, a), PartAttr(items, a), DefectQty, cols);
    CellsCover(parts, InsCounts(items, a), InsAttr(items, a), EntryQty, cols);
    SumDifference(t.insCells, t.ngCells, t.okCells);
  }

  lemma {:induction false} SumDifference(a: seq<int>, b: seq<int>, c: seq<int>)
    requires |a| == |b| == |c|
    requires forall k :: 0 <= k < |c| ==> c[k] == a[k] - b[k]
    ensures Sum(c) == Sum(a) - Sum(b)
    decreases |c|
  {
    if |c| > 0 {
      var n := |c| - 1;
      SumDifference(a[..n], b[..n], c[..n]);
    }
  }

  // ----------------------------------------------------------------- trends

  datatype TrendRow = TrendRow(name: string, cells: seq<int>, total: int, ins: int, defect: real)

  function OnLine(l: Line): DefectRow -> bool
  {
    (d: DefectRow) => DefectLine(d) == Some(l)
  }

  /** The line trend: one row per line, one cell per date with that day's NG. */
  function LineTrendRow(defects: seq<DefectRow>, insp: seq<Inspected>, dates: seq<string>, l: Line): (r: TrendRow)
    ensures |r.cells| == |dates|
    ensures forall k :: 0 <= k < |dates| ==> r.cells[k] == SumWhere(defects, OnLine(l), DefectDate, DefectQty, dates[k])
    ensures r.total == Sum(r.cells) && r.ins == Get(InspectByLine(insp), l) && r.defect == Fraction(r.total, r.ins)
  {
    var cells := Cells(defects, OnLine(l), DefectDate, DefectQty, dates);
    var ins := Get(InspectByLine(insp), l);
    TrendRow(ProcessLabel(l), cells, Sum(cells), ins, Fraction(Sum(cells), ins))
  }

  function LineTrend(defects: seq<DefectRow>, insp: seq<Inspected>): (r: seq<TrendRow>)
    ensures |r| == |AllLines|
    ensures forall k :: 0 <= k < |AllLines| ==> r[k] == LineTrendRow(defects, insp, Dates(defects, insp), AllLines[k])
  {
    seq(|AllLines|, k requires 0 <= k < |AllLines| => LineTrendRow(defects, insp, Dates(defects, insp), AllLines[k]))
  }

  /** A line's trend row adds up to the line's NG in the summary. */
  lemma LineTrendMatchesSummary(defects: seq<DefectRow>, insp: seq<Inspected>, l: Line)
    ensures LineTrendRow(defects, insp, Dates(defects, insp), l).total == Get(NgByLine(defects), Some(l))
  {
    var dates := Dates(defects, insp);
    forall i | 0 <= i < |defects| && OnLine(l)(defects[i])
      ensures DefectDate(defects[i]) in dates
    {
    }
    CellsCover(defects, OnLine(l), DefectDate, DefectQty, dates);
    GroupOfPairs(defects, Kept, DefectLine, DefectQty);
    SumWhereIsSumKept(defects, Kept, DefectLine, DefectQty, Some(l), OnLine(l));
  }

  function OnProblem(p: string): DefectRow -> bool
  {
    (d: DefectRow) => Kept(d) && d.detail == p
  }

  /** `$ngProblemDate[$p]`: the problem's NG on each date, 0 where it has none. */
  function ProblemCells(defects: seq<DefectRow>, dates: seq<string>, p: string): (r: seq<int>)
    ensures |r| == |dates|
    ensures forall k :: 0 <= k < |dates| ==> r[k] == SumWhere(defects, OnProblem(p), DefectDate, DefectQty, dates[k])
  {
    Cells(defects, OnProblem(p), DefectDate, DefectQty, dates)
  }

  /** `array_sum($ngProblemDate[$p])`: the problem's NG over the dates. */
  function ProblemDateTotals(defects: seq<DefectRow>, dates: seq<string>): (r: Tally<string>)
    ensures Keys(r) == Keys(NgByProblem(defects))
    ensures forall e :: e in r ==> e.1 == Sum(ProblemCells(defects, dates, e.0))
  {
    var ps := Keys(NgByProblem(defects));
    var r := seq(|ps|, i requires 0 <= i < |ps| => (ps[i], Sum(ProblemCells(defects, dates, ps[i]))));
    assert Keys(r) == ps;
    r
  }

  datatype ProblemTrendRow = ProblemTrendRow(problem: string, cells: seq<int>, total: int, share: real)

  function ProblemTrendNg(r: ProblemTrendRow): real { r.total as real }

  /**
   The problem trend: the problems with a total above 0, largest first
   (`arsort`, then the skip); each share is over the total of all problems,
   or over 1 when that total is not positive.
   */
  function ProblemTrend(defects: seq<DefectRow>, insp: seq<Inspected>): (r: seq<ProblemTrendRow>)
    ensures NonIncreasing(r, ProblemTrendNg)
    ensures forall i :: 0 <= i < |r| ==>
      r[i].total > 0 && |r[i].cells| == |Dates(defects, insp)| && r[i].total == Sum(r[i].cells)
    ensures forall i :: 0 <= i < |r| ==>
      r[i].share == Fraction(r[i].total, ShareBase(Total(ProblemDateTotals(defects, Dates(defects, insp)))))
    ensures forall i :: 0 <= i < |r| ==>
      r[i].cells == ProblemCells(defects, Dates(defects, insp), r[i].problem) &&
      (r[i].problem, r[i].total) in ProblemDateTotals(defects, Dates(defects, insp))
    ensures forall e :: e in ProblemDateTotals(defects, Dates(defects, insp)) && e.1 > 0 ==>
      exists i :: 0 <= i < |r| && r[i].problem == e.0 && r[i].total == e.1
    ensures forall i, j :: 0 <= i < j < |r| ==> r[i].problem != r[j].problem
  {
    ProblemTrendOver(defects, Dates(defects, insp))
  }

  function ProblemTrendOver(defects: seq<DefectRow>, dates: seq<string>): (r: seq<ProblemTrendRow>)
    ensures NonIncreasing(r, ProblemTrendNg)
    ensures forall i :: 0 <= i < |r| ==>
      r[i].total > 0 && |r[i].cells| == |dates| && r[i].total == Sum(r[i].cells)
    ensures forall i :: 0 <= i < |r| ==>
      r[i].share == Fraction(r[i].total, ShareBase(Total(ProblemDateTotals(defects, dates))))
    ensures forall i :: 0 <= i < |r| ==>
      r[i].cells == ProblemCells(defects, dates, r[i].problem) && (r[i].problem, r[i].total) in ProblemDateTotals(defects, dates)
    ensures forall e :: e in ProblemDateTotals(defects, dates) && e.1 > 0 ==>
      exists i :: 0 <= i < |r| && r[i].problem == e.0 && r[i].total == e.1
    ensures forall i, j :: 0 <= i < j < |r| ==> r[i].problem != r[j].problem
  {
    GroupSpec(PairsOf(defects, Kept, DefectDetail, DefectQty));
    TrendOfTotals(defects, dates, ProblemDateTotals(defects, dates))
  }

  /**
   The rows of the problems of t above 0, largest first, shares over the
   total of t: `arsort`, then skipping the totals not above 0. The sort is
   stable, so the rows follow PositiveDesc (ArsortThenSkip).
   */
  function TrendOfTotals(defects: seq<DefectRow>, dates: seq<string>, t: Tally<string>): (r: seq<ProblemTrendRow>)
    requires forall e :: e in t ==> e.1 == Sum(ProblemCells(defects, dates, e.0))
    ensures NonIncreasing(r, ProblemTrendNg)
    ensures forall i :: 0 <= i < |r| ==>
      r[i].total > 0 && |r[i].cells| == |dates| && r[i].total == Sum(r[i].cells)
    ensures forall i :: 0 <= i < |r| ==> r[i].share == Fraction(r[i].total, ShareBase(Total(t)))
    ensures forall i :: 0 <= i < |r| ==>
      r[i].cells == ProblemCells(defects, dates, r[i].problem) && (r[i].problem, r[i].total) in t
    ensures forall e :: e in t && e.1 > 0 ==> exists i :: 0 <= i < |r| && r[i].problem == e.0 && r[i].total == e.1
    ensures Distinct(Keys(t)) ==> forall i, j :: 0 <= i < j < |r| ==> r[i].problem != r[j].problem
  {
    var shown := Filter(SortDesc(t, EntryValue), PositiveEntry);
    ArsortThenSkip(t);
    var r := ProblemTrendRows(defects, dates, shown, ShareBase(Total(t)));
    assert RowsFollow(defects, dates, PositiveDesc(t), r);
    ShownRowsOrdered(defects, dates, t, r);
    ShownRowsCover(defects, dates, t, r);
    ShownRowsDistinct(defects, dates, t, r);
    r
  }

  /** `arsort`, then skipping the entries not above 0, is PositiveDesc: the sort is stable. */
  lemma ArsortThenSkip<K(!new)>(t: Tally<K>)
    ensures Filter(SortDesc(t, EntryValue), PositiveEntry) == PositiveDesc(t)
  {
    SortDescFilter(t, EntryValue, PositiveEntry);
  }

  /** The trend rows follow the positive entries they are built from: same order, same members. */
  predicate RowsFollow(defects: seq<DefectRow>, dates: seq<string>, shown: Tally<string>, r: seq<ProblemTrendRow>)
  {
    |r| == |shown| &&
    forall i :: 0 <= i < |r| ==>
      r[i].problem == shown[i].0 && r[i].total == shown[i].1 && r[i].cells == ProblemCells(defects, dates, shown[i].0)
  }

  /** Rows built from PositiveDesc(t) are largest first, each a positive entry of t. */
  lemma ShownRowsOrdered(defects: seq<DefectRow>, dates: seq<string>, t: Tally<string>, r: seq<ProblemTrendRow>)
    requires RowsFollow(defects, dates, PositiveDesc(t), r)
    ensures NonIncreasing(r, ProblemTrendNg)
    ensures forall i :: 0 <= i < |r| ==> r[i].total > 0 && (r[i].problem, r[i].total) in t
  {
    var shown := PositiveDesc(t);
    assert forall i :: 0 <= i < |r| ==> shown[i] in shown && shown[i] == (r[i].problem, r[i].total);
  }

  /** Every positive entry of t gets a row. */
  lemma ShownRowsCover(defects: seq<DefectRow>, dates: seq<string>, t: Tally<string>, r: seq<ProblemTrendRow>)
    requires RowsFollow(defects, dates, PositiveDesc(t), r)
    ensures forall e :: e in t && e.1 > 0 ==> exists i :: 0 <= i < |r| && r[i].problem == e.0 && r[i].total == e.1
  {
    var shown := PositiveDesc(t);
    forall e | e in t && e.1 > 0
      ensures exists i :: 0 <= i < |r| && r[i].problem == e.0 && r[i].total == e.1
    {
      assert e in shown;
      var i :| 0 <= i < |shown| && shown[i] == e;
      assert r[i].problem == e.0 && r[i].total == e.1;
    }
  }

  /** When the keys of t do not repeat, no problem gets two rows. */
  lemma ShownRowsDistinct(defects: seq<DefectRow>, dates: seq<string>, t: Tally<string>, r: seq<ProblemTrendRow>)
    requires RowsFollow(defects, dates, PositiveDesc(t), r)
    ensures Distinct(Keys(t)) ==> forall i, j :: 0 <= i < j < |r| ==> r[i].problem != r[j].problem
  {
    if Distinct(Keys(t)) {
      var shown := PositiveDesc(t);
      DistinctOfKeys(t);
      FilterDistinct(t, PositiveEntry);
      DistinctPermutation(Filter(t, PositiveEntry), shown);
      DistinctKeysOfPart(t, shown);
      assert forall i :: 0 <= i < |r| ==> r[i].problem == Keys(shown)[i];
    }
  }

  /** One trend row per entry of shown, whose totals are those of the problems' cells. */
  function ProblemTrendRows(defects: seq<DefectRow>, dates: seq<string>, shown: Tally<string>, base: int): (r: seq<ProblemTrendRow>)
    requires base > 0
    requires forall e :: e in shown ==> e.1 == Sum(ProblemCells(defects, dates, e.0))
    ensures |r| == |shown|
    ensures forall i :: 0 <= i < |r| ==>
      r[i].problem == shown[i].0 && r[i].total == shown[i].1 && r[i].total == Sum(r[i].cells) &&
      |r[i].cells| == |dates| && r[i].share == Fraction(r[i].total, base)
    ensures forall i :: 0 <= i < |r| ==> r[i].cells == ProblemCells(defects, dates, shown[i].0)
  {
    assert forall i :: 0 <= i < |shown| ==> shown[i] in shown;
    seq(|shown|, i requires 0 <= i < |shown| =>
      ProblemTrendRowOf(shown[i].0, ProblemCells(defects, dates, shown[i].0), shown[i].1, base))
  }

  /** The divisor of the trend shares: the grand total, or 1 when that is not positive. */
  function ShareBase(grand: int): (r: int)
    ensures r > 0
    ensures grand > 0 ==> r == grand
  {
    if grand > 0 then grand else 1
  }

  function ProblemTrendRowOf(problem: string, cells: seq<int>, total: int, base: int): (r: ProblemTrendRow)
    requires base > 0 && total == Sum(cells)
    ensures r.problem == problem && r.cells == cells && r.total == total
    ensures r.share == Fraction(total, base)
  {
    ProblemTrendRow(problem, cells, total, Fraction(total, base))
  }

  /** A problem's trend total is its NG in the summary. */
  lemma ProblemTrendMatchesSummary(defects: seq<DefectRow>, insp: seq<Inspected>, p: string)
    ensures Sum(ProblemCells(defects, Dates(defects, insp), p)) == Get(NgByProblem(defects), p)
  {
    var dates := Dates(defects, insp);
    forall i | 0 <= i < |defects| && OnProblem(p)(defects[i])
      ensures DefectDate(defects[i]) in dates
    {
    }
    CellsCover(defects, OnProblem(p), DefectDate, DefectQty, dates);
    GroupOfPairs(defects, Kept, DefectDetail, DefectQty);
    SumWhereIsSumKept(defects, Kept, DefectDetail, DefectQty, p, OnProblem(p));
  }

  /** A kept defect of a part whose model (without `AS-` normalisation) is m. */
  function OfModel(items: map<string, ItemInfo>, m: string): DefectRow -> bool
  {
    (d: DefectRow) => Kept(d) && ModelOr(items, d.part) == m
  }

  function OnPartEntry(k: PartKey): DefectRow -> bool
  {
    (d: DefectRow) => Kept(d) && DefectPart(d) == k
  }

  /** Some date of the part has NG other than 0: the part creates its model's trend row. */
  predicate NonzeroDay(defects: seq<DefectRow>, dates: seq<string>, k: PartKey)
  {
    exists i :: 0 <= i < |dates| && SumWhere(defects, OnPartEntry(k), DefectDate, DefectQty, dates[i]) != 0
  }

  function TrendModelOf(items: map<string, ItemInfo>, defects: seq<DefectRow>, dates: seq<string>): ((PartKey, int)) -> Option<string>
  {
    (e: (PartKey, int)) => if NonzeroDay(defects, dates, e.0) then Some(ModelOr(items, e.0.1)) else None
  }

  /** The models of the part trend, in order of first sight. */
  function TrendModels(items: map<string, ItemInfo>, defects: seq<DefectRow>, dates: seq<string>): (r: seq<string>)
    ensures Distinct(r)
    ensures forall m :: m in r <==>
      exists i :: 0 <= i < |NgByPart(defects)| && NonzeroDay(defects, dates, NgByPart(defects)[i].0) &&
                  ModelOr(items, NgByPart(defects)[i].0.1) == m
  {
    CollectMembers(NgByPart(defects), TrendModelOf(items, defects, dates));
    Dedupe(Collect(NgByPart(defects), TrendModelOf(items, defects, dates)))
  }

  predicate NonzeroEntry<K>(e: (K, int)) { e.1 != 0 }

  /** `$modelTotalIns[$model] ?? 0`: inspections of the parts whose `AS-` key has model m. */
  function ModelIns(items: map<string, ItemInfo>, insp: seq<Inspected>, m: string): int
  {
    SumWhere(InspectByPart(insp), NonzeroEntry, InsPartModel(items), EntryQty, m)
  }

  function PartTrendRow(items: map<string, ItemInfo>, defects: seq<DefectRow>, insp: seq<Inspected>, dates: seq<string>, m: string): (r: TrendRow)
    ensures r.name == m
    ensures |r.cells| == |dates| && r.total == Sum(r.cells)
    ensures forall k :: 0 <= k < |dates| ==>
      r.cells[k] == SumWhere(defects, OfModel(items, m), DefectDate, DefectQty, dates[k])
    ensures r.ins == ModelIns(items, insp, m)
    ensures r.defect == Fraction(r.total, r.ins)
  {
    var cells := Cells(defects, OfModel(items, m), DefectDate, DefectQty, dates);
    var ins := ModelIns(items, insp, m);
    TrendRow(m, cells, Sum(cells), ins, Fraction(Sum(cells), ins))
  }

  function TrendRowNg(r: TrendRow): real { r.total as real }

  /** The part trend: one row per model, largest NG first. */
  function PartTrend(items: map<string, ItemInfo>, defects: seq<DefectRow>, insp: seq<Inspected>): (r: seq<TrendRow>)
    ensures NonIncreasing(r, TrendRowNg)
    ensures |r| == |TrendModels(items, defects, Dates(defects, insp))|
    ensures forall i :: 0 <= i < |r| ==>
      r[i].name in TrendModels(items, defects, Dates(defects, insp)) &&
      r[i] == PartTrendRow(items, defects, insp, Dates(defects, insp), r[i].name)
    ensures forall m :: m in TrendModels(items, defects, Dates(defects, insp)) ==>
      PartTrendRow(items, defects, insp, Dates(defects, insp), m) in r
  {
    var dates := Dates(defects, insp);
    var ms := TrendModels(items, defects, dates);
    var rows := ModelTrendRows(items, defects, insp, dates, ms);
    var r := SortDesc(rows, TrendRowNg);
    PermutationMembers(rows, r);
    r
  }

  /** The trend row of each model, in the models' order. */
  function ModelTrendRows(items: map<string, ItemInfo>, defects: seq<DefectRow>, insp: seq<Inspected>, dates: seq<string>, ms: seq<string>): (r: seq<TrendRow>)
    ensures |r| == |ms|
    ensures forall i :: 0 <= i < |r| ==> r[i] == PartTrendRow(items, defects, insp, dates, ms[i])
  {
    seq(|ms|, i requires 0 <= i < |ms| => PartTrendRow(items, defects, insp, dates, ms[i]))
  }

  /** A model's trend total is the NG of all kept defects of its parts. */
  lemma PartTrendTotal(items: map<string, ItemInfo>, defects: seq<DefectRow>, insp: seq<Inspected>, m: string)
    ensures PartTrendRow(items, defects, insp, Dates(defects, insp), m).total == SumKept(defects, OfModel(items, m), DefectQty)
  {
    var dates := Dates(defects, insp);
    forall i | 0 <= i < |defects| && OfModel(items, m)(defects[i])
      ensures DefectDate(defects[i]) in dates
    {
    }
    CellsCover(defects, OfModel(items, m), DefectDate, DefectQty, dates);
  }

  // -------------------------------------------------------------- raw sheet

  datatype RawRow = RawRow(date: string, model: string, part: string, detail: string, lot: string, process: string, nickname: string, qty: int)

  /** The raw sheet: every fetched defect, skipped processes included, with the process upper-cased but not trimmed. */
  function RawSheet(items: map<string, ItemInfo>, raw: seq<DefectRow>): (r: seq<RawRow>)
    ensures |r| == |raw|
    ensures forall i :: 0 <= i < |raw| ==>
      r[i].part == raw[i].part && r[i].qty == raw[i].qty && r[i].process == Upper(raw[i].process) &&
      r[i].model == AttrOf(items, raw[i].part, ByModel) && r[i].nickname == AttrOf(items, raw[i].part, ByNickname)
    ensures forall i :: 0 <= i < |raw| ==>
      r[i].date == DateKey(raw[i].createdAt) && r[i].detail == raw[i].detail && r[i].lot == raw[i].lot
  {
    seq(|raw|, i requires 0 <= i < |raw| =>
      var d := raw[i];
      RawRow(DateKey(d.createdAt), AttrOf(items, d.part, ByModel), d.part, d.detail, d.lot, Upper(d.process),
             AttrOf(items, d.part, ByNickname), d.qty))
  }

  // --------------------------------------------------------------- workbook

  /** What the export reads: the query results for the range and the first query failure, if any. */
  datatype QualityInputs = QualityInputs(
    items: seq<ItemRow>,
    defects: seq<DefectRow>,
    tables: map<string, seq<InspectionRow>>,
    failure: Option<string>)

  datatype QualityBook = QualityBook(
    lines: seq<LineRow>, problems: seq<ProblemRow>, models: seq<ModelRow>,
    crossPart: CrossTab, crossModel: CrossTab,
    lineTrend: seq<TrendRow>, problemTrend: seq<ProblemTrendRow>, partTrend: seq<TrendRow>,
    raw: seq<RawRow>)

  datatype QualityResponse = QualityDownload(filename: string, book: QualityBook) | QualityError(status: int, body: string)

  function QualityFilename(s: string, e: string): string
  {
    "quality_report_" + s + "_to_" + e + ".xlsx"
  }

  function QualityBookOf(inp: QualityInputs): QualityBook
  {
    var items := ItemMap(inp.items);
    var insp := Inspections(inp.tables);
    var raw := inp.defects;
    QualityBook(
      LineTable(raw, insp), ProblemTable(raw), ModelTable(items, raw, insp),
      CrossTabOf(items, raw, insp, ByNickname), CrossTabOf(items, raw, insp, ByModel),
      LineTrend(raw, insp), ProblemTrend(raw, insp), PartTrend(items, raw, insp),
      RawSheet(items, raw))
  }

  /**
   The export request: a malformed bound is a 400 with a plain message; a
   failing query is a 500 carrying the error; otherwise the workbook is
   named after the (ordered) bounds.
   */
  function QualityExport(startParam: Option<string>, endParam: Option<string>, today: Date, inp: QualityInputs): (r: QualityResponse)
    requires Valid(today) && today.year < 10000
    ensures QualityRange(startParam, endParam, today).Failure? ==> r == QualityError(400, FormatError)
    ensures QualityRange(startParam, endParam, today).Success? && inp.failure.Some? ==>
      r == QualityError(500, "Error: " + inp.failure.value)
    ensures QualityRange(startParam, endParam, today).Success? && inp.failure.None? ==>
      r.QualityDownload? && r.filename == QualityFilename(QualityRange(startParam, endParam, today).value.0, QualityRange(startParam, endParam, today).value.1)
  {
    match QualityRange(startParam, endParam, today)
    case Failure(msg) => QualityError(400, msg)
    case Success(range) =>
      match inp.failure
      case Some(m) => QualityError(500, "Error: " + m)
      case None => QualityDownload(QualityFilename(range.0, range.1), QualityBookOf(inp))
  }
}

=== FILE: llm_agent.dfy ===
/**
 Two guards of the question-answering agent: the check that a generated SQL
 statement is a read-only query before it is run, and the choice of the
 tables whose schema is put into the prompt for a question. The list of
 usable tables is a parameter; case mapping is ASCII only.
 */
module LlmAgent {
  import opened Util
  import opened Text
  import opened Sorting

  // ------------------------------------------------------------- safe query

  const Newline: char := '\n'

  const Fence: string := "```"

  /** Python `s.split('\n')`: the pieces between newlines, at least one. */
  function SplitLines(s: string): (r: seq<string>)
    ensures |r| >= 1
    ensures forall k :: 0 <= k < |r| ==> Newline !in r[k]
  {
    if |s| == 0 then [""]
    else
      var rest := SplitLines(s[1..]);
      if s[0] == Newline then [""] + rest
      else [[s[0]] + rest[0]] + rest[1..]
  }

  /** Python `'\n'.join(lines)`. */
  function JoinLines(lines: seq<string>): string
  {
    if |lines| == 0 then ""
    else if |lines| == 1 then lines[0]
    else lines[0] + [Newline] + JoinLines(lines[1..])
  }

  /** A character put before the first line of a join lands at the front of the joined text. */
  lemma JoinCons(c: char, first: string, rest: seq<string>)
    ensures JoinLines([[c] + first] + rest) == [c] + JoinLines([first] + rest)
  {
    if |rest| > 0 {
      assert ([[c] + first] + rest)[1..] == rest;
      assert ([first] + rest)[1..] == rest;
    }
  }

  /** Joining the pieces of a split gives the text back. */
  lemma {:induction false} JoinSplit(s: string)
    ensures JoinLines(SplitLines(s)) == s
  {
    if |s| > 0 {
      var rest := SplitLines(s[1..]);
      JoinSplit(s[1..]);
      if s[0] == Newline {
        assert ([""] + rest)[1..] == rest;
      } else {
        JoinCons(s[0], rest[0], rest[1..]);
        assert [rest[0]] + rest[1..] == rest;
      }
      assert s == [s[0]] + s[1..];
    }
  }

  /** A text without newlines is a single piece. */
  lemma {:induction false} SplitPlain(s: string)
    requires Newline !in s
    ensures SplitLines(s) == [s]
  {
    if |s| > 0 {
      assert Newline !in s[1..];
      SplitPlain(s[1..]);
      assert s == [s[0]] + s[1..];
    }
  }

  /** A line without a newline splits off as the first piece. */
  lemma {:induction false} SplitAfterLine(a: string, b: string)
    requires Newline !in a
    ensures SplitLines(a + [Newline] + b) == [a] + SplitLines(b)
  {
    var s := a + [Newline] + b;
    if |a| == 0 {
      assert s[1..] == b;
    } else {
      assert Newline !in a[1..];
      SplitAfterLine(a[1..], b);
      assert s[1..] == a[1..] + [Newline] + b;
      assert a == [a[0]] + a[1..];
    }
  }

  /** A last line without a newline splits off as the last piece. */
  lemma {:induction false} SplitBeforeLine(a: string, b: string)
    requires Newline !in b
    ensures SplitLines(a + [Newline] + b) == SplitLines(a) + [b]
  {
    var s := a + [Newline] + b;
    if |a| == 0 {
      assert s[1..] == b;
      SplitPlain(b);
    } else {
      SplitBeforeLine(a[1..], b);
      assert s[1..] == a[1..] + [Newline] + b;
      var inner := SplitLines(a[1..]);
      if a[0] != Newline {
        assert (inner + [b])[0] == inner[0];
        assert (inner + [b])[1..] == inner[1..] + [b];
      }
    }
  }

  /** Drops an opening fence line. */
  function DropOpening(lines: seq<string>): seq<string>
  {
    if |lines| > 0 && StartsWith(lines[0], Fence) then lines[1..] else lines
  }

  /** Drops a closing line that is a bare fence. */
  function DropClosing(lines: seq<string>): seq<string>
  {
    if |lines| > 0 && PyStrip(lines[|lines| - 1]) == Fence then lines[..|lines| - 1] else lines
  }

  /**
   The cleaning step: strip the text; when it then starts with a fence,
   drop the opening line and a closing fence line, rejoin and strip again.
   */
  function Unfence(query: string): string
  {
    var cleaned := PyStrip(query);
    if StartsWith(cleaned, Fence) then PyStrip(JoinLines(DropClosing(DropOpening(SplitLines(cleaned)))))
    else cleaned
  }

  /** The statement kinds that only read. */
  predicate ReadOnlyStart(s: string)
  {
    StartsWith(s, "select") || StartsWith(s, "with") || StartsWith(s, "explain")
  }

  /** `_is_safe_query`: None and "" are refused; otherwise the cleaned, lower-cased text must begin a read-only statement. */
  function IsSafeQuery(query: Option<string>): (r: bool)
    ensures query.None? || query == Some("") ==> !r
  {
    match query
    case None => false
    case Some(q) => q != "" && ReadOnlyStart(Lower(Unfence(q)))
  }

  /** A query without a fence is judged on its stripped text alone. */
  lemma UnfencedQuery(q: string)
    requires !StartsWith(PyStrip(q), Fence)
    ensures IsSafeQuery(Some(q)) <==> q != "" && ReadOnlyStart(Lower(PyStrip(q)))
  {
  }

  /**
   A fenced block (an opening fence line with an optional language tag, the
   statement, a closing fence line) is judged exactly as the statement on
   its own, provided the statement itself does not start with a fence.
   */
  lemma FencedQuery(tag: string, body: string)
    requires Newline !in tag
    requires !StartsWith(PyStrip(body), Fence)
    ensures IsSafeQuery(Some(Fence + tag + [Newline] + body + [Newline] + Fence)) <==> IsSafeQuery(Some(body))
  {
    UnfenceFenced(tag, body);
  }

  /** Cleaning a fenced block leaves the stripped statement. */
  lemma UnfenceFenced(tag: string, body: string)
    requires Newline !in tag
    ensures Unfence(Fence + tag + [Newline] + body + [Newline] + Fence) == PyStrip(body)
  {
    var q := Fence + tag + [Newline] + body + [Newline] + Fence;
    FencedLines(tag, body);
    assert q[0] == '`' && q[|q| - 1] == '`';
    PyStripUntouched(q);
    assert StartsWith(q, Fence) by {
      assert q[..3] == Fence;
    }
    assert StartsWith(Fence + tag, Fence) by {
      assert (Fence + tag)[..3] == Fence;
    }
    UnfenceSteps(q, Fence + tag, SplitLines(body));
    JoinSplit(body);
  }

  /** The lines of a fenced block: the opening line, the statement's lines, the closing fence. */
  lemma FencedLines(tag: string, body: string)
    requires Newline !in tag
    ensures SplitLines(Fence + tag + [Newline] + body + [Newline] + Fence) == [Fence + tag] + SplitLines(body) + [Fence]
  {
    var opening := Fence + tag;
    assert Newline !in opening by {
      assert forall k :: 0 <= k < |Fence| ==> opening[k] == Fence[k];
      assert forall k :: |Fence| <= k < |opening| ==> opening[k] == tag[k - |Fence|];
    }
    assert Newline !in Fence;
    assert Fence + tag + [Newline] + body + [Newline] + Fence == (opening + [Newline] + body) + [Newline] + Fence;
    SplitBeforeLine(opening + [Newline] + body, Fence);
    SplitAfterLine(opening, body);
  }

  lemma FenceStripped()
    ensures PyStrip(Fence) == Fence
  {
    PyStripUntouched(Fence);
  }

  /** A first line that opens a fence is dropped. */
  lemma DropOpeningFence(first: string, rest: seq<string>)
    requires StartsWith(first, Fence)
    ensures DropOpening([first] + rest) == rest
  {
    assert ([first] + rest)[1..] == rest;
  }

  /** A last line that strips to a fence is dropped. */
  lemma DropClosingFence(middle: seq<string>, last: string)
    requires PyStrip(last) == Fence
    ensures DropClosing(middle + [last]) == middle
  {
    assert (middle + [last])[..|middle|] == middle;
  }

  /** Unfencing a stripped text whose first line opens a fence and whose last line closes it keeps the lines between. */
  lemma UnfenceSteps(q: string, first: string, middle: seq<string>)
    requires PyStrip(q) == q && StartsWith(q, Fence)
    requires SplitLines(q) == [first] + middle + [Fence]
    requires StartsWith(first, Fence)
    ensures Unfence(q) == PyStrip(JoinLines(middle))
  {
    DropOpeningFence(first, middle + [Fence]);
    assert [first] + middle + [Fence] == [first] + (middle + [Fence]);
    FenceStripped();
    DropClosingFence(middle, Fence);
  }

  /** The test is a bare, case-blind prefix test: a word that merely begins with a keyword passes. */
  lemma PrefixPasses()
    ensures IsSafeQuery(Some("Selection"))
  {
    var q := "Selection";
    PyStripUntouched(q);
    assert !StartsWith(q, Fence) by {
      assert q[0] != '`';
    }
    assert Lower(q)[..6] == "select";
  }

  /** A statement behind a leading comment is refused. */
  lemma CommentRefused()
    ensures !IsSafeQuery(Some("-- note\nSELECT 1"))
  {
    var q := "-- note\nSELECT 1";
    PyStripUntouched(q);
    assert !StartsWith(q, Fence) by {
      assert q[0] != '`';
    }
    assert Lower(q)[0] == '-';
  }

  // ---------------------------------------------------------- table choice

  /** The keyword groups the question is matched against, in the order of the mapping. */
  datatype Group = NgGroup | ProductionGroup | QcOkGroup | ManpowerGroup | TargetGroup | LotGroup

  const KeywordGroups: seq<Group> := [NgGroup, ProductionGroup, QcOkGroup, ManpowerGroup, TargetGroup, LotGroup]

  const ProductionTables: seq<string> := ["sewing_fb", "sewing_fc", "sewing_rb", "sewing_rc", "sewing_3rd", "sewing_sub"]

  const QcOkTables: seq<string> := ["qc_fb", "qc_fc", "qc_rb", "qc_rc", "qc_3rd", "qc_sub"]

  /** The tables of a group. */
  function GroupTables(g: Group): seq<string>
  {
    match g
    case NgGroup => ["qc_ng"]
    case ProductionGroup => ProductionTables
    case QcOkGroup => QcOkTables
    case ManpowerGroup => ["sewing_man_act", "sewing_man_plan"]
    case TargetGroup => ["sewing_target", "sewing_productivity_plan"]
    case LotGroup => ["sewing_lot"]
  }

  /** The keywords of a group. */
  function GroupKeywords(g: Group): seq<string>
  {
    match g
    case NgGroup => ["ng", " ng ", "ของเสีย", "ของ เสีย", "ปัญหา", "บกพร่อง", "defect"]
    case ProductionGroup => ["ผลิต", "เย็บ", "ทำ", "output", "production", "งาน", "ชิ้น", "qty", "จำนวน"]
    case QcOkGroup => ["qc ", " qc", "ผ่าน", "ok", "ดี", "qualify"]
    case ManpowerGroup => ["พนักงาน", "คน", "manpower", "แรงงาน", "จำนวนคน"]
    case TargetGroup => ["เป้า", "target", "แผน", "plan", "productivity"]
    case LotGroup => ["lot", "ล็อต", "ล็อค", "batch"]
  }

  const NgWords: seq<string> := [" ng ", "ng ", " ng", "ของเสีย", "ไม่ผ่าน", "defect", "ปัญหา"]

  const StatWords: seq<string> := ["บ่อย", "จำนวน", "นับ", "กี่", "count", "มาก", "น้อย", "สถิติ", "ประเภทปัญหา", "ประเภท ng"]

  const KindWords: seq<string> := ["มีอะไร", "รายชื่อ", "ชนิด", "types"]

  const IssueWords: seq<string> := ["issue", "ลักษณะ"]

  const TableWords: seq<string> := ["ตารางอะไร", "ตารางไหน", "table", "มีอะไรบ้าง"]

  const OkWords: seq<string> := ["ok", "งานดี", "ผ่าน", "คุณภาพดี"]

  /** `any(word in q for word in words)`. */
  predicate AnyWord(q: string, words: seq<string>)
  {
    exists k :: 0 <= k < |words| && Contains(q, words[k])
  }

  /** The groups with a keyword in the question; the production group when there is none. */
  function MatchedGroups(q: string): (r: set<Group>)
    ensures r != {}
  {
    var m := set g | g in KeywordGroups && AnyWord(q, GroupKeywords(g));
    if m == {} then {ProductionGroup} else m
  }

  /** The tables of the matched groups, without repeats. */
  function GroupUnion(gs: set<Group>): (r: set<string>)
    ensures forall t :: t in r <==> exists g :: g in gs && t in GroupTables(g)
  {
    set g, t | g in gs && t in GroupTables(g) :: t
  }

  /** The sort order: qc_ng, then the production tables, then the QC-OK tables; every other table ranks after them. */
  const Priority: seq<string> := ["qc_ng"] + ProductionTables + QcOkTables

  /** `priority_order.index(t) if t in priority_order else 999`. */
  function Rank(t: string): nat
  {
    if t in Priority then Position(Priority, t) else 999
  }

  /** The QC tables of good work: `qc_` tables other than qc_ng and qc_issue. */
  predicate QcOkTable(t: string)
  {
    StartsWith(t, "qc_") && t != "qc_ng" && t != "qc_issue"
  }

  /**
   A choice of tables. An early answer is a list; the grouped answer is the
   ranked tables of the matched groups in priority order, followed by the
   remaining tables in the unspecified iteration order of a Python set.
   */
  datatype Choice = Listed(tables: seq<string>) | Grouped(ranked: seq<string>, unranked: set<string>)

  /** `_select_relevant_tables`. */
  function SelectTables(question: string, allTables: seq<string>): Choice
  {
    var q := Lower(question);
    if AnyWord(q, NgWords) then
      if AnyWord(q, StatWords) then Listed(["qc_ng"])
      else if AnyWord(q, KindWords) then Listed(["qc_issue"])
      else Listed(["qc_ng"])
    else if AnyWord(q, IssueWords) && "qc_issue" in allTables then Listed(["qc_issue"])
    else if AnyWord(q, TableWords) then Listed(allTables[..Min(3, |allTables|)])
    else if AnyWord(q, OkWords) && |Filter(allTables, QcOkTable)| > 0 then
      var ok := Filter(allTables, QcOkTable);
      Listed(ok[..Min(4, |ok|)])
    else
      Ranked(GroupUnion(MatchedGroups(q)))
  }

  /** A question about defects gets qc_ng, or qc_issue when it asks for the kinds and not for counts. */
  lemma NgQuestions(question: string, allTables: seq<string>)
    requires AnyWord(Lower(question), NgWords)
    ensures SelectTables(question, allTables) ==
      if !AnyWord(Lower(question), StatWords) && AnyWord(Lower(question), KindWords) then Listed(["qc_issue"]) else Listed(["qc_ng"])
  {
  }

  /** Outside the defect branch, qc_issue is chosen for an issue question only when it is a usable table. */
  lemma IssueQuestions(question: string, allTables: seq<string>)
    requires !AnyWord(Lower(question), NgWords) && AnyWord(Lower(question), IssueWords)
    ensures "qc_issue" in allTables <==> SelectTables(question, allTables) == Listed(["qc_issue"])
  {
    var q := Lower(question);
    if "qc_issue" !in allTables {
      if AnyWord(q, TableWords) {
        assert forall t :: t in allTables[..Min(3, |allTables|)] ==> t in allTables;
      } else if AnyWord(q, OkWords) && |Filter(allTables, QcOkTable)| > 0 {
        var ok := Filter(allTables, QcOkTable);
        assert ok[..Min(4, |ok|)][0] == ok[0];
        assert QcOkTable(ok[0]);
        assert !QcOkTable("qc_issue");
      }
    }
  }

  /** Every early list other than the defect answer is drawn from the usable tables, at most four of them. */
  lemma ListedFromUsable(question: string, allTables: seq<string>)
    requires !AnyWord(Lower(question), NgWords)
    requires SelectTables(question, allTables).Listed?
    ensures forall t :: t in SelectTables(question, allTables).tables ==> t in allTables
    ensures |SelectTables(question, allTables).tables| <= 4
  {
  }

  /** A question about good work lists up to four QC-OK tables, in the order of the usable tables. */
  lemma OkQuestions(question: string, allTables: seq<string>)
    requires !AnyWord(Lower(question), NgWords)
    requires !(AnyWord(Lower(question), IssueWords) && "qc_issue" in allTables)
    requires !AnyWord(Lower(question), TableWords)
    requires AnyWord(Lower(question), OkWords) && exists i :: 0 <= i < |allTables| && QcOkTable(allTables[i])
    ensures SelectTables(question, allTables).Listed?
    ensures SelectTables(question, allTables).tables == Filter(allTables, QcOkTable)[..Min(4, |Filter(allTables, QcOkTable)|)]
    ensures forall t :: t in SelectTables(question, allTables).tables ==> QcOkTable(t) && t in allTables
  {
    var i :| 0 <= i < |allTables| && QcOkTable(allTables[i]);
    assert allTables[i] in Filter(allTables, QcOkTable);
  }

  /** The tables of u in priority order, then those of u that have no priority. */
  function Ranked(u: set<string>): Choice
  {
    Grouped(Filter(Priority, (t: string) => t in u), u - (set t | t in Priority))
  }

  /**
   A number that tells the priority tables apart: their length class and
   their last two characters.
   */
  function TableKey(t: string): int
  {
    if |t| < 2 then 0 else (if |t| >= 9 then 100000 else 200000) + t[|t| - 2] as int * 256 + t[|t| - 1] as int
  }

  function TableKeys(ts: seq<string>): (r: seq<int>)
    ensures |r| == |ts|
    ensures forall k :: 0 <= k < |ts| ==> r[k] == TableKey(ts[k])
  {
    seq(|ts|, k requires 0 <= k < |ts| => TableKey(ts[k]))
  }

  lemma TableKeysAppend(a: seq<string>, b: seq<string>)
    ensures TableKeys(a + b) == TableKeys(a) + TableKeys(b)
  {
  }

  /** Names with different keys are different names. */
  lemma KeysTellApart(ts: seq<string>)
    requires Distinct(TableKeys(ts))
    ensures Distinct(ts)
  {
  }

  lemma ProductionKeys()
    ensures TableKeys(ProductionTables) == [126210, 126211, 129282, 129283, 129284, 130050]
    ensures Distinct(TableKeys(ProductionTables))
  {
  }

  lemma QcOkKeys()
    ensures TableKeys(QcOkTables) == [226210, 226211, 229282, 229283, 229284, 230050]
    ensures Distinct(TableKeys(QcOkTables))
  {
  }

  /** No table name appears twice in the priority order. */
  lemma PriorityDistinct()
    ensures Distinct(Priority)
  {
    TableKeysAppend(["qc_ng"] + ProductionTables, QcOkTables);
    TableKeysAppend(["qc_ng"], ProductionTables);
    ProductionKeys();
    QcOkKeys();
    assert TableKeys(["qc_ng"]) == [228263];
    DistinctAppend(TableKeys(["qc_ng"]), TableKeys(ProductionTables));
    DistinctAppend(TableKeys(["qc_ng"]) + TableKeys(ProductionTables), TableKeys(QcOkTables));
    KeysTellApart(Priority);
  }

  /** Each table of u comes out once: the ranked ones first, in strictly increasing rank, the unranked ones after. */
  lemma RankedOrder(u: set<string>)
    ensures Distinct(Ranked(u).ranked)
    ensures forall i, j :: 0 <= i < j < |Ranked(u).ranked| ==> Rank(Ranked(u).ranked[i]) < Rank(Ranked(u).ranked[j])
    ensures forall t :: t in Ranked(u).ranked ==> Rank(t) < 999
    ensures forall t :: t in Ranked(u).unranked ==> Rank(t) == 999
    ensures forall t :: (t in Ranked(u).ranked || t in Ranked(u).unranked) <==> t in u
  {
    var keep := (t: string) => t in u;
    var ranked := Filter(Priority, keep);
    PriorityDistinct();
    FilterDistinct(Priority, keep);
    forall i, j | 0 <= i < j < |ranked|
      ensures Rank(ranked[i]) < Rank(ranked[j])
    {
      FilterPositions(Priority, keep, i, j);
      var a, b :| 0 <= a < b < |Priority| && Priority[a] == ranked[i] && Priority[b] == ranked[j];
      PositionOfDistinct(Priority, a);
      PositionOfDistinct(Priority, b);
    }
  }

  /** The last step ranks the tables of the groups the question names. */
  lemma GroupedTables(question: string, allTables: seq<string>)
    requires SelectTables(question, allTables).Grouped?
    ensures SelectTables(question, allTables) == Ranked(GroupUnion(MatchedGroups(Lower(question))))
  {
  }

  /** No group keyword in the question: the production group alone is used. */
  lemma NoGroupMatched(q: string)
    requires forall g :: g in KeywordGroups ==> !AnyWord(q, GroupKeywords(g))
    ensures MatchedGroups(q) == {ProductionGroup}
  {
  }

  /** The production table names are long, the QC names short. */
  lemma TableLengths()
    ensures forall k :: 0 <= k < |ProductionTables| ==> |ProductionTables[k]| >= 9
    ensures forall k :: 0 <= k < |QcOkTables| ==> |QcOkTables[k]| <= 6
  {
  }

  /** The production group contributes exactly the production tables. */
  lemma ProductionUnion()
    ensures forall t :: t in GroupUnion({ProductionGroup}) <==> t in ProductionTables
  {
  }

  /** Filtering keeps the middle part when it passes and nothing around it does. */
  lemma FilterMiddle(a: seq<string>, b: seq<string>, c: seq<string>, p: string -> bool)
    requires forall k :: 0 <= k < |a| ==> !p(a[k])
    requires forall k :: 0 <= k < |b| ==> p(b[k])
    requires forall k :: 0 <= k < |c| ==> !p(c[k])
    ensures Filter(a + b + c, p) == b
  {
    FilterAppend(a + b, c, p);
    FilterAppend(a, b, p);
    FilterNone(a, p);
    FilterNone(c, p);
    FilterAll(b, p);
  }

  /** The production tables rank in their own order, and nothing is left unranked. */
  lemma ProductionRanked(u: set<string>)
    requires forall t :: t in u <==> t in ProductionTables
    ensures Ranked(u) == Grouped(ProductionTables, {})
  {
    TableLengths();
    var keep := (t: string) => t in u;
    assert Ranked(u).ranked == Filter(["qc_ng"] + ProductionTables + QcOkTables, keep);
    FilterMiddle(["qc_ng"], ProductionTables, QcOkTables, keep);
    assert forall t :: t in u ==> t in Priority;
  }

  /** A question that names nothing is given the production tables, in priority order. */
  lemma FallbackToProduction(question: string, allTables: seq<string>)
    requires !AnyWord(Lower(question), NgWords) && !AnyWord(Lower(question), IssueWords)
    requires !AnyWord(Lower(question), TableWords) && !AnyWord(Lower(question), OkWords)
    requires forall g :: g in KeywordGroups ==> !AnyWord(Lower(question), GroupKeywords(g))
    ensures SelectTables(question, allTables) == Grouped(ProductionTables, {})
  {
    NoGroupMatched(Lower(question));
    ProductionUnion();
    ProductionRanked(GroupUnion({ProductionGroup}));
  }
}

=== FILE: performance.dfy ===
/**
 The performance endpoint: multi-day line targets, break-scaled man-hours,
 the KPI block (efficiency, productivity, defect and quality rates), the
 daily efficiency trend, per-line performance, and the action dispatch.
 A summary target of 0 falls back to 49 pieces an hour on the KPI and
 line-performance paths, but not on the trend path.
 */
module Performance {
  import opened Util
  import opened Text
  import opened Sorting
  import opened Calendar
  import opened Breaks
  import opened Schema
  import opened Targets
  import opened Reports

  /** The KPI code's fallback hourly rate when a summary reports a target of 0. */
  const FallbackRate: int := 49

  function EffectiveRate(target: int): (r: int)
    ensures target != 0 ==> r == target
    ensures target >= 0 ==> r > 0
  {
    if target == 0 then FallbackRate else target
  }

  /** The target of a list of clock hours: each hour earns its break-adjusted share of the rate. */
  function HoursTarget(rate: int, hours: seq<int>, breaks: seq<BreakTime>): int
    decreases |hours|
  {
    if |hours| == 0 then 0
    else HoursTarget(rate, hours[..|hours| - 1], breaks) + HourTarget(rate, WorkingMinutes(breaks, hours[|hours| - 1]))
  }

  lemma {:induction false} HoursTargetNonNegative(rate: int, hours: seq<int>, breaks: seq<BreakTime>)
    requires rate >= 0
    ensures HoursTarget(rate, hours, breaks) >= 0
    decreases |hours|
  {
    if |hours| > 0 {
      HoursTargetNonNegative(rate, hours[..|hours| - 1], breaks);
      RoundOverSixtyInteger(rate * WorkingMinutes(breaks, hours[|hours| - 1]));
    }
  }

  /** Without breaks every hour earns the full rate. */
  lemma {:induction false} HoursTargetNoBreaks(rate: int, hours: seq<int>)
    requires rate >= 0
    ensures HoursTarget(rate, hours, []) == rate * |hours|
    decreases |hours|
  {
    if |hours| > 0 {
      HoursTargetNoBreaks(rate, hours[..|hours| - 1]);
      UntouchedHourIsFull([], hours[|hours| - 1]);
      HourTargetInteger(rate, 60);
    }
  }

  /** The working hours of each day, as `getWorkingHours($day, $day)` finds them. */
  function DayHours(db: Db): (f: Date -> seq<int>)
    requires ValidDb(db)
    ensures forall d :: Valid(d) ==> f(d) == WorkingHours(db, d, d)
  {
    d => if Valid(d) then WorkingHours(db, d, d) else []
  }

  /** The targets of a list of days, each over that day's own working hours. */
  function DaysTarget(hoursOf: Date -> seq<int>, breaks: seq<BreakTime>, rate: int, days: seq<Date>): int
    decreases |days|
  {
    if |days| == 0 then 0
    else DaysTarget(hoursOf, breaks, rate, days[..|days| - 1]) + HoursTarget(rate, hoursOf(days[|days| - 1]), breaks)
  }

  lemma {:induction false} DaysTargetAppend(hoursOf: Date -> seq<int>, breaks: seq<BreakTime>, rate: int, a: seq<Date>, b: seq<Date>)
    ensures DaysTarget(hoursOf, breaks, rate, a + b) == DaysTarget(hoursOf, breaks, rate, a) + DaysTarget(hoursOf, breaks, rate, b)
    decreases |b|
  {
    if |b| == 0 {
      assert a + b == a;
    } else {
      assert (a + b)[..|a + b| - 1] == a + b[..|b| - 1];
      DaysTargetAppend(hoursOf, breaks, rate, a, b[..|b| - 1]);
    }
  }

  lemma {:induction false} DaysTargetNonNegative(hoursOf: Date -> seq<int>, breaks: seq<BreakTime>, rate: int, days: seq<Date>)
    requires rate >= 0
    ensures DaysTarget(hoursOf, breaks, rate, days) >= 0
    decreases |days|
  {
    if |days| > 0 {
      DaysTargetNonNegative(hoursOf, breaks, rate, days[..|days| - 1]);
      HoursTargetNonNegative(rate, hoursOf(days[|days| - 1]), breaks);
    }
  }

  /**
   `computeLineTarget`, with the data class's working hours and working
   minutes called directly: 0 for a non-positive rate, else the target of
   every day of the range over that day's working hours.
   */
  function ComputeLineTarget(db: Db, breaks: seq<BreakTime>, rate: int, s: Date, e: Date): (r: int)
    requires ValidDb(db) && Valid(s) && Valid(e)
    ensures rate <= 0 ==> r == 0
    ensures r >= 0
    ensures DayNumber(e) < DayNumber(s) ==> r == 0
  {
    if rate <= 0 then 0
    else
      DaysTargetNonNegative(DayHours(db), breaks, rate, DateRange(s, e));
      DaysTarget(DayHours(db), breaks, rate, DateRange(s, e))
  }

  /** A range's target is the target of its first part plus that of the rest. */
  lemma ComputeLineTargetSplit(db: Db, breaks: seq<BreakTime>, rate: int, s: Date, m: Date, e: Date)
    requires ValidDb(db) && Valid(s) && Valid(m) && Valid(e)
    requires !DateLess(m, s) && !DateLess(e, m)
    ensures ComputeLineTarget(db, breaks, rate, s, e) ==
            ComputeLineTarget(db, breaks, rate, s, m) + ComputeLineTarget(db, breaks, rate, Next(m), e)
  {
    DateLessIsDayOrder(m, s);
    DateLessIsDayOrder(e, m);
    if rate > 0 {
      DateRangeSplit(s, m, e);
      DaysTargetAppend(DayHours(db), breaks, rate, DateRange(s, m), DateRange(Next(m), e));
    }
  }

  /** One day's target is that day's working hours' target. */
  lemma ComputeLineTargetOneDay(db: Db, breaks: seq<BreakTime>, rate: int, d: Date)
    requires ValidDb(db) && Valid(d) && rate > 0
    ensures ComputeLineTarget(db, breaks, rate, d, d) == HoursTarget(rate, WorkingHours(db, d, d), breaks)
  {
    var days := DateRange(d, d);
    assert days == [d] + DateRange(Next(d), d);
    assert days == [d];
    assert days[..0] == [];
    assert DaysTarget(DayHours(db), breaks, rate, days) == HoursTarget(rate, DayHours(db)(d), breaks);
  }

  /** No line recorded anything in the range. */
  predicate NoProduction(db: Db, s: Date, e: Date)
    requires ValidDb(db) && Valid(s) && Valid(e)
  {
    forall l :: TableOf(db, l).Present? ==> |RowsIn(TableOf(db, l).rows, s, e)| == 0
  }

  /** A day inside an idle range is idle, so its working hours are the standard 8..16. */
  lemma IdleDayHasDefaultHours(db: Db, s: Date, e: Date, d: Date)
    requires ValidDb(db) && Valid(s) && Valid(e) && Valid(d)
    requires NoProduction(db, s, e)
    requires !DateLess(d, s) && !DateLess(e, d)
    ensures WorkingHours(db, d, d) == DefaultHours
  {
    DateLessIsDayOrder(d, s);
    DateLessIsDayOrder(e, d);
    var found := DiscoveredHours(db, d, d, AllLines);
    forall h | h in found
      ensures false
    {
    }
    EmptyIffNoMembers(found);
  }

  lemma {:induction false} DefaultDaysTarget(hoursOf: Date -> seq<int>, rate: int, days: seq<Date>)
    requires rate >= 0
    requires forall i :: 0 <= i < |days| ==> hoursOf(days[i]) == DefaultHours
    ensures DaysTarget(hoursOf, [], rate, days) == 9 * rate * |days|
    decreases |days|
  {
    if |days| > 0 {
      var n := |days| - 1;
      DefaultDaysTarget(hoursOf, rate, days[..n]);
      HoursTargetNoBreaks(rate, DefaultHours);
      assert 9 * rate * |days| == 9 * rate * n + 9 * rate;
    }
  }

  /**
   On a range with no production and no breaks each day earns nine hours of
   the rate (the standard hours 8..16), while the summary's daily target
   counts ten (8..17): the two notions of a working day differ.
   */
  lemma IdleRangeTarget(db: Db, rate: int, s: Date, e: Date)
    requires ValidDb(db) && Valid(s) && Valid(e) && rate > 0
    requires NoProduction(db, s, e)
    ensures ComputeLineTarget(db, [], rate, s, e) == 9 * rate * |DateRange(s, e)|
    ensures DailyTarget(rate, []) == 10 * rate
  {
    var days := DateRange(s, e);
    forall i | 0 <= i < |days|
      ensures DayHours(db)(days[i]) == DefaultHours
    {
      DateLessIsDayOrder(days[i], s);
      DateLessIsDayOrder(e, days[i]);
      IdleDayHasDefaultHours(db, s, e, days[i]);
    }
    DefaultDaysTarget(DayHours(db), rate, days);
    DailyTargetNoBreaks(rate);
  }

  /** What PHP raises when global code calls a private method of the data class. */
  function PrivateCallError(name: string): string
  {
    "Call to private method get_db::" + name + "() from global scope"
  }

  /**
   `computeLineTarget` as written: for a positive rate and a non-empty range
   the first call to the private `getWorkingHours` raises an `Error`, which
   no `catch (Exception)` handler of the endpoint catches.
   */
  function ComputeLineTargetAsWritten(rate: int, s: Date, e: Date): (r: Result<int>)
    requires Valid(s) && Valid(e)
    ensures r.Failure? <==> rate > 0 && DayNumber(s) <= DayNumber(e)
    ensures r.Success? ==> r.value == 0
  {
    if rate <= 0 then Success(0)
    else if DayNumber(s) <= DayNumber(e) then Failure(PrivateCallError("getWorkingHours"))
    else Success(0)
  }

  /** With the 49 fallback, the as-written target fails for every non-negative summary target on a non-empty range. */
  lemma AsWrittenTargetAlwaysFails(target: int, s: Date, e: Date)
    requires Valid(s) && Valid(e) && target >= 0
    requires DayNumber(s) <= DayNumber(e)
    ensures ComputeLineTargetAsWritten(EffectiveRate(target), s, e) == Failure(PrivateCallError("getWorkingHours"))
  {
  }

  /** The corrected target agrees with the as-written one wherever the latter does not fail. */
  lemma CorrectedAgreesWhereAsWrittenSucceeds(db: Db, breaks: seq<BreakTime>, rate: int, s: Date, e: Date)
    requires ValidDb(db) && Valid(s) && Valid(e)
    requires ComputeLineTargetAsWritten(rate, s, e).Success?
    ensures ComputeLineTarget(db, breaks, rate, s, e) == ComputeLineTargetAsWritten(rate, s, e).value
  {
  }

  /** A missing shift counts as the morning shift. */
  function ShiftOf(r: ManActRow): string
  {
    match r.shift
    case None => MorningShift
    case Some(s) => s
  }

  /** The regular shifts lose 20 minutes of break in every 4 hours; overtime loses nothing. */
  function ShiftFactor(shift: string): (r: real)
    ensures r == 1.0 || r == 220.0 / 240.0
    ensures r < 1.0 <==> shift == MorningShift || shift == AfternoonShift
  {
    if shift == MorningShift || shift == AfternoonShift then 220.0 / 240.0 else 1.0
  }

  /** One row's man-hours: headcount times break-adjusted hours, and nothing for a row without staff. */
  function RowManHours(r: ManActRow): (m: real)
    ensures Headcount(r) <= 0 ==> m == 0.0
    ensures HoursOr(r, 0.0) >= 0.0 ==> m >= 0.0
  {
    if Headcount(r) > 0 then (Headcount(r) as real) * (HoursOr(r, 0.0) * ShiftFactor(ShiftOf(r))) else 0.0
  }

  function ManRowsIn(rows: seq<ManActRow>, s: Date, e: Date): (r: seq<ManActRow>)
    requires ValidManRows(rows) && Valid(s) && Valid(e)
    ensures ValidManRows(r)
    ensures forall x :: x in r <==> x in rows && DayNumber(s) <= DayNumber(x.day) <= DayNumber(e)
    decreases |rows|
  {
    if |rows| == 0 then []
    else
      var init := ManRowsIn(rows[..|rows| - 1], s, e);
      var last := rows[|rows| - 1];
      assert forall x :: x in rows <==> x in rows[..|rows| - 1] || x == last;
      if DayNumber(s) <= DayNumber(last.day) <= DayNumber(e) then init + [last] else init
  }

  function ManHoursOf(rows: seq<ManActRow>): real
    decreases |rows|
  {
    if |rows| == 0 then 0.0 else ManHoursOf(rows[..|rows| - 1]) + RowManHours(rows[|rows| - 1])
  }

  /** The man-hours without break scaling: headcount times hours of every staffed row. */
  function RawManHours(rows: seq<ManActRow>): real
    decreases |rows|
  {
    if |rows| == 0 then 0.0 else RawManHours(rows[..|rows| - 1]) + RawRowHours(rows[|rows| - 1])
  }

  /** One row's man-hours without break scaling. */
  function RawRowHours(r: ManActRow): real
  {
    if Headcount(r) > 0 then (Headcount(r) as real) * HoursOr(r, 0.0) else 0.0
  }

  /** Break scaling of one row removes at most a twelfth of its raw man-hours. */
  lemma RowManHoursBetween(r: ManActRow)
    requires HoursOr(r, 0.0) >= 0.0
    ensures (11.0 / 12.0) * RawRowHours(r) <= RowManHours(r) <= RawRowHours(r)
  {
    if Headcount(r) > 0 {
      var h, x, f := Headcount(r) as real, HoursOr(r, 0.0), ShiftFactor(ShiftOf(r));
      assert h * x >= 0.0;
      assert h * (x * f) == (h * x) * f;
    }
  }

  /** Break scaling removes at most a twelfth of the raw man-hours, and never adds any. */
  lemma {:induction false} ManHoursBetween(rows: seq<ManActRow>)
    requires forall i :: 0 <= i < |rows| ==> HoursOr(rows[i], 0.0) >= 0.0
    ensures (11.0 / 12.0) * RawManHours(rows) <= ManHoursOf(rows) <= RawManHours(rows)
    decreases |rows|
  {
    if |rows| > 0 {
      ManHoursBetween(rows[..|rows| - 1]);
      RowManHoursBetween(rows[|rows| - 1]);
    }
  }

  /** Overtime rows are not scaled at all. */
  lemma {:induction false} OvertimeUnscaled(rows: seq<ManActRow>)
    requires forall i :: 0 <= i < |rows| ==> ShiftOf(rows[i]) != MorningShift && ShiftOf(rows[i]) != AfternoonShift
    ensures ManHoursOf(rows) == RawManHours(rows)
    decreases |rows|
  {
    if |rows| > 0 {
      OvertimeUnscaled(rows[..|rows| - 1]);
    }
  }

  /** `calculateActualManHours`: a database error gives 0. */
  function ActualManHours(src: ManSource, s: Date, e: Date): (r: real)
    requires ValidManRows(src.rows) && Valid(s) && Valid(e)
    ensures !src.ok ==> r == 0.0
    ensures src.ok ==> r == ManHoursOf(ManRowsIn(src.rows, s, e))
  {
    if src.ok then ManHoursOf(ManRowsIn(src.rows, s, e)) else 0.0
  }

  /** The commented-out headcount man-hours: one hour per staff member of every staffed row. */
  function HeadcountManHours(src: ManSource, s: Date, e: Date): real
    requires ValidManRows(src.rows) && Valid(s) && Valid(e)
  {
    if src.ok then HeadcountSum(ManRowsIn(src.rows, s, e)) as real else 0.0
  }

  function HeadcountSum(rows: seq<ManActRow>): (r: int)
    ensures r >= 0
    decreases |rows|
  {
    if |rows| == 0 then 0
    else HeadcountSum(rows[..|rows| - 1]) + Max(0, Headcount(rows[|rows| - 1]))
  }

  /** With one hour per row the headcount man-hours are the raw man-hours. */
  lemma {:induction false} HeadcountIsOneHourRows(rows: seq<ManActRow>)
    requires forall i :: 0 <= i < |rows| ==> HoursOr(rows[i], 0.0) == 1.0
    ensures HeadcountSum(rows) as real == RawManHours(rows)
    decreases |rows|
  {
    if |rows| > 0 {
      HeadcountIsOneHourRows(rows[..|rows| - 1]);
    }
  }

  datatype Kpis = Kpis(overallEfficiency: real, qualityRate: real, productivityRate: real, defectRate: real)

  function DefectPercent(defects: int, actual: int): real
    requires actual > 0
  {
    (defects as real / actual as real) * 100.0
  }

  function QualityPercent(defects: int, actual: int): real
    requires actual > 0
  {
    ((actual - defects) as real / actual as real) * 100.0
  }

  /** Before rounding, the defect and quality rates add up to 100. */
  lemma DefectQualityComplement(defects: int, actual: int)
    requires actual > 0
    ensures DefectPercent(defects, actual) + QualityPercent(defects, actual) == 100.0
  {
    var a := actual as real;
    assert (defects as real / a) + ((actual - defects) as real / a) == 1.0;
  }

  /**
   What the KPI block promises for its totals. `defects` is the qc_ng sum,
   None when that query fails; then quality and defect rates stay 0.
   Efficiency is output over target, productivity output over the man-hours,
   else over `fallback` when that is positive, and every rate is rounded to
   two places.
   */
  predicate KpisSpec(totalActual: int, totalTarget: int, manHours: real, fallback: real, defects: Option<int>, r: Kpis)
  {
    (totalTarget <= 0 ==> r.overallEfficiency == 0.0) &&
    (totalTarget > 0 ==> RoundsTo2((totalActual as real / totalTarget as real) * 100.0, r.overallEfficiency)) &&
    (manHours > 0.0 ==> RoundsTo2(totalActual as real / manHours, r.productivityRate)) &&
    (manHours <= 0.0 < fallback ==> RoundsTo2(totalActual as real / fallback, r.productivityRate)) &&
    (manHours <= 0.0 && fallback <= 0.0 ==> r.productivityRate == 0.0) &&
    (defects.None? ==> r.qualityRate == 0.0 && r.defectRate == 0.0) &&
    (defects.Some? && totalActual <= 0 ==> r.qualityRate == 100.0 && r.defectRate == 0.0) &&
    (defects.Some? && totalActual > 0 ==>
      RoundsTo2(DefectPercent(defects.value, totalActual), r.defectRate) &&
      RoundsTo2(QualityPercent(defects.value, totalActual), r.qualityRate))
  }

  /** The KPI block from its totals. */
  function KpisFrom(totalActual: int, totalTarget: int, manHours: real, fallback: real, defects: Option<int>): (r: Kpis)
    ensures KpisSpec(totalActual, totalTarget, manHours, fallback, defects, r)
    ensures defects.Some? && totalActual > 0 ==> 99.99 <= r.qualityRate + r.defectRate <= 100.01
  {
    var eff := if totalTarget > 0 then RoundTo2((totalActual as real / totalTarget as real) * 100.0) else 0.0;
    var prod :=
      if manHours > 0.0 then RoundTo2(totalActual as real / manHours)
      else if fallback > 0.0 then RoundTo2(totalActual as real / fallback)
      else 0.0;
    match defects
    case None => Kpis(eff, 0.0, prod, 0.0)
    case Some(def) =>
      if totalActual > 0 then
        DefectQualityComplement(def, totalActual);
        Kpis(eff, RoundTo2(QualityPercent(def, totalActual)), prod, RoundTo2(DefectPercent(def, totalActual)))
      else Kpis(eff, 100.0, prod, 0.0)
  }

  /** The specification fixes the KPI block: KpisFrom is the only block meeting it. */
  lemma KpisSpecUnique(totalActual: int, totalTarget: int, manHours: real, fallback: real, defects: Option<int>, r: Kpis)
    ensures KpisSpec(totalActual, totalTarget, manHours, fallback, defects, r) <==> r == KpisFrom(totalActual, totalTarget, manHours, fallback, defects)
  {
    var k := KpisFrom(totalActual, totalTarget, manHours, fallback, defects);
    if KpisSpec(totalActual, totalTarget, manHours, fallback, defects, r) {
      if totalTarget > 0 {
        var x := (totalActual as real / totalTarget as real) * 100.0;
        RoundTo2Unique(x, r.overallEfficiency);
        RoundTo2Unique(x, k.overallEfficiency);
      }
      if manHours > 0.0 {
        RoundTo2Unique(totalActual as real / manHours, r.productivityRate);
        RoundTo2Unique(totalActual as real / manHours, k.productivityRate);
      } else if fallback > 0.0 {
        RoundTo2Unique(totalActual as real / fallback, r.productivityRate);
        RoundTo2Unique(totalActual as real / fallback, k.productivityRate);
      }
      if defects.Some? && totalActual > 0 {
        RoundTo2Unique(DefectPercent(defects.value, totalActual), r.defectRate);
        RoundTo2Unique(DefectPercent(defects.value, totalActual), k.defectRate);
        RoundTo2Unique(QualityPercent(defects.value, totalActual), r.qualityRate);
        RoundTo2Unique(QualityPercent(defects.value, totalActual), k.qualityRate);
      }
    }
  }

  /** Each line's multi-day target on the KPI and line-performance paths, in line order. */
  function LineTargets(db: Db, summary: seq<LineSummary>, breaks: seq<BreakTime>, s: Date, e: Date): (r: seq<int>)
    requires ValidDb(db) && Valid(s) && Valid(e)
    ensures |r| == |summary|
    ensures forall k :: 0 <= k < |r| ==> r[k] == ComputeLineTarget(db, breaks, EffectiveRate(summary[k].target), s, e)
    ensures forall k :: 0 <= k < |r| ==> r[k] >= 0
  {
    seq(|summary|, k requires 0 <= k < |summary| => ComputeLineTarget(db, breaks, EffectiveRate(summary[k].target), s, e))
  }

  function TotalQtys(summary: seq<LineSummary>): (r: seq<int>)
    ensures |r| == |summary|
    ensures forall k :: 0 <= k < |r| ==> r[k] == summary[k].totalQty
  {
    seq(|summary|, k requires 0 <= k < |summary| => summary[k].totalQty)
  }

  /** Everything outside the production tables the KPI block reads. */
  datatype Inputs = Inputs(bsrc: BreakSource, tsrc: TargetSource, man: ManSource, defects: Option<int>)

  predicate ValidInputs(db: Db, inp: Inputs)
  {
    ValidDb(db) && ValidSource(inp.tsrc) && ValidManRows(inp.man.rows)
  }

  /** `calculatePerformanceKPIs`, with the headcount man-hours as the productivity fallback. */
  function PerformanceKpis(db: Db, inp: Inputs, s: Date, e: Date): (r: Kpis)
    requires ValidInputs(db, inp) && Valid(s) && Valid(e)
    ensures var summary := GetSummaryReport(db, inp.bsrc, inp.tsrc, s, e);
      KpisSpec(Sum(TotalQtys(summary)), Sum(LineTargets(db, summary, ActiveBreaks(inp.bsrc), s, e)),
               ActualManHours(inp.man, s, e), HeadcountManHours(inp.man, s, e), inp.defects, r)
  {
    var summary := GetSummaryReport(db, inp.bsrc, inp.tsrc, s, e);
    var totalActual := Sum(TotalQtys(summary));
    var totalTarget := Sum(LineTargets(db, summary, ActiveBreaks(inp.bsrc), s, e));
    KpisFrom(totalActual, totalTarget, ActualManHours(inp.man, s, e), HeadcountManHours(inp.man, s, e), inp.defects)
  }

  /** As written the fallback reads an undefined variable, which is null: it never applies. */
  function PerformanceKpisAsWritten(db: Db, inp: Inputs, s: Date, e: Date): (r: Kpis)
    requires ValidInputs(db, inp) && Valid(s) && Valid(e)
    ensures ActualManHours(inp.man, s, e) <= 0.0 ==> r.productivityRate == 0.0
  {
    var summary := GetSummaryReport(db, inp.bsrc, inp.tsrc, s, e);
    var totalActual := Sum(TotalQtys(summary));
    var totalTarget := Sum(LineTargets(db, summary, ActiveBreaks(inp.bsrc), s, e));
    KpisFrom(totalActual, totalTarget, ActualManHours(inp.man, s, e), 0.0, inp.defects)
  }

  /**
   Where the break-scaled man-hours are 0 but staffed rows exist, the
   as-written productivity is 0 while the intended fallback divides the
   output by the headcount hours: 120 pieces over 12 staff give 10.
   */
  lemma ProductivityFallbackExample()
    ensures KpisFrom(120, 0, 0.0, 0.0, None).productivityRate == 0.0
    ensures KpisFrom(120, 0, 0.0, 12.0, None).productivityRate == 10.0
  {
    RoundHalfAwayOfInt(1000);
  }

  /** One emitted day of the efficiency trend. */
  datatype TrendPoint = TrendPoint(period: Date, efficiency: real, actual: int, target: int, isWeekend: bool)

  /** The trend window: from the first of the start month to the end date, or to the end of its month when `monthly`. */
  function TrendTo(e: Date, trendType: string): (r: Date)
    requires Valid(e)
    ensures Valid(r) && DayNumber(e) <= DayNumber(r)
    ensures trendType != "monthly" ==> r == e
  {
    if trendType == "monthly" then LastOfMonth(e) else e
  }

  /** The trend's day target: the day's working hours at the summary rate, without the 49 fallback. */
  function TrendTarget(summary: seq<LineSummary>, hours: seq<int>, breaks: seq<BreakTime>): int
    decreases |summary|
  {
    if |summary| == 0 then 0
    else TrendTarget(summary[..|summary| - 1], hours, breaks) + HoursTarget(summary[|summary| - 1].target, hours, breaks)
  }

  /** The trend entry of one day, when that day had output or a target. */
  function DayPoint(db: Db, bsrc: BreakSource, tsrc: TargetSource, d: Date): (r: Option<TrendPoint>)
    requires ValidDb(db) && ValidSource(tsrc) && Valid(d)
    ensures r.Some? ==> r.value.period == d && (r.value.actual > 0 || r.value.target > 0)
    ensures r.Some? ==> (r.value.isWeekend <==> Weekday(d) == 0)
    ensures r.Some? && r.value.target <= 0 ==> r.value.efficiency == 0.0
    ensures var summary := GetSummaryReport(db, bsrc, tsrc, d, d);
      var actual := Sum(TotalQtys(summary));
      var target := TrendTarget(summary, WorkingHours(db, d, d), ActiveBreaks(bsrc));
      (r.None? <==> actual <= 0 && target <= 0) &&
      (r.Some? ==> r.value.actual == actual && r.value.target == target) &&
      (r.Some? && target > 0 ==> RoundsTo2((actual as real / target as real) * 100.0, r.value.efficiency))
  {
    var summary := GetSummaryReport(db, bsrc, tsrc, d, d);
    var actual := Sum(TotalQtys(summary));
    var target := TrendTarget(summary, WorkingHours(db, d, d), ActiveBreaks(bsrc));
    if actual > 0 || target > 0 then
      var eff := if target > 0 then RoundTo2((actual as real / target as real) * 100.0) else 0.0;
      Some(TrendPoint(d, eff, actual, target, Weekday(d) == 0))
    else None
  }

  /** The trend entry of any date; an invalid date has none. */
  function DayEntry(db: Db, bsrc: BreakSource, tsrc: TargetSource): (f: Date -> Option<TrendPoint>)
    requires ValidDb(db) && ValidSource(tsrc)
  {
    d => if Valid(d) then DayPoint(db, bsrc, tsrc, d) else None
  }

  /** The entry of a valid date is that day's point, made for that day. */
  lemma DayEntryPoints(db: Db, bsrc: BreakSource, tsrc: TargetSource)
    requires ValidDb(db) && ValidSource(tsrc)
    ensures forall d :: Valid(d) ==> DayEntry(db, bsrc, tsrc)(d) == DayPoint(db, bsrc, tsrc, d)
    ensures forall d :: Valid(d) ==> DayEntry(db, bsrc, tsrc)(d).None? || PointOfDay(DayEntry(db, bsrc, tsrc)(d).value, d)
  {
  }

  /** The order key of an entry: its day number. */
  function PeriodKey(p: TrendPoint): int
  {
    if Valid(p.period) then DayNumber(p.period) else 0
  }

  /** `getEfficiencyTrend($start, $end, $type)`: the entries of every day of the window, in day order. */
  function EfficiencyTrend(db: Db, bsrc: BreakSource, tsrc: TargetSource, s: Date, e: Date, trendType: string): (r: seq<TrendPoint>)
    requires ValidDb(db) && ValidSource(tsrc) && Valid(s) && Valid(e)
  {
    Collect(DateRange(FirstOfMonth(s), TrendTo(e, trendType)), DayEntry(db, bsrc, tsrc))
  }

  /** The trend holds the entry of exactly the days of its window that have one. */
  lemma EfficiencyTrendMembers(db: Db, bsrc: BreakSource, tsrc: TargetSource, s: Date, e: Date, trendType: string)
    requires ValidDb(db) && ValidSource(tsrc) && Valid(s) && Valid(e)
    ensures forall p :: p in EfficiencyTrend(db, bsrc, tsrc, s, e, trendType) <==>
      exists d :: Valid(d) && DayNumber(FirstOfMonth(s)) <= DayNumber(d) <= DayNumber(TrendTo(e, trendType)) &&
                  DayEntry(db, bsrc, tsrc)(d) == Some(p)
  {
    CollectOverRange(FirstOfMonth(s), TrendTo(e, trendType), DayEntry(db, bsrc, tsrc));
  }

  /** Every trend entry is for a real day, has output or a target, and is flagged weekend exactly on Sundays. */
  lemma EfficiencyTrendPoints(db: Db, bsrc: BreakSource, tsrc: TargetSource, s: Date, e: Date, trendType: string)
    requires ValidDb(db) && ValidSource(tsrc) && Valid(s) && Valid(e)
    ensures forall p :: p in EfficiencyTrend(db, bsrc, tsrc, s, e, trendType) ==>
      Valid(p.period) && (p.actual > 0 || p.target > 0) && (p.isWeekend <==> Weekday(p.period) == 0)
  {
    DayEntryPoints(db, bsrc, tsrc);
    TrendPointsOfDays(FirstOfMonth(s), TrendTo(e, trendType), DayEntry(db, bsrc, tsrc));
  }

  /** An entry made for its own day keeps that day, its output-or-target test and its weekend flag. */
  predicate PointOfDay(p: TrendPoint, d: Date)
  {
    Valid(d) && p.period == d && (p.actual > 0 || p.target > 0) && (p.isWeekend <==> Weekday(d) == 0)
  }

  lemma TrendPointsOfDays(lo: Date, hi: Date, f: Date -> Option<TrendPoint>)
    requires Valid(lo) && Valid(hi)
    requires forall d :: Valid(d) ==> f(d).None? || PointOfDay(f(d).value, d)
    ensures forall p :: p in Collect(DateRange(lo, hi), f) ==>
      Valid(p.period) && (p.actual > 0 || p.target > 0) && (p.isWeekend <==> Weekday(p.period) == 0)
  {
    CollectOverRange(lo, hi, f);
    forall p | p in Collect(DateRange(lo, hi), f)
      ensures Valid(p.period) && PointOfDay(p, p.period)
    {
      var d :| Valid(d) && DayNumber(lo) <= DayNumber(d) <= DayNumber(hi) && f(d) == Some(p);
    }
  }

  /** The trend is in strictly increasing day order. */
  lemma EfficiencyTrendOrdered(db: Db, bsrc: BreakSource, tsrc: TargetSource, s: Date, e: Date, trendType: string)
    requires ValidDb(db) && ValidSource(tsrc) && Valid(s) && Valid(e)
    ensures var r := EfficiencyTrend(db, bsrc, tsrc, s, e, trendType);
      forall i, j :: 0 <= i < j < |r| ==> PeriodKey(r[i]) < PeriodKey(r[j])
  {
    var days := DateRange(FirstOfMonth(s), TrendTo(e, trendType));
    DayEntryPoints(db, bsrc, tsrc);
    CollectOrdered(days, DayEntry(db, bsrc, tsrc), PeriodKey, DayNumber(FirstOfMonth(s)));
  }

  /** Collecting over a date range keeps the present results of exactly the days between its ends. */
  lemma CollectOverRange<B>(s: Date, e: Date, f: Date -> Option<B>)
    requires Valid(s) && Valid(e)
    ensures forall y :: y in Collect(DateRange(s, e), f) <==>
      exists d :: Valid(d) && DayNumber(s) <= DayNumber(d) <= DayNumber(e) && f(d) == Some(y)
  {
    var days := DateRange(s, e);
    CollectMembers(days, f);
    forall y | exists d :: Valid(d) && DayNumber(s) <= DayNumber(d) <= DayNumber(e) && f(d) == Some(y)
      ensures exists i :: 0 <= i < |days| && f(days[i]) == Some(y)
    {
      var d :| Valid(d) && DayNumber(s) <= DayNumber(d) <= DayNumber(e) && f(d) == Some(y);
      DateRangeMembers(s, e, d);
      var i :| 0 <= i < |days| && days[i] == d;
    }
  }

  /**
   The trend as written: the first day of a non-empty window calls the
   private `getWorkingHours` and raises an uncaught `Error`.
   */
  function EfficiencyTrendAsWritten(s: Date, e: Date, trendType: string): (r: Result<seq<TrendPoint>>)
    requires Valid(s) && Valid(e)
    ensures r.Failure? <==> DayNumber(FirstOfMonth(s)) <= DayNumber(TrendTo(e, trendType))
    ensures r.Success? ==> r.value == []
  {
    if DayNumber(FirstOfMonth(s)) <= DayNumber(TrendTo(e, trendType)) then Failure(PrivateCallError("getWorkingHours")) else Success([])
  }

  /** A window beginning at the first of the start month is never empty when start <= end. */
  lemma TrendAsWrittenFails(s: Date, e: Date, trendType: string)
    requires Valid(s) && Valid(e) && DayNumber(s) <= DayNumber(e)
    ensures EfficiencyTrendAsWritten(s, e, trendType).Failure?
  {
  }

  /** One row of the line-performance table. */
  datatype LinePerf = LinePerf(process: string, actualQty: int, targetQty: int, efficiency: real)

  /** `strtoupper($line === 'third' ? '3RD' : $line)`. */
  function ProcessLabel(l: Line): string
  {
    Upper(if l == Third then "3RD" else LineKey(l))
  }

  lemma ProcessLabels()
    ensures ProcessLabel(FC) == "FC" && ProcessLabel(FB) == "FB" && ProcessLabel(RC) == "RC"
    ensures ProcessLabel(RB) == "RB" && ProcessLabel(Third) == "3RD" && ProcessLabel(Sub) == "SUB"
  {
    assert Upper("fc") == "FC";
    assert Upper("fb") == "FB";
    assert Upper("rc") == "RC";
    assert Upper("rb") == "RB";
    assert Upper("3RD") == "3RD";
    assert Upper("sub") == "SUB";
  }

  /** `getLinePerformance($start, $end)`, one row per line in line order. */
  function LinePerformance(db: Db, bsrc: BreakSource, tsrc: TargetSource, s: Date, e: Date): (r: seq<LinePerf>)
    requires ValidDb(db) && ValidSource(tsrc) && Valid(s) && Valid(e)
    ensures |r| == |AllLines|
    ensures var summary := GetSummaryReport(db, bsrc, tsrc, s, e);
      var targets := LineTargets(db, summary, ActiveBreaks(bsrc), s, e);
      forall k :: 0 <= k < |r| ==>
        r[k].process == ProcessLabel(AllLines[k]) && r[k].actualQty == summary[k].totalQty &&
        r[k].targetQty == targets[k] && (targets[k] == 0 ==> r[k].efficiency == 0.0) &&
        (targets[k] > 0 ==> RoundsTo2((summary[k].totalQty as real / targets[k] as real) * 100.0, r[k].efficiency))
  {
    var summary := GetSummaryReport(db, bsrc, tsrc, s, e);
    var targets := LineTargets(db, summary, ActiveBreaks(bsrc), s, e);
    seq(|AllLines|, k requires 0 <= k < |AllLines| => LinePerfOf(AllLines[k], summary[k].totalQty, targets[k]))
  }

  /** One line's row: output, target and the efficiency rounded to two places, 0 without a target. */
  function LinePerfOf(l: Line, actual: int, target: int): (r: LinePerf)
    ensures r.process == ProcessLabel(l) && r.actualQty == actual && r.targetQty == target
    ensures target <= 0 ==> r.efficiency == 0.0
    ensures target > 0 ==> RoundsTo2((actual as real / target as real) * 100.0, r.efficiency)
  {
    LinePerf(ProcessLabel(l), actual, target, if target > 0 then RoundTo2((actual as real / target as real) * 100.0) else 0.0)
  }

  function TargetQtys(rows: seq<LinePerf>): (r: seq<int>)
    ensures |r| == |rows|
    ensures forall k :: 0 <= k < |r| ==> r[k] == rows[k].targetQty
  {
    seq(|rows|, k requires 0 <= k < |rows| => rows[k].targetQty)
  }

  function ActualQtys(rows: seq<LinePerf>): (r: seq<int>)
    ensures |r| == |rows|
    ensures forall k :: 0 <= k < |r| ==> r[k] == rows[k].actualQty
  {
    seq(|rows|, k requires 0 <= k < |rows| => rows[k].actualQty)
  }

  /** The line rows add up to the totals behind the KPI efficiency. */
  lemma LinePerformanceMatchesKpis(db: Db, bsrc: BreakSource, tsrc: TargetSource, s: Date, e: Date)
    requires ValidDb(db) && ValidSource(tsrc) && Valid(s) && Valid(e)
    ensures var summary := GetSummaryReport(db, bsrc, tsrc, s, e);
      var rows := LinePerformance(db, bsrc, tsrc, s, e);
      Sum(TargetQtys(rows)) == Sum(LineTargets(db, summary, ActiveBreaks(bsrc), s, e)) &&
      Sum(ActualQtys(rows)) == Sum(TotalQtys(summary))
  {
    var summary := GetSummaryReport(db, bsrc, tsrc, s, e);
    var rows := LinePerformance(db, bsrc, tsrc, s, e);
    assert TargetQtys(rows) == LineTargets(db, summary, ActiveBreaks(bsrc), s, e);
    assert ActualQtys(rows) == TotalQtys(summary);
  }

  /** The `action` parameter. */
  datatype Action = KpisAction | TrendAction | LinesAction | AllAction | MethodsAction | DebugAction

  function ParseAction(s: string): (r: Option<Action>)
    ensures r.None? <==> s !in ["kpis", "efficiency_trend", "line_performance", "all", "methods", "debug"]
  {
    if s == "kpis" then Some(KpisAction)
    else if s == "efficiency_trend" then Some(TrendAction)
    else if s == "line_performance" then Some(LinesAction)
    else if s == "all" then Some(AllAction)
    else if s == "methods" then Some(MethodsAction)
    else if s == "debug" then Some(DebugAction)
    else None
  }

  /** The public methods `get_class_methods` lists from global scope. */
  const PublicMethods: seq<string> := ["__construct", "getHourlyReport", "getDailyReport", "getSummaryReport", "getDetailReport", "debugTableData"]

  datatype PerfData =
    | NoData
    | KpiData(kpis: Kpis)
    | TrendData(trend: seq<TrendPoint>)
    | LinesData(lines: seq<LinePerf>)
    | AllData(allKpis: Kpis, allTrend: seq<TrendPoint>, allLines: seq<LinePerf>)
    | MethodsData(methods: seq<string>)

  datatype PerfResponse = PerfResponse(success: bool, data: PerfData, message: string)

  const InvalidActionMessage: string :=
    "Invalid action parameter. Available actions: kpis, efficiency_trend, line_performance, all, methods, debug"

  /** `$_GET[key] ?? default`. */
  function Param(query: map<string, string>, key: string, default: string): string
  {
    if key in query then query[key] else default
  }

  /**
   The endpoint: read the parameters with their defaults (today for both
   dates, `daily`, `kpis`), reject dates that do not parse, then run the
   action. Errors become `Error: ` plus the message with no data.
   */
  function Dispatch(db: Db, inp: Inputs, query: map<string, string>, today: Date): (r: PerfResponse)
    requires ValidInputs(db, inp) && Valid(today) && today.year < 10000
    ensures r.success <==> r.message == "Data retrieved successfully"
    ensures !r.success ==> r.data == NoData
    ensures (ParseYmd(Param(query, "start_date", FormatYmd(today))).None? || ParseYmd(Param(query, "end_date", FormatYmd(today))).None?) ==>
      r == PerfResponse(false, NoData, "Error: Invalid date format")
    ensures ParseYmd(Param(query, "start_date", FormatYmd(today))).Some? && ParseYmd(Param(query, "end_date", FormatYmd(today))).Some? ==>
      (r.success <==> ParseAction(Param(query, "action", "kpis")).Some?)
    ensures (ParseYmd(Param(query, "start_date", FormatYmd(today))).Some? && ParseYmd(Param(query, "end_date", FormatYmd(today))).Some? &&
             ParseAction(Param(query, "action", "kpis")).None?) ==> r.message == "Error: " + InvalidActionMessage
    ensures "start_date" !in query && "end_date" !in query && "action" !in query ==>
      r == PerfResponse(true, KpiData(PerformanceKpis(db, inp, today, today)), "Data retrieved successfully")
  {
    ParseFormat(today);
    var sd := ParseYmd(Param(query, "start_date", FormatYmd(today)));
    var ed := ParseYmd(Param(query, "end_date", FormatYmd(today)));
    var trendType := Param(query, "type", "daily");
    if sd.None? || ed.None? then PerfResponse(false, NoData, "Error: Invalid date format")
    else
      var s := sd.value;
      var e := ed.value;
      match ParseAction(Param(query, "action", "kpis"))
      case None => PerfResponse(false, NoData, "Error: " + InvalidActionMessage)
      case Some(a) =>
        var data := match a
          case KpisAction => KpiData(PerformanceKpis(db, inp, s, e))
          case TrendAction => TrendData(EfficiencyTrend(db, inp.bsrc, inp.tsrc, s, e, trendType))
          case LinesAction => LinesData(LinePerformance(db, inp.bsrc, inp.tsrc, s, e))
          case AllAction =>
            AllData(PerformanceKpis(db, inp, s, e), EfficiencyTrend(db, inp.bsrc, inp.tsrc, s, e, trendType),
                    LinePerformance(db, inp.bsrc, inp.tsrc, s, e))
          case MethodsAction => MethodsData(PublicMethods)
          case DebugAction => NoData;
        PerfResponse(true, data, "Data retrieved successfully")
  }
}

=== FILE: production_data.dfy ===
/**
 The production-data endpoint: a report type picks the hourly, daily or
 summary report of the data class, the table debug listing, or the model
 summary computed here. The model summary takes each line's production of
 one day (rows with status 10, grouped by item) and adds it into one row
 per model holding its quantity on every line and in total, and into one
 total per line. A line whose query fails (no table, or an error) is
 skipped.
 */
module ProductionData {
  import opened Util
  import opened Sorting
  import opened Tally
  import opened Calendar
  import opened Breaks
  import opened Schema
  import opened Targets
  import opened Reports

  // ------------------------------------------------------------ line counts

  /** One quantity per line: the `fc` … `sub` fields of a model row and of `totals`. */
  datatype LineCounts = LineCounts(fc: int, fb: int, rc: int, rb: int, third: int, sub: int)

  function At(c: LineCounts, l: Line): int
  {
    match l
    case FC => c.fc
    case FB => c.fb
    case RC => c.rc
    case RB => c.rb
    case Third => c.third
    case Sub => c.sub
  }

  /** The counts whose value on every line is f's. */
  function CountsOf(f: Line -> int): (r: LineCounts)
    ensures forall l :: At(r, l) == f(l)
  {
    LineCounts(f(FC), f(FB), f(RC), f(RB), f(Third), f(Sub))
  }

  /** The six values added up. */
  function LineSum(c: LineCounts): int
  {
    c.fc + c.fb + c.rc + c.rb + c.third + c.sub
  }

  /** The JSON key and table suffix of a line here: `third` is written `3rd`. */
  function SummaryKey(l: Line): string
  {
    if l == Third then "3rd" else LineKey(l)
  }

  // ------------------------------------------------------------ the queries

  /** `WHERE DATE(created_at) = ? AND status = 10`, the date given as a `Y-m-d` string. */
  function CountedOn(date: string): ProductionRow -> bool
  {
    (x: ProductionRow) => x.status == 10 && ParseYmd(date) == Some(x.day)
  }

  function ItemOfRow(x: ProductionRow): string { x.item }

  function QtyOfRow(x: ProductionRow): int { x.qty }

  /** `SELECT item, SUM(qty) … GROUP BY item` on the line's table; a failing query gives nothing. */
  function LineGroup(db: Db, date: string, l: Line): Tally<string>
  {
    match TableOf(db, l)
    case Present(rows) => Group(PairsOf(rows, CountedOn(date), ItemOfRow, QtyOfRow))
    case _ => []
  }

  /** The day's quantity of item n on line l as the query defines it; 0 for a failing line. */
  function LineQty(db: Db, date: string, l: Line, n: string): int
  {
    match TableOf(db, l)
    case Present(rows) => SumWhere(rows, CountedOn(date), ItemOfRow, QtyOfRow, n)
    case _ => 0
  }

  /** Item n was produced on line l that day: the line's table holds a counted row of it. */
  predicate ProducedOn(db: Db, date: string, l: Line, n: string)
  {
    TableOf(db, l).Present? &&
    exists j :: 0 <= j < |TableOf(db, l).rows| && CountedOn(date)(TableOf(db, l).rows[j]) && TableOf(db, l).rows[j].item == n
  }

  lemma LineGroupSpec(db: Db, date: string, l: Line, n: string)
    ensures Distinct(Keys(LineGroup(db, date, l)))
    ensures Get(LineGroup(db, date, l), n) == LineQty(db, date, l, n)
    ensures Has(LineGroup(db, date, l), n) <==> ProducedOn(db, date, l, n)
  {
    if TableOf(db, l).Present? {
      GroupOfPairs(TableOf(db, l).rows, CountedOn(date), ItemOfRow, QtyOfRow);
    }
  }

  // ---------------------------------------------------------- contributions

  /** One fetched (item, total) row of one line: what one iteration of the inner loop adds. */
  datatype Contribution = Contribution(line: Line, item: string, qty: int)

  function Tag(l: Line, g: Tally<string>): (r: seq<Contribution>)
    ensures |r| == |g|
    ensures forall i :: 0 <= i < |g| ==> r[i] == Contribution(l, g[i].0, g[i].1)
  {
    seq(|g|, i requires 0 <= i < |g| => Contribution(l, g[i].0, g[i].1))
  }

  /** The loop over the lines ls and their fetched rows, flattened in loop order. */
  function Contributions(db: Db, date: string, ls: seq<Line>): seq<Contribution>
    decreases |ls|
  {
    if |ls| == 0 then []
    else Contributions(db, date, ls[..|ls| - 1]) + Tag(ls[|ls| - 1], LineGroup(db, date, ls[|ls| - 1]))
  }

  predicate Every(c: Contribution) { true }

  function NameOf(c: Contribution): string { c.item }

  function LineOf(c: Contribution): Line { c.line }

  function QtyOf(c: Contribution): int { c.qty }

  function NameLine(c: Contribution): (string, Line) { (c.item, c.line) }

  /** The contributions of model n. */
  function OfName(n: string): Contribution -> bool
  {
    (c: Contribution) => c.item == n
  }

  /** The contributions of line l. */
  function OnLine(l: Line): Contribution -> bool
  {
    (c: Contribution) => c.line == l
  }

  /** Summing one line's tagged rows for (n, l') gives the row of n when l' is that line, and 0 otherwise. */
  lemma {:induction false} TagCell(l: Line, g: Tally<string>, n: string, l': Line)
    ensures SumWhere(Tag(l, g), Every, NameLine, QtyOf, (n, l')) == if l == l' then SumFor(g, n) else 0
    decreases |g|
  {
    if |g| > 0 {
      var init := g[..|g| - 1];
      assert Tag(l, g)[..|g| - 1] == Tag(l, init);
      TagCell(l, init, n, l');
    }
  }

  /** A (model, line) pair collects exactly the day's quantity of the model on that line, if the line was looped over. */
  lemma {:induction false} ContributionsCell(db: Db, date: string, ls: seq<Line>, n: string, l: Line)
    requires Distinct(ls)
    ensures SumWhere(Contributions(db, date, ls), Every, NameLine, QtyOf, (n, l)) == if l in ls then LineQty(db, date, l, n) else 0
    decreases |ls|
  {
    if |ls| > 0 {
      var init := ls[..|ls| - 1];
      var last := ls[|ls| - 1];
      assert Distinct(init);
      assert last !in init;
      assert forall x :: x in ls <==> x in init || x == last;
      ContributionsCell(db, date, init, n, l);
      SumWhereAppend(Contributions(db, date, init), Tag(last, LineGroup(db, date, last)), Every, NameLine, QtyOf, (n, l));
      TagCell(last, LineGroup(db, date, last), n, l);
      LineGroupSpec(db, date, last, n);
      GetOfDistinct(LineGroup(db, date, last), n);
    }
  }

  /** The models of the contributions, in order. */
  function Items(cs: seq<Contribution>): (r: seq<string>)
    ensures |r| == |cs|
    ensures forall i :: 0 <= i < |cs| ==> r[i] == cs[i].item
    ensures forall n :: n in r <==> exists i :: 0 <= i < |cs| && cs[i].item == n
  {
    seq(|cs|, i requires 0 <= i < |cs| => cs[i].item)
  }

  lemma ItemsAppend(a: seq<Contribution>, b: seq<Contribution>)
    ensures Items(a + b) == Items(a) + Items(b)
  {
  }

  lemma ItemsTag(l: Line, g: Tally<string>)
    ensures Items(Tag(l, g)) == Keys(g)
  {
  }

  /** A model occurs among the contributions exactly when the query of some looped-over line returned it. */
  lemma {:induction false} ContributionsKeys(db: Db, date: string, ls: seq<Line>, n: string)
    ensures n in Items(Contributions(db, date, ls)) <==> exists l :: l in ls && Has(LineGroup(db, date, l), n)
    decreases |ls|
  {
    if |ls| > 0 {
      var init := ls[..|ls| - 1];
      var last := ls[|ls| - 1];
      var a := Contributions(db, date, init);
      var g := LineGroup(db, date, last);
      ContributionsKeys(db, date, init, n);
      ItemsAppend(a, Tag(last, g));
      ItemsTag(last, g);
      assert Items(Contributions(db, date, ls)) == Items(a) + Keys(g);
      assert forall x :: x in ls <==> x in init || x == last;
    }
  }

  /** A model occurs among the contributions exactly when some looped-over line produced it. */
  lemma ContributionsNames(db: Db, date: string, ls: seq<Line>, n: string)
    ensures n in Items(Contributions(db, date, ls)) <==> exists l :: l in ls && ProducedOn(db, date, l, n)
  {
    ContributionsKeys(db, date, ls, n);
    forall l | l in ls
      ensures Has(LineGroup(db, date, l), n) <==> ProducedOn(db, date, l, n)
    {
      LineGroupSpec(db, date, l, n);
    }
  }

  // ---------------------------------------------------------- model summary

  /** One element of `models`: the model, its quantity per line and its total. */
  datatype ModelRow = ModelRow(name: string, perLine: LineCounts, total: int)

  datatype ModelSummary = ModelSummary(models: seq<ModelRow>, totals: LineCounts)

  /** The quantities of line l down the model rows. */
  function LineColumn(models: seq<ModelRow>, l: Line): (r: seq<int>)
    ensures |r| == |models|
    ensures forall i :: 0 <= i < |models| ==> r[i] == At(models[i].perLine, l)
  {
    seq(|models|, i requires 0 <= i < |models| => At(models[i].perLine, l))
  }

  /** `$models[$name][$line] += $qty`. */
  function CellTally(cs: seq<Contribution>): Tally<(string, Line)>
  {
    Group(PairsOf(cs, Every, NameLine, QtyOf))
  }

  /** `$models[$name]['total'] += $qty`; its keys are the models in order of first sight. */
  function ByName(cs: seq<Contribution>): Tally<string>
  {
    Group(PairsOf(cs, Every, NameOf, QtyOf))
  }

  /** `$totals[$line] += $qty`. */
  function ByLine(cs: seq<Contribution>): Tally<Line>
  {
    Group(PairsOf(cs, Every, LineOf, QtyOf))
  }

  /** `array_values($models)`: one row per model entry, its line quantities read from the cells. */
  function RowsOf(byName: Tally<string>, cells: Tally<(string, Line)>): (r: seq<ModelRow>)
    ensures |r| == |byName|
    ensures forall i :: 0 <= i < |r| ==> r[i].name == byName[i].0 && r[i].total == byName[i].1
    ensures forall i, l :: 0 <= i < |r| ==> At(r[i].perLine, l) == Get(cells, (byName[i].0, l))
  {
    seq(|byName|, i requires 0 <= i < |byName| =>
      ModelRow(byName[i].0, CountsOf(l => Get(cells, (byName[i].0, l))), byName[i].1))
  }

  /** The three tallies of the contributions, as the response holds them. */
  function SummaryOf(cs: seq<Contribution>): ModelSummary
  {
    ModelSummary(RowsOf(ByName(cs), CellTally(cs)), CountsOf(l => Get(ByLine(cs), l)))
  }

  /** The `model_summary` branch for the day given. */
  function SummarizeModels(db: Db, date: string): ModelSummary
  {
    SummaryOf(Contributions(db, date, AllLines))
  }

  /** The cell of (n, l) is the quantity of model n's contributions on line l. */
  lemma NameLineCell(cs: seq<Contribution>, n: string, l: Line)
    ensures SumWhere(cs, Every, NameLine, QtyOf, (n, l)) == SumWhere(cs, OfName(n), LineOf, QtyOf, l)
    ensures SumWhere(cs, Every, NameLine, QtyOf, (n, l)) == SumWhere(cs, OnLine(l), NameOf, QtyOf, n)
  {
    var both := (c: Contribution) => NameLine(c) == (n, l);
    SumWhereIsSumKept(cs, Every, NameLine, QtyOf, (n, l), both);
    SumWhereIsSumKept(cs, OfName(n), LineOf, QtyOf, l, both);
    SumWhereIsSumKept(cs, OnLine(l), NameOf, QtyOf, n, both);
  }

  /** The tally by model has one entry per contributing model, holding all its quantities. */
  lemma ByNameSpec(cs: seq<Contribution>, n: string)
    ensures Distinct(Keys(ByName(cs)))
    ensures Has(ByName(cs), n) <==> n in Items(cs)
    ensures Get(ByName(cs), n) == SumKept(cs, OfName(n), QtyOf)
  {
    GroupOfPairs(cs, Every, NameOf, QtyOf);
    SumWhereIsSumKept(cs, Every, NameOf, QtyOf, n, OfName(n));
    if n in Items(cs) {
      var k :| 0 <= k < |cs| && Items(cs)[k] == n;
      assert Every(cs[k]) && NameOf(cs[k]) == n;
    }
  }

  /** The rows name every contributing model once. */
  lemma SummaryNames(cs: seq<Contribution>, n: string)
    ensures forall i, j :: 0 <= i < j < |SummaryOf(cs).models| ==> SummaryOf(cs).models[i].name != SummaryOf(cs).models[j].name
    ensures (exists i :: 0 <= i < |SummaryOf(cs).models| && SummaryOf(cs).models[i].name == n) <==> n in Items(cs)
  {
    var byName := ByName(cs);
    var ms := SummaryOf(cs).models;
    ByNameSpec(cs, n);
    assert forall i :: 0 <= i < |ms| ==> ms[i].name == Keys(byName)[i];
    if n in Items(cs) {
      var i :| 0 <= i < |byName| && Keys(byName)[i] == n;
      assert ms[i].name == n;
    }
  }

  /** A row's quantity on line l is the cell of its model and l. */
  lemma SummaryCells(cs: seq<Contribution>, l: Line)
    ensures forall i :: 0 <= i < |SummaryOf(cs).models| ==>
      At(SummaryOf(cs).models[i].perLine, l) == SumWhere(cs, Every, NameLine, QtyOf, (SummaryOf(cs).models[i].name, l))
  {
    GroupOfPairs(cs, Every, NameLine, QtyOf);
  }

  /** A row's total is the quantity of all its model's contributions. */
  lemma SummaryRowKept(cs: seq<Contribution>)
    ensures forall i :: 0 <= i < |SummaryOf(cs).models| ==>
      SummaryOf(cs).models[i].total == SumKept(cs, OfName(SummaryOf(cs).models[i].name), QtyOf)
  {
    var byName := ByName(cs);
    forall i | 0 <= i < |SummaryOf(cs).models|
      ensures SummaryOf(cs).models[i].total == SumKept(cs, OfName(SummaryOf(cs).models[i].name), QtyOf)
    {
      var n := byName[i].0;
      ByNameSpec(cs, n);
      assert forall j :: 0 <= j < i ==> Keys(byName)[j] != Keys(byName)[i];
      IndexOfUnique(byName, n, i);
    }
  }

  /** Six cells listed in line order add up to the line sum. */
  lemma SixCells(row: seq<int>, c: LineCounts)
    requires |row| == |AllLines|
    requires forall k :: 0 <= k < |AllLines| ==> row[k] == At(c, AllLines[k])
    ensures Sum(row) == LineSum(c)
  {
    assert row[0] == c.fc && row[1] == c.fb && row[2] == c.rc by {
      assert AllLines[0] == FC && AllLines[1] == FB && AllLines[2] == RC;
    }
    assert row[3] == c.rb && row[4] == c.third && row[5] == c.sub by {
      assert AllLines[3] == RB && AllLines[4] == Third && AllLines[5] == Sub;
    }
    assert row[..1][..0] == [];
    assert Sum(row[..1]) == row[0];
    assert row[..2][..1] == row[..1];
    assert Sum(row[..2]) == row[0] + row[1];
    assert row[..3][..2] == row[..2];
    assert Sum(row[..3]) == row[0] + row[1] + row[2];
    assert row[..4][..3] == row[..3];
    assert Sum(row[..4]) == row[0] + row[1] + row[2] + row[3];
    assert row[..5][..4] == row[..4];
    assert Sum(row[..5]) == row[0] + row[1] + row[2] + row[3] + row[4];
    assert row[..6][..5] == row[..5];
    assert row[..6] == row;
  }

  /** Counts holding model n's quantity on every line add up to all of n's quantity. */
  lemma LineSplit(cs: seq<Contribution>, n: string, c: LineCounts)
    requires forall l :: At(c, l) == SumWhere(cs, OfName(n), LineOf, QtyOf, l)
    ensures LineSum(c) == SumKept(cs, OfName(n), QtyOf)
  {
    forall j | 0 <= j < |cs| && OfName(n)(cs[j])
      ensures LineOf(cs[j]) in AllLines
    {
      AllLinesComplete(cs[j].line);
    }
    CellsCover(cs, OfName(n), LineOf, QtyOf, AllLines);
    var row := Cells(cs, OfName(n), LineOf, QtyOf, AllLines);
    SixCells(row, c);
  }

  /** Every model row's total is the sum of its six line quantities. */
  lemma SummaryRowTotal(cs: seq<Contribution>)
    ensures forall i :: 0 <= i < |SummaryOf(cs).models| ==>
      SummaryOf(cs).models[i].total == LineSum(SummaryOf(cs).models[i].perLine)
  {
    SummaryRowKept(cs);
    forall i | 0 <= i < |SummaryOf(cs).models|
      ensures SummaryOf(cs).models[i].total == LineSum(SummaryOf(cs).models[i].perLine)
    {
      var m := SummaryOf(cs).models[i];
      forall l
        ensures At(m.perLine, l) == SumWhere(cs, OfName(m.name), LineOf, QtyOf, l)
      {
        SummaryCells(cs, l);
        NameLineCell(cs, m.name, l);
      }
      LineSplit(cs, m.name, m.perLine);
    }
  }

  /** Every contribution's model has an entry in the tally by model. */
  lemma NamesCovered(cs: seq<Contribution>)
    ensures forall j :: 0 <= j < |cs| ==> NameOf(cs[j]) in Keys(ByName(cs))
  {
    forall j | 0 <= j < |cs|
      ensures NameOf(cs[j]) in Keys(ByName(cs))
    {
      ByNameSpec(cs, NameOf(cs[j]));
      assert Items(cs)[j] == NameOf(cs[j]);
    }
  }

  /** The column of line l lists, model by model, that model's quantity on l. */
  lemma ColumnCells(cs: seq<Contribution>, l: Line)
    ensures Cells(cs, OnLine(l), NameOf, QtyOf, Keys(ByName(cs))) == LineColumn(SummaryOf(cs).models, l)
  {
    var names := Keys(ByName(cs));
    var col := Cells(cs, OnLine(l), NameOf, QtyOf, names);
    forall k | 0 <= k < |names|
      ensures col[k] == LineColumn(SummaryOf(cs).models, l)[k]
    {
      SummaryCells(cs, l);
      NameLineCell(cs, names[k], l);
    }
  }

  /** Every line total is the sum of that line's quantities over the model rows. */
  lemma SummaryColumnSums(cs: seq<Contribution>, l: Line)
    ensures At(SummaryOf(cs).totals, l) == Sum(LineColumn(SummaryOf(cs).models, l))
  {
    GroupOfPairs(cs, Every, LineOf, QtyOf);
    SumWhereIsSumKept(cs, Every, LineOf, QtyOf, l, OnLine(l));
    NamesCovered(cs);
    ByNameSpec(cs, "");
    CellsCover(cs, OnLine(l), NameOf, QtyOf, Keys(ByName(cs)));
    ColumnCells(cs, l);
  }

  /** The model rows of the day name each model once. */
  lemma ModelsDistinct(db: Db, date: string)
    ensures forall i, j :: 0 <= i < j < |SummarizeModels(db, date).models| ==>
      SummarizeModels(db, date).models[i].name != SummarizeModels(db, date).models[j].name
  {
    SummaryNames(Contributions(db, date, AllLines), "");
  }

  /** The model rows over lines ls that cover every line: one for every model some line produced, and no other. */
  lemma ModelsListedOver(db: Db, date: string, ls: seq<Line>, n: string)
    requires forall l :: l in ls
    ensures (exists i :: 0 <= i < |SummaryOf(Contributions(db, date, ls)).models| && SummaryOf(Contributions(db, date, ls)).models[i].name == n) <==>
      exists l :: ProducedOn(db, date, l, n)
  {
    SummaryNames(Contributions(db, date, ls), n);
    ContributionsNames(db, date, ls, n);
  }

  /** The model rows of the day: one for every model some line produced, and no other. */
  lemma ModelsListed(db: Db, date: string, n: string)
    ensures (exists i :: 0 <= i < |SummarizeModels(db, date).models| && SummarizeModels(db, date).models[i].name == n) <==>
      exists l :: ProducedOn(db, date, l, n)
  {
    var ls := AllLines;
    assert forall l :: l in ls by {
      forall l ensures l in ls {
        AllLinesComplete(l);
      }
    }
    ModelsListedOver(db, date, ls, n);
    assert SummarizeModels(db, date) == SummaryOf(Contributions(db, date, ls));
  }

  /** Over distinct lines ls, a model row's quantity on a looped-over line l is the day's quantity of the model on l. */
  lemma ModelCellOver(db: Db, date: string, ls: seq<Line>, l: Line)
    requires Distinct(ls) && l in ls
    ensures forall i :: 0 <= i < |SummaryOf(Contributions(db, date, ls)).models| ==>
      At(SummaryOf(Contributions(db, date, ls)).models[i].perLine, l) ==
      LineQty(db, date, l, SummaryOf(Contributions(db, date, ls)).models[i].name)
  {
    var cs := Contributions(db, date, ls);
    SummaryCells(cs, l);
    forall i | 0 <= i < |SummaryOf(cs).models|
      ensures At(SummaryOf(cs).models[i].perLine, l) == LineQty(db, date, l, SummaryOf(cs).models[i].name)
    {
      ContributionsCell(db, date, ls, SummaryOf(cs).models[i].name, l);
    }
  }

  /** A model row's quantity on line l is the day's quantity of the model on l, 0 if l's query failed. */
  lemma ModelCell(db: Db, date: string, l: Line)
    ensures forall i :: 0 <= i < |SummarizeModels(db, date).models| ==>
      At(SummarizeModels(db, date).models[i].perLine, l) == LineQty(db, date, l, SummarizeModels(db, date).models[i].name)
  {
    var ls := AllLines;
    AllLinesComplete(l);
    AllLinesDistinct();
    assert SummarizeModels(db, date) == SummaryOf(Contributions(db, date, ls));
    ModelCellOver(db, date, ls, l);
  }

  /** Every model row's total is the sum of its six line quantities. */
  lemma ModelRowTotal(db: Db, date: string)
    ensures forall i :: 0 <= i < |SummarizeModels(db, date).models| ==>
      SummarizeModels(db, date).models[i].total == LineSum(SummarizeModels(db, date).models[i].perLine)
  {
    SummaryRowTotal(Contributions(db, date, AllLines));
  }

  /** Every line total is the sum of that line's quantities over the model rows. */
  lemma TotalsAreColumnSums(db: Db, date: string, l: Line)
    ensures At(SummarizeModels(db, date).totals, l) == Sum(LineColumn(SummarizeModels(db, date).models, l))
  {
    SummaryColumnSums(Contributions(db, date, AllLines), l);
  }

  // ---------------------------------------------------------------- dispatch

  datatype ReportType = HourlyType | DailyType | SummaryType | DebugType | ModelSummaryType

  /** The `switch ($type)` cases; anything else is not a report type. */
  function ParseReportType(s: string): (r: Option<ReportType>)
    ensures r.Some? <==> s in ["hourly", "daily", "summary", "debug", "model_summary"]
  {
    if s == "hourly" then Some(HourlyType)
    else if s == "daily" then Some(DailyType)
    else if s == "summary" then Some(SummaryType)
    else if s == "debug" then Some(DebugType)
    else if s == "model_summary" then Some(ModelSummaryType)
    else None
  }

  const InvalidTypeMessage: string := "Invalid report type"

  const UnreadableDateMessage: string := "Unreadable date"

  datatype ReportData = HourlyData(hourly: HourlyReport) | DailyData(daily: DailyReport) | SummaryData(lines: seq<LineSummary>) | DebugData

  /** A data-class report with the parameters echoed, or the model summary alone. */
  datatype Reply =
    | Report(data: ReportData, startDate: string, endDate: string, reportType: string, displayType: string)
    | Models(summary: ModelSummary)

  function Param(query: map<string, string>, key: string, default: string): string
  {
    if key in query then query[key] else default
  }

  /** The data-class report of a type other than the model summary. */
  function RunReport(db: Db, bsrc: BreakSource, tsrc: TargetSource, t: ReportType, s: Date, e: Date, display: string): ReportData
    requires ValidDb(db) && ValidSource(tsrc) && Valid(s) && Valid(e)
  {
    match t
    case HourlyType => HourlyData(GetHourlyReport(db, bsrc, tsrc, s, e, ParseDisplayType(display)))
    case DailyType => DailyData(GetDailyReport(db, s, e))
    case SummaryType => SummaryData(GetSummaryReport(db, bsrc, tsrc, s, e))
    case _ => DebugData
  }

  /**
   The endpoint: read the parameters with their defaults (today's date,
   `hourly`, `pieces`) and run the report the type names. The reports are
   modelled over calendar dates, so a date parameter that is not a
   `YYYY-MM-DD` date is refused here with `UnreadableDateMessage`; the
   endpoint itself hands such a string on unread (see the README).
   */
  function Dispatch(db: Db, bsrc: BreakSource, tsrc: TargetSource, query: map<string, string>, today: Date): (r: Result<Reply>)
    requires ValidDb(db) && ValidSource(tsrc) && Valid(today) && today.year < 10000
    ensures ParseReportType(Param(query, "type", "hourly")).None? <==> r == Failure(InvalidTypeMessage)
    ensures Param(query, "type", "hourly") == "model_summary" ==>
      r == Success(Models(SummarizeModels(db, Param(query, "start_date", FormatYmd(today)))))
    ensures r.Success? && r.value.Report? ==>
      r.value.startDate == Param(query, "start_date", FormatYmd(today)) &&
      r.value.endDate == Param(query, "end_date", FormatYmd(today)) &&
      r.value.reportType == Param(query, "type", "hourly") &&
      r.value.displayType == Param(query, "display_type", "pieces")
    ensures (ParseReportType(Param(query, "type", "hourly")).Some? &&
             ParseYmd(Param(query, "start_date", FormatYmd(today))).Some? &&
             ParseYmd(Param(query, "end_date", FormatYmd(today))).Some?) ==> r.Success?
    ensures "start_date" !in query && "end_date" !in query && "type" !in query && "display_type" !in query ==>
      r == Success(Report(RunReport(db, bsrc, tsrc, HourlyType, today, today, "pieces"),
                          FormatYmd(today), FormatYmd(today), "hourly", "pieces"))
    ensures var start, end := Param(query, "start_date", FormatYmd(today)), Param(query, "end_date", FormatYmd(today));
      var ty, display := Param(query, "type", "hourly"), Param(query, "display_type", "pieces");
      ParseReportType(ty).Some? && ParseReportType(ty).value != ModelSummaryType &&
      ParseYmd(start).Some? && ParseYmd(end).Some? ==>
        r == Success(Report(RunReport(db, bsrc, tsrc, ParseReportType(ty).value, ParseYmd(start).value, ParseYmd(end).value, display),
                            start, end, ty, display))
  {
    ParseFormat(today);
    var start := Param(query, "start_date", FormatYmd(today));
    var end := Param(query, "end_date", FormatYmd(today));
    var ty := Param(query, "type", "hourly");
    var display := Param(query, "display_type", "pieces");
    match ParseReportType(ty)
    case None => Failure(InvalidTypeMessage)
    case Some(t) =>
      if t == ModelSummaryType then Success(Models(SummarizeModels(db, start)))
      else
        match (ParseYmd(start), ParseYmd(end))
        case (Some(s), Some(e)) =>
          Success(Report(RunReport(db, bsrc, tsrc, t, s, e, display), start, end, ty, display))
        case _ => Failure(UnreadableDateMessage)
  }
}

=== FILE: reports.dfy ===
/**
 The report methods of the production data class: the hourly series per
 line (pieces, or a percentage of the break-adjusted hourly target), the
 daily series per line over every calendar day of the range, and the
 per-line summary with its average of hourly percentages and its fixed
 08:00-17:59 daily target.
 */
module Reports {
  import opened Util
  import opened Text
  import opened Sorting
  import opened Calendar
  import opened Breaks
  import opened Schema
  import opened Targets

  /** `$display_type === 'percentage'`; every other value shows pieces. */
  datatype DisplayType = Pieces | Percentage

  function ParseDisplayType(s: string): DisplayType
  {
    if s == "percentage" then Percentage else Pieces
  }

  /** `round($rate * $minutes / 60)`: the share of an hourly rate the hour's net minutes earn. */
  function HourTarget(rate: int, minutes: int): int
  {
    RoundOverSixty(rate * minutes)
  }

  /** For non-negative inputs the float rounding is integer arithmetic. */
  lemma HourTargetInteger(rate: int, minutes: int)
    requires rate >= 0 && minutes >= 0
    ensures HourTarget(rate, minutes) == (rate * minutes + 30) / 60
    ensures minutes == 60 ==> HourTarget(rate, minutes) == rate
  {
    RoundOverSixtyInteger(rate * minutes);
  }

  /** A percentage cell: `round($actual / $target * 100, 1)` when the target is positive, else 0. */
  function PercentCell(qty: int, target: int): (r: real)
    ensures target <= 0 ==> r == 0.0
    ensures target > 0 ==> RoundsTo1((qty as real / target as real) * 100.0, r)
    ensures qty >= 0 ==> r >= 0.0
  {
    if target > 0 then RoundTo1((qty as real / target as real) * 100.0) else 0.0
  }

  /** One entry of a line's hourly series. */
  function HourlyCell(data: LineData, h: int, s: Date, e: Date, rate: int, breaks: seq<BreakTime>, display: DisplayType): real
    requires (data.Present? ==> ValidRows(data.rows)) && Valid(s) && Valid(e)
  {
    match data
    case Present(rows) =>
      var qty := QtyWith(RowsIn(rows, s, e), HourOf, h);
      if display == Pieces then qty as real
      else PercentCell(qty, HourTarget(rate, WorkingMinutes(breaks, h)))
    case _ => 0.0
  }

  /** A line's hourly series: one entry per working hour, zeros for a missing or failing table. */
  function HourlySeries(data: LineData, hours: seq<int>, s: Date, e: Date, rate: int, breaks: seq<BreakTime>, display: DisplayType): (r: seq<real>)
    requires (data.Present? ==> ValidRows(data.rows)) && Valid(s) && Valid(e)
    ensures |r| == |hours|
    ensures forall i :: 0 <= i < |r| ==> r[i] == HourlyCell(data, hours[i], s, e, rate, breaks, display)
    ensures !data.Present? ==> forall i :: 0 <= i < |r| ==> r[i] == 0.0
    decreases |hours|
  {
    if |hours| == 0 then []
    else
      HourlySeries(data, hours[..|hours| - 1], s, e, rate, breaks, display) +
      [HourlyCell(data, hours[|hours| - 1], s, e, rate, breaks, display)]
  }

  /** In pieces mode the series adds up to the hours' group sums. */
  lemma {:induction false} HourlySeriesSum(rows: seq<ProductionRow>, hours: seq<int>, s: Date, e: Date, rate: int, breaks: seq<BreakTime>)
    requires ValidRows(rows) && Valid(s) && Valid(e)
    ensures SumReal(HourlySeries(Present(rows), hours, s, e, rate, breaks, Pieces)) ==
            QtyOverKeys(RowsIn(rows, s, e), HourOf, hours) as real
    decreases |hours|
  {
    if |hours| > 0 {
      var series := HourlySeries(Present(rows), hours, s, e, rate, breaks, Pieces);
      HourlySeriesSum(rows, hours[..|hours| - 1], s, e, rate, breaks);
      assert series[..|series| - 1] == HourlySeries(Present(rows), hours[..|hours| - 1], s, e, rate, breaks, Pieces);
    }
  }

  /** Every production hour of a present line is one of the discovered working hours. */
  lemma RowHoursAreWorkingHours(db: Db, l: Line, s: Date, e: Date)
    requires ValidDb(db) && Valid(s) && Valid(e)
    requires TableOf(db, l).Present?
    ensures forall x :: x in RowsIn(TableOf(db, l).rows, s, e) ==> x.hour in WorkingHours(db, s, e)
  {
    AllLinesComplete(l);
    var found := DiscoveredHours(db, s, e, AllLines);
    forall x | x in RowsIn(TableOf(db, l).rows, s, e)
      ensures x.hour in WorkingHours(db, s, e)
    {
      assert x.hour in LineHours(TableOf(db, l), s, e);
      assert x.hour in found;
    }
  }

  /**
   The hourly series of a present line, in pieces, adds up to the line's
   summary total: the hourly grouping neither loses nor double-counts a row.
   */
  lemma HourlyPiecesTotal(db: Db, l: Line, s: Date, e: Date, rate: int, breaks: seq<BreakTime>)
    requires ValidDb(db) && Valid(s) && Valid(e)
    requires TableOf(db, l).Present?
    ensures SumReal(HourlySeries(TableOf(db, l), WorkingHours(db, s, e), s, e, rate, breaks, Pieces)) ==
            QtySum(RowsIn(TableOf(db, l).rows, s, e)) as real
  {
    var rows := TableOf(db, l).rows;
    var hours := WorkingHours(db, s, e);
    HourlySeriesSum(rows, hours, s, e, rate, breaks);
    IntLessIsStrictTotalOrder();
    StrictlySortedDistinct(hours, IntLess);
    RowHoursAreWorkingHours(db, l, s, e);
    assert forall x :: x in RowsIn(rows, s, e) ==> HourOf(x) in hours;
    QtyOverKeysCovers(RowsIn(rows, s, e), HourOf, hours);
  }

  /** `sprintf('%02d:00', $hour)`. */
  function HourLabel(h: nat): string
  {
    Pad2(h) + ":00"
  }

  datatype HourlyReport = HourlyReport(labels: seq<string>, series: seq<seq<real>>)

  /** `getHourlyReport($start, $end, $display_type)`; series are in line order. */
  function GetHourlyReport(db: Db, bsrc: BreakSource, tsrc: TargetSource, s: Date, e: Date, display: DisplayType): (r: HourlyReport)
    requires ValidDb(db) && ValidSource(tsrc) && Valid(s) && Valid(e)
    ensures |r.labels| == |WorkingHours(db, s, e)|
    ensures forall i :: 0 <= i < |r.labels| ==> WorkingHours(db, s, e)[i] >= 0 && r.labels[i] == HourLabel(WorkingHours(db, s, e)[i])
    ensures |r.series| == |AllLines|
    ensures forall k :: 0 <= k < |r.series| ==> |r.series[k]| == |r.labels|
    ensures forall k :: 0 <= k < |r.series| && !TableOf(db, AllLines[k]).Present? ==>
      forall i :: 0 <= i < |r.series[k]| ==> r.series[k][i] == 0.0
    ensures forall k :: 0 <= k < |r.series| ==>
      r.series[k] == HourlySeries(TableOf(db, AllLines[k]), WorkingHours(db, s, e), s, e,
                                  Rate(GetTargets(tsrc, s), AllLines[k]), ActiveBreaks(bsrc), display)
  {
    WorkingHoursAreClockHours(db, s, e);
    HourlyReportOf(db, WorkingHours(db, s, e), s, e, GetTargets(tsrc, s), ActiveBreaks(bsrc), display)
  }

  /** The hourly report over given working hours, target rates and breaks. */
  function HourlyReportOf(db: Db, hours: seq<int>, s: Date, e: Date, rates: Rates, breaks: seq<BreakTime>, display: DisplayType): (r: HourlyReport)
    requires ValidDb(db) && Valid(s) && Valid(e)
    requires forall h :: h in hours ==> 0 <= h < 24
    ensures |r.labels| == |hours|
    ensures forall i :: 0 <= i < |r.labels| ==> hours[i] >= 0 && r.labels[i] == HourLabel(hours[i])
    ensures |r.series| == |AllLines|
    ensures forall k :: 0 <= k < |r.series| ==> |r.series[k]| == |r.labels|
    ensures forall k :: 0 <= k < |r.series| && !TableOf(db, AllLines[k]).Present? ==>
      forall i :: 0 <= i < |r.series[k]| ==> r.series[k][i] == 0.0
    ensures forall k :: 0 <= k < |r.series| ==>
      r.series[k] == HourlySeries(TableOf(db, AllLines[k]), hours, s, e, Rate(rates, AllLines[k]), breaks, display)
  {
    var labels := seq(|hours|, i requires 0 <= i < |hours| => assert hours[i] in hours; HourLabel(hours[i]));
    var series := seq(|AllLines|, k requires 0 <= k < |AllLines| =>
      HourlySeries(TableOf(db, AllLines[k]), hours, s, e, Rate(rates, AllLines[k]), breaks, display));
    assert forall i :: 0 <= i < |hours| ==> hours[i] in hours;
    HourlyReport(labels, series)
  }

  /** A line's daily series: the pieces of each day of the range, zeros for a missing or failing table. */
  function DailySeries(data: LineData, days: seq<Date>, s: Date, e: Date): (r: seq<int>)
    requires (data.Present? ==> ValidRows(data.rows)) && Valid(s) && Valid(e)
    ensures |r| == |days|
    ensures forall i :: 0 <= i < |r| ==> r[i] == (if data.Present? then QtyWith(RowsIn(data.rows, s, e), DayOf, days[i]) else 0)
    decreases |days|
  {
    if |days| == 0 then []
    else
      var d := days[|days| - 1];
      DailySeries(data, days[..|days| - 1], s, e) +
      [if data.Present? then QtyWith(RowsIn(data.rows, s, e), DayOf, d) else 0]
  }

  lemma {:induction false} DailySeriesSum(rows: seq<ProductionRow>, days: seq<Date>, s: Date, e: Date)
    requires ValidRows(rows) && Valid(s) && Valid(e)
    ensures Sum(DailySeries(Present(rows), days, s, e)) == QtyOverKeys(RowsIn(rows, s, e), DayOf, days)
    decreases |days|
  {
    if |days| > 0 {
      var series := DailySeries(Present(rows), days, s, e);
      DailySeriesSum(rows, days[..|days| - 1], s, e);
      assert series[..|series| - 1] == DailySeries(Present(rows), days[..|days| - 1], s, e);
    }
  }

  lemma DateRangeDistinct(s: Date, e: Date)
    requires Valid(s) && Valid(e)
    ensures Distinct(DateRange(s, e))
  {
  }

  /**
   The daily series of a present line adds up to the line's summary total:
   every row of the range falls on exactly one day of the range.
   */
  lemma DailyTotal(rows: seq<ProductionRow>, s: Date, e: Date)
    requires ValidRows(rows) && Valid(s) && Valid(e)
    ensures Sum(DailySeries(Present(rows), DateRange(s, e), s, e)) == QtySum(RowsIn(rows, s, e))
  {
    var days := DateRange(s, e);
    var kept := RowsIn(rows, s, e);
    DailySeriesSum(rows, days, s, e);
    DateRangeDistinct(s, e);
    forall x | x in kept
      ensures DayOf(x) in days
    {
      var i :| 0 <= i < |kept| && kept[i] == x;
      DateRangeMembers(s, e, x.day);
    }
    QtyOverKeysCovers(kept, DayOf, days);
  }

  datatype DailyReport = DailyReport(labels: seq<string>, series: seq<seq<int>>)

  /** `getDailyReport($start, $end)`: one label and one entry per line for every day from start to end. */
  function GetDailyReport(db: Db, s: Date, e: Date): (r: DailyReport)
    requires ValidDb(db) && Valid(s) && Valid(e)
    ensures |r.labels| == Max(0, DayNumber(e) - DayNumber(s) + 1)
    ensures forall i :: 0 <= i < |r.labels| ==> r.labels[i] == FormatDm(DateRange(s, e)[i])
    ensures |r.series| == |AllLines|
    ensures forall k :: 0 <= k < |r.series| ==> |r.series[k]| == |r.labels|
    ensures forall k :: 0 <= k < |r.series| && !TableOf(db, AllLines[k]).Present? ==>
      forall i :: 0 <= i < |r.series[k]| ==> r.series[k][i] == 0
    ensures forall k :: 0 <= k < |r.series| ==> r.series[k] == DailySeries(TableOf(db, AllLines[k]), DateRange(s, e), s, e)
  {
    DailyReportOf(db, DateRange(s, e), s, e)
  }

  /** The daily report over a given list of days. */
  function DailyReportOf(db: Db, days: seq<Date>, s: Date, e: Date): (r: DailyReport)
    requires ValidDb(db) && Valid(s) && Valid(e)
    requires forall i :: 0 <= i < |days| ==> Valid(days[i])
    ensures |r.labels| == |days|
    ensures forall i :: 0 <= i < |r.labels| ==> r.labels[i] == FormatDm(days[i])
    ensures |r.series| == |AllLines|
    ensures forall k :: 0 <= k < |r.series| ==> |r.series[k]| == |days|
    ensures forall k :: 0 <= k < |r.series| && !TableOf(db, AllLines[k]).Present? ==>
      forall i :: 0 <= i < |r.series[k]| ==> r.series[k][i] == 0
    ensures forall k :: 0 <= k < |r.series| ==> r.series[k] == DailySeries(TableOf(db, AllLines[k]), days, s, e)
  {
    var labels := seq(|days|, i requires 0 <= i < |days| => FormatDm(days[i]));
    var series := seq(|AllLines|, k requires 0 <= k < |AllLines| => DailySeries(TableOf(db, AllLines[k]), days, s, e));
    DailyReport(labels, series)
  }

  /** Each present line's daily series adds up to its total for the range. */
  lemma DailyReportTotal(db: Db, s: Date, e: Date, k: int)
    requires ValidDb(db) && Valid(s) && Valid(e)
    requires 0 <= k < |AllLines| && TableOf(db, AllLines[k]).Present?
    ensures Sum(GetDailyReport(db, s, e).series[k]) == QtySum(RowsIn(TableOf(db, AllLines[k]).rows, s, e))
  {
    DailyTotal(TableOf(db, AllLines[k]).rows, s, e);
  }

  /** The arithmetic mean, 0 for no values. */
  function Mean(xs: seq<real>): real
  {
    if |xs| == 0 then 0.0 else SumReal(xs) / (|xs| as real)
  }

  lemma {:induction false} SumRealBounds(xs: seq<real>, lo: real, hi: real)
    requires forall i :: 0 <= i < |xs| ==> lo <= xs[i] <= hi
    ensures lo * (|xs| as real) <= SumReal(xs) <= hi * (|xs| as real)
    decreases |xs|
  {
    if |xs| > 0 {
      SumRealBounds(xs[..|xs| - 1], lo, hi);
    }
  }

  /** The mean lies between the smallest and the largest value. */
  lemma MeanBounds(xs: seq<real>, lo: real, hi: real)
    requires |xs| > 0
    requires forall i :: 0 <= i < |xs| ==> lo <= xs[i] <= hi
    ensures lo <= Mean(xs) <= hi
  {
    SumRealBounds(xs, lo, hi);
    var n := |xs| as real;
    assert Mean(xs) * n == SumReal(xs);
  }

  /**
   An hour counts toward the summary average when the kept rows produced
   something in it (`HAVING total_qty > 0`) and its break-adjusted target is
   positive.
   */
  predicate Qualifies(kept: seq<ProductionRow>, rate: int, breaks: seq<BreakTime>, h: int)
  {
    QtyWith(kept, HourOf, h) > 0 && HourTarget(rate, WorkingMinutes(breaks, h)) > 0
  }

  function QualifiesIn(kept: seq<ProductionRow>, rate: int, breaks: seq<BreakTime>): int -> bool
  {
    h => Qualifies(kept, rate, breaks, h)
  }

  /** An hour's output over its break-adjusted target, times 100. */
  function HourPercent(kept: seq<ProductionRow>, rate: int, breaks: seq<BreakTime>, h: int): real
  {
    var target := HourTarget(rate, WorkingMinutes(breaks, h));
    if target > 0 then (QtyWith(kept, HourOf, h) as real / target as real) * 100.0 else 0.0
  }

  /** The percentages of the hours hs, in the order of hs. */
  function Percents(kept: seq<ProductionRow>, rate: int, breaks: seq<BreakTime>, hs: seq<int>): (r: seq<real>)
    ensures |r| == |hs|
    ensures forall i :: 0 <= i < |hs| ==> r[i] == HourPercent(kept, rate, breaks, hs[i])
  {
    seq(|hs|, i requires 0 <= i < |hs| => HourPercent(kept, rate, breaks, hs[i]))
  }

  /** The hours the summary averages over: the qualifying production hours, ascending. */
  function QualifyingHours(kept: seq<ProductionRow>, rate: int, breaks: seq<BreakTime>): (r: seq<int>)
    ensures StrictlySorted(r, IntLess)
    ensures forall h :: h in r <==> h in Hours(kept) && Qualifies(kept, rate, breaks, h)
  {
    IntLessIsStrictTotalOrder();
    var hs := SortUnique(Hours(kept), IntLess);
    FilterSorted(hs, QualifiesIn(kept, rate, breaks), IntLess);
    Filter(hs, QualifiesIn(kept, rate, breaks))
  }

  /**
   The per-hour percentages over a list of hours: for each hour that
   qualifies, in the list's order, its output over its target times 100.
   */
  function HourRatios(kept: seq<ProductionRow>, hours: seq<int>, rate: int, breaks: seq<BreakTime>): (r: seq<real>)
    ensures |r| <= |hours|
    ensures rate >= 0 ==> forall i :: 0 <= i < |r| ==> r[i] > 0.0
    decreases |hours|
  {
    if |hours| == 0 then []
    else
      var init := HourRatios(kept, hours[..|hours| - 1], rate, breaks);
      var h := hours[|hours| - 1];
      var qty := QtyWith(kept, HourOf, h);
      var target := HourTarget(rate, WorkingMinutes(breaks, h));
      if qty > 0 && target > 0 then init + [(qty as real / target as real) * 100.0] else init
  }

  /** The per-hour percentages are exactly those of the qualifying hours, in the list's order. */
  lemma {:induction false} HourRatiosOfQualifying(kept: seq<ProductionRow>, hours: seq<int>, rate: int, breaks: seq<BreakTime>)
    ensures HourRatios(kept, hours, rate, breaks) == Percents(kept, rate, breaks, Filter(hours, QualifiesIn(kept, rate, breaks)))
    decreases |hours|
  {
    if |hours| > 0 {
      var init := hours[..|hours| - 1];
      var h := hours[|hours| - 1];
      var q := QualifiesIn(kept, rate, breaks);
      HourRatiosOfQualifying(kept, init, rate, breaks);
      if q(h) {
        var f := Filter(init, q);
        assert Filter(hours, q) == f + [h];
        assert Percents(kept, rate, breaks, f + [h]) == Percents(kept, rate, breaks, f) + [HourPercent(kept, rate, breaks, h)];
      } else {
        assert Filter(hours, q) == Filter(init, q);
      }
    }
  }

  /**
   `calculateHourlyAveragePercentage`: the mean of the qualifying hours'
   percentages, 0 when no hour qualifies.
   */
  function HourlyAveragePercentage(kept: seq<ProductionRow>, rate: int, breaks: seq<BreakTime>): (r: real)
    ensures r == Mean(Percents(kept, rate, breaks, QualifyingHours(kept, rate, breaks)))
    ensures |QualifyingHours(kept, rate, breaks)| == 0 ==> r == 0.0
    ensures rate >= 0 ==> r >= 0.0
  {
    IntLessIsStrictTotalOrder();
    var ratios := HourRatios(kept, SortUnique(Hours(kept), IntLess), rate, breaks);
    HourRatiosOfQualifying(kept, SortUnique(Hours(kept), IntLess), rate, breaks);
    MeanOfPositives(ratios, rate >= 0);
    Mean(ratios)
  }

  lemma MeanOfPositives(xs: seq<real>, positive: bool)
    requires positive ==> forall i :: 0 <= i < |xs| ==> xs[i] > 0.0
    ensures positive ==> Mean(xs) >= 0.0
  {
    if positive && |xs| > 0 {
      SumRealPositive(xs);
    }
  }

  lemma {:induction false} SumRealPositive(xs: seq<real>)
    requires forall i :: 0 <= i < |xs| ==> xs[i] > 0.0
    ensures SumReal(xs) >= 0.0
    ensures |xs| > 0 ==> SumReal(xs) > 0.0
    decreases |xs|
  {
    if |xs| > 0 {
      SumRealPositive(xs[..|xs| - 1]);
    }
  }

  /** The working minutes of the clock hours lo to hi added up. */
  function DayMinutes(breaks: seq<BreakTime>, lo: int, hi: int): (r: int)
    ensures r >= 0
    decreases hi - lo
  {
    if lo > hi then 0 else WorkingMinutes(breaks, lo) + DayMinutes(breaks, lo + 1, hi)
  }

  lemma {:induction false} DayMinutesNoBreaks(lo: int, hi: int)
    requires lo <= hi + 1
    ensures DayMinutes([], lo, hi) == 60 * (hi - lo + 1)
    decreases hi - lo
  {
    if lo <= hi {
      DayMinutesNoBreaks(lo + 1, hi);
    }
  }

  lemma {:induction false} DayMinutesBounds(breaks: seq<BreakTime>, lo: int, hi: int)
    requires lo <= hi + 1
    requires forall b :: b in breaks ==> WellFormed(b)
    ensures 0 <= DayMinutes(breaks, lo, hi) <= 60 * (hi - lo + 1)
    decreases hi - lo
  {
    if lo <= hi {
      DayMinutesBounds(breaks, lo + 1, hi);
    }
  }

  /** The summary's daily target, always over the fixed hours 8..17 whatever the data. */
  function DailyTarget(rate: int, breaks: seq<BreakTime>): (r: int)
    ensures rate >= 0 ==> r >= 0
  {
    var m := DayMinutes(breaks, 8, 17);
    MulNonNegative(rate, m);
    RoundOverSixty(rate * m)
  }

  /** Without breaks the daily target is ten full hours of the rate. */
  lemma DailyTargetNoBreaks(rate: int)
    requires rate >= 0
    ensures DailyTarget(rate, []) == 10 * rate
  {
    DayMinutesNoBreaks(8, 17);
    RoundOverSixtyInteger(rate * 600);
  }

  /**
   One line of `getSummaryReport`. A missing table reports no daily target
   at all; a failing query reports a daily target of 0.
   */
  datatype LineSummary = LineSummary(totalQty: int, totalItems: int, uniqueItems: int, percentage: real, target: int, dailyTarget: Option<int>)

  function SummarizeLine(data: LineData, s: Date, e: Date, rate: int, breaks: seq<BreakTime>): (r: LineSummary)
    requires (data.Present? ==> ValidRows(data.rows)) && Valid(s) && Valid(e)
    ensures r.target == rate
    ensures r.uniqueItems <= r.totalItems
    ensures !data.Present? ==> r.totalQty == 0 && r.totalItems == 0 && r.percentage == 0.0
    ensures data.Missing? <==> r.dailyTarget.None?
    ensures data.Failing? ==> r.dailyTarget == Some(0)
    ensures data.Present? ==> r.totalQty == QtySum(RowsIn(data.rows, s, e)) && r.totalItems == |RowsIn(data.rows, s, e)|
    ensures data.Present? ==> r.uniqueItems == |set item | item in Items(RowsIn(data.rows, s, e))|
    ensures data.Present? ==> r.dailyTarget == Some(DailyTarget(rate, breaks))
    ensures rate >= 0 ==> r.percentage >= 0.0
    ensures data.Present? ==>
      RoundsTo1(Mean(Percents(RowsIn(data.rows, s, e), rate, breaks, QualifyingHours(RowsIn(data.rows, s, e), rate, breaks))), r.percentage)
  {
    match data
    case Missing => LineSummary(0, 0, 0, 0.0, rate, None)
    case Failing => LineSummary(0, 0, 0, 0.0, rate, Some(0))
    case Present(rows) =>
      var kept := RowsIn(rows, s, e);
      var avg := HourlyAveragePercentage(kept, rate, breaks);
      DedupeCountsDistinct(Items(kept));
      LineSummary(QtySum(kept), |kept|, |Dedupe(Items(kept))|, RoundTo1(avg), rate, Some(DailyTarget(rate, breaks)))
  }

  /** `getSummaryReport($start, $end)`, in line order, targets looked up for the start date. */
  function GetSummaryReport(db: Db, bsrc: BreakSource, tsrc: TargetSource, s: Date, e: Date): (r: seq<LineSummary>)
    requires ValidDb(db) && ValidSource(tsrc) && Valid(s) && Valid(e)
    ensures |r| == |AllLines|
    ensures forall k :: 0 <= k < |r| ==> r[k].target == Rate(GetTargets(tsrc, s), AllLines[k])
    ensures forall k :: 0 <= k < |r| ==>
      r[k] == SummarizeLine(TableOf(db, AllLines[k]), s, e, Rate(GetTargets(tsrc, s), AllLines[k]), ActiveBreaks(bsrc))
  {
    var rates := GetTargets(tsrc, s);
    seq(|AllLines|, k requires 0 <= k < |AllLines| =>
      SummarizeLine(TableOf(db, AllLines[k]), s, e, Rate(rates, AllLines[k]), ActiveBreaks(bsrc)))
  }

  /**
   The summary percentage is an average of hourly percentages, not the
   percentage of the total: at 10 an hour, 20 pieces in a full hour 8 and 1
   piece in hour 9 half taken by a break average 110%, while 21 pieces
   against the 15 the two hours allow is 140%.
   */
  lemma AverageIsNotTotalRatio()
    ensures var kept := [ProductionRow("A", 20, Date(2024, 1, 1), 8, 1), ProductionRow("A", 1, Date(2024, 1, 1), 9, 1)];
            var breaks := [BreakTime("tea", ClockTime(9, 0), ClockTime(9, 30), 30, true)];
            HourlyAveragePercentage(kept, 10, breaks) == 110.0 &&
            HourTarget(10, WorkingMinutes(breaks, 8)) + HourTarget(10, WorkingMinutes(breaks, 9)) == 15 &&
            (QtySum(kept) as real / 15.0) * 100.0 == 140.0
  {
    var kept := [ProductionRow("A", 20, Date(2024, 1, 1), 8, 1), ProductionRow("A", 1, Date(2024, 1, 1), 9, 1)];
    var breaks := [BreakTime("tea", ClockTime(9, 0), ClockTime(9, 30), 30, true)];
    ExampleHours(kept, breaks);
    ExampleRatios(kept, breaks);
    var ratios := HourRatios(kept, [8, 9], 10, breaks);
    assert [200.0, 20.0][..1] == [200.0];
    assert SumReal(ratios) == 220.0;
    assert HourlyAveragePercentage(kept, 10, breaks) == Mean(ratios) == 110.0;
    assert QtySum(kept) == 21;
  }

  /** The example's hours are 8 and 9, and the tea break halves hour 9. */
  lemma ExampleHours(kept: seq<ProductionRow>, breaks: seq<BreakTime>)
    requires kept == [ProductionRow("A", 20, Date(2024, 1, 1), 8, 1), ProductionRow("A", 1, Date(2024, 1, 1), 9, 1)]
    requires breaks == [BreakTime("tea", ClockTime(9, 0), ClockTime(9, 30), 30, true)]
    ensures SortUnique(Hours(kept), IntLess) == [8, 9]
    ensures WorkingMinutes(breaks, 8) == 60 && WorkingMinutes(breaks, 9) == 30
  {
    IntLessIsStrictTotalOrder();
    assert StrictlySorted([8, 9], IntLess);
    assert Hours(kept) == [8, 9];
    StrictlySortedUnique(SortUnique(Hours(kept), IntLess), [8, 9], IntLess);
    var b := breaks[0];
    assert b.start == ClockTime(9, 0) && b.end == ClockTime(9, 30);
    assert breaks[..|breaks| - 1] == [];
    assert TotalDeduction([], 8) == 0 && TotalDeduction([], 9) == 0;
    assert Deduction(b, 8) == 0;
    assert Deduction(b, 9) == 30 - 0;
    assert TotalDeduction(breaks, 8) == TotalDeduction([], 8) + Deduction(b, 8) == 0;
    assert TotalDeduction(breaks, 9) == TotalDeduction([], 9) + Deduction(b, 9) == 30;
    assert WorkingMinutes(breaks, 8) == Max(0, 60 - 0);
    assert WorkingMinutes(breaks, 9) == Max(0, 60 - 30);
  }

  /** The example's hourly percentages: 20 of 10 and 1 of 5. */
  lemma ExampleRatios(kept: seq<ProductionRow>, breaks: seq<BreakTime>)
    requires kept == [ProductionRow("A", 20, Date(2024, 1, 1), 8, 1), ProductionRow("A", 1, Date(2024, 1, 1), 9, 1)]
    requires breaks == [BreakTime("tea", ClockTime(9, 0), ClockTime(9, 30), 30, true)]
    requires WorkingMinutes(breaks, 8) == 60 && WorkingMinutes(breaks, 9) == 30
    ensures HourRatios(kept, [8, 9], 10, breaks) == [200.0, 20.0]
  {
    RoundOverSixtyInteger(600);
    RoundOverSixtyInteger(300);
    assert HourTarget(10, 60) == 10 && HourTarget(10, 30) == 5;
    var first := kept[..|kept| - 1];
    assert first == [kept[0]] && first[..|first| - 1] == [];
    assert HourOf(kept[0]) == 8 && HourOf(kept[1]) == 9;
    assert QtyWith(first, HourOf, 8) == 20 && QtyWith(first, HourOf, 9) == 0;
    assert QtyWith(kept, HourOf, 8) == 20;
    assert QtyWith(kept, HourOf, 9) == 1;
    assert [8, 9][..1] == [8] && [8][..0] == [];
    assert HourRatios(kept, [8], 10, breaks) == [200.0];
  }
}

=== FILE: schema.dfy ===
/**
 The entities the production reports read: the six sewing lines, a target
 record's per-line hourly rates, production rows, and the state of one
 line's table (absent, failing, or holding rows). The database becomes
 these values; SQL filters and aggregates become the functions below.
 */
module Schema {
  import opened Util
  import opened Text
  import opened Calendar
  import opened Sorting

  /** The sewing lines, in the order the data class iterates its table list. */
  datatype Line = FC | FB | RC | RB | Third | Sub

  const AllLines: seq<Line> := [FC, FB, RC, RB, Third, Sub]

  lemma AllLinesComplete(l: Line)
    ensures l in AllLines
  {
  }

  /** Each line is listed once. */
  lemma AllLinesDistinct()
    ensures Distinct(AllLines)
  {
  }

  /** The key the JSON responses use for the line. */
  function LineKey(l: Line): string
  {
    match l
    case FC => "fc"
    case FB => "fb"
    case RC => "rc"
    case RB => "rb"
    case Third => "third"
    case Sub => "sub"
  }

  /** Hourly target rates per line, one sewing_target row. */
  datatype Rates = Rates(fc: int, fb: int, rc: int, rb: int, third: int, sub: int)

  function Rate(r: Rates, l: Line): int
  {
    match l
    case FC => r.fc
    case FB => r.fb
    case RC => r.rc
    case RB => r.rb
    case Third => r.third
    case Sub => r.sub
  }

  /** The data class's fallback target: 10 pieces an hour on every line. */
  const DefaultRates: Rates := Rates(10, 10, 10, 10, 10, 10)

  /** One row of a line's production table; created_at is kept as its date and clock hour. */
  datatype ProductionRow = ProductionRow(item: string, qty: int, day: Date, hour: int, status: int)

  /** What the table check and the query find for one line. */
  datatype LineData = Missing | Failing | Present(rows: seq<ProductionRow>)

  /** The production tables of all lines; a line without an entry has no table. */
  datatype Db = Db(tables: map<Line, LineData>)

  function TableOf(db: Db, l: Line): LineData
  {
    if l in db.tables then db.tables[l] else Missing
  }

  /** Rows carry real dates and clock hours. */
  predicate ValidRows(rows: seq<ProductionRow>)
  {
    forall i :: 0 <= i < |rows| ==> Valid(rows[i].day) && 0 <= rows[i].hour < 24
  }

  predicate ValidDb(db: Db)
  {
    forall l :: l in db.tables && db.tables[l].Present? ==> ValidRows(db.tables[l].rows)
  }

  /** `DATE(created_at) BETWEEN :start_date AND :end_date`. */
  predicate InRange(d: Date, s: Date, e: Date)
    requires Valid(d) && Valid(s) && Valid(e)
  {
    DayNumber(s) <= DayNumber(d) <= DayNumber(e)
  }

  /** The rows of the range, in table order. */
  function RowsIn(rows: seq<ProductionRow>, s: Date, e: Date): (r: seq<ProductionRow>)
    requires ValidRows(rows) && Valid(s) && Valid(e)
    ensures ValidRows(r)
    ensures |r| <= |rows|
    ensures forall x :: x in r <==> x in rows && InRange(x.day, s, e)
    decreases |rows|
  {
    if |rows| == 0 then []
    else
      var init := RowsIn(rows[..|rows| - 1], s, e);
      var last := rows[|rows| - 1];
      if InRange(last.day, s, e) then init + [last] else init
  }

  /** `SUM(qty)` over the rows (0 for none, as `(int)($row['total_qty'] ?? 0)`). */
  function QtySum(rows: seq<ProductionRow>): int
    decreases |rows|
  {
    if |rows| == 0 then 0 else QtySum(rows[..|rows| - 1]) + rows[|rows| - 1].qty
  }

  lemma {:induction false} QtySumAppend(a: seq<ProductionRow>, b: seq<ProductionRow>)
    ensures QtySum(a + b) == QtySum(a) + QtySum(b)
    decreases |b|
  {
    if |b| == 0 {
      assert a + b == a;
    } else {
      assert (a + b)[..|a + b| - 1] == a + b[..|b| - 1];
      QtySumAppend(a, b[..|b| - 1]);
    }
  }

  function HourOf(x: ProductionRow): int { x.hour }

  function DayOf(x: ProductionRow): Date { x.day }

  /** `SUM(qty)` of the rows whose key is k: one group of `GROUP BY HOUR(created_at)` or `GROUP BY DATE(created_at)`. */
  function QtyWith<K(==)>(rows: seq<ProductionRow>, key: ProductionRow -> K, k: K): int
    decreases |rows|
  {
    if |rows| == 0 then 0
    else QtyWith(rows[..|rows| - 1], key, k) + (if key(rows[|rows| - 1]) == k then rows[|rows| - 1].qty else 0)
  }

  /** The group sums of the keys ks, added up. */
  function QtyOverKeys<K(==)>(rows: seq<ProductionRow>, key: ProductionRow -> K, ks: seq<K>): int
    decreases |ks|
  {
    if |ks| == 0 then 0 else QtyOverKeys(rows, key, ks[..|ks| - 1]) + QtyWith(rows, key, ks[|ks| - 1])
  }

  lemma {:induction false} QtyOverKeysSnoc<K(!new)>(rows: seq<ProductionRow>, x: ProductionRow, key: ProductionRow -> K, ks: seq<K>)
    requires Distinct(ks)
    ensures QtyOverKeys(rows + [x], key, ks) == QtyOverKeys(rows, key, ks) + (if key(x) in ks then x.qty else 0)
    decreases |ks|
  {
    assert (rows + [x])[..|rows + [x]| - 1] == rows;
    if |ks| > 0 {
      var init := ks[..|ks| - 1];
      QtyOverKeysSnoc(rows, x, key, init);
      assert forall y :: y in ks <==> y in init || y == ks[|ks| - 1];
      assert ks[|ks| - 1] !in init;
    }
  }

  /**
   Grouping then adding the groups back loses nothing, provided every row's
   key is among the distinct keys the groups are taken over.
   */
  lemma {:induction false} QtyOverKeysCovers<K(!new)>(rows: seq<ProductionRow>, key: ProductionRow -> K, ks: seq<K>)
    requires Distinct(ks)
    requires forall x :: x in rows ==> key(x) in ks
    ensures QtyOverKeys(rows, key, ks) == QtySum(rows)
    decreases |rows|
  {
    if |rows| == 0 {
      QtyOverKeysEmpty(key, ks);
    } else {
      var init := rows[..|rows| - 1];
      var x := rows[|rows| - 1];
      QtyOverKeysCovers(init, key, ks);
      assert rows == init + [x];
      QtyOverKeysSnoc(init, x, key, ks);
    }
  }

  lemma {:induction false} QtyOverKeysEmpty<K>(key: ProductionRow -> K, ks: seq<K>)
    ensures QtyOverKeys([], key, ks) == 0
    decreases |ks|
  {
    if |ks| > 0 {
      QtyOverKeysEmpty(key, ks[..|ks| - 1]);
    }
  }

  /** The items of the rows, in order. */
  function Items(rows: seq<ProductionRow>): (r: seq<string>)
    ensures |r| == |rows|
    ensures forall i :: 0 <= i < |rows| ==> r[i] == rows[i].item
  {
    seq(|rows|, i requires 0 <= i < |rows| => rows[i].item)
  }

  /** The clock hours of the rows, in order. */
  function Hours(rows: seq<ProductionRow>): (r: seq<int>)
    ensures |r| == |rows|
    ensures forall i :: 0 <= i < |rows| ==> r[i] == rows[i].hour
  {
    seq(|rows|, i requires 0 <= i < |rows| => rows[i].hour)
  }

  /** The values of sewing_man_act.shift the endpoints compare with. */
  const MorningShift: string := "เช้า"
  const AfternoonShift: string := "บ่าย"
  const OvertimeShift: string := "OT"

  /**
   A sewing_man_act row: its date, worked hours (NULL is None), shift (NULL
   is None) and the headcount of every line.
   */
  datatype ManActRow = ManActRow(day: Date, thour: Option<real>, shift: Option<string>, fc: int, fb: int, rc: int, rb: int, third: int, sub: int)

  /** The headcount column of one line. */
  function Crew(r: ManActRow, l: Line): int
  {
    match l
    case FC => r.fc
    case FB => r.fb
    case RC => r.rc
    case RB => r.rb
    case Third => r.third
    case Sub => r.sub
  }

  /** The staff of all six lines. */
  function Headcount(r: ManActRow): int
  {
    r.fc + r.fb + r.rc + r.rb + r.third + r.sub
  }

  /** The worked hours, with a stand-in for a NULL thour. */
  function HoursOr(r: ManActRow, fallback: real): real
  {
    match r.thour
    case None => fallback
    case Some(h) => h
  }

  /** The man-hour table as an endpoint reads it: rows, or a database error. */
  datatype ManSource = ManSource(ok: bool, rows: seq<ManActRow>)

  predicate ValidManRows(rows: seq<ManActRow>)
  {
    forall i :: 0 <= i < |rows| ==> Valid(rows[i].day)
  }

  /** The line a request's line code names; any other code names none. */
  function LineOfCode(code: string): (r: Option<Line>)
    ensures forall l :: r == Some(l) <==> code == LineKey(l)
  {
    if code == "fc" then Some(FC)
    else if code == "fb" then Some(FB)
    else if code == "rc" then Some(RC)
    else if code == "rb" then Some(RB)
    else if code == "third" then Some(Third)
    else if code == "sub" then Some(Sub)
    else None
  }

  /** A row of the item table: the part code with its model and nickname, either of which may be NULL. */
  datatype ItemRow = ItemRow(item: string, model: Option<string>, nickname: Option<string>)

  /** `$value ?? ''`. */
  function OrEmpty(s: Option<string>): string
  {
    match s
    case None => ""
    case Some(v) => v
  }

  /** A defect row as fetched; NULL text reads as "" and a NULL qty as 0. */
  datatype DefectRow = DefectRow(process: string, part: string, detail: string, lot: string, qty: int, createdAt: string)

  /** The item-table key of a part: the part itself when it starts with `AS-` in any case, else `AS-` before it. */
  function AsKey(part: string): (r: string)
    ensures StartsWithIgnoreCase(r, "AS-")
    ensures StartsWithIgnoreCase(part, "AS-") ==> r == part
    ensures !StartsWithIgnoreCase(part, "AS-") ==> r == "AS-" + part
  {
    if StartsWithIgnoreCase(part, "AS-") then part
    else
      LowerAppend("AS-", part);
      assert (Lower("AS-") + Lower(part))[..|Lower("AS-")|] == Lower("AS-");
      "AS-" + part
  }

  /** Normalising a key twice is normalising it once. */
  lemma AsKeyIdempotent(part: string)
    ensures AsKey(AsKey(part)) == AsKey(part)
  {
  }
}

=== FILE: sheet_title.dfy ===
/**
 Worksheet-title sanitising of the two Excel exports. Both remove the six
 characters a sheet title may not hold (`/ ? * [ ] :`; a backslash is not
 among them) and cut the result to 31 characters: the production export
 deletes them, the plain export replaces each with a dash.
 */
module SheetTitle {
  import opened Util

  /** The longest title a worksheet may carry. */
  const MaxTitle: nat := 31

  /** The bracket class `[\/?*\[\]:]` of both sanitisers. */
  predicate Forbidden(c: char)
  {
    c == '/' || c == '?' || c == '*' || c == '[' || c == ']' || c == ':'
  }

  predicate Clean(s: string)
  {
    forall i :: 0 <= i < |s| ==> !Forbidden(s[i])
  }

  /** `preg_replace` with an empty replacement: the characters outside the class, in order. */
  function DeleteForbidden(s: string): (r: string)
    ensures |r| <= |s|
    ensures Clean(r)
    ensures forall c :: c in r <==> c in s && !Forbidden(c)
    decreases |s|
  {
    if |s| == 0 then []
    else
      var init := s[..|s| - 1];
      var c := s[|s| - 1];
      assert forall x :: x in s <==> x in init || x == c;
      if Forbidden(c) then DeleteForbidden(init) else DeleteForbidden(init) + [c]
  }

  /** Deletion works character by character: it distributes over concatenation. */
  lemma {:induction false} DeleteForbiddenAppend(a: string, b: string)
    ensures DeleteForbidden(a + b) == DeleteForbidden(a) + DeleteForbidden(b)
    decreases |b|
  {
    if |b| == 0 {
      assert a + b == a;
    } else {
      var init := b[..|b| - 1];
      assert (a + b)[..|a + b| - 1] == a + init;
      assert (a + b)[|a + b| - 1] == b[|b| - 1];
      DeleteForbiddenAppend(a, init);
    }
  }

  /** A title without forbidden characters is not touched by the deletion. */
  lemma {:induction false} DeleteForbiddenOfClean(s: string)
    ensures Clean(s) ==> DeleteForbidden(s) == s
    decreases |s|
  {
    if |s| > 0 && Clean(s) {
      DeleteForbiddenOfClean(s[..|s| - 1]);
      assert s[..|s| - 1] + [s[|s| - 1]] == s;
    }
  }

  /** `cleanSheetTitle` of the production export: delete, then keep at most 31 characters. */
  function CleanDelete(title: string): (r: string)
    ensures |r| <= MaxTitle
    ensures Clean(r)
    ensures forall c :: c in r ==> c in title && !Forbidden(c)
    ensures Clean(title) ==> r == title[..Min(|title|, MaxTitle)]
  {
    var d := DeleteForbidden(title);
    DeleteForbiddenOfClean(title);
    d[..Min(|d|, MaxTitle)]
  }

  /** Sanitising a sanitised title changes nothing. */
  lemma CleanDeleteIdempotent(title: string)
    ensures CleanDelete(CleanDelete(title)) == CleanDelete(title)
  {
  }

  /** `cleanSheetTitle` of the plain export: a dash for every forbidden character, then at most 31 characters. */
  function CleanReplace(title: string): (r: string)
    ensures |r| == Min(|title|, MaxTitle)
    ensures Clean(r)
    ensures forall i :: 0 <= i < |r| ==> (if Forbidden(title[i]) then r[i] == '-' else r[i] == title[i])
  {
    var n := Min(|title|, MaxTitle);
    seq(n, i requires 0 <= i < n => if Forbidden(title[i]) then '-' else title[i])
  }

  lemma CleanReplaceIdempotent(title: string)
    ensures CleanReplace(CleanReplace(title)) == CleanReplace(title)
  {
  }

  /** Deleting shortens every title that holds a forbidden character. */
  lemma {:induction false} DeleteForbiddenShortens(s: string)
    requires !Clean(s)
    ensures |DeleteForbidden(s)| < |s|
    decreases |s|
  {
    var init := s[..|s| - 1];
    if !Forbidden(s[|s| - 1]) {
      assert !Clean(init) by {
        var i :| 0 <= i < |s| && Forbidden(s[i]);
        assert init[i] == s[i];
      }
      DeleteForbiddenShortens(init);
    }
  }

  /**
   The two sanitisers agree on titles without forbidden characters and
   disagree on every short title with one.
   */
  lemma VariantsAgreeOnCleanTitles(title: string)
    ensures Clean(title) ==> CleanDelete(title) == CleanReplace(title)
    ensures !Clean(title) && |title| <= MaxTitle ==> CleanDelete(title) != CleanReplace(title)
  {
    if !Clean(title) {
      DeleteForbiddenShortens(title);
    }
  }

  /** The line name F/C becomes the sheet title FC in the production export. */
  lemma LineSheetTitleDeleted()
    ensures CleanDelete("F/C") == "FC"
  {
    var t := "F/C";
    assert t[..2] == "F/" && "F/"[..1] == "F" && "F"[..0] == [];
    assert DeleteForbidden("F") == "F";
    assert DeleteForbidden("F/") == "F";
    assert DeleteForbidden(t) == "FC";
  }

  /** The line name F/C becomes the sheet title F-C in the plain export. */
  lemma LineSheetTitleReplaced()
    ensures CleanReplace("F/C") == "F-C"
  {
    var r := CleanReplace("F/C");
    assert |r| == 3;
    assert r[0] == 'F' && r[1] == '-' && r[2] == 'C';
  }
}

=== FILE: sorting.dfy ===
/**
 Ordering helpers: de-duplication keeping first appearances (the order in
 which PHP appends to an array the first time a key is seen), sorting into a
 strictly increasing distinct sequence (`array_unique` followed by `sort`),
 and a stable sort by a numeric key, descending (PHP 8's `usort` and
 `arsort`, which are stable).
 */
module Sorting {
  import opened Util

  predicate Distinct<T(==)>(xs: seq<T>)
  {
    forall i, j :: 0 <= i < j < |xs| ==> xs[i] != xs[j]
  }

  /** Appending a new element keeps a sequence free of repeats. */
  lemma DistinctSnoc<T>(xs: seq<T>, x: T)
    ensures Distinct(xs) && x !in xs ==> Distinct(xs + [x])
  {
  }

  /** Keeps the first occurrence of every element, in order of first appearance. */
  function Dedupe<T(==,!new)>(xs: seq<T>): (r: seq<T>)
    ensures Distinct(r)
    ensures forall y :: y in r <==> y in xs
    ensures |r| <= |xs|
    decreases |xs|
  {
    if |xs| == 0 then []
    else
      var d := Dedupe(xs[..|xs| - 1]);
      if xs[|xs| - 1] in d then d else d + [xs[|xs| - 1]]
  }

  /** Dedupe lists the elements in the order of their first occurrences. */
  lemma {:induction false} DedupeFirstSeen<T(!new)>(xs: seq<T>)
    ensures forall i, j :: 0 <= i < j < |Dedupe(xs)| ==> Position(xs, Dedupe(xs)[i]) < Position(xs, Dedupe(xs)[j])
    decreases |xs|
  {
    if |xs| > 0 {
      var init := xs[..|xs| - 1];
      var last := xs[|xs| - 1];
      var d := Dedupe(init);
      DedupeFirstSeen(init);
      assert init + [last] == xs;
      PositionSnoc(init, last);
      var r := Dedupe(xs);
      forall i, j | 0 <= i < j < |r|
        ensures Position(xs, r[i]) < Position(xs, r[j])
      {
        assert r[i] == d[i] && d[i] in init;
        if j < |d| {
          assert r[j] == d[j] && d[j] in init;
        } else {
          assert r[j] == last && last !in init;
        }
      }
    }
  }

  /** Appending to a sequence moves no first occurrence, and a new element is found at the end. */
  lemma {:induction false} PositionSnoc<T>(xs: seq<T>, y: T)
    ensures forall z :: z in xs ==> Position(xs + [y], z) == Position(xs, z)
    ensures y !in xs ==> Position(xs + [y], y) == |xs|
    decreases |xs|
  {
    if |xs| > 0 {
      PositionSnoc(xs[1..], y);
      assert (xs + [y])[1..] == xs[1..] + [y];
      forall z | z in xs
        ensures Position(xs + [y], z) == Position(xs, z)
      {
        if z != xs[0] {
          assert z in xs[1..];
        }
      }
    }
  }

  /** A sequence without repeats has as many elements as its set of members. */
  lemma {:induction false} DistinctCardinality<T>(xs: seq<T>)
    requires Distinct(xs)
    ensures |set x | x in xs| == |xs|
    decreases |xs|
  {
    if |xs| > 0 {
      var init := xs[..|xs| - 1];
      var last := xs[|xs| - 1];
      DistinctCardinality(init);
      assert (set x | x in xs) == (set x | x in init) + {last};
      assert last !in init;
    }
  }

  /** The de-duplicated sequence counts the distinct members, as `COUNT(DISTINCT …)` does. */
  lemma DedupeCountsDistinct<T(!new)>(xs: seq<T>)
    ensures |Dedupe(xs)| == |set x | x in xs|
  {
    DistinctCardinality(Dedupe(xs));
    assert (set x | x in Dedupe(xs)) == (set x | x in xs);
  }

  /** A sequence without repetitions is left as it is. */
  lemma {:induction false} DedupeOfDistinct<T(!new)>(xs: seq<T>)
    requires Distinct(xs)
    ensures Dedupe(xs) == xs
    decreases |xs|
  {
    if |xs| > 0 {
      DedupeOfDistinct(xs[..|xs| - 1]);
      assert xs[|xs| - 1] !in xs[..|xs| - 1];
      assert xs[..|xs| - 1] + [xs[|xs| - 1]] == xs;
    }
  }

  ghost predicate StrictTotalOrder<T(!new)>(less: (T, T) -> bool)
  {
    (forall a :: !less(a, a)) &&
    (forall a, b, c :: less(a, b) && less(b, c) ==> less(a, c)) &&
    (forall a, b :: a != b ==> less(a, b) || less(b, a))
  }

  predicate StrictlySorted<T>(xs: seq<T>, less: (T, T) -> bool)
  {
    forall i, j :: 0 <= i < j < |xs| ==> less(xs[i], xs[j])
  }

  function InsertSorted<T(==,!new)>(x: T, xs: seq<T>, less: (T, T) -> bool): (r: seq<T>)
    requires StrictTotalOrder(less)
    requires StrictlySorted(xs, less)
    ensures StrictlySorted(r, less)
    ensures forall y :: y in r <==> y in xs || y == x
    decreases |xs|
  {
    if |xs| == 0 then [x]
    else if x == xs[0] then xs
    else if less(x, xs[0]) then [x] + xs
    else
      var t := InsertSorted(x, xs[1..], less);
      assert forall y :: y in t ==> less(xs[0], y);
      [xs[0]] + t
  }

  /**
   The distinct elements of xs in increasing order: PHP's `array_unique`
   followed by `sort`.
   */
  function SortUnique<T(==,!new)>(xs: seq<T>, less: (T, T) -> bool): (r: seq<T>)
    requires StrictTotalOrder(less)
    ensures StrictlySorted(r, less)
    ensures forall y :: y in r <==> y in xs
    decreases |xs|
  {
    if |xs| == 0 then []
    else InsertSorted(xs[|xs| - 1], SortUnique(xs[..|xs| - 1], less), less)
  }

  lemma EmptyIffNoMembers<T>(s: seq<T>)
    ensures |s| == 0 <==> forall y :: y !in s
  {
    if |s| > 0 {
      assert s[0] in s;
    }
  }

  /**
   Two strictly sorted sequences with the same elements are equal; so the
   result of SortUnique depends only on the set of its input's elements.
   */
  lemma {:induction false} StrictlySortedUnique<T(!new)>(a: seq<T>, b: seq<T>, less: (T, T) -> bool)
    requires StrictTotalOrder(less)
    requires StrictlySorted(a, less) && StrictlySorted(b, less)
    requires forall y :: y in a <==> y in b
    ensures a == b
    decreases |a|
  {
    EmptyIffNoMembers(a);
    EmptyIffNoMembers(b);
    if |a| > 0 {
      assert a[0] in b;
      assert b[0] in a;
      var j :| 0 <= j < |b| && b[j] == a[0];
      var k :| 0 <= k < |a| && a[k] == b[0];
      if j > 0 && k > 0 {
        assert false;
      } else if j > 0 {
        assert false;
      }
      forall y
        ensures y in a[1..] <==> y in b[1..]
      {
        if y in a[1..] {
          var i :| 1 <= i < |a| && a[i] == y;
          assert less(a[0], y);
          assert y != b[0];
          assert y in b;
        }
        if y in b[1..] {
          var i :| 1 <= i < |b| && b[i] == y;
          assert less(b[0], y);
          assert y != a[0];
          assert y in a;
        }
      }
      StrictlySortedUnique(a[1..], b[1..], less);
      assert a == [a[0]] + a[1..] && b == [b[0]] + b[1..];
    }
  }

  /** The order of the input does not matter to SortUnique. */
  lemma SortUniqueOrderInsensitive<T(!new)>(xs: seq<T>, ys: seq<T>, less: (T, T) -> bool)
    requires StrictTotalOrder(less)
    requires forall y :: y in xs <==> y in ys
    ensures SortUnique(xs, less) == SortUnique(ys, less)
  {
    StrictlySortedUnique(SortUnique(xs, less), SortUnique(ys, less), less);
  }

  predicate NonIncreasing<T>(xs: seq<T>, key: T -> real)
  {
    forall i, j :: 0 <= i < j < |xs| ==> key(xs[i]) >= key(xs[j])
  }

  /** Places x before the first element whose key is not above x's. */
  function InsertDesc<T>(x: T, xs: seq<T>, key: T -> real): (r: seq<T>)
    requires NonIncreasing(xs, key)
    ensures NonIncreasing(r, key)
    ensures multiset(r) == multiset(xs) + multiset{x}
    ensures |r| == |xs| + 1
    ensures r[0] == x || (|xs| > 0 && r[0] == xs[0])
    decreases |xs|
  {
    if |xs| == 0 then [x]
    else if key(x) >= key(xs[0]) then [x] + xs
    else
      var rest := xs[1..];
      var t := InsertDesc(x, rest, key);
      assert xs == [xs[0]] + rest;
      ConsNonIncreasing(xs[0], t, key);
      [xs[0]] + t
  }

  /** Putting an element in front of a descending sequence keeps it descending when its key is not below the head's. */
  lemma ConsNonIncreasing<T>(y: T, t: seq<T>, key: T -> real)
    requires NonIncreasing(t, key)
    requires |t| > 0 ==> key(y) >= key(t[0])
    ensures NonIncreasing([y] + t, key)
  {
    var r := [y] + t;
    forall i, j | 0 <= i < j < |r|
      ensures key(r[i]) >= key(r[j])
    {
      assert r[j] == t[j - 1];
      if i > 0 {
        assert r[i] == t[i - 1];
      } else {
        assert key(t[0]) >= key(t[j - 1]) || j == 1;
      }
    }
  }

  /**
   Sorts by key, largest first. Elements with equal keys keep their input
   order, because each element is inserted before the later ones it ties
   with.
   */
  function SortDesc<T(!new)>(xs: seq<T>, key: T -> real): (r: seq<T>)
    ensures NonIncreasing(r, key)
    ensures multiset(r) == multiset(xs)
    ensures |r| == |xs|
    ensures forall k :: Filter(r, KeyIs(key, k)) == Filter(xs, KeyIs(key, k))
    decreases |xs|
  {
    if |xs| == 0 then []
    else
      assert xs == [xs[0]] + xs[1..];
      var t := SortDesc(xs[1..], key);
      SortDescStep(xs[0], xs[1..], t, key);
      InsertDesc(xs[0], t, key)
  }

  /** Inserting the first element into the stably sorted rest keeps every key's elements in input order. */
  lemma SortDescStep<T(!new)>(x: T, rest: seq<T>, t: seq<T>, key: T -> real)
    requires NonIncreasing(t, key)
    requires forall k :: Filter(t, KeyIs(key, k)) == Filter(rest, KeyIs(key, k))
    ensures forall k :: Filter(InsertDesc(x, t, key), KeyIs(key, k)) == Filter([x] + rest, KeyIs(key, k))
  {
    forall k
      ensures Filter(InsertDesc(x, t, key), KeyIs(key, k)) == Filter([x] + rest, KeyIs(key, k))
    {
      InsertDescStable(x, t, key, k);
      FilterCons(x, t, KeyIs(key, k));
      FilterCons(x, rest, KeyIs(key, k));
    }
  }

  /** The elements whose key is k. */
  function KeyIs<T>(key: T -> real, k: real): T -> bool
  {
    (y: T) => key(y) == k
  }

  /** Filtering a sequence with a first element: that element, when it passes, then the filtered rest. */
  lemma FilterCons<T(!new)>(y: T, t: seq<T>, p: T -> bool)
    ensures Filter([y] + t, p) == (if p(y) then [y] else []) + Filter(t, p)
  {
    FilterAppend([y], t, p);
    assert [y][..0] == [];
  }

  /**
   Inserting x puts it after the elements with a larger key only, so among
   the elements of key k x comes first and the others keep their order.
   */
  lemma {:induction false} InsertDescStable<T(!new)>(x: T, xs: seq<T>, key: T -> real, k: real)
    requires NonIncreasing(xs, key)
    ensures Filter(InsertDesc(x, xs, key), KeyIs(key, k)) == Filter([x] + xs, KeyIs(key, k))
    decreases |xs|
  {
    if |xs| > 0 && key(x) < key(xs[0]) {
      var rest := xs[1..];
      var p := KeyIs(key, k);
      assert xs == [xs[0]] + rest;
      InsertDescStable(x, rest, key, k);
      var t := InsertDesc(x, rest, key);
      assert InsertDesc(x, xs, key) == [xs[0]] + t;
      FilterSwap(x, xs[0], t, rest, p);
    }
  }

  /** Two elements that do not both pass a filter can be swapped without changing what it keeps. */
  lemma FilterSwap<T(!new)>(x: T, y: T, t: seq<T>, rest: seq<T>, p: T -> bool)
    requires !(p(x) && p(y))
    requires Filter(t, p) == Filter([x] + rest, p)
    ensures Filter([y] + t, p) == Filter([x] + ([y] + rest), p)
  {
    FilterCons(y, t, p);
    FilterCons(x, rest, p);
    FilterCons(x, [y] + rest, p);
    FilterCons(y, rest, p);
  }

  /** A sequence is free of repeats exactly when no element occurs twice in its multiset. */
  lemma {:induction false} DistinctMultiplicity<T>(xs: seq<T>)
    ensures Distinct(xs) <==> forall x :: multiset(xs)[x] <= 1
    decreases |xs|
  {
    if |xs| > 0 {
      var init := xs[..|xs| - 1];
      var last := xs[|xs| - 1];
      DistinctMultiplicity(init);
      assert xs == init + [last];
      assert multiset(xs) == multiset(init) + multiset{last};
      if Distinct(xs) {
        assert last !in init by {
          forall i | 0 <= i < |init|
            ensures init[i] != last
          {
            assert init[i] == xs[i];
          }
        }
        assert Distinct(init) by {
          forall i, j | 0 <= i < j < |init|
            ensures init[i] != init[j]
          {
            assert init[i] == xs[i] && init[j] == xs[j];
          }
        }
      } else {
        var i, j :| 0 <= i < j < |xs| && xs[i] == xs[j];
        if j < |xs| - 1 {
          assert init[i] == init[j];
          assert !Distinct(init);
          var x :| multiset(init)[x] > 1;
          assert multiset(xs)[x] >= multiset(init)[x];
        } else {
          assert last in init by {
            assert init[i] == last;
          }
          assert multiset(xs)[last] >= 2;
        }
      }
    }
  }

  /** Reordering a sequence free of repeats leaves it free of repeats. */
  lemma DistinctPermutation<T>(a: seq<T>, b: seq<T>)
    requires Distinct(a)
    requires multiset(a) == multiset(b)
    ensures Distinct(b)
  {
    DistinctMultiplicity(a);
    DistinctMultiplicity(b);
  }

  /** A rearrangement has the same members. */
  lemma PermutationMembers<T>(xs: seq<T>, r: seq<T>)
    requires multiset(r) == multiset(xs)
    ensures forall i :: 0 <= i < |r| ==> r[i] in xs
    ensures forall j :: 0 <= j < |xs| ==> xs[j] in r
  {
    assert forall i :: 0 <= i < |r| ==> r[i] in multiset(r);
    assert forall j :: 0 <= j < |xs| ==> xs[j] in multiset(xs);
  }

  /** Keeps the elements satisfying p, in order. */
  function Filter<T(!new)>(xs: seq<T>, p: T -> bool): (r: seq<T>)
    ensures |r| <= |xs|
    ensures forall i :: 0 <= i < |r| ==> p(r[i])
    ensures forall y :: y in r <==> y in xs && p(y)
    decreases |xs|
  {
    if |xs| == 0 then []
    else
      var rest := Filter(xs[..|xs| - 1], p);
      if p(xs[|xs| - 1]) then rest + [xs[|xs| - 1]] else rest
  }

  /** Filtering with a test every element passes keeps the sequence as it is. */
  lemma {:induction false} FilterAll<T(!new)>(xs: seq<T>, p: T -> bool)
    requires forall i :: 0 <= i < |xs| ==> p(xs[i])
    ensures Filter(xs, p) == xs
    decreases |xs|
  {
    if |xs| > 0 {
      var n := |xs| - 1;
      var init := xs[..n];
      assert forall i :: 0 <= i < |init| ==> init[i] == xs[i];
      FilterAll(init, p);
      assert init + [xs[n]] == xs;
    }
  }

  /** The filter keeps everything exactly when every element passes. */
  lemma {:induction false} FilterKeepsAll<T(!new)>(xs: seq<T>, p: T -> bool)
    ensures |Filter(xs, p)| == |xs| <==> forall i :: 0 <= i < |xs| ==> p(xs[i])
    decreases |xs|
  {
    if |xs| > 0 {
      var init := xs[..|xs| - 1];
      FilterKeepsAll(init, p);
      assert forall i :: 0 <= i < |init| ==> init[i] == xs[i];
      if !p(xs[|xs| - 1]) {
        assert |Filter(init, p)| <= |init|;
      }
    }
  }

  /** Two kept elements appear in the filtered sequence in the order they had. */
  lemma {:induction false} FilterPositions<T(!new)>(xs: seq<T>, p: T -> bool, i: int, j: int)
    requires 0 <= i < j < |Filter(xs, p)|
    ensures exists a, b :: 0 <= a < b < |xs| && xs[a] == Filter(xs, p)[i] && xs[b] == Filter(xs, p)[j]
    decreases |xs|
  {
    var n := |xs| - 1;
    var init := xs[..n];
    var rest := Filter(init, p);
    if p(xs[n]) && j == |rest| {
      assert Filter(xs, p)[i] == rest[i];
      assert rest[i] in init;
      var a :| 0 <= a < n && init[a] == rest[i];
      assert xs[a] == Filter(xs, p)[i] && xs[n] == Filter(xs, p)[j];
    } else {
      assert Filter(xs, p)[i] == rest[i] && Filter(xs, p)[j] == rest[j];
      FilterPositions(init, p, i, j);
      var a, b :| 0 <= a < b < |init| && init[a] == rest[i] && init[b] == rest[j];
      assert xs[a] == init[a] && xs[b] == init[b];
    }
  }

  /** Filtering keeps a strictly sorted sequence strictly sorted. */
  lemma FilterSorted<T(!new)>(xs: seq<T>, p: T -> bool, less: (T, T) -> bool)
    requires StrictlySorted(xs, less)
    ensures StrictlySorted(Filter(xs, p), less)
  {
    var r := Filter(xs, p);
    forall i, j | 0 <= i < j < |r|
      ensures less(r[i], r[j])
    {
      FilterPositions(xs, p, i, j);
    }
  }

  /** Filtering a sequence sorted by a key leaves it sorted. */
  lemma {:induction false} FilterKeepsOrder<T(!new)>(xs: seq<T>, p: T -> bool, key: T -> real)
    requires NonIncreasing(xs, key)
    ensures NonIncreasing(Filter(xs, p), key)
    decreases |xs|
  {
    if |xs| > 0 {
      var init := xs[..|xs| - 1];
      var last := xs[|xs| - 1];
      assert NonIncreasing(init, key);
      FilterKeepsOrder(init, p, key);
      var f := Filter(init, p);
      forall y | y in f
        ensures key(y) >= key(last)
      {
        var k :| 0 <= k < |init| && init[k] == y;
      }
      assert forall i :: 0 <= i < |f| ==> f[i] in f;
    }
  }

  /** Filtering with p, then q, keeps the same elements in the same order as filtering with q, then p. */
  lemma {:induction false} FilterCommute<T(!new)>(xs: seq<T>, p: T -> bool, q: T -> bool)
    ensures Filter(Filter(xs, p), q) == Filter(Filter(xs, q), p)
    decreases |xs|
  {
    if |xs| > 0 {
      var init := xs[..|xs| - 1];
      var x := xs[|xs| - 1];
      FilterCommute(init, p, q);
      if p(x) {
        assert Filter(xs, p)[..|Filter(xs, p)| - 1] == Filter(init, p);
      }
      if q(x) {
        assert Filter(xs, q)[..|Filter(xs, q)| - 1] == Filter(init, q);
      }
    }
  }

  /**
   A sequence in non-increasing key order is fixed by its elements of each
   key taken in order: two such sequences that agree key by key are equal.
   */
  lemma {:induction false} NonIncreasingDetermined<T(!new)>(a: seq<T>, b: seq<T>, key: T -> real)
    requires NonIncreasing(a, key) && NonIncreasing(b, key)
    requires forall k :: Filter(a, KeyIs(key, k)) == Filter(b, KeyIs(key, k))
    ensures a == b
    decreases |a| + |b|
  {
    if |a| > 0 || |b| > 0 {
      HeadsAgree(a, b, key);
      TailsAgree(a, b, key);
      NonIncreasingDetermined(a[1..], b[1..], key);
      assert a == [a[0]] + a[1..] && b == [b[0]] + b[1..];
    }
  }

  /** Under the hypotheses of NonIncreasingDetermined, both sequences are non-empty with the same first element. */
  lemma HeadsAgree<T(!new)>(a: seq<T>, b: seq<T>, key: T -> real)
    requires NonIncreasing(a, key) && NonIncreasing(b, key)
    requires forall k :: Filter(a, KeyIs(key, k)) == Filter(b, KeyIs(key, k))
    requires |a| > 0 || |b| > 0
    ensures |a| > 0 && |b| > 0 && a[0] == b[0]
  {
    if |a| > 0 {
      MaxKeyFirst(a, b, key);
    }
    if |b| > 0 {
      MaxKeyFirst(b, a, key);
    }
    var p := KeyIs(key, key(a[0]));
    assert key(b[0]) == key(a[0]);
    var fa, fb := Filter(a, p), Filter(b, p);
    assert fa == fb;
    FilterHead(a, p);
    FilterHead(b, p);
    assert fa[0] == a[0];
    assert fb[0] == b[0];
  }

  /** The first element of a has a key that some first element of b reaches. */
  lemma MaxKeyFirst<T(!new)>(a: seq<T>, b: seq<T>, key: T -> real)
    requires NonIncreasing(b, key) && |a| > 0
    requires Filter(a, KeyIs(key, key(a[0]))) == Filter(b, KeyIs(key, key(a[0])))
    ensures |b| > 0 && key(b[0]) >= key(a[0])
  {
    var p := KeyIs(key, key(a[0]));
    assert a[0] in a && p(a[0]);
    assert a[0] in Filter(b, p);
    var i :| 0 <= i < |b| && b[i] == a[0];
    assert key(b[0]) >= key(b[i]);
  }

  /** With equal first elements, the tails agree key by key too. */
  lemma TailsAgree<T(!new)>(a: seq<T>, b: seq<T>, key: T -> real)
    requires |a| > 0 && |b| > 0 && a[0] == b[0]
    requires forall k :: Filter(a, KeyIs(key, k)) == Filter(b, KeyIs(key, k))
    ensures forall k :: Filter(a[1..], KeyIs(key, k)) == Filter(b[1..], KeyIs(key, k))
  {
    forall k
      ensures Filter(a[1..], KeyIs(key, k)) == Filter(b[1..], KeyIs(key, k))
    {
      TailAgreesOn(a, b, KeyIs(key, k));
    }
  }

  /** Two sequences with the same first element that filter alike have tails that filter alike. */
  lemma TailAgreesOn<T(!new)>(a: seq<T>, b: seq<T>, p: T -> bool)
    requires |a| > 0 && |b| > 0 && a[0] == b[0]
    requires Filter(a, p) == Filter(b, p)
    ensures Filter(a[1..], p) == Filter(b[1..], p)
  {
    var ta, tb := Filter(a[1..], p), Filter(b[1..], p);
    FilterHead(a, p);
    FilterHead(b, p);
    var h := if p(a[0]) then [a[0]] else [];
    assert h + ta == h + tb;
    assert ta == (h + ta)[|h|..];
    assert tb == (h + tb)[|h|..];
  }

  /** Filtering a non-empty sequence: its first element, if kept, then the filtered rest. */
  lemma FilterHead<T(!new)>(a: seq<T>, p: T -> bool)
    requires |a| > 0
    ensures Filter(a, p) == (if p(a[0]) then [a[0]] else []) + Filter(a[1..], p)
  {
    var y, rest := a[0], a[1..];
    FilterCons(y, rest, p);
    assert [y] + rest == a;
  }

  /**
   Because SortDesc is stable, sorting and then filtering gives the same
   sequence as filtering and then sorting.
   */
  lemma SortDescFilter<T(!new)>(xs: seq<T>, key: T -> real, p: T -> bool)
    ensures Filter(SortDesc(xs, key), p) == SortDesc(Filter(xs, p), key)
  {
    var s := SortDesc(xs, key);
    var b := SortDesc(Filter(xs, p), key);
    FilterKeepsOrder(s, p, key);
    forall k
      ensures Filter(Filter(s, p), KeyIs(key, k)) == Filter(b, KeyIs(key, k))
    {
      FilterCommute(s, p, KeyIs(key, k));
      FilterCommute(xs, p, KeyIs(key, k));
    }
    NonIncreasingDetermined(Filter(s, p), b, key);
  }

  /** Filtering a sequence without repeats gives one without repeats. */
  lemma {:induction false} FilterDistinct<T(!new)>(xs: seq<T>, p: T -> bool)
    requires Distinct(xs)
    ensures Distinct(Filter(xs, p))
    decreases |xs|
  {
    if |xs| > 0 {
      var n := |xs| - 1;
      var init := xs[..n];
      assert Distinct(init);
      FilterDistinct(init, p);
      assert xs[n] !in init;
      DistinctSnoc(Filter(init, p), xs[n]);
    }
  }

  /** Two sequences without repeats and without a common element join into one without repeats. */
  lemma DistinctAppend<T>(a: seq<T>, b: seq<T>)
    requires Distinct(a) && Distinct(b)
    requires forall i, j :: 0 <= i < |a| && 0 <= j < |b| ==> a[i] != b[j]
    ensures Distinct(a + b)
  {
  }

  /** Filtering distributes over concatenation. */
  lemma {:induction false} FilterAppend<T(!new)>(a: seq<T>, b: seq<T>, p: T -> bool)
    ensures Filter(a + b, p) == Filter(a, p) + Filter(b, p)
    decreases |b|
  {
    if |b| == 0 {
      assert a + b == a;
    } else {
      var n := |b| - 1;
      assert (a + b)[..|a + b| - 1] == a + b[..n];
      FilterAppend(a, b[..n], p);
    }
  }

  /** Filtering with a test no element passes leaves nothing. */
  lemma FilterNone<T(!new)>(xs: seq<T>, p: T -> bool)
    requires forall i :: 0 <= i < |xs| ==> !p(xs[i])
    ensures Filter(xs, p) == []
  {
    EmptyIffNoMembers(Filter(xs, p));
  }

  /** The position of the first x in xs; |xs| when there is none. */
  function Position<T(==)>(xs: seq<T>, x: T): (r: nat)
    ensures r <= |xs|
    ensures r < |xs| <==> x in xs
    ensures r < |xs| ==> xs[r] == x
    ensures forall k :: 0 <= k < r ==> xs[k] != x
    decreases |xs|
  {
    if |xs| == 0 then 0
    else if xs[0] == x then 0
    else 1 + Position(xs[1..], x)
  }

  /** In a sequence without repeats every element is found where it stands. */
  lemma PositionOfDistinct<T>(xs: seq<T>, a: int)
    requires Distinct(xs) && 0 <= a < |xs|
    ensures Position(xs, xs[a]) == a
  {
  }

  /** The present results of f over xs, in the order of xs (a PHP loop that appends only some iterations). */
  function Collect<A, B>(xs: seq<A>, f: A -> Option<B>): (r: seq<B>)
    ensures |r| <= |xs|
    decreases |xs|
  {
    if |xs| == 0 then []
    else
      var rest := Collect(xs[..|xs| - 1], f);
      match f(xs[|xs| - 1])
      case Some(y) => rest + [y]
      case None => rest
  }

  /** Collect keeps exactly the present results. */
  lemma {:induction false} CollectMembers<A, B>(xs: seq<A>, f: A -> Option<B>)
    ensures forall y :: y in Collect(xs, f) <==> exists i :: 0 <= i < |xs| && f(xs[i]) == Some(y)
    decreases |xs|
  {
    if |xs| > 0 {
      var init := xs[..|xs| - 1];
      CollectMembers(init, f);
      assert forall i :: 0 <= i < |init| ==> init[i] == xs[i];
      forall y | (exists i :: 0 <= i < |xs| && f(xs[i]) == Some(y))
        ensures y in Collect(xs, f)
      {
        var i :| 0 <= i < |xs| && f(xs[i]) == Some(y);
        if i < |init| {
          assert f(init[i]) == Some(y);
        }
      }
    }
  }

  /**
   When the result of the i-th element carries the key base + i, the
   collected results are strictly increasing in their keys.
   */
  lemma {:induction false} CollectOrdered<A, B>(xs: seq<A>, f: A -> Option<B>, key: B -> int, base: int)
    requires forall i :: 0 <= i < |xs| && f(xs[i]).Some? ==> key(f(xs[i]).value) == base + i
    ensures forall y :: y in Collect(xs, f) ==> base <= key(y) < base + |xs|
    ensures forall i, j :: 0 <= i < j < |Collect(xs, f)| ==> key(Collect(xs, f)[i]) < key(Collect(xs, f)[j])
    decreases |xs|
  {
    if |xs| > 0 {
      var init := xs[..|xs| - 1];
      assert forall i :: 0 <= i < |init| ==> init[i] == xs[i];
      CollectOrdered(init, f, key, base);
      var rest := Collect(init, f);
      match f(xs[|xs| - 1])
      case Some(y) =>
        var r := rest + [y];
        assert Collect(xs, f) == r;
        assert key(y) == base + |xs| - 1;
        forall i, j | 0 <= i < j < |r|
          ensures key(r[i]) < key(r[j])
        {
          assert r[i] == rest[i];
          assert rest[i] in rest;
          if j < |rest| {
            assert r[j] == rest[j];
          } else {
            assert r[j] == y;
          }
        }
        forall z | z in r
          ensures base <= key(z) < base + |xs|
        {
          if z != y {
            assert z in rest;
          }
        }
      case None =>
        assert Collect(xs, f) == rest;
    }
  }

  /** The number of elements whose key is k. */
  function CountWith<A, K(==)>(xs: seq<A>, key: A -> K, k: K): nat
    decreases |xs|
  {
    if |xs| == 0 then 0
    else CountWith(xs[..|xs| - 1], key, k) + (if key(xs[|xs| - 1]) == k then 1 else 0)
  }

  /** The counts of the keys ks, added up. */
  function CountOverKeys<A, K(==)>(xs: seq<A>, key: A -> K, ks: seq<K>): nat
    decreases |ks|
  {
    if |ks| == 0 then 0 else CountOverKeys(xs, key, ks[..|ks| - 1]) + CountWith(xs, key, ks[|ks| - 1])
  }

  lemma {:induction false} CountOverKeysEmpty<A, K>(key: A -> K, ks: seq<K>)
    ensures CountOverKeys([], key, ks) == 0
    decreases |ks|
  {
    if |ks| > 0 {
      CountOverKeysEmpty(key, ks[..|ks| - 1]);
    }
  }

  lemma {:induction false} CountOverKeysSnoc<A, K(!new)>(xs: seq<A>, x: A, key: A -> K, ks: seq<K>)
    requires Distinct(ks)
    ensures CountOverKeys(xs + [x], key, ks) == CountOverKeys(xs, key, ks) + (if key(x) in ks then 1 else 0)
    decreases |ks|
  {
    assert (xs + [x])[..|xs + [x]| - 1] == xs;
    if |ks| > 0 {
      var init := ks[..|ks| - 1];
      CountOverKeysSnoc(xs, x, key, init);
      assert forall y :: y in ks <==> y in init || y == ks[|ks| - 1];
      assert ks[|ks| - 1] !in init;
    }
  }

  /** Counting per key and adding the counts back counts every element once, when the keys cover them all. */
  lemma {:induction false} CountOverKeysCovers<A, K(!new)>(xs: seq<A>, key: A -> K, ks: seq<K>)
    requires Distinct(ks)
    requires forall i :: 0 <= i < |xs| ==> key(xs[i]) in ks
    ensures CountOverKeys(xs, key, ks) == |xs|
    decreases |xs|
  {
    if |xs| == 0 {
      CountOverKeysEmpty(key, ks);
    } else {
      var init := xs[..|xs| - 1];
      var x := xs[|xs| - 1];
      assert forall i :: 0 <= i < |init| ==> init[i] == xs[i];
      CountOverKeysCovers(init, key, ks);
      assert xs == init + [x];
      CountOverKeysSnoc(init, x, key, ks);
    }
  }

  /** A strictly sorted sequence has no repetitions. */
  lemma StrictlySortedDistinct<T(!new)>(xs: seq<T>, less: (T, T) -> bool)
    requires StrictTotalOrder(less)
    requires StrictlySorted(xs, less)
    ensures Distinct(xs)
  {
    forall i, j | 0 <= i < j < |xs|
      ensures xs[i] != xs[j]
    {
      assert less(xs[i], xs[j]);
    }
  }
}

=== FILE: tally.dfy ===
/**
 A tally is a PHP associative array from keys to integer totals: keys are
 kept in insertion order and `$t[$k] = ($t[$k] ?? 0) + $v` either adds to
 an existing entry or appends a new one at the end. Every grouping the
 reports and exports perform is a fold of Add over a list of (key, value)
 pairs, so the lemmas here are what the aggregation properties rest on.
 */
module Tally {
  import opened Util
  import opened Sorting

  type Tally<K> = seq<(K, int)>

  function Keys<K>(t: Tally<K>): (r: seq<K>)
    ensures |r| == |t|
    ensures forall i :: 0 <= i < |t| ==> r[i] == t[i].0
  {
    seq(|t|, i requires 0 <= i < |t| => t[i].0)
  }

  function Values<K>(t: Tally<K>): (r: seq<int>)
    ensures |r| == |t|
    ensures forall i :: 0 <= i < |t| ==> r[i] == t[i].1
  {
    seq(|t|, i requires 0 <= i < |t| => t[i].1)
  }

  predicate Has<K(==,!new)>(t: Tally<K>, k: K)
  {
    k in Keys(t)
  }

  /** The position of the first entry of k at or after position i. */
  function IndexFrom<K(==)>(t: Tally<K>, k: K, i: nat): (r: nat)
    requires i <= |t| && exists j :: i <= j < |t| && t[j].0 == k
    ensures i <= r < |t| && t[r].0 == k
    ensures forall j :: i <= j < r ==> t[j].0 != k
    decreases |t| - i
  {
    if t[i].0 == k then i else IndexFrom(t, k, i + 1)
  }

  /** The position of the first entry of k. */
  function IndexOf<K(==,!new)>(t: Tally<K>, k: K): (r: nat)
    requires Has(t, k)
    ensures r < |t| && t[r].0 == k
    ensures forall j :: 0 <= j < r ==> t[j].0 != k
  {
    var j :| 0 <= j < |t| && Keys(t)[j] == k;
    IndexFrom(t, k, 0)
  }

  /** Only the first entry of k is both an entry of k and preceded by none. */
  lemma IndexOfUnique<K(!new)>(t: Tally<K>, k: K, i: nat)
    requires i < |t| && t[i].0 == k
    requires forall j :: 0 <= j < i ==> t[j].0 != k
    ensures Has(t, k) && IndexOf(t, k) == i
  {
    assert Keys(t)[i] == k;
  }

  /** `$t[$k] ?? 0`: the value of the entry of k, and 0 without one. */
  function Get<K(==,!new)>(t: Tally<K>, k: K): int
  {
    if Has(t, k) then t[IndexOf(t, k)].1 else 0
  }

  /** The sum of all values of the tally. */
  function Total<K>(t: Tally<K>): int
    decreases |t|
  {
    if |t| == 0 then 0 else t[0].1 + Total(t[1..])
  }

  lemma {:induction false} TotalAppend<K>(a: Tally<K>, b: Tally<K>)
    ensures Total(a + b) == Total(a) + Total(b)
    decreases |a|
  {
    if |a| == 0 {
      assert a + b == b;
    } else {
      TotalAppend(a[1..], b);
      assert (a + b)[1..] == a[1..] + b;
    }
  }

  /** The total of a tally is the total without its last entry plus that entry's value. */
  lemma TotalSnoc<K>(t: Tally<K>)
    requires |t| > 0
    ensures Total(t) == Total(t[..|t| - 1]) + t[|t| - 1].1
  {
    var n := |t| - 1;
    assert t == t[..n] + [t[n]];
    TotalAppend(t[..n], [t[n]]);
    assert Total([t[n]]) == t[n].1;
  }

  lemma {:induction false} TotalUpdate<K>(t: Tally<K>, i: nat, x: (K, int))
    requires i < |t|
    ensures Total(t[i := x]) == Total(t) - t[i].1 + x.1
    decreases |t|
  {
    if i == 0 {
      assert t[i := x][1..] == t[1..];
    } else {
      TotalUpdate(t[1..], i - 1, x);
      assert t[i := x][1..] == t[1..][i - 1 := x];
    }
  }

  /**
   `$t[$k] = ($t[$k] ?? 0) + $v`: the entry of k grows by v in place, or a
   new entry (k, v) goes at the end.
   */
  function Add<K(==,!new)>(t: Tally<K>, k: K, v: int): (r: Tally<K>)
    ensures Keys(r) == if Has(t, k) then Keys(t) else Keys(t) + [k]
    ensures Distinct(Keys(t)) ==> Distinct(Keys(r))
  {
    DistinctSnoc(Keys(t), k);
    if Has(t, k) then
      var i := IndexOf(t, k);
      var r := t[i := (k, t[i].1 + v)];
      assert Keys(r) == Keys(t);
      r
    else
      var r := t + [(k, v)];
      assert Keys(r) == Keys(t) + [k];
      r
  }

  /** Adding v for k adds v to the entry of k and leaves every other entry as it was. */
  lemma AddGet<K(!new)>(t: Tally<K>, k: K, v: int, j: K)
    ensures Get(Add(t, k, v), j) == Get(t, j) + (if j == k then v else 0)
  {
    var r := Add(t, k, v);
    if Has(t, j) {
      IndexOfUnique(r, j, IndexOf(t, j));
    } else if j == k {
      IndexOfUnique(r, j, |t|);
    }
  }

  /** Adding v to a tally adds v to its total, whether the key was new or not. */
  lemma AddTotal<K(!new)>(t: Tally<K>, k: K, v: int)
    ensures Total(Add(t, k, v)) == Total(t) + v
  {
    if Has(t, k) {
      var i := IndexOf(t, k);
      TotalUpdate(t, i, (k, t[i].1 + v));
    } else {
      TotalAppend(t, [(k, v)]);
      assert Total([(k, v)]) == v;
    }
  }

  /** Folds Add over the pairs, left to right. */
  function AddAll<K(==,!new)>(t: Tally<K>, pairs: seq<(K, int)>): Tally<K>
    decreases |pairs|
  {
    if |pairs| == 0 then t
    else
      var last := pairs[|pairs| - 1];
      Add(AddAll(t, pairs[..|pairs| - 1]), last.0, last.1)
  }

  /** The grouping of a list of pairs, starting from nothing. */
  function Group<K(==,!new)>(pairs: seq<(K, int)>): Tally<K>
  {
    AddAll([], pairs)
  }

  /** The declarative total for key k: the sum of the values paired with k. */
  function SumFor<K(==,!new)>(pairs: seq<(K, int)>, k: K): int
    decreases |pairs|
  {
    if |pairs| == 0 then 0
    else
      var last := pairs[|pairs| - 1];
      SumFor(pairs[..|pairs| - 1], k) + (if last.0 == k then last.1 else 0)
  }

  /** The total of a tally after folding in the pairs. */
  lemma {:induction false} AddAllGet<K(!new)>(t: Tally<K>, pairs: seq<(K, int)>, k: K)
    ensures Get(AddAll(t, pairs), k) == Get(t, k) + SumFor(pairs, k)
    decreases |pairs|
  {
    if |pairs| > 0 {
      var last := pairs[|pairs| - 1];
      AddAllGet(t, pairs[..|pairs| - 1], k);
      AddGet(AddAll(t, pairs[..|pairs| - 1]), last.0, last.1, k);
    }
  }

  /** A key is present after the fold iff it was before or some pair carries it. */
  lemma {:induction false} AddAllHas<K(!new)>(t: Tally<K>, pairs: seq<(K, int)>, k: K)
    ensures Has(AddAll(t, pairs), k) <==> Has(t, k) || k in Keys(pairs)
    decreases |pairs|
  {
    if |pairs| > 0 {
      AddAllHas(t, pairs[..|pairs| - 1], k);
      assert Keys(pairs) == Keys(pairs[..|pairs| - 1]) + [pairs[|pairs| - 1].0];
    }
  }

  /** Folding never introduces a duplicate key. */
  lemma {:induction false} AddAllDistinct<K(!new)>(t: Tally<K>, pairs: seq<(K, int)>)
    requires Distinct(Keys(t))
    ensures Distinct(Keys(AddAll(t, pairs)))
    decreases |pairs|
  {
    if |pairs| > 0 {
      AddAllDistinct(t, pairs[..|pairs| - 1]);
    }
  }

  /** Folding adds the sum of the pairs' values to the total. */
  lemma {:induction false} AddAllTotal<K(!new)>(t: Tally<K>, pairs: seq<(K, int)>)
    ensures Total(AddAll(t, pairs)) == Total(t) + Total(pairs)
    decreases |pairs|
  {
    if |pairs| > 0 {
      var init := pairs[..|pairs| - 1];
      var last := pairs[|pairs| - 1];
      AddAllTotal(t, init);
      AddTotal(AddAll(t, init), last.0, last.1);
      TotalSnoc(pairs);
    }
  }

  /** The keys of a grouping appear in order of their first appearance among the pairs. */
  lemma {:induction false} GroupKeysOrder<K(!new)>(pairs: seq<(K, int)>)
    ensures Keys(Group(pairs)) == Dedupe(Keys(pairs))
    decreases |pairs|
  {
    if |pairs| > 0 {
      var init := pairs[..|pairs| - 1];
      GroupKeysOrder(init);
      assert Keys(pairs)[..|pairs| - 1] == Keys(init);
      AddAllHas([], init, pairs[|pairs| - 1].0);
    }
  }

  /** Everything about one grouping: its keys, their totals, their distinctness. */
  lemma GroupSpec<K(!new)>(pairs: seq<(K, int)>)
    ensures Distinct(Keys(Group(pairs)))
    ensures forall k :: Has(Group(pairs), k) <==> k in Keys(pairs)
    ensures forall k :: Get(Group(pairs), k) == SumFor(pairs, k)
    ensures Total(Group(pairs)) == Total(pairs)
  {
    AddAllDistinct([], pairs);
    forall k
      ensures Has(Group(pairs), k) <==> k in Keys(pairs)
      ensures Get(Group(pairs), k) == SumFor(pairs, k)
    {
      AddAllHas([], pairs, k);
      AddAllGet([], pairs, k);
    }
    AddAllTotal([], pairs);
  }

  /** Pre-seeding keys with 0 (the source's zero-fill loops). */
  function ZeroFill<K(==,!new)>(t: Tally<K>, keys: seq<K>): (r: Tally<K>)
    ensures forall k :: Has(r, k) <==> Has(t, k) || k in keys
    ensures Distinct(Keys(t)) ==> Distinct(Keys(r))
    decreases |keys|
  {
    if |keys| == 0 then t
    else
      var n := |keys| - 1;
      assert forall x :: x in keys <==> x in keys[..n] || x == keys[n];
      Add(ZeroFill(t, keys[..n]), keys[n], 0)
  }

  /** Zero-filling changes no total. */
  lemma {:induction false} ZeroFillGet<K(!new)>(t: Tally<K>, keys: seq<K>, k: K)
    ensures Get(ZeroFill(t, keys), k) == Get(t, k)
    decreases |keys|
  {
    if |keys| > 0 {
      var n := |keys| - 1;
      ZeroFillGet(t, keys[..n], k);
      AddGet(ZeroFill(t, keys[..n]), keys[n], 0, k);
    }
  }

  lemma {:induction false} ZeroFillTotal<K(!new)>(t: Tally<K>, keys: seq<K>)
    ensures Total(ZeroFill(t, keys)) == Total(t)
    decreases |keys|
  {
    if |keys| > 0 {
      ZeroFillTotal(t, keys[..|keys| - 1]);
      AddTotal(ZeroFill(t, keys[..|keys| - 1]), keys[|keys| - 1], 0);
    }
  }

  /** The (key, value) pairs of the kept elements, in order: what a grouping loop feeds to Add. */
  function PairsOf<A, K>(xs: seq<A>, keep: A -> bool, key: A -> K, value: A -> int): (r: seq<(K, int)>)
    ensures |r| <= |xs|
    decreases |xs|
  {
    if |xs| == 0 then []
    else
      var rest := PairsOf(xs[..|xs| - 1], keep, key, value);
      var x := xs[|xs| - 1];
      if keep(x) then rest + [(key(x), value(x))] else rest
  }

  /** The declarative total of key k: the values of the kept elements whose key is k, added up. */
  function SumWhere<A, K(==)>(xs: seq<A>, keep: A -> bool, key: A -> K, value: A -> int, k: K): int
    decreases |xs|
  {
    if |xs| == 0 then 0
    else
      var x := xs[|xs| - 1];
      SumWhere(xs[..|xs| - 1], keep, key, value, k) + (if keep(x) && key(x) == k then value(x) else 0)
  }

  lemma {:induction false} PairsOfSumFor<A, K(!new)>(xs: seq<A>, keep: A -> bool, key: A -> K, value: A -> int, k: K)
    ensures SumFor(PairsOf(xs, keep, key, value), k) == SumWhere(xs, keep, key, value, k)
    decreases |xs|
  {
    if |xs| > 0 {
      var rest := PairsOf(xs[..|xs| - 1], keep, key, value);
      PairsOfSumFor(xs[..|xs| - 1], keep, key, value, k);
      var x := xs[|xs| - 1];
      if keep(x) {
        assert (rest + [(key(x), value(x))])[..|rest|] == rest;
      }
    }
  }

  lemma {:induction false} PairsOfKeys<A, K(!new)>(xs: seq<A>, keep: A -> bool, key: A -> K, value: A -> int)
    ensures forall k :: k in Keys(PairsOf(xs, keep, key, value)) <==> exists i :: 0 <= i < |xs| && keep(xs[i]) && key(xs[i]) == k
    decreases |xs|
  {
    if |xs| > 0 {
      var init := xs[..|xs| - 1];
      var x := xs[|xs| - 1];
      PairsOfKeys(init, keep, key, value);
      var rest := PairsOf(init, keep, key, value);
      assert forall i :: 0 <= i < |init| ==> init[i] == xs[i];
      if keep(x) {
        assert Keys(rest + [(key(x), value(x))]) == Keys(rest) + [key(x)];
      }
      forall k | exists i :: 0 <= i < |xs| && keep(xs[i]) && key(xs[i]) == k
        ensures k in Keys(PairsOf(xs, keep, key, value))
      {
        var i :| 0 <= i < |xs| && keep(xs[i]) && key(xs[i]) == k;
        if i < |init| {
          assert keep(init[i]) && key(init[i]) == k;
        }
      }
    }
  }

  /**
   Grouping the kept elements: the keys are distinct, a key is present
   exactly when a kept element carries it, and its total is the declarative
   one.
   */
  lemma GroupOfPairs<A, K(!new)>(xs: seq<A>, keep: A -> bool, key: A -> K, value: A -> int)
    ensures Distinct(Keys(Group(PairsOf(xs, keep, key, value))))
    ensures forall k :: Has(Group(PairsOf(xs, keep, key, value)), k) <==>
      exists i :: 0 <= i < |xs| && keep(xs[i]) && key(xs[i]) == k
    ensures forall k :: Get(Group(PairsOf(xs, keep, key, value)), k) == SumWhere(xs, keep, key, value, k)
  {
    var pairs := PairsOf(xs, keep, key, value);
    GroupSpec(pairs);
    PairsOfKeys(xs, keep, key, value);
    forall k
      ensures Get(Group(pairs), k) == SumWhere(xs, keep, key, value, k)
    {
      PairsOfSumFor(xs, keep, key, value, k);
    }
  }

  lemma {:induction false} SumWhereAppend<A, K(!new)>(a: seq<A>, b: seq<A>, keep: A -> bool, key: A -> K, value: A -> int, k: K)
    ensures SumWhere(a + b, keep, key, value, k) == SumWhere(a, keep, key, value, k) + SumWhere(b, keep, key, value, k)
    decreases |b|
  {
    if |b| == 0 {
      assert a + b == a;
    } else {
      var init := b[..|b| - 1];
      assert (a + b)[..|a + b| - 1] == a + init;
      SumWhereAppend(a, init, keep, key, value, k);
    }
  }

  /** Grouping pairs whose keys are already distinct gives the pairs back. */
  lemma {:induction false} GroupOfDistinct<K(!new)>(t: Tally<K>)
    requires Distinct(Keys(t))
    ensures Group(t) == t
    decreases |t|
  {
    if |t| > 0 {
      var init := t[..|t| - 1];
      var last := t[|t| - 1];
      assert Keys(init) == Keys(t)[..|t| - 1];
      assert Distinct(Keys(init));
      GroupOfDistinct(init);
      assert !Has(init, last.0) by {
        forall i | 0 <= i < |init|
          ensures Keys(init)[i] != last.0
        {
          assert Keys(t)[i] == Keys(init)[i] && Keys(t)[|t| - 1] == last.0;
        }
      }
      assert init + [(last.0, last.1)] == t;
    }
  }

  /** In a tally without repeated keys, the entry of k holds all the values paired with k. */
  lemma GetOfDistinct<K(!new)>(t: Tally<K>, k: K)
    requires Distinct(Keys(t))
    ensures Get(t, k) == SumFor(t, k)
  {
    GroupOfDistinct(t);
    GroupSpec(t);
  }

  /** The values of the kept elements, added up. */
  function SumKept<A>(xs: seq<A>, keep: A -> bool, value: A -> int): int
    decreases |xs|
  {
    if |xs| == 0 then 0
    else SumKept(xs[..|xs| - 1], keep, value) + (if keep(xs[|xs| - 1]) then value(xs[|xs| - 1]) else 0)
  }

  /** The totals of the keys ks, one per key, in the order of ks: a row of a cross-tab. */
  function Cells<A, K(==)>(xs: seq<A>, keep: A -> bool, key: A -> K, value: A -> int, ks: seq<K>): (r: seq<int>)
    ensures |r| == |ks|
    ensures forall i :: 0 <= i < |ks| ==> r[i] == SumWhere(xs, keep, key, value, ks[i])
  {
    seq(|ks|, i requires 0 <= i < |ks| => SumWhere(xs, keep, key, value, ks[i]))
  }

  lemma {:induction false} SumWhereSnoc<A, K(!new)>(xs: seq<A>, x: A, keep: A -> bool, key: A -> K, value: A -> int, k: K)
    ensures SumWhere(xs + [x], keep, key, value, k) == SumWhere(xs, keep, key, value, k) + (if keep(x) && key(x) == k then value(x) else 0)
  {
    assert (xs + [x])[..|xs + [x]| - 1] == xs;
  }

  lemma {:induction false} CellsOfEmpty<A, K(!new)>(keep: A -> bool, key: A -> K, value: A -> int, ks: seq<K>)
    ensures Sum(Cells([], keep, key, value, ks)) == 0
    decreases |ks|
  {
    if |ks| > 0 {
      var init := ks[..|ks| - 1];
      CellsOfEmpty(keep, key, value, init);
      assert Cells([], keep, key, value, ks)[..|init|] == Cells([], keep, key, value, init);
    }
  }

  lemma {:induction false} CellsSnoc<A, K(!new)>(xs: seq<A>, x: A, keep: A -> bool, key: A -> K, value: A -> int, ks: seq<K>)
    requires Distinct(ks)
    ensures Sum(Cells(xs + [x], keep, key, value, ks)) ==
      Sum(Cells(xs, keep, key, value, ks)) + (if keep(x) && key(x) in ks then value(x) else 0)
    decreases |ks|
  {
    if |ks| > 0 {
      var init := ks[..|ks| - 1];
      var k := ks[|ks| - 1];
      CellsSnoc(xs, x, keep, key, value, init);
      assert Cells(xs + [x], keep, key, value, ks)[..|init|] == Cells(xs + [x], keep, key, value, init);
      assert Cells(xs, keep, key, value, ks)[..|init|] == Cells(xs, keep, key, value, init);
      SumWhereSnoc(xs, x, keep, key, value, k);
      assert forall y :: y in ks <==> y in init || y == k;
      assert k !in init;
    }
  }

  /**
   A cross-tab row adds up to the total of its kept elements when its keys
   are distinct and cover every kept element's key.
   */
  lemma {:induction false} CellsCover<A, K(!new)>(xs: seq<A>, keep: A -> bool, key: A -> K, value: A -> int, ks: seq<K>)
    requires Distinct(ks)
    requires forall i :: 0 <= i < |xs| && keep(xs[i]) ==> key(xs[i]) in ks
    ensures Sum(Cells(xs, keep, key, value, ks)) == SumKept(xs, keep, value)
    decreases |xs|
  {
    if |xs| == 0 {
      CellsOfEmpty(keep, key, value, ks);
    } else {
      var init := xs[..|xs| - 1];
      var x := xs[|xs| - 1];
      assert forall i :: 0 <= i < |init| ==> init[i] == xs[i];
      CellsCover(init, keep, key, value, ks);
      assert xs == init + [x];
      CellsSnoc(init, x, keep, key, value, ks);
    }
  }

  /** The kept values of one key are the values of the elements kept for that key. */
  lemma {:induction false} SumWhereIsSumKept<A, K(!new)>(xs: seq<A>, keep: A -> bool, key: A -> K, value: A -> int, k: K, keepK: A -> bool)
    requires forall i :: 0 <= i < |xs| ==> (keepK(xs[i]) <==> keep(xs[i]) && key(xs[i]) == k)
    ensures SumWhere(xs, keep, key, value, k) == SumKept(xs, keepK, value)
    decreases |xs|
  {
    if |xs| > 0 {
      var init := xs[..|xs| - 1];
      assert forall i :: 0 <= i < |init| ==> init[i] == xs[i];
      SumWhereIsSumKept(init, keep, key, value, k, keepK);
    }
  }

  /** The pairs' values add up to the values of the kept elements. */
  lemma {:induction false} PairsOfTotal<A, K>(xs: seq<A>, keep: A -> bool, key: A -> K, value: A -> int)
    ensures Total(PairsOf(xs, keep, key, value)) == SumKept(xs, keep, value)
    decreases |xs|
  {
    if |xs| > 0 {
      var init := xs[..|xs| - 1];
      var x := xs[|xs| - 1];
      PairsOfTotal(init, keep, key, value);
      if keep(x) {
        TotalAppend(PairsOf(init, keep, key, value), [(key(x), value(x))]);
      }
    }
  }

  /** A tally whose keys do not repeat has no repeated entry. */
  lemma DistinctOfKeys<K>(t: Tally<K>)
    requires Distinct(Keys(t))
    ensures Distinct(t)
  {
    forall i, j | 0 <= i < j < |t|
      ensures t[i] != t[j]
    {
      assert Keys(t)[i] != Keys(t)[j];
    }
  }

  /** Entries taken without repeats from a tally whose keys do not repeat have keys that do not repeat. */
  lemma DistinctKeysOfPart<K>(t: Tally<K>, s: Tally<K>)
    requires Distinct(Keys(t)) && Distinct(s)
    requires forall i :: 0 <= i < |s| ==> s[i] in t
    ensures Distinct(Keys(s))
  {
    forall i, j | 0 <= i < j < |s|
      ensures Keys(s)[i] != Keys(s)[j]
    {
      var a :| 0 <= a < |t| && t[a] == s[i];
      var b :| 0 <= b < |t| && t[b] == s[j];
      assert a != b;
      assert Keys(t)[a] != Keys(t)[b];
    }
  }
}

=== FILE: targets.dfy ===
/**
 Target lookup and working-hour discovery of the production data class.
 A target record carries the creation time of a sewing_target row and its
 six rates. The lookup prefers the newest record of the query date, then the
 newest record on or before it, then 10 for every line; a database error
 also gives 10. Working hours are the clock hours in which any line recorded
 production in the range, or 8..16 when there are none.
 */
module Targets {
  import opened Util
  import opened Sorting
  import opened Calendar
  import opened Schema

  /** A sewing_target row: the date and second of day of created_at, and its rates. */
  datatype TargetRecord = TargetRecord(day: Date, secondOfDay: int, rates: Rates)

  predicate ValidRecord(r: TargetRecord)
  {
    Valid(r.day) && 0 <= r.secondOfDay < 86400
  }

  /** The target table as the lookup sees it: its rows, or a database error. */
  datatype TargetSource = TargetSource(ok: bool, records: seq<TargetRecord>)

  predicate ValidSource(src: TargetSource)
  {
    forall i :: 0 <= i < |src.records| ==> ValidRecord(src.records[i])
  }

  /** created_at as one number, so that a later creation time is a larger stamp. */
  function Stamp(r: TargetRecord): int
    requires ValidRecord(r)
  {
    DayNumber(r.day) * 86400 + r.secondOfDay
  }

  /** A record of an earlier day is older than any record of a later day. */
  lemma StampDayOrder(a: TargetRecord, b: TargetRecord)
    requires ValidRecord(a) && ValidRecord(b)
    ensures DayNumber(a.day) < DayNumber(b.day) ==> Stamp(a) < Stamp(b)
  {
  }

  /** The two `WHERE` clauses of the lookup. */
  datatype Window = OnDay(d: Date) | UpTo(d: Date)

  predicate InWindow(r: TargetRecord, w: Window)
    requires ValidRecord(r) && Valid(w.d)
  {
    match w
    case OnDay(d) => r.day == d
    case UpTo(d) => DayNumber(r.day) <= DayNumber(d)
  }

  /**
   Index i is what `ORDER BY created_at DESC LIMIT 1` returns: a record of
   the window no other record of the window is newer than, and, among equal
   creation times, the first in table order.
   */
  ghost predicate IsNewest(recs: seq<TargetRecord>, w: Window, i: int)
    requires forall k :: 0 <= k < |recs| ==> ValidRecord(recs[k])
    requires Valid(w.d)
  {
    0 <= i < |recs| && InWindow(recs[i], w) &&
    (forall j :: 0 <= j < |recs| && InWindow(recs[j], w) ==> Stamp(recs[j]) <= Stamp(recs[i])) &&
    (forall j :: 0 <= j < i && InWindow(recs[j], w) ==> Stamp(recs[j]) < Stamp(recs[i]))
  }

  lemma NewestUnique(recs: seq<TargetRecord>, w: Window, i: int, j: int)
    requires forall k :: 0 <= k < |recs| ==> ValidRecord(recs[k])
    requires Valid(w.d)
    requires IsNewest(recs, w, i) && IsNewest(recs, w, j)
    ensures i == j
  {
  }

  /** The index of the newest record of the window, scanning the table in order. */
  function NewestIndex(recs: seq<TargetRecord>, w: Window): (r: Option<nat>)
    requires forall k :: 0 <= k < |recs| ==> ValidRecord(recs[k])
    requires Valid(w.d)
    ensures r.Some? ==> r.value < |recs|
    decreases |recs|
  {
    if |recs| == 0 then None
    else
      var n := |recs| - 1;
      var prev := NewestIndex(recs[..n], w);
      if InWindow(recs[n], w) && (prev.None? || Stamp(recs[n]) > Stamp(recs[prev.value])) then
        Some(n)
      else
        prev
  }

  /** The scan finds the record `ORDER BY created_at DESC LIMIT 1` returns, and finds none only for an empty window. */
  lemma {:induction false} NewestIndexSpec(recs: seq<TargetRecord>, w: Window)
    requires forall k :: 0 <= k < |recs| ==> ValidRecord(recs[k])
    requires Valid(w.d)
    ensures NewestIndex(recs, w).Some? ==> IsNewest(recs, w, NewestIndex(recs, w).value)
    ensures NewestIndex(recs, w).None? <==> forall j :: 0 <= j < |recs| ==> !InWindow(recs[j], w)
    decreases |recs|
  {
    if |recs| > 0 {
      var n := |recs| - 1;
      var init := recs[..n];
      assert forall k :: 0 <= k < |init| ==> ValidRecord(init[k]) by {
        forall k | 0 <= k < |init|
          ensures ValidRecord(init[k])
        {
          assert init[k] == recs[k];
        }
      }
      NewestIndexSpec(init, w);
      var prev := NewestIndex(init, w);
      if InWindow(recs[n], w) && (prev.None? || Stamp(recs[n]) > Stamp(recs[prev.value])) {
        assert NewestIndex(recs, w) == Some(n);
        NewestOfLast(recs, init, w, prev);
      } else if prev.Some? {
        assert NewestIndex(recs, w) == prev;
        NewestKept(recs, init, w, prev.value);
      } else {
        assert NewestIndex(recs, w).None?;
        NoneInWindow(recs, init, w);
      }
    }
  }

  /** A record of the window newer than the newest before it is the newest. */
  lemma NewestOfLast(recs: seq<TargetRecord>, init: seq<TargetRecord>, w: Window, prev: Option<nat>)
    requires forall k :: 0 <= k < |recs| ==> ValidRecord(recs[k])
    requires Valid(w.d) && |recs| > 0 && init == recs[..|recs| - 1]
    requires InWindow(recs[|recs| - 1], w)
    requires prev.None? ==> forall j :: 0 <= j < |init| ==> !InWindow(init[j], w)
    requires prev.Some? ==> IsNewest(init, w, prev.value) && Stamp(recs[|recs| - 1]) > Stamp(recs[prev.value])
    ensures IsNewest(recs, w, |recs| - 1)
  {
    assert forall j :: 0 <= j < |init| ==> init[j] == recs[j];
  }

  /** No record is in the window when none before the last is and the last is not. */
  lemma NoneInWindow(recs: seq<TargetRecord>, init: seq<TargetRecord>, w: Window)
    requires forall k :: 0 <= k < |recs| ==> ValidRecord(recs[k])
    requires Valid(w.d) && |recs| > 0 && init == recs[..|recs| - 1]
    requires forall j :: 0 <= j < |init| ==> !InWindow(init[j], w)
    requires !InWindow(recs[|recs| - 1], w)
    ensures forall j :: 0 <= j < |recs| ==> !InWindow(recs[j], w)
  {
    assert forall j :: 0 <= j < |init| ==> init[j] == recs[j];
  }

  /** The newest record before the last stays the newest when the last is not newer. */
  lemma NewestKept(recs: seq<TargetRecord>, init: seq<TargetRecord>, w: Window, i: nat)
    requires forall k :: 0 <= k < |recs| ==> ValidRecord(recs[k])
    requires Valid(w.d) && |recs| > 0 && init == recs[..|recs| - 1]
    requires IsNewest(init, w, i)
    requires !(InWindow(recs[|recs| - 1], w) && Stamp(recs[|recs| - 1]) > Stamp(recs[i]))
    ensures IsNewest(recs, w, i)
  {
    assert forall j :: 0 <= j < |init| ==> init[j] == recs[j];
  }

  /** `getTargets($date)`. */
  function GetTargets(src: TargetSource, date: Date): (r: Rates)
    requires ValidSource(src) && Valid(date)
    ensures !src.ok ==> r == DefaultRates
    ensures (forall j :: 0 <= j < |src.records| ==> !InWindow(src.records[j], UpTo(date))) ==> r == DefaultRates
    ensures src.ok && (exists j :: 0 <= j < |src.records| && src.records[j].day == date) ==>
      exists i :: IsNewest(src.records, OnDay(date), i) && r == src.records[i].rates
  {
    NewestIndexSpec(src.records, OnDay(date));
    NewestIndexSpec(src.records, UpTo(date));
    if !src.ok then DefaultRates
    else
      match NewestIndex(src.records, OnDay(date))
      case Some(i) => src.records[i].rates
      case None =>
        match NewestIndex(src.records, UpTo(date))
        case Some(i) => src.records[i].rates
        case None => DefaultRates
  }

  /**
   The first query of the lookup never changes its answer: the newest record
   of the date, when there is one, is also the newest record on or before
   it. So the lookup is the newest record on or before the date, else the
   default.
   */
  lemma GetTargetsIsNewestUpTo(src: TargetSource, date: Date)
    requires ValidSource(src) && Valid(date) && src.ok
    ensures match NewestIndex(src.records, UpTo(date))
            case Some(i) => GetTargets(src, date) == src.records[i].rates
            case None => GetTargets(src, date) == DefaultRates
  {
    var recs := src.records;
    NewestIndexSpec(recs, OnDay(date));
    NewestIndexSpec(recs, UpTo(date));
    var exact := NewestIndex(recs, OnDay(date));
    if exact.Some? {
      var i := exact.value;
      forall j | 0 <= j < |recs| && InWindow(recs[j], UpTo(date))
        ensures Stamp(recs[j]) <= Stamp(recs[i])
        ensures j < i ==> Stamp(recs[j]) < Stamp(recs[i])
      {
        if recs[j].day != date {
          if DayNumber(recs[j].day) == DayNumber(date) {
            DayNumberInjective(recs[j].day, date);
          }
          StampDayOrder(recs[j], recs[i]);
        }
      }
      assert IsNewest(recs, UpTo(date), i);
      var k := NewestIndex(recs, UpTo(date)).value;
      NewestUnique(recs, UpTo(date), i, k);
    }
  }

  predicate IntLess(a: int, b: int)
  {
    a < b
  }

  lemma IntLessIsStrictTotalOrder()
    ensures StrictTotalOrder(IntLess)
  {
  }

  /** `range(8, 16)`: the standard hours used when no production is found. */
  const DefaultHours: seq<int> := [8, 9, 10, 11, 12, 13, 14, 15, 16]

  /** The clock hours of one line's rows in the range; a missing or failing table gives none. */
  function LineHours(data: LineData, s: Date, e: Date): (r: seq<int>)
    requires (data.Present? ==> ValidRows(data.rows)) && Valid(s) && Valid(e)
    ensures forall h :: h in r <==> data.Present? && exists x :: x in RowsIn(data.rows, s, e) && x.hour == h
    ensures forall i :: 0 <= i < |r| ==> 0 <= r[i] < 24
  {
    match data
    case Present(rows) =>
      var kept := RowsIn(rows, s, e);
      assert forall h :: h in Hours(kept) <==> exists x :: x in kept && x.hour == h by {
        forall h | h in Hours(kept)
          ensures exists x :: x in kept && x.hour == h
        {
          var i :| 0 <= i < |kept| && Hours(kept)[i] == h;
          assert kept[i] in kept;
        }
      }
      Hours(kept)
    case _ => []
  }

  /** Every line's hours, in line order (the source's `$all_hours` before de-duplication). */
  function DiscoveredHours(db: Db, s: Date, e: Date, lines: seq<Line>): (r: seq<int>)
    requires ValidDb(db) && Valid(s) && Valid(e)
    ensures forall h :: h in r <==> exists l :: l in lines && h in LineHours(TableOf(db, l), s, e)
    ensures forall i :: 0 <= i < |r| ==> 0 <= r[i] < 24
    decreases |lines|
  {
    if |lines| == 0 then []
    else
      var init := lines[..|lines| - 1];
      var l := lines[|lines| - 1];
      assert forall x :: x in lines <==> x in init || x == l;
      DiscoveredHours(db, s, e, init) + LineHours(TableOf(db, l), s, e)
  }

  /** `getWorkingHours($start, $end)`. */
  function WorkingHours(db: Db, s: Date, e: Date): (r: seq<int>)
    requires ValidDb(db) && Valid(s) && Valid(e)
    ensures StrictlySorted(r, IntLess)
    ensures |r| > 0
    ensures |DiscoveredHours(db, s, e, AllLines)| > 0 ==>
      forall h :: h in r <==> h in DiscoveredHours(db, s, e, AllLines)
    ensures |DiscoveredHours(db, s, e, AllLines)| == 0 ==> r == DefaultHours
  {
    HoursOrDefault(DiscoveredHours(db, s, e, AllLines))
  }

  lemma DefaultHoursSorted()
    ensures StrictlySorted(DefaultHours, IntLess)
  {
    forall i, j | 0 <= i < j < |DefaultHours|
      ensures IntLess(DefaultHours[i], DefaultHours[j])
    {
      assert forall k :: 0 <= k < |DefaultHours| ==> DefaultHours[k] == 8 + k;
    }
  }

  /** The distinct hours found, ascending, or the standard hours when none were found. */
  function HoursOrDefault(found: seq<int>): (r: seq<int>)
    ensures StrictlySorted(r, IntLess)
    ensures |r| > 0
    ensures |found| > 0 ==> forall h :: h in r <==> h in found
    ensures |found| == 0 ==> r == DefaultHours
  {
    IntLessIsStrictTotalOrder();
    var u := SortUnique(found, IntLess);
    EmptyIffNoMembers(found);
    EmptyIffNoMembers(u);
    if |u| == 0 then
      DefaultHoursSorted();
      DefaultHours
    else u
  }

  /** A discovered hour is a clock hour. */
  lemma WorkingHoursAreClockHours(db: Db, s: Date, e: Date)
    requires ValidDb(db) && Valid(s) && Valid(e)
    ensures forall h :: h in WorkingHours(db, s, e) ==> 0 <= h < 24
  {
    var found := DiscoveredHours(db, s, e, AllLines);
    forall h | h in WorkingHours(db, s, e)
      ensures 0 <= h < 24
    {
      if |found| > 0 {
        var i :| 0 <= i < |found| && found[i] == h;
      }
    }
  }
}

=== FILE: text.dfy ===
/**
 String helpers with the semantics of the PHP, JavaScript and Python string
 functions the dashboard uses: ASCII case mapping, trimming, prefix and
 substring tests, PHP truthiness of strings, zero-padded numbers and byte-wise
 string comparison (PHP `strcmp`, used by `sort()` on non-numeric strings).
 Strings are sequences of characters, one character standing for one byte.
 */
module Text {
  import opened Sorting

  function UpperChar(c: char): char
  {
    if 'a' <= c <= 'z' then (c as int - 32) as char else c
  }

  function LowerChar(c: char): char
  {
    if 'A' <= c <= 'Z' then (c as int + 32) as char else c
  }

  /** PHP `strtoupper` / JavaScript `toUpperCase` on ASCII letters. */
  function Upper(s: string): (r: string)
    ensures |r| == |s|
    ensures forall i :: 0 <= i < |s| ==> r[i] == UpperChar(s[i])
  {
    seq(|s|, i requires 0 <= i < |s| => UpperChar(s[i]))
  }

  /** Python `str.lower` / PHP `strtolower` on ASCII letters. */
  function Lower(s: string): (r: string)
    ensures |r| == |s|
    ensures forall i :: 0 <= i < |s| ==> r[i] == LowerChar(s[i])
  {
    seq(|s|, i requires 0 <= i < |s| => LowerChar(s[i]))
  }

  lemma LowerIdempotent(s: string)
    ensures Lower(Lower(s)) == Lower(s)
  {
  }

  lemma LowerAppend(a: string, b: string)
    ensures Lower(a + b) == Lower(a) + Lower(b)
  {
  }

  /** The characters PHP's `trim()` removes by default. */
  predicate PhpSpace(c: char)
  {
    c == ' ' || c == '\t' || c == '\n' || c == '\r' || c == 0 as char || c == 11 as char
  }

  /** The ASCII characters Python's `str.strip()` removes. */
  predicate PySpace(c: char)
  {
    c == ' ' || c == '\t' || c == '\n' || c == '\r' || (11 <= c as int <= 12) || (28 <= c as int <= 31)
  }

  /** Number of leading characters of s satisfying ws. */
  function LeadingCount(s: string, ws: char -> bool): (n: nat)
    ensures n <= |s|
    ensures forall k :: 0 <= k < n ==> ws(s[k])
    ensures n < |s| ==> !ws(s[n])
  {
    if |s| == 0 || !ws(s[0]) then 0 else 1 + LeadingCount(s[1..], ws)
  }

  /** Number of trailing characters of s satisfying ws. */
  function TrailingCount(s: string, ws: char -> bool): (n: nat)
    ensures n <= |s|
    ensures forall k :: |s| - n <= k < |s| ==> ws(s[k])
    ensures n < |s| ==> !ws(s[|s| - 1 - n])
  {
    if |s| == 0 || !ws(s[|s| - 1]) then 0 else 1 + TrailingCount(s[..|s| - 1], ws)
  }

  /**
   Removes the longest prefix and suffix of characters satisfying ws: what is
   left is empty or starts and ends with a character outside ws.
   */
  function Strip(s: string, ws: char -> bool): (r: string)
    ensures |r| <= |s|
    ensures |r| > 0 ==> !ws(r[0]) && !ws(r[|r| - 1])
    ensures (forall k :: 0 <= k < |s| ==> !ws(s[k])) ==> r == s
    ensures |r| == 0 <==> forall k :: 0 <= k < |s| ==> ws(s[k])
    ensures exists a, b ::
              0 <= a <= b <= |s| && r == s[a..b] &&
              (forall k :: 0 <= k < a ==> ws(s[k])) && (forall k :: b <= k < |s| ==> ws(s[k]))
  {
    var a := LeadingCount(s, ws);
    var rest := s[a..];
    var b := TrailingCount(rest, ws);
    if a == |s| then
      assert s[|s|..|s|] == [];
      []
    else
      assert !ws(rest[0]);
      assert b < |rest|;
      assert rest[..|rest| - b] == s[a..|s| - b];
      assert forall k :: |s| - b <= k < |s| ==> s[k] == rest[k - a];
      rest[..|rest| - b]
  }

  /** PHP `trim()`. */
  function Trim(s: string): (r: string)
    ensures |r| <= |s|
    ensures |r| > 0 ==> !PhpSpace(r[0]) && !PhpSpace(r[|r| - 1])
    ensures exists a, b ::
              0 <= a <= b <= |s| && r == s[a..b] &&
              (forall k :: 0 <= k < a ==> PhpSpace(s[k])) && (forall k :: b <= k < |s| ==> PhpSpace(s[k]))
  {
    Strip(s, PhpSpace)
  }

  /** Python `str.strip()`. */
  function PyStrip(s: string): (r: string)
    ensures |r| <= |s|
    ensures |r| > 0 ==> !PySpace(r[0]) && !PySpace(r[|r| - 1])
    ensures exists a, b ::
              0 <= a <= b <= |s| && r == s[a..b] &&
              (forall k :: 0 <= k < a ==> PySpace(s[k])) && (forall k :: b <= k < |s| ==> PySpace(s[k]))
  {
    Strip(s, PySpace)
  }

  /** Stripping a text that starts and ends with a visible character changes nothing. */
  lemma PyStripUntouched(s: string)
    requires |s| > 0 && !PySpace(s[0]) && !PySpace(s[|s| - 1])
    ensures PyStrip(s) == s
  {
    assert LeadingCount(s, PySpace) == 0;
    assert s[0..] == s;
    assert TrailingCount(s, PySpace) == 0;
  }

  predicate StartsWith(s: string, prefix: string)
  {
    |prefix| <= |s| && s[..|prefix|] == prefix
  }

  /** PHP `stripos($s, $prefix) === 0`: a case-insensitive prefix test. */
  predicate StartsWithIgnoreCase(s: string, prefix: string)
  {
    StartsWith(Lower(s), Lower(prefix))
  }

  /** sub occurs in s at position i. */
  ghost predicate OccursAt(s: string, sub: string, i: int)
  {
    0 <= i && i + |sub| <= |s| && s[i..i + |sub|] == sub
  }

  /** Python `sub in s` / JavaScript `s.includes(sub)`: substring search. */
  function Contains(s: string, sub: string): bool
    decreases |s|
  {
    if |sub| > |s| then false
    else if s[..|sub|] == sub then true
    else Contains(s[1..], sub)
  }

  /** The search finds sub exactly when it occurs somewhere in s. */
  lemma {:induction false} ContainsIffOccurs(s: string, sub: string)
    ensures Contains(s, sub) <==> exists i :: OccursAt(s, sub, i)
    decreases |s|
  {
    if |sub| > |s| {
    } else if s[..|sub|] == sub {
      assert OccursAt(s, sub, 0);
    } else {
      ContainsIffOccurs(s[1..], sub);
      if Contains(s[1..], sub) {
        var j :| OccursAt(s[1..], sub, j);
        assert s[1..][j..j + |sub|] == s[j + 1..j + 1 + |sub|];
        assert OccursAt(s, sub, j + 1);
      } else {
        forall i | OccursAt(s, sub, i)
          ensures false
        {
          if i > 0 {
            assert s[1..][i - 1..i - 1 + |sub|] == s[i..i + |sub|];
            assert OccursAt(s[1..], sub, i - 1);
          }
        }
      }
    }
  }

  /** PHP truthiness of a string: both "" and "0" are falsy. */
  predicate Truthy(s: string)
  {
    s != "" && s != "0"
  }

  /** PHP `empty()` on a string value. */
  predicate Empty(s: string)
  {
    !Truthy(s)
  }

  predicate IsDigit(c: char)
  {
    '0' <= c <= '9'
  }

  function DigitChar(d: int): char
    requires 0 <= d < 10
  {
    ('0' as int + d) as char
  }

  /** 10^w. */
  function Pow10(w: nat): (r: nat)
    ensures r >= 1
  {
    if w == 0 then 1 else 10 * Pow10(w - 1)
  }

  /** The last w decimal digits of n, zero-padded: `sprintf('%0wd', n)` when n < 10^w. */
  function Digits(n: nat, w: nat): (r: string)
    ensures |r| == w
    ensures forall i :: 0 <= i < w ==> IsDigit(r[i])
  {
    if w == 0 then [] else Digits(n / 10, w - 1) + [DigitChar(n % 10)]
  }

  /** The value of a string of decimal digits (PHP's integer reading of it). */
  function ReadNum(s: string): int
  {
    if |s| == 0 then 0 else 10 * ReadNum(s[..|s| - 1]) + (s[|s| - 1] as int - '0' as int)
  }

  /** Reading back the padded digits of a number that fits gives the number. */
  lemma {:induction false} ReadDigits(n: nat, w: nat)
    requires n < Pow10(w)
    ensures ReadNum(Digits(n, w)) == n
  {
    if w > 0 {
      assert n / 10 < Pow10(w - 1);
      ReadDigits(n / 10, w - 1);
      assert Digits(n, w)[..w - 1] == Digits(n / 10, w - 1);
    }
  }

  /** Writing the digits a string consists of gives the string back. */
  lemma {:induction false} DigitsOfRead(s: string)
    requires forall i :: 0 <= i < |s| ==> IsDigit(s[i])
    ensures 0 <= ReadNum(s) < Pow10(|s|)
    ensures Digits(ReadNum(s), |s|) == s
    decreases |s|
  {
    if |s| > 0 {
      var init := s[..|s| - 1];
      DigitsOfRead(init);
      var n := ReadNum(s);
      var d := s[|s| - 1] as int - '0' as int;
      assert n / 10 == ReadNum(init) && n % 10 == d;
      assert DigitChar(d) == s[|s| - 1];
      assert s == init + [s[|s| - 1]];
    }
  }

  /** Decimal representation of a natural number, no leading zeros. */
  function NatToString(n: nat): (r: string)
    ensures |r| >= 1
    ensures forall i :: 0 <= i < |r| ==> IsDigit(r[i])
    decreases n
  {
    if n < 10 then [DigitChar(n)] else NatToString(n / 10) + [DigitChar(n % 10)]
  }

  /** `sprintf('%02d', n)`: at least two digits. */
  function Pad2(n: nat): (r: string)
    ensures n < 100 ==> |r| == 2 && ReadNum(r) == n
    ensures forall i :: 0 <= i < |r| ==> IsDigit(r[i])
  {
    if n < 100 then
      ReadDigits(n, 2);
      Digits(n, 2)
    else NatToString(n)
  }

  /** Byte-wise lexicographic order, as PHP `strcmp` and `sort()` compare non-numeric strings. */
  predicate StrLess(a: string, b: string)
    decreases |a|
  {
    if |a| == 0 then |b| > 0
    else if |b| == 0 then false
    else if a[0] != b[0] then a[0] < b[0]
    else StrLess(a[1..], b[1..])
  }

  lemma {:induction false} StrLessIrreflexive(a: string)
    ensures !StrLess(a, a)
    decreases |a|
  {
    if |a| > 0 {
      StrLessIrreflexive(a[1..]);
    }
  }

  lemma {:induction false} StrLessTransitive(a: string, b: string, c: string)
    requires StrLess(a, b) && StrLess(b, c)
    ensures StrLess(a, c)
    decreases |a|
  {
    if |a| > 0 && |b| > 0 && |c| > 0 && a[0] == b[0] && b[0] == c[0] {
      StrLessTransitive(a[1..], b[1..], c[1..]);
    }
  }

  lemma {:induction false} StrLessTotal(a: string, b: string)
    requires a != b
    ensures StrLess(a, b) || StrLess(b, a)
    decreases |a|
  {
    if |a| > 0 && |b| > 0 && a[0] == b[0] {
      assert a == [a[0]] + a[1..] && b == [b[0]] + b[1..];
      StrLessTotal(a[1..], b[1..]);
    }
  }

  lemma StrLessIsStrictTotalOrder()
    ensures StrictTotalOrder(StrLess)
  {
    forall a
      ensures !StrLess(a, a)
    {
      StrLessIrreflexive(a);
    }
    forall a, b, c | StrLess(a, b) && StrLess(b, c)
      ensures StrLess(a, c)
    {
      StrLessTransitive(a, b, c);
    }
    forall a, b | a != b
      ensures StrLess(a, b) || StrLess(b, a)
    {
      StrLessTotal(a, b);
    }
  }
}

=== FILE: util.dfy ===
/**
 Numeric helpers shared by every module: the Option/Result wrappers used in
 place of the source's exceptions and null results, sums over sequences, and
 the rounding rules of PHP's `round()` and JavaScript's `toFixed()` stated on
 exact rationals.
 */
module Util {

  datatype Option<+T> = None | Some(value: T)

  /** The failure value carries the message the source puts in its error payload. */
  datatype Result<+T> = Success(value: T) | Failure(message: string)

  function Sum(s: seq<int>): int
  {
    if |s| == 0 then 0 else Sum(s[..|s| - 1]) + s[|s| - 1]
  }

  function SumReal(s: seq<real>): real
  {
    if |s| == 0 then 0.0 else SumReal(s[..|s| - 1]) + s[|s| - 1]
  }

  lemma {:induction false} SumAppend(a: seq<int>, b: seq<int>)
    ensures Sum(a + b) == Sum(a) + Sum(b)
    decreases |b|
  {
    if |b| == 0 {
      assert a + b == a;
    } else {
      assert (a + b)[..|a + b| - 1] == a + b[..|b| - 1];
      SumAppend(a, b[..|b| - 1]);
    }
  }

  lemma {:induction false} SumRealAppend(a: seq<real>, b: seq<real>)
    ensures SumReal(a + b) == SumReal(a) + SumReal(b)
    decreases |b|
  {
    if |b| == 0 {
      assert a + b == a;
    } else {
      assert (a + b)[..|a + b| - 1] == a + b[..|b| - 1];
      SumRealAppend(a, b[..|b| - 1]);
    }
  }

  lemma {:induction false} SumNonNegative(s: seq<int>)
    requires forall i :: 0 <= i < |s| ==> s[i] >= 0
    ensures Sum(s) >= 0
    decreases |s|
  {
    if |s| > 0 {
      SumNonNegative(s[..|s| - 1]);
    }
  }

  /** A product of two non-negative numbers is non-negative. */
  lemma MulNonNegative(a: int, b: int)
    ensures a >= 0 && b >= 0 ==> a * b >= 0
  {
  }

  /** Multiplication distributes over addition (stated for the solver, which does not apply it unprompted). */
  lemma Distribute(w: real, a: real, b: real)
    ensures w * a + w * b == w * (a + b)
  {
  }

  function Max(a: int, b: int): int { if a >= b then a else b }

  function Min(a: int, b: int): int { if a <= b then a else b }

  lemma FloorUnique(x: real, q: int)
    requires q as real <= x < q as real + 1.0
    ensures x.Floor == q
  {
  }

  lemma FloorMonotone(x: real, y: real)
    requires x <= y
    ensures x.Floor <= y.Floor
  {
  }

  /**
   PHP `round($x)` with no precision: the nearest integer, halves rounded away
   from zero.
   */
  function RoundHalfAway(x: real): (r: int)
    ensures x >= 0.0 ==> r as real - 0.5 <= x < r as real + 0.5
    ensures x < 0.0 ==> r as real - 0.5 < x <= r as real + 0.5
    ensures x >= 0.0 ==> r >= 0
    ensures x < 0.0 ==> r <= 0
  {
    if x >= 0.0 then (x + 0.5).Floor else -((-x + 0.5).Floor)
  }

  lemma RoundHalfAwayMonotone(x: real, y: real)
    requires x <= y
    ensures RoundHalfAway(x) <= RoundHalfAway(y)
  {
    if x >= 0.0 {
      FloorMonotone(x + 0.5, y + 0.5);
    } else if y < 0.0 {
      FloorMonotone(-y + 0.5, -x + 0.5);
    }
  }

  /** Rounding an integer-valued real leaves it unchanged. */
  lemma RoundHalfAwayOfInt(n: int)
    ensures RoundHalfAway(n as real) == n
  {
    if n >= 0 {
      FloorUnique(n as real + 0.5, n);
    } else {
      FloorUnique(-(n as real) + 0.5, -n);
    }
  }

  /**
   r is x rounded to one decimal place, halves away from zero: a whole
   number of tenths, nearest to x, the upper one on a tie above zero and the
   lower one on a tie below.
   */
  predicate RoundsTo1(x: real, r: real)
  {
    (r * 10.0).Floor as real == r * 10.0 &&
    (x >= 0.0 ==> x - 0.05 < r <= x + 0.05) &&
    (x < 0.0 ==> x - 0.05 <= r < x + 0.05)
  }

  /** r is x rounded to two decimal places, halves away from zero. */
  predicate RoundsTo2(x: real, r: real)
  {
    (r * 100.0).Floor as real == r * 100.0 &&
    (x >= 0.0 ==> x - 0.005 < r <= x + 0.005) &&
    (x < 0.0 ==> x - 0.005 <= r < x + 0.005)
  }

  /**
   PHP `round($x, 1)` (and, for non-negative values, JavaScript's
   `toFixed(1)` read back as a number), on exact rationals.
   */
  function RoundTo1(x: real): (r: real)
    ensures RoundsTo1(x, r)
    ensures x >= 0.0 ==> r >= 0.0
    ensures x - 0.05 <= r <= x + 0.05
  {
    var n := RoundHalfAway(x * 10.0);
    assert (n as real / 10.0) * 10.0 == n as real;
    n as real / 10.0
  }

  /** PHP `round($x, 2)` and, for non-negative values, JavaScript `toFixed(2)`, on exact rationals. */
  function RoundTo2(x: real): (r: real)
    ensures RoundsTo2(x, r)
    ensures x >= 0.0 ==> r >= 0.0
    ensures x - 0.005 <= r <= x + 0.005
  {
    var n := RoundHalfAway(x * 100.0);
    assert (n as real / 100.0) * 100.0 == n as real;
    n as real / 100.0
  }

  /** Only one value is x rounded to one place: RoundTo1 is fixed by RoundsTo1. */
  lemma RoundTo1Unique(x: real, q: real)
    ensures RoundsTo1(x, q) <==> q == RoundTo1(x)
  {
    if RoundsTo1(x, q) {
      var m := (q * 10.0).Floor;
      if x >= 0.0 {
        FloorUnique(x * 10.0 + 0.5, m);
      } else {
        FloorUnique(-x * 10.0 + 0.5, -m);
      }
    }
  }

  /** Only one value is x rounded to two places: RoundTo2 is fixed by RoundsTo2. */
  lemma RoundTo2Unique(x: real, q: real)
    ensures RoundsTo2(x, q) <==> q == RoundTo2(x)
  {
    if RoundsTo2(x, q) {
      var m := (q * 100.0).Floor;
      if x >= 0.0 {
        FloorUnique(x * 100.0 + 0.5, m);
      } else {
        FloorUnique(-x * 100.0 + 0.5, -m);
      }
    }
  }

  lemma RoundTo1Monotone(x: real, y: real)
    requires x <= y
    ensures RoundTo1(x) <= RoundTo1(y)
  {
    RoundHalfAwayMonotone(x * 10.0, y * 10.0);
  }

  lemma RoundTo2Monotone(x: real, y: real)
    requires x <= y
    ensures RoundTo2(x) <= RoundTo2(y)
  {
    RoundHalfAwayMonotone(x * 100.0, y * 100.0);
  }

  lemma RoundTo1OfInt(n: int)
    ensures RoundTo1(n as real) == n as real
  {
    RoundHalfAwayOfInt(n * 10);
  }

  lemma RoundTo2OfInt(n: int)
    ensures RoundTo2(n as real) == n as real
  {
    RoundHalfAwayOfInt(n * 100);
  }

  /**
   `round($rate * $minutes / 60)` as the source computes it: a float division
   then PHP's half-away-from-zero rounding.
   */
  function RoundOverSixty(n: int): (r: int)
    ensures n >= 0 ==> r >= 0
  {
    RoundHalfAway(n as real / 60.0)
  }

  /**
   For a non-negative numerator the source's float rounding equals pure
   integer arithmetic: round(n / 60) == (n + 30) / 60.
   */
  lemma RoundOverSixtyInteger(n: int)
    requires n >= 0
    ensures RoundOverSixty(n) == (n + 30) / 60
  {
    var q := (n + 30) / 60;
    var r := (n + 30) % 60;
    assert n + 30 == 60 * q + r && 0 <= r < 60;
    assert n as real / 60.0 + 0.5 == q as real + r as real / 60.0;
    FloorUnique(n as real / 60.0 + 0.5, q);
  }
}
